=== FILE: README.md ===
# Aerospike PHP extension: client-side decision logic

The Aerospike PHP extension wraps the Aerospike C client in a PHP class,
`Aerospike`. Before it calls the C client, it does the following:

- checks and converts loosely typed PHP arguments: keys, records, bin names,
  option arrays and operation descriptors;
- converts PHP values to Aerospike values and back;
- validates query predicates;
- parses a few strings and paths, such as the session save path, node
  addresses and the UDF copy path;
- keeps a registry of persistent connections.

The server's own list and map semantics are not in the extension. This project
models the extension's own logic, and states and proves what each step accepts,
refuses (with which status) and builds.

Conventions used throughout:

- **PHP values** are `Php.PVal`. An array is an ordered sequence of key/value
  pairs. Keys go through PHP's symbol-table rule: a string that is the canonical
  decimal text of a 64-bit integer is filed as that integer (`Php.SymKey`).
- **Aerospike values** are `AsValues.AsVal`: integers, strings, doubles (as reals,
  so NaN and the infinities are not represented),
  lists, maps, typed byte blobs and GeoJSON. Records are ordered bin lists.
- **C strings.** Every `strdup`, `strlen`, `strchr` or `ZVAL_STRING` sees only
  the text before the first NUL byte. The model writes this as `Strings.CStr`.
- **Statuses** are `Errors.Status`. Where a C function returns one status but
  records another in its `as_error`, the model returns both. Callers differ in
  which one they look at.
- **Foreign calls are parameters.** These include every call into the C client
  (`aerospike_key_*`, `aerospike_info_*`, `aerospike_udf_*`, `aerospike_connect`,
  `as_config_add_hosts`, `as_config_set_user`) and the PHP runtime's
  `serialize`/`unserialize`, user serializers, `json_encode` and numeric-string
  parsing. Each is a function-typed argument, or a field of
  `Php.Runtime`, that hands back the status and data the real call
  would.
- **C integer casts** are written out. `Policies.U32` wraps modulo 2^32, both
  for the explicit `(uint32_t)` casts and for the implicit conversions into
  `uint32_t` fields (timeouts, retries, the shared-memory sizes, thread and
  compression settings), whose result C defines the same way. `Policies.I32`
  reduces into [-2^31, 2^31) for assignments into `int` fields: `shm_key`, the
  serializer type and the operation code. That result is implementation-defined
  in C; the model takes the two's-complement reduction every supported compiler
  uses. `Policies.U64` wraps modulo 2^64 for the `(uint64_t)` counts of the
  list range operations, both in the list methods and in `operate`.
- **Constants the repository takes from the C client** are used with the C
  client's values:
  - `AS_NAMESPACE_MAX_SIZE` 32, `AS_SET_MAX_SIZE` 64, digest size 20,
    `AS_BIN_NAME_MAX_LEN` 14, `AS_HOSTNAME_SIZE` 256, `AS_CONFIG_PATH_MAX_SIZE` 256;
  - the byte types `AS_BYTES_BLOB` 4 and `AS_BYTES_PHP` 11;
  - `AS_POLICY_KEY_SEND` 1;
  - the map order, write mode and write-flag values;
  - the secondary-index types;
  - the single-bin operator codes: READ 1, WRITE 2, INCR 5, APPEND 9, PREPEND 10,
    TOUCH 11, DELETE 14.

The modules follow the source:

| module | source |
|---|---|
| `Types` | op-code, serializer and option enumerations (src/include/php_aerospike_types.h) |
| `Php`, `Strings`, `Errors` | PHP arrays, C strings and statuses shared by everything else |
| `AsValues` | the C client's values, maps, records and keys |
| `ValueConversions` | `zval_to_as_val`, `as_val_to_zval` and the list/map walks (src/conversions.c) |
| `RecordConversions` | keys, records, bins and operate results (src/conversions.c) |
| `Policies` | every `zval_to_as_policy_*`, map policies, generation, TTL, serializer and scan options (src/policy_conversions.c) |
| `Operate` | `operate`/`operateOrdered` and the per-op classifiers (src/client/operate.c) |
| `Query`, `Predicates` | the predicate validator and dispatcher, and the predicate builders (src/client/query.c, src/client/predicate.c) |
| `Commands` | `truncate`, `put`, `get`, `getMany`, `existsMany` |
| `ListOperations` | the `list*` methods (src/client/list_operations.c) |
| `Client` | `initKey` and the constructor's config and options arrays (src/client/aerospike_class.c) |
| `Session` | the session save handler (src/client/aerospike_session.c) |
| `Persistent` | the persistent-connection registry (src/persistent_list.c) |
| `Info`, `Nodes`, `Udf` | `info`/`infoMany`, `getNodes`, `register`/`listRegistered` |

Where an operation's source is wrong in a way its authors evidently did not
intend, the model has two versions:

- an `...AsWritten` member that follows the code;
- a corrected member with the intended property proved.

The rest of the model uses the corrected version. "## Findings" lists these
pairs.

## Model

Helpers without a row of their own, such as `Persistent.SearchString` and
`Info.ValidHostsList`, are stated through the contracts of the members whose
rows use them.

| member | source | states |
|---|---|---|
| Nodes.NodeEntry | src/client/get_nodes.c:64-73 | an address yields an entry exactly when it holds a ':'; the entry has two fields, "addr" the text before the last ':' and "port" the text after it |
| Nodes.NodeEntries | src/client/get_nodes.c:60-76 | entry i is that of address i, in node order, and the entries stop at the first address without a ':', those made before it being kept |
| Nodes.GetNodes | src/client/get_nodes.c:42-58 | a failed object check is returned as is, a client without a cluster is ERR_CLUSTER, and otherwise the result is the list of node entries |
| Nodes.SplitAtLastColon | src/client/get_nodes.c:64-73 | "host:port" with a port free of ':' splits back into that host and port, even when the host holds colons, as an IPv6 address does |
| Nodes.AllNodesListed | src/client/get_nodes.c:60-76 | when every address is "host:port", every node is listed, in order, with its own host and port |
| Types.DecodeListOp | src/include/php_aerospike_types.h:68-83 | a code names a list operation exactly when it lies in the 14 consecutive codes from OP_LIST_APPEND = 1001 |
| Types.ListOpCodesConsecutive | src/include/php_aerospike_types.h:68-83 | each list operation's code is 1001 plus its position in declaration order, and decodes back to it |
| Types.DecodeListOpInverse | src/include/php_aerospike_types.h:68-83 | every code that decodes to a list operation is that operation's code |
| Types.DecodeMapOp | src/include/php_aerospike_types.h:85-111 | a code names a map operation exactly when it lies in the 25 consecutive codes from OP_MAP_SET_POLICY = 1101 |
| Types.MapOpCodesConsecutive | src/include/php_aerospike_types.h:85-111 | each map operation's code is 1101 plus its position in declaration order, and decodes back to it |
| Types.DecodeMapOpInverse | src/include/php_aerospike_types.h:85-111 | every code that decodes to a map operation is that operation's code |
| Types.OpCodeRangesDisjoint | src/include/php_aerospike_types.h:68-111 | no code is both a list and a map operation, and no single-bin operator code is either |
| Php.SymKey | src/conversions.c:93-98 | a string key is filed as an integer exactly when it is the canonical decimal text of a 64-bit integer, which it then spells; any other string stays itself |
| Php.SymKeyOfDecimal | src/conversions.c:93-98 | the decimal text of an integer and the integer address the same slot of a PHP array |
| Php.Update | src/conversions.c:93-98 | an update overwrites an existing key in place and appends a new one; every other key keeps its value |
| Php.Find | src/conversions.c:787-804 | a lookup finds a value exactly when the key is present, and the value is one stored under it |
| AsValues.SetSlot | src/conversions.c:481 | setting a key appends a pair when the key is new and otherwise overwrites the key's first slot, leaving the key set as it was; every pair under another key keeps its position, and the new pair is present |
| AsValues.MapSet | src/conversions.c:481 | `as_map_set` appends a pair for a new key, and for an existing key overwrites its first slot and keeps the key set; every pair under another key keeps its position; the pair is in the map afterwards |
| AsValues.RecordSet | src/conversions.c:638-698 | `as_record_set_*` copies the bin name as a C string, overwrites a bin of that name in place or appends one; afterwards the name reads back the new value and every other name reads back what it did before; every other bin keeps its position |
| AsValues.SetSlotBinValue | src/conversions.c:638-698 | after a bin is set its name reads back the new value, and every other name reads back what it did before |
| AsValues.BinValue | src/client/list_operations.c:417 | `as_record_get` finds no value exactly when no bin has that name, and otherwise the value of the first bin of that name |
| AsValues.KeyInit | src/conversions.c:832-851 | key initialisation succeeds exactly when namespace and set fit their fixed buffers, and copies them as C strings |
| Php.HashtableIsList | src/conversions.c:878-897 | the walk answers true exactly when the keys are the integers 0 .. n-1 in iteration order |
| ValueConversions.ConvertObject | src/conversions.c:352-421 | an `Aerospike\Bytes` object converts exactly when its `s` property is a string, and becomes a BLOB of that string; an object of neither class goes to the serializer; every failure is ERR_PARAM |
| ValueConversions.ObjectToAsValAsWritten | src/conversions.c:359-361 | with the `strncmp(…, strlen(class_name))` test, any class whose name is a prefix of `Aerospike\Bytes` is stored as a BLOB |
| ValueConversions.ObjectToAsVal | src/conversions.c:352-421 | with the exact class test, a BLOB comes only from a genuine `Aerospike\Bytes` object or from the user serializer; other classes are serialized |
| ValueConversions.PrefixClassTakenForBytes | src/conversions.c:361 | an object of class `Aero` is written as a BLOB and reads back as a different value, an `Aerospike\Bytes` object; the exact test serializes it instead |
| ValueConversions.Serialize | src/conversions.c:1256-1301 | PHP serialization yields PHP-typed bytes, a user serializer a BLOB; SERIALIZER_NONE fails; every failure is ERR_PARAM |
| ValueConversions.ToAsVal | src/conversions.c:304-430 | an integer becomes an `as_integer`, a string an `as_string` of its C string, a double an `as_double`; a list-shaped array converts exactly when every element does, into a list of the converted elements in order; any other array becomes a map; an object goes through the object conversion and any other type to the serializer; every failure is ERR_PARAM |
| ValueConversions.ToAsItems | src/conversions.c:930-940 | the element loop succeeds exactly when every element converts, and then holds each converted element at its position |
| ValueConversions.ToAsEntries | src/conversions.c:460-481 | a failed value in the map loop is reported as ERR_PARAM |
| ValueConversions.ToAsEntriesSucceeds | src/conversions.c:460-481 | the map loop succeeds exactly when every value from the current position on converts; keys never fail |
| ValueConversions.ToAsEntriesKeys | src/conversions.c:460-481 | every key of the array from the current position on, and every key already in the map, is a key of the finished map |
| ValueConversions.MapSetKeys | src/conversions.c:481 | after `as_map_set` the set key and every key already present are keys of the map |
| ValueConversions.MapConverts | src/conversions.c:343-349 | an array that is not list-shaped converts exactly when every value converts, and then becomes a map holding the converted key of every element |
| ValueConversions.ToAsListAsWritten | src/conversions.c:913-948 | `z_hashtable_to_as_list` returns OK whatever happens; the list is NULL exactly when ERR_PARAM was recorded |
| ValueConversions.ToAsList | src/conversions.c:913-948 | the corrected conversion fails exactly when the as-written one drops the list, with the recorded status; a list has one item per element |
| ValueConversions.ListConversionFailureReportedOk | src/conversions.c:947 | a list holding a boolean under SERIALIZER_NONE: the as-written conversion returns OK with no list, the corrected one returns ERR_PARAM |
| ValueConversions.Unserialize | src/conversions.c:1315-1344 | a BLOB becomes an `Aerospike\Bytes` object when no user deserializer is registered; bytes of another type than BLOB or PHP fail with ERR_CLIENT |
| ValueConversions.ToZval | src/conversions.c:549-617 | every failure of `as_val_to_zval` is ERR_CLIENT |
| ValueConversions.ToZvalItems | src/conversions.c:250-288 | a list converts exactly when every item converts, item by item in order |
| ValueConversions.ZvalKey | src/conversions.c:75-80 | a map key that does not convert to a string or an integer is refused with ERR_CLIENT |
| ValueConversions.ToZvalEntries | src/conversions.c:68-131 | every failure of the map walk is ERR_CLIENT |
| ValueConversions.ToZvalEntriesSucceeds | src/conversions.c:68-131 | the map walk succeeds exactly when every entry's key and value convert |
| ValueConversions.CompoundMapKeyRejected | src/conversions.c:75-80 | a map with a double, list, map or unsupported key anywhere cannot be returned to PHP |
| ValueConversions.KeyRoundTrip | src/conversions.c:463-469 | a native hash-table key written by the map conversion is filed under the same key when read back |
| ValueConversions.ToAsEntriesAppends | src/conversions.c:460-481 | with distinct native keys `as_map_set` never meets a key twice, so the map lists the array's entries in order |
| ValueConversions.ToZvalEntriesRestores | src/conversions.c:68-103 | reading back the map written for a native array rebuilds the array entry by entry |
| ValueConversions.RoundTrip | src/conversions.c:304-430 | writing a native PHP value and reading it back yields the same value, whatever serializer is set, when no user deserializer is registered |
| ValueConversions.RoundTripList | src/conversions.c:336-342 | a list whose elements round-trip round-trips |
| ValueConversions.RoundTripMap | src/conversions.c:343-349 | a map-shaped array whose values round-trip round-trips |
| ValueConversions.RestoreMap | src/conversions.c:115-131 | reading back the converted entries of a native array gives the array |
| ValueConversions.MapConversion | src/conversions.c:447-493 | an array with distinct native keys and convertible values becomes the map of its converted entries, in array order |
| RecordConversions.KeyDecision | src/conversions.c:778-859 | a key is produced exactly when OK is returned, and a returned OK is also the recorded status |
| RecordConversions.KeyFromArrayAsWritten | src/conversions.c:852-857 | whenever the conversion returns ERR_CLIENT it has recorded OK |
| RecordConversions.KeyFromArray | src/conversions.c:778-859 | a missing or non-string "ns" or "set", or neither "key" nor a string "digest", is ERR_PARAM; a key of another type fails; an accepted key carries ns and set as C strings and the user key, or else the 20-byte digest |
| RecordConversions.UnsupportedKeyTypeUnrecorded | src/conversions.c:852-853 | a key array whose "key" is a double: the as-written conversion returns ERR_CLIENT with OK recorded; the corrected one fails with ERR_CLIENT |
| RecordConversions.PrimaryKeyAccepted | src/conversions.c:801-850 | a string or integer "key" with a namespace and set that fit is accepted as that user key, and "key" wins over "digest" |
| RecordConversions.DigestAccepted | src/conversions.c:803-834 | without "key", a 20-byte "digest" string is accepted as a digest key |
| RecordConversions.RecordFromEntries | src/conversions.c:517-532 | the bin loop succeeds exactly when every entry has a string name of at most 14 characters and a convertible value; ERR_BIN_NAME only for a name that is too long; every name ends up in the record, the last entry of each name gives its bin the converted value, and names no entry gives keep the value they had |
| RecordConversions.RecordFromArray | src/conversions.c:511-539 | a bins array becomes a record exactly when every entry is acceptable, and then every bin name is in the record, each bin holds the converted value of the last entry of its name, and no other name has a bin |
| RecordConversions.LongBinNameRejected | src/conversions.c:520-522 | a fifteen-character bin name is refused with ERR_BIN_NAME |
| RecordConversions.BinsToZval | src/conversions.c:197-239 | the bins convert exactly when every value converts; failures are ERR_CLIENT; the array has distinct keys |
| RecordConversions.BinsToZvalKeys | src/conversions.c:221 | the array holds a key exactly when some bin's name is filed under it |
| RecordConversions.LastBinWins | src/conversions.c:221 | the value under a bin's name is that of the last bin with that name |
| RecordConversions.Metadata | src/conversions.c:713-723 | the metadata array holds exactly "ttl" and "generation" with the record's values |
| RecordConversions.KeyToZval | src/conversions.c:1171-1240 | a key with an empty namespace is refused with ERR_CLIENT; otherwise the array holds ns, set, the user key only when one exists and `show_pk` is set (null otherwise), and the digest exactly when it was set |
| RecordConversions.RecordToZval | src/conversions.c:143-194 | the record converts exactly when its bins and key convert; "bins", "metadata" and "key" hold their conversions, the key being the one read under when given |
| RecordConversions.OperateRecordToZval | src/conversions.c:739-774 | one [name, value] pair per bin in record order, several per name kept; failures are ERR_CLIENT |
| RecordConversions.OperatePairs | src/conversions.c:751-765 | the pair loop succeeds exactly when every bin value converts, and yields the pairs in order |
| RecordConversions.KeyRoundTrip | src/conversions.c:1171-1240 | a key returned with `show_pk` set converts back to the same key |
| RecordConversions.HiddenPrimaryKeyNotReusable | src/conversions.c:1231-1233 | a key array returned without the primary key holds "key" => null and handing it back fails, even with a digest present |
| Policies.Wrap | src/policy_conversions.c:937 | the `(uint32_t)` cast of a PHP integer lands in [0, 2^32) and leaves values already in range unchanged |
| Policies.I32 | src/client/aerospike_class.c:634 | assigning a PHP integer to an `int` field lands in [-2^31, 2^31), keeps values already in range, and differs from the integer by a multiple of 2^32 |
| Policies.TtlSentinelsWrap | src/policy_conversions.c:669 | the TTL sentinels -1 and -2 reach the C client as 0xFFFFFFFF and 0xFFFFFFFE |
| Policies.SetU32 | src/policy_conversions.c:933-939 | an integer entry is cast to 32 bits; a missing or mistyped entry leaves the field alone |
| Policies.SetEnum | src/policy_conversions.c:965-971 | an integer entry is stored; anything else is ignored |
| Policies.SetBool | src/policy_conversions.c:949-955 | only a boolean entry changes the field |
| Policies.BaseFromHash | src/policy_conversions.c:924-931 | only the four base fields change, the total timeout by the 32-bit setter |
| Policies.ReadFromHash | src/policy_conversions.c:800-814 | only the base fields, the two read modes, `deserialize`, the key policy and the replica change; an integer OPT_POLICY_KEY becomes the key policy, anything else leaves it; an empty array changes nothing |
| Policies.WriteFromHash | src/policy_conversions.c:816-831 | only the base fields, the compression threshold, the exists policy, the commit level, `durable_delete`, the key policy and the replica change; only a boolean OPT_POLICY_DURABLE_DELETE sets `durable_delete`; an empty array changes nothing |
| Policies.RemoveFromHash | src/policy_conversions.c:833-846 | only the base fields, the commit level, `durable_delete`, the key policy and the replica change; the generation fields are left alone; an empty array changes nothing |
| Policies.BatchFromHash | src/policy_conversions.c:848-864 | only the base fields, `concurrent`, `allow_inline`, `send_set_name`, the read modes and `deserialize` change; only a boolean "deserialize" entry sets it; an empty array changes nothing |
| Policies.OperateFromHash | src/policy_conversions.c:866-883 | only the base fields, the read modes, `deserialize`, the exists policy, the commit level, `durable_delete`, the key policy and the replica change; an empty array changes nothing |
| Policies.QueryFromHash | src/policy_conversions.c:885-894 | only the base fields and `deserialize` change; an empty array changes nothing |
| Policies.ScanFromHash | src/policy_conversions.c:896-907 | only the base fields, `durable_delete`, `fail_on_cluster_change` and the records-per-second limit change, the limit by the 32-bit setter; an empty array changes nothing |
| Policies.ReadPolicy | src/policy_conversions.c:33-61 | no argument gives the defaults; a non-array is ERR_PARAM; OPT_TOTAL_TIMEOUT overrides OPT_READ_TIMEOUT for the total timeout; the write-only fields stay at the defaults |
| Policies.WritePolicy | src/policy_conversions.c:136-180 | no argument gives the defaults; a non-array is ERR_PARAM; the generation policy comes from an integer element 0 of OPT_POLICY_GEN; the total timeout is the narrowed OPT_TOTAL_TIMEOUT, else the narrowed OPT_WRITE_TIMEOUT, else the default |
| Policies.RemovePolicy | src/policy_conversions.c:74-123 | it fails, with ERR_PARAM, exactly for a non-array or a two-element OPT_POLICY_GEN whose element 1 is not an integer; such an array's element 1 becomes the 16-bit expected generation; the total timeout is the narrowed OPT_TOTAL_TIMEOUT, else the narrowed OPT_WRITE_TIMEOUT, else the default |
| Policies.OperateFrom | src/policy_conversions.c:204-241 | no argument keeps the starting policy; only a non-array fails, with ERR_PARAM; an array's integer generation element 0 sets the generation policy, and the total timeout is the narrowed OPT_TOTAL_TIMEOUT, else the narrowed OPT_WRITE_TIMEOUT, else the starting one |
| Policies.OperatePolicyAsWritten | src/policy_conversions.c:199-201 | with source and destination of the copy swapped, the client default is overwritten with the library's initial values, and the policy is the one the corrected conversion builds from those initial values instead of from the default: the initial values themselves without an argument, ERR_PARAM for a non-array |
| Policies.OperatePolicy | src/policy_conversions.c:196-242 | the corrected conversion starts from the client default and leaves it unchanged: it succeeds exactly without an argument or with an array; no argument gives the default, a non-array is ERR_PARAM; an array's integer generation element 0 sets the generation policy, and the total timeout is the narrowed OPT_TOTAL_TIMEOUT, else the narrowed OPT_WRITE_TIMEOUT, else the default |
| Policies.OperateDefaultIgnored | src/policy_conversions.c:201 | with no argument and a configured default that differs from the initial values, the as-written conversion neither uses nor keeps the default; the corrected one uses it |
| Policies.InfoPolicy | src/policy_conversions.c:244-272 | only the timeout changes; OPT_READ_TIMEOUT wins over OPT_WRITE_TIMEOUT |
| Policies.ApplyPolicy | src/policy_conversions.c:274-299 | no argument gives the defaults; only a non-array fails; the total timeout is the narrowed OPT_TOTAL_TIMEOUT, else the narrowed OPT_WRITE_TIMEOUT, else the default |
| Policies.StrictU32 | src/policy_conversions.c:328-346 | a present timeout must be an integer, else ERR_PARAM; otherwise it is taken |
| Policies.ScanPolicy | src/policy_conversions.c:301-362 | it fails exactly when the timeout it reads (read, else write) or the RPS limit is present and not an integer; the total timeout comes from OPT_TOTAL_TIMEOUT, else the read, else the write timeout |
| Policies.QueryPolicy | src/policy_conversions.c:364-400 | it succeeds exactly when there is no argument, or an array whose OPT_READ_TIMEOUT is an integer if present; the total timeout is the narrowed OPT_TOTAL_TIMEOUT, else the narrowed OPT_READ_TIMEOUT, else the default |
| Policies.BatchPolicy | src/policy_conversions.c:429-463 | it succeeds exactly when there is no argument, or an array whose OPT_READ_TIMEOUT is an integer if present; the total timeout is the narrowed OPT_TOTAL_TIMEOUT, else the narrowed OPT_READ_TIMEOUT, else the default |
| Policies.AdminPolicy | src/policy_conversions.c:465-496 | only OPT_WRITE_TIMEOUT is read; it must be an integer if present, and then its narrowed value is the total timeout; OPT_TOTAL_TIMEOUT is ignored and nothing else changes |
| Policies.WrongTypesIgnored | src/policy_conversions.c:800-931 | an array with no integer, boolean or array entry yields exactly the defaults for read, write, remove, apply, info and operate policies |
| Policies.WriteFlagsAccepted | src/policy_conversions.c:766-772 | the accepted write flags are exactly 0, 1, 2, 4, 5, 6, 8, 9, 10, 12, 13, 14 |
| Policies.MapPolicyOf | src/policy_conversions.c:727-798 | it succeeds exactly when every present order, flags and mode entry is an integer of an accepted value; flags take precedence over a mode |
| Policies.FlagsOverrideWriteMode | src/policy_conversions.c:792-795 | with valid flags a valid write mode is ignored, but an invalid one is still refused |
| Policies.OperationsTtl | src/policy_conversions.c:649-672 | no argument keeps the TTL; it fails exactly for a non-array or a non-integer OPT_TTL; an integer is cast to 32 bits |
| Policies.GenerationFromArray | src/policy_conversions.c:620-640 | a present OPT_POLICY_GEN must be an array; only a two-element one changes the generation, to its integer element 1 cast to 16 bits |
| Policies.OperationsGeneration | src/policy_conversions.c:611-643 | no argument keeps the generation; a non-array is ERR_PARAM |
| Policies.RecordGeneration | src/policy_conversions.c:581-609 | a missing or non-array policy leaves the generation alone |
| Policies.GenerationNeedsTwoElements | src/policy_conversions.c:596-598 | a generation array of any other size than two is accepted and ignored |
| Policies.SerializerFromPolicy | src/policy_conversions.c:674-698 | no argument or no entry gives the ini setting; a non-array or non-integer entry is ERR_PARAM |
| Policies.ScanOptionsFromPolicy | src/policy_conversions.c:498-566 | it succeeds exactly when priority and percentage are integers and concurrently and nobins are booleans where present; the percentage is cast to 8 bits; only `true` sets the flags |
| Policies.QueryNoBins | src/policy_conversions.c:402-427 | OPT_QUERY_NOBINS must be a boolean when present, else ERR_PARAM; an accepted boolean is stored in `no_bins` as its value, which the C reads through `Z_LVAL_P` (see "## Left out") |
| Operate.OpType | src/client/operate.c:351 | the operation code read into a C `int` is the PHP integer reduced into the signed 32-bit range, unchanged when it already fits |
| Operate.CountField | src/client/operate.c:1130-1151 | a count is accepted exactly when it is a present non-negative integer, and is then that integer; otherwise ERR_PARAM |
| Operate.IntField | src/client/operate.c:1153-1170 | index, rank and return type are accepted exactly when present as integers, of any value; otherwise ERR_PARAM |
| Operate.ValueField | src/client/operate.c:1194-1245 | a key, value or range end is accepted exactly when present and convertible, and is its conversion; otherwise ERR_PARAM |
| Operate.MapPolicyField | src/client/operate.c:1247-1264 | a missing map policy is ERR_PARAM; a present one is whatever the map-policy conversion makes of it |
| Operate.Required | src/client/operate.c:663-709 | a field the operation does not need is never read and never fails; a needed one fails with the field's own error |
| Operate.MapScalars | src/client/operate.c:663-686 | count, index, rank and return type are accepted exactly when each required one is acceptable, and are read only when required |
| Operate.MapValues | src/client/operate.c:687-710 | map policy, key, range end and value are accepted exactly when each required one is present and converts, and the scalar fields are kept |
| Operate.AddMapOp | src/client/operate.c:652-948 | a map operation is added exactly when every field it requires is acceptable and PUT_ITEMS, REMOVE_BY_KEY_LIST and REMOVE_BY_VALUE_LIST get a map or list; every refusal is ERR_PARAM, whatever the bin holds |
| Operate.BinName | src/client/operate.c:367-380 | an operation that needs a bin is refused with ERR_PARAM unless "bin" is a string of at most 14 bytes before its first NUL; DELETE needs none |
| Operate.IndexOf | src/client/operate.c:384-392 | a list operation that takes an index is refused unless "index" is an integer; the others never fail here |
| Operate.CheckedVal | src/client/operate.c:401-427 | "val" must be present when required, an array for MERGE and INSERT_ITEMS, an integer for the ranged list operations, and convertible where an `as_val` is taken |
| Operate.IncrOp | src/client/operate.c:447-483 | INCR accepts an integer, a double or a numeric string, each added with its numeric value; anything else is ERR_PARAM |
| Operate.ListItemsAsWritten | src/client/operate.c:522-563 | a map-shaped item array returns ERR_CLIENT with ERR_PARAM recorded; an item that does not convert still lets the operation be added with a NULL list and OK returned |
| Operate.ListItems | src/client/operate.c:522-563 | the corrected item check refuses a map-shaped array and an unconvertible item with ERR_PARAM, and otherwise yields one converted item per element |
| Operate.MergeOfUnconvertibleItemsAdded | src/client/operate.c:530-537 | a merge of `[true]` without a serializer is added with a NULL list and reported OK as written, and refused when corrected |
| Operate.ListOperationOf | src/client/operate.c:515-631 | a checked list operation carries its bin, its index exactly when it takes one, its value, its items, or its count reduced modulo 2^64 as the `uint64_t` parameter receives it |
| Operate.SingleBinOp | src/client/operate.c:431-513 | WRITE adds a write of the converted value, READ a read and DELETE a delete; INCR adds what the increment check makes of the value; APPEND and PREPEND are added exactly for a string value, cut at its first NUL; each under its own code and bin |
| Operate.NonMapOp | src/client/operate.c:401-645 | an operation that is not a map operation is added under its own code and bin, or refused with ERR_PARAM when its code is unknown or a required "val" is missing; WRITE succeeds exactly when "val" converts and writes that value; READ and DELETE always succeed; APPEND and PREPEND succeed exactly for a string; a list operation carries its list operation, its bin and, where it takes an `as_val`, the converted "val" |
| Operate.ValRequirementsNeedVal | src/client/operate.c:954-1012 | every code whose "val" shape is checked also requires "val" |
| Operate.OpFor | src/client/operate.c:366-645 | past TOUCH, a missing or over-long bin is ERR_PARAM, then a non-integer index where one is needed, then an unknown code or a missing required "val"; an accepted operation carries the code and the bin cut at its first NUL; WRITE is accepted exactly with a valid bin and a convertible "val" and writes it, READ exactly with a valid bin, DELETE always; INCR, APPEND and PREPEND carry the value as their own checks make it |
| Operate.MapOpFor | src/client/operate.c:366-396 | a map operation with a missing or over-long bin is ERR_PARAM; an accepted one carries its code and the bin cut at its first NUL |
| Operate.NonMapOpFor | src/client/operate.c:366-645 | an operation that is neither a map operation nor TOUCH fails with ERR_PARAM for a bad bin, then a non-integer required index, then an unknown code or a missing required "val"; an accepted one carries its code and bin |
| Operate.NonMapOpForIs | src/client/operate.c:366-400 | for an operation with a bin and no index, the checks before the switch reduce to the single-operation builder applied to the bin cut at its first NUL |
| Operate.WriteOpFor | src/client/operate.c:432-439 | WRITE is accepted exactly when the bin is valid and "val" converts, and writes the converted value to that bin |
| Operate.ReadOpFor | src/client/operate.c:440-446 | READ is accepted exactly when the bin is valid, and reads that bin |
| Operate.IncrOpFor | src/client/operate.c:447-484 | INCR with a valid bin and a "val" is exactly the increment check applied to that value |
| Operate.ConcatOpFor | src/client/operate.c:485-506 | APPEND and PREPEND with a valid bin and a "val" are accepted exactly for a string, and add it cut at its first NUL |
| Operate.AddOp | src/client/operate.c:331-648 | a missing or non-integer "op" is ERR_PARAM; TOUCH with no "ttl" adds nothing, with an integer one sets the 32-bit TTL and adds a touch; any other accepted operation appends exactly one operation of its code on its bin |
| Operate.AddOpAppendsOpFor | src/client/operate.c:331-648 | past TOUCH, an operation array is accepted exactly when its operation is, and then exactly that operation is appended and nothing else changes |
| Operate.WriteOperationAdded | src/client/operate.c:432-439 | the array ["op" => WRITE, "bin" => "b", "val" => 5] appends exactly a write of the integer 5 to bin "b" |
| Operate.AddOps | src/client/operate.c:150-163 | the walk succeeds only when every element is an array, adds at most one operation per element and keeps those already added |
| Operate.AddOpsOrdered | src/client/operate.c:277-296 | the ordered walk refuses a string key and a non-array element with ERR_PARAM |
| Operate.OrderedWalkIsPlainWalk | src/client/operate.c:277-296 | on integer keys the ordered walk is the plain walk over the values, whatever the keys |
| Operate.PrepareFrom | src/client/operate.c:123-163 | an empty operations array is ERR_PARAM; success implies valid generation and TTL settings, the serializer of the policy and only array elements |
| Operate.PrepareOperate | src/client/operate.c:108-163 | `operate` refuses a bad key, a non-array policy, an empty or non-list operations array with ERR_PARAM; without a policy it uses the client default and the ini serializer |
| Operate.PrepareOperateOrdered | src/client/operate.c:237-296 | `operateOrdered` refuses a bad key, an empty operations array and any string key with ERR_PARAM |
| Operate.OrderedAgreesOnLists | src/client/operate.c:194-296 | on a list-shaped operations array `operateOrdered` prepares the same call as `operate` |
| Operate.WalksAgreeOnLists | src/client/operate.c:143-163 | with the policy fixed, both walks prepare the same call on a list |
| Operate.OrderedIgnoresIntegerKeys | src/client/operate.c:277-296 | `operateOrdered` treats any integer-keyed array as the list of its values, which `operate` refuses unless the keys are 0 .. n-1 |
| Operate.OrderedSameValues | src/client/operate.c:277-296 | two integer-keyed operations arrays with the same values in the same order prepare the same `operateOrdered` call, whatever their keys |
| Operate.OperateReturn | src/client/operate.c:165-172 | the server's error is returned as is; otherwise the result holds a key exactly for every bin name in the record |
| Operate.OperateOrderedReturn | src/client/operate.c:298-306 | the server's error is returned as is; otherwise the result is the record's bins as ordered pairs |
| Query.Consistent | src/client/query.c:541-558 | an adder that returns what it records adds a filter exactly when it succeeds |
| Query.MinMax | src/client/query.c:712-756 | the bounds are accepted exactly from a list-shaped array of two integers, lower bound first; anything else is ERR_PARAM |
| Query.MinMaxOfPair | src/client/query.c:712-756 | the pair `[min, max]` is read back as exactly those bounds |
| Query.BetweenOf | src/client/query.c:541-558 | BETWEEN adds an integer range on the default index exactly when the bounds are valid and the C client takes the filter; otherwise ERR_PARAM |
| Query.BetweenOfPair | src/client/query.c:541-558 | BETWEEN on a pair fails only when the C client refuses the filter |
| Query.EqualsAsWritten | src/client/query.c:524-538 | as written the equality adder returns OK even when it records ERR_PARAM for a value that is neither integer nor string, and adds no filter then |
| Query.Equals | src/client/query.c:524-538 | the corrected equality adder succeeds exactly for an integer or string value the C client takes, fails with the status the written one records, and adds the same filter |
| Query.ContainsAsWritten | src/client/query.c:560-573 | a non-collection index type is returned as ERR_PARAM; otherwise the written equality adder of that index type runs |
| Query.Contains | src/client/query.c:560-646 | the corrected CONTAINS succeeds exactly for a list, map-keys or map-values index, an integer or string value and a filter the C client takes, failing with what the written one records |
| Query.ContainsOfScalar | src/client/query.c:560-646 | CONTAINS on an integer or string fails only on its index type or when the C client refuses it |
| Query.RangeOf | src/client/query.c:649-710 | RANGE reads the bounds before checking the index type; a refused filter is ERR_CLIENT |
| Query.RangeOfPair | src/client/query.c:649-710 | RANGE on a pair fails only on its index type or when the C client refuses it |
| Query.GeoOf | src/client/query.c:575-596 | a geo predicate needs a string value and adds it as GeoJSON text; both failures are ERR_CLIENT |
| Query.PredicateFields | src/client/query.c:443-474 | a predicate passes the structural checks exactly when it has at least three entries, a string "bin", a string "op" and a "val"; otherwise ERR_PARAM |
| Query.FieldsFound | src/client/query.c:443-474 | a predicate array holding those three fields passes with them |
| Query.IndexTypeField | src/client/query.c:487-496 | "index_type" is accepted exactly when present as an integer |
| Query.AddPredicateAsWritten | src/client/query.c:436-522 | as written a filter is added exactly when nothing is recorded, and any failure returned is the one recorded |
| Query.AddPredicate | src/client/query.c:436-522 | structurally bad predicates and unknown operators are ERR_PARAM; a success names a known operator and the predicate's bin |
| Query.OpNamesDistinct | src/client/query.c:480-518 | the six operator names differ in length, so at most one matches |
| Query.Dispatch | src/client/query.c:480-518 | each operator name reaches its own adder with the predicate's bin and value |
| Query.AddPredicateRecords | src/client/query.c:436-522 | the corrected dispatcher fails exactly when the written one records a failure, with that status, and otherwise adds the same filter |
| Query.CollectionOpsNeedIndexType | src/client/query.c:486-510 | CONTAINS and RANGE succeed only with an integer list, map-keys or map-values index type, which the filter then uses |
| Query.SelectNames | src/client/query.c:125-142 | the select list is accepted exactly when every entry is a string, and keeps their order |
| Query.QuerySetup | src/client/query.c:94-142 | an empty namespace is ERR_PARAM; on success the query has no filter yet and the select list is the checked one |
| Query.QueryAsWritten | src/client/query.c:144-150 | as written the query runs whenever the adder returns OK, with whatever filter was added |
| Query.RunQuery | src/client/query.c:144-150 | with the corrected dispatcher a non-empty predicate either becomes the query's filter or stops the query |
| Query.DoubleEqualityRunsUnfiltered | src/client/query.c:524-538 | an "=" predicate on a double runs unfiltered as written, and stops with ERR_PARAM when corrected |
| Predicates.Predicate3 | src/client/predicate.c:48-52 | the three-entry predicate array holds the bin as C text, the operator and the value, each found under its name |
| Predicates.Predicate4 | src/client/predicate.c:113-117 | the four-entry predicate array holds bin, operator, index type and value, each found under its name, in either insertion order |
| Predicates.PredicateEquals | src/client/predicate.c:28-55 | null exactly when the bin name is longer than 14 bytes or the value is neither integer nor string; otherwise `{bin, op "=", val}` |
| Predicates.PredicateBetween | src/client/predicate.c:61-86 | null exactly when the bin name is too long; otherwise `{bin, op "BETWEEN", val [min, max]}` |
| Predicates.PredicateRange | src/client/predicate.c:93-120 | null exactly when the bin name is too long; otherwise the BETWEEN shape with op "RANGE" and the unchecked integer index type |
| Predicates.PredicateContains | src/client/predicate.c:126-153 | null exactly when the bin name is too long or the value is neither integer nor string; otherwise `{bin, op "CONTAINS", index_type, val}` |
| Predicates.PredicateGeoContainsGeoJsonPoint | src/client/predicate.c:160-180 | null exactly when the bin name is too long; otherwise the JSON text verbatim under op "GEOCONTAINS" |
| Predicates.PredicateGeoWithinGeoJsonRegion | src/client/predicate.c:187-209 | null exactly when the bin name is too long; otherwise the JSON text verbatim under op "GEOWITHIN" |
| Predicates.PredicateGeoContainsPoint | src/client/predicate.c:216-258 | null exactly when the bin name is too long or the call to `json_encode` cannot be made; otherwise the GeoJSON-point predicate of the encoded point |
| Predicates.PredicateGeoWithinRadius | src/client/predicate.c:267-321 | the circle's JSON goes out under op "GEOCONTAINS", the same predicate the point builder makes, not "GEOWITHIN" |
| Predicates.Predicate3Fields | src/client/query.c:443-474 | a three-entry predicate array passes the structural checks of `add_predicate_to_query` with its own fields |
| Predicates.EqualsBuilderAccepted | src/client/predicate.c:48-52 | every non-null `predicateEquals` result becomes an equality filter on the default index unless the C client refuses it |
| Predicates.BetweenBuilderAccepted | src/client/predicate.c:76-84 | every non-null `predicateBetween` result becomes the integer range [min, max] unless the C client refuses it |
| Predicates.RangeBuilderAccepted | src/client/predicate.c:109-118 | every non-null `predicateRange` result passes all structural checks; only an index type other than list, map keys or map values makes it fail |
| Predicates.ContainsBuilderAccepted | src/client/predicate.c:145-150 | every non-null `predicateContains` result passes all structural checks; only its index type or the C client can make it fail |
| Predicates.GeoPointBuilderAccepted | src/client/predicate.c:175-178 | the point builder's output becomes a containment test on its JSON text |
| Predicates.GeoRegionBuilderAccepted | src/client/predicate.c:204-207 | the region builder's output becomes a within test on its JSON text |
| Predicates.RadiusBuilderContains | src/client/predicate.c:315-319 | a radius predicate reaches the C client as a containment test of the circle, never as a within test |
| Commands.TruncateRequestOf | src/client/truncate.c:45-84 | a failed connection check is returned as is; otherwise the call proceeds exactly when nanos is non-negative, the namespace is non-empty and shorter than AS_NAMESPACE_MAX_SIZE, a non-null set is shorter than AS_SET_MAX_SIZE and the info policy converts |
| Commands.Truncate | src/client/truncate.c:86-91 | a refused call returns its check's status; an accepted one returns what the server answers for exactly the checked request |
| Commands.TruncateBounds | src/client/truncate.c:70-77 | the namespace and set bounds are tight: one byte under the limit passes, one more fails with ERR_PARAM, a null set always passes |
| Commands.PutRequestOf | src/client/put.c:51-116 | a TTL that is neither null nor an integer, a non-array or empty record are ERR_PARAM; a bin failure keeps its status; an accepted put carries the converted key, policy, bins, 32-bit TTL and generation |
| Commands.PutWritesEveryBin | src/client/put.c:103 | a put that reaches the server writes every bin of the argument under the name the C client sees, with the converted value of the last entry of that name, and no bin under any other name |
| Commands.Put | src/client/put.c:118-130 | a refused put returns its check's status; an accepted one returns the server's answer for the checked request |
| Commands.BinNameOf | src/client/get.c:151-158 | a filter entry is accepted exactly when it is a string of at most 14 bytes, and is its C text |
| Commands.FilterNames | src/client/get_many.c:83-101 | a filter is accepted exactly when every entry is a short string, giving one name per entry in order |
| Commands.GetBinNames | src/client/get.c:125-170 | `get`'s filter must also be list-shaped; it is accepted exactly when it is a list of short strings |
| Commands.FilterOfNames | src/client/get.c:133-160 | a list of short NUL-free names is accepted and read back name for name |
| Commands.GetAfterCheck | src/client/get.c:55-120 | a bad policy or key leaves null and ERR_PARAM; a non-array filter gives ERR_PARAM and null, a bad filter ERR_PARAM and an empty array; a server or conversion failure its status and an empty array; success the converted record |
| Commands.GetAsWritten | src/client/get.c:50-52 | as written the outcome of `get` does not depend on the connection check at all |
| Commands.Get | src/client/get.c:27-121 | the corrected `get` returns a failed connection check and leaves the record out-parameter untouched; otherwise it behaves as written |
| Commands.GetIgnoresFailedCheck | src/client/get.c:50-52 | with no connection and an answering server, `get` as written reports something other than the failed check, while the corrected one reports it |
| Commands.GetShowsKeyWhenSent | src/client/get.c:101-104 | a successful `get` shows the user key exactly when the read policy sends it |
| Commands.KeyResult | src/client/get_many.c:144-158 | a batch key is accepted exactly when it is an array the key conversion accepts, and is that key |
| Commands.KeysOf | src/client/get_many.c:143-159 | the key loop succeeds exactly when every key does, keeping their order, and otherwise fails with the status of some key that failed |
| Commands.KeysOfSpec | src/client/exists_many.c:145-154 | every key of a batch converts exactly when each is an array the key conversion accepts; the corrected loop never reports a failure as OK |
| Commands.MissingEntry | src/client/get_many.c:168-179 | a key the server did not find is listed with its key and null metadata and bins |
| Commands.BatchEntry | src/client/get_many.c:166-186 | a batch entry fails only with ERR_CLIENT |
| Commands.BatchBins | src/client/get_many.c:149-154 | a batch reads the filter's names exactly when a non-empty filter was given, and all bins otherwise |
| Commands.BatchRecords | src/client/get_many.c:161-189 | a successful batch read lists exactly one entry per key, in key order, each made from the server's answer for that key |
| Commands.GetManyAsWritten | src/client/get_many.c:156-158 | as written a failed connection check is returned and the records out-parameter left as passed |
| Commands.GetMany | src/client/get_many.c:37-120 | a failed check is returned as is; a bad batch policy or filter is ERR_PARAM; any failure leaves null |
| Commands.GetManyWith | src/client/get_many.c:37-158 | in both the as-written and the corrected key loop, a failed check is returned as is, a bad batch policy or filter is ERR_PARAM, any failure leaves null, and a success lists one entry per key, or, only as written, none at all |
| Commands.GetManyListsEveryKey | src/client/get_many.c:161-189 | a successful `getMany` had a good policy, good keys and a successful batch, and lists one entry per key in key order |
| Commands.GetManyUnrecordedKeyFailure | src/client/get_many.c:156-158 | a key whose primary key is a double makes `getMany` as written report OK with no records, and the corrected call ERR_CLIENT with null |
| Commands.ExistsEntry | src/client/exists_many.c:40-89 | a result other than found or not found is ERR_CLIENT; otherwise the entry holds the key and the record's metadata when found, null when not |
| Commands.ExistsArray | src/client/exists_many.c:84-86 | the entry holds the key under "key" and the metadata under "metadata" |
| Commands.BatchProbe | src/client/exists_many.c:157-164 | a successful probe lists exactly one entry per key, in key order, every key found or not found; after a successful batch call any failure is ERR_CLIENT and leaves null |
| Commands.ExistsManyAsWritten | src/client/exists_many.c:151-153 | as written a failed connection check is returned and the metadata out-parameter left as passed |
| Commands.ExistsMany | src/client/exists_many.c:94-181 | a failed check is returned as is; a bad batch policy is ERR_PARAM; any failure leaves null metadata |
| Commands.ExistsManyWith | src/client/exists_many.c:94-181 | in both the as-written and the corrected key loop, a failed check is returned as is, a bad batch policy is ERR_PARAM, any failure leaves null metadata, and a success lists one entry per key or, only as written, null metadata |
| Commands.ExistsManyListsEveryKey | src/client/exists_many.c:40-89 | a successful `existsMany` lists one entry per key in key order, each found or not found |
| Commands.ExistsManyUnrecordedKeyFailure | src/client/exists_many.c:151-153 | a key whose primary key is a double makes `existsMany` as written report OK with null metadata, and the corrected call ERR_CLIENT |
| Commands.ExistsManyAbortsOnFailedKey | src/client/exists_many.c:52-55 | one key answered with anything but found or not found fails the whole call with ERR_CLIENT and leaves null metadata |
| ListOperations.NullPointOf | src/client/list_operations.c:86-88 | the methods that set an out-parameter to null are exactly `listSize`, `listPop`, `listPopRange`, `listGet` and `listGetRange` |
| ListOperations.SetupOperation | src/client/list_operations.c:864-901 | every failure is ERR_PARAM; a key that does not convert or options that are not an array fail; a success carries the converted key; without options it carries the default policy, generation 0 and TTL 0 |
| ListOperations.SetupSucceedsExactly | src/client/list_operations.c:864-901 | the setup succeeds exactly when the key converts, the options are absent or an array and the generation and TTL entries are acceptable, and then carries that generation and TTL |
| ListOperations.ItemsArg | src/client/list_operations.c:214-218 | as written the item argument never fails, and is a NULL list when an item does not convert; corrected it fails with ERR_PARAM exactly when the items do not convert |
| ListOperations.CallOp | src/client/list_operations.c:149-155 | the operation carries the method's list code and the C text of the bin; a single-value method fails exactly when its value does not convert, item methods refuse a non-list array, and the other methods never fail; a range method's count is the `(uint64_t)` cast of the PHP integer, and a method's index is passed exactly when it takes one |
| ListOperations.SameOperationAsOperate | src/client/list_operations.c:149-157 | every list method adds the same operation that `operate` builds for an operation array with the same code, bin, index and value |
| ListOperations.NegativeCountWraps | src/client/list_operations.c:826 | `listGetRange` with count -1 asks the C client for 2^64 - 1 elements |
| ListOperations.Reply | src/client/list_operations.c:417-426 | a method without an out-parameter leaves it alone; `listSize` always yields an integer; a returned value is converted, and a failed conversion is ERR_CLIENT with null |
| ListOperations.SerializerOf | src/client/list_operations.c:143-147 | the serializer fails, with ERR_PARAM, exactly for a method that reads it when its options name a bad one |
| ListOperations.Send | src/client/list_operations.c:98-103 | a server failure is returned with the out-parameter untouched; an OK answer is shaped from the bin's value in the returned record |
| ListOperations.AfterSetup' | src/client/list_operations.c:143-165 | a bad serializer or non-list items stop with ERR_PARAM and keep the out-parameter; a success passed the serializer and the conversion and got an OK from the server |
| ListOperations.AfterBinCheck' | src/client/list_operations.c:757-764 | a failed setup is ERR_PARAM with the out-parameter kept; `listGet` nulls it only after a successful setup |
| ListOperations.ListCommandWith | src/client/list_operations.c:39-57 | in both item modes a failed object check is returned with the out-parameter as passed; a bin name over 14 bytes, a failed setup, a bad serializer and non-list items are ERR_PARAM; a success passed the bin check and the setup; a method without an out-parameter leaves it alone |
| ListOperations.ListCommandAsWritten | src/client/list_operations.c:39-48 | the methods as written fail the object-and-connection check with its status and the out-parameter as passed; `BinNameCheckedFirst`, `ItemsMustBeList` and `UnconvertedItemsSent` state the rest |
| ListOperations.ListCommand | src/client/list_operations.c:51-57 | a bin name longer than 14 bytes, a failed setup, a bad serializer and non-list items are each ERR_PARAM; a method without an out-parameter never changes it |
| ListOperations.SuccessReachedServer | src/client/list_operations.c:88-98 | a successful call passed the bin-name, setup, serializer and conversion checks, and the server answered OK to the operation built |
| ListOperations.BinNameCheckedFirst | src/client/list_operations.c:51-57 | with a bin name that is too long, the outcome depends on neither the key, the options nor the server, in both versions |
| ListOperations.ItemsMustBeList | src/client/list_operations.c:208-212 | items that do not form a list are refused with ERR_PARAM in both versions, whatever the server would say |
| ListOperations.OutParameterOnFailure | src/client/list_operations.c:388-393 | after a failure the out-parameter is null, except for `listPop` refused on its bin name and `listGet` refused before its setup succeeded, which keep the value passed |
| ListOperations.NothingReturned | src/client/list_operations.c:838-844 | when the server's record holds no value for the bin, `listSize` gives -1, `listGetRange` an empty array and the other methods null |
| ListOperations.SizeReportsCount | src/client/list_operations.c:103 | `listSize` reports the integer the server returns for the bin, and -1 when there is none |
| ListOperations.ServerDecides | src/client/list_operations.c:157-165 | once every check has passed, a method without an out-parameter reports the server's status for the operation it built |
| ListOperations.UnconvertedItemsSent | src/client/list_operations.c:343-356 | as written `listMerge` and `listInsertItems` build their operation with a NULL list when an item does not convert |
| ListOperations.UnconvertedItemsRefused | src/client/list_operations.c:214-218 | corrected, both item methods stop with ERR_PARAM before the server is asked |
| Client.InitKey | src/client/aerospike_class.c:330-378 | a key array is returned exactly for a string primary key (of exactly 20 bytes when it is a digest) or an integer that is not flagged as a digest; it holds the namespace and set, and the key under "key" or "digest"; an integer digest gives null without recording an error, and any other refusal records ERR_PARAM |
| Client.InitKeyConverts | src/client/aerospike_class.c:347-371 | every array `initKey` returns converts back to a key exactly when the namespace and set fit the C client's limits, and then to the same namespace, set and key value or digest |
| Client.HostEntry | src/client/aerospike_class.c:541-590 | a host entry is accepted exactly when it is an array of 2 or 3 elements with a string "addr", an integer "port" and, in a 3-element array, a string "tls_name" if there is one; the port is kept modulo 65536 |
| Client.AddHosts | src/client/aerospike_class.c:516-597 | the hosts are accepted exactly when they form a list and every entry describes a host, and then give one host per entry, in order; every refusal is ERR_PARAM |
| Client.HostArray | src/client/aerospike_class.c:554-563 | the array a user writes for a host has 2 or 3 elements holding its address, port and TLS name |
| Client.HostArrayAccepted | src/client/aerospike_class.c:541-590 | the array written for any host with a NUL-free name and a 16-bit port reads back as that same host |
| Client.HostsRoundTrip | src/client/aerospike_class.c:516-597 | a list of host arrays reads back as the same hosts in the same order |
| Client.PortTruncated | src/client/aerospike_class.c:584 | a port of 65536 + 3000 is accepted as 3000 |
| Client.IntSetting | src/client/aerospike_class.c:684-690 | an integer setting is refused, with ERR_PARAM, exactly when it is present and not an integer; a missing one keeps the default; a present one is narrowed to its field's C type, modulo 2^32 into [0, 2^32) for a `uint32_t` field and into [-2^31, 2^31) for an `int` field |
| Client.ShmSettings | src/client/aerospike_class.c:619-661 | no "shm" entry keeps the shared-memory settings; a non-array one is ERR_PARAM; an array turns shared memory on and is accepted exactly when its four settings are integers where present, and then `shm_key` is narrowed to `int` and the other three to `uint32_t` |
| Client.Credentials | src/client/aerospike_class.c:663-682 | "user" must be a string, "pass" is read only with a user and must then be a string, and the pair is set only when the C client accepts it; a user without a password changes nothing |
| Client.SetAsConfig | src/client/aerospike_class.c:611-714 | the config array is accepted exactly when its shared-memory settings, credentials and the three thread and compression settings are acceptable; then the hosts and defaults are kept, and the shared memory, user and password, `max_conns_per_node`, `thread_pool_size` and `compression_threshold` fields hold what each setting gives, narrowed to `uint32_t` |
| Client.ShmNotArrayRefused | src/client/aerospike_class.c:620-625 | an "shm" entry that is not an array refuses the whole config with ERR_PARAM |
| Client.ShmArrayEnables | src/client/aerospike_class.c:620-621 | an accepted "shm" array, even an empty one, turns shared memory on |
| Client.FanoutWriter | src/client/aerospike_class.c:757-851 | an option sets a policy's knob exactly when it is the one writer the inverse table names for that knob and policy |
| Client.TimeoutsPartition | src/client/aerospike_class.c:757-780 | every per-command policy gets its timeout from exactly one of the read and write timeout options, and the global policy from neither |
| Client.ApplyOption | src/client/aerospike_class.c:749-858 | setting one option changes exactly the knobs of its fan-out, the connect timeout or the serializer, and nothing else; the connect timeout and every timeout knob are narrowed to `uint32_t`, the serializer type to `int` |
| Client.ApplyOptions | src/client/aerospike_class.c:749-860 | options are read in turn and the first one present but not an integer stops the walk with ERR_PARAM, so a failure names an option that is present and not an integer |
| Client.ApplyOptionsOk | src/client/aerospike_class.c:749-860 | reading a sequence of options succeeds exactly when every one of them is absent or an integer |
| Client.ApplyOptionsSetting | src/client/aerospike_class.c:749-860 | after reading a sequence of options each policy's knob holds the value of its writer when that was read and present, else its starting value |
| Client.StepSetting | src/client/aerospike_class.c:757-768 | one option's step changes a policy's knob only when the option is that knob's writer and is present |
| Client.SettingAfterStep | src/client/aerospike_class.c:749-860 | reading the first option and then the rest leaves each knob as reading them all does |
| Client.ApplyOptionsScalars | src/client/aerospike_class.c:749-858 | the connect timeout and the serializer end up as the options give them, narrowed to `uint32_t` and `int`, when read and present, else as they started |
| Client.PolicyDefaults | src/client/aerospike_class.c:745-747 | without an options array the defaults are unchanged; every refusal is ERR_PARAM |
| Client.PolicyDefaultsFromOptions | src/client/aerospike_class.c:741-861 | the options array is accepted exactly when every recognised option is absent or an integer, and then each policy knob, the connect timeout and the serializer hold the value of their option, narrowed to the C field's type, or keep their starting value |
| Client.EveryOptionRead | src/client/aerospike_class.c:749-858 | every option of the enumeration is among those read |
| Client.TimeoutFanout | src/client/aerospike_class.c:757-780 | the read timeout, narrowed to `uint32_t`, sets the read, info, batch, scan and query timeouts and the write timeout the write, operate, remove and apply ones |
| Client.NegativeReadTimeoutWraps | src/client/aerospike_class.c:757-768 | a read timeout of -1 is accepted and stored in the read policy as 4294967295 |
| Client.Configure | src/client/aerospike_class.c:258-297 | a missing or non-array "hosts" entry is refused; an accepted configuration carries the hosts the list describes, the defaults the options array gives, and the shared-memory, credential, thread-count, pool-size and compression settings as the config array gives them |
| Session.ParseSavePath | src/client/aerospike_session.c:303-359 | a path with no '\|' is refused; every accepted path is well formed (a namespace and set that fit and hold no '\|', non-empty hosts) and joins back to the path read as a C string |
| Session.ParseParts | src/client/aerospike_session.c:313-359 | the split of a NUL-free text refuses one without '\|' and only yields well-formed parts that join back to the text |
| Session.SplitSetHosts | src/client/aerospike_session.c:331-359 | the text after the first '\|' splits into a non-empty set that fits and holds no '\|', a '\|' and non-empty hosts, which rejoin to the text |
| Session.SplitSetHostsJoin | src/client/aerospike_session.c:338-359 | a set and hosts that a path can carry are split back apart |
| Session.ParseJoin | src/client/aerospike_session.c:303-359 | every well-formed save path reads back as its namespace, set and hosts |
| Session.SavePathRefusals | src/client/aerospike_session.c:321-343 | an empty or too-long namespace, nothing after the first '\|', or no second '\|' each refuse the path |
| Session.Open | src/client/aerospike_session.c:218-236 | the handler opens exactly when the save path parses, the C client takes the host text and the connection succeeds, and then keeps the path's namespace and set |
| Session.SessionKey | src/client/aerospike_session.c:79 | `as_key_init_str` succeeds exactly when the namespace and set fit their buffers, and the key is the session's namespace and set with the session id, as C text, as its string user key and no digest |
| Session.OpenSessionKeys | src/client/aerospike_session.c:434 | once a session is open, a key can be built for every session id |
| Session.Read | src/client/aerospike_session.c:146-216 | a missing record reads as the empty string, another server failure fails, and a stored value is returned only when it is bytes or a string, as its content |
| Session.Destroy | src/client/aerospike_session.c:108-135 | destroying succeeds exactly when the session is open, the key can be built and the record was removed or was not there |
| Session.CreateSid | src/client/aerospike_session.c:238-259 | without an open session no id is made; otherwise the id returned is the first of at most five attempts that was generated and does not exist yet |
| Session.FirstFreeIdSpec | src/client/aerospike_session.c:246-258 | an id is found exactly when some attempt yields a free one; it is then generated on an attempt at which every earlier attempt gave no id or an existing one |
| Persistent.HostsTextFits | src/persistent_list.c:19-46 | the text written for the hosts, plus one spare byte per host, fits in the room the first loop reserves, because a 16-bit port needs at most five of its six bytes |
| Persistent.SearchStringFits | src/persistent_list.c:19-53 | the buffer holds the search string and its terminating NUL exactly when there is a host or shared memory is used |
| Persistent.MeasureHosts | src/persistent_list.c:19-24 | the first loop's total is each host's name, six bytes of port room, three delimiters and the user, summed over the hosts |
| Persistent.WriteHosts | src/persistent_list.c:37-47 | the second loop writes name ":" port ":" user ";" for each host, in host order |
| Persistent.BuildSearchString | src/persistent_list.c:7-55 | the allocation size is the measured total plus 19 bytes with shared memory; a failed allocation gives no string; otherwise the string is the hosts' text then the hex shm key, and it fits with its NUL exactly when there is a host or shared memory |
| Persistent.PersistentConnect | src/persistent_list.c:97-145 | no search string is ERR_CLIENT with the registry unchanged; a new search string is filed only when the connection succeeds; an existing entry's handle is always taken, connected only if it was not yet, and its counters bumped only on success |
| Persistent.ConnectPreservesConsistency | src/persistent_list.c:111-138 | connecting keeps every entry connected with as many references as connections, and leaves every entry under another search string as it was |
| Persistent.ReuseSucceeds | src/persistent_list.c:111-127 | reusing an entry of a consistent registry succeeds whatever a new connection would return, hands out its handle and bumps both counters |
| Persistent.SharedAfterFirstConnect | src/persistent_list.c:97-145 | after n connections under one new search string, the first of which succeeds, all share the first handle and the entry counts n references and n connections |
| Info.IsValidHostsList | src/client/info.c:254-298 | the filter is accepted exactly when it holds a "hosts" array whose every entry is an array of exactly two elements with a string "addr" and an integer "port" |
| Info.FilterHostsConfigure | src/client/info.c:268-295 | a list-shaped filter is also a hosts list the constructor accepts, each pair read as a host with the same address and no TLS name |
| Info.Pairs | src/client/info.c:311-315 | one address-and-port pair per filter entry, in iteration order |
| Info.HostBuffer | src/client/info.c:306-316 | the "addr:port" text left in the buffer is shorter than 256 bytes and holds no NUL |
| Info.NodeInHostsList | src/client/info.c:304-323 | a node is listed exactly when some filter entry's "addr:port" text equals the node's address string |
| Info.BufferOfHost | src/client/info.c:316 | a short host name and a 16-bit port are written whole as name ":" decimal port |
| Info.NodeOfListedHostIncluded | src/client/info.c:311-319 | a node whose address is "name:port" is picked by a filter entry naming that name and port |
| Info.InfoEach | src/client/info.c:224-247 | a null node stops the walk with ERR_CLIENT and changes nothing; an included node's response, or null when there is none, is filed under the node name; an excluded node changes nothing |
| Info.InfoEachKeepsOthers | src/client/info.c:237-243 | filing one node's response leaves every other key's entry as it was |
| Info.UpToNull | src/client/info.c:229-231 | the replies the callback handles are a prefix of the replies, all with a node, and followed by a null node when shorter |
| Info.CollectByCallback | src/client/info.c:224-247 | the reference array of one more reply is what the callback makes of it from the reference array of the earlier replies |
| Info.CollectStep | src/client/info.c:237-243 | filing one more reply adds at most its own key |
| Info.CollectKeys | src/client/info.c:224-247 | the response array holds a key exactly when some included node's name is filed under it |
| Info.InfoForeach | src/client/info.c:208-209 | the walk succeeds exactly when no reply has a null node, fails otherwise with ERR_CLIENT, and builds the reference array of the replies before the first null node |
| Info.UpToNullAt | src/client/info.c:229-231 | the replies handled are exactly those before the first null node |
| Info.InfoMany | src/client/info.c:147-217 | null is returned exactly on failure; a bad filter or a bad policy is ERR_PARAM; a null node is ERR_CLIENT; a success returns the responses of every included node, filed under its name |
| Info.Destination | src/client/info.c:95-120 | without a destination the first configured host is used; otherwise the destination is accepted exactly when it has a string "addr" and an integer "port", the port cut to 16 bits |
| Info.DestinationOfFirstHost | src/client/info.c:95-120 | naming the first configured host as the destination sends the request to the same place as naming none |
| Info.Info | src/client/info.c:39-141 | a failed object check leaves the response argument alone; every other failure leaves null; a bad policy or destination is ERR_PARAM; a success stores the response the host returned |
| Udf.SizeAcceptedAsWritten | src/client/udf.c:175-188 | the size check as written accepts a length exactly when its residue modulo 2^32 is positive and below 1 MiB, which for lengths a 32-bit counter holds means positive and below 1 MiB |
| Udf.SizeAccepted | src/client/udf.c:175-188 | the check on the actual length refuses an empty file and one of 1 MiB or more, and accepts nothing the check as written refuses |
| Udf.HugeFileAccepted | src/client/udf.c:175-184 | as written a file 2^32 + 5 bytes long passes the size check, although it is far above the 1 MiB limit |
| Udf.SizeAcceptedFits | src/client/udf.c:176-188 | the check on the file's actual length agrees with the check as written on every length a 32-bit counter holds |
| Udf.CopyDir | src/client/udf.c:197-205 | the directory part ends in exactly one appended '/' at most: it is the base path, or the base path and a '/', and always ends in '/' |
| Udf.UdfFileName | src/client/udf.c:207-218 | the stored name is the text after the path's last '/', or the whole path when it has none, holds no '/', and ends the path; it is refused only when the path's last character is '/' |
| Udf.RegisterChecks | src/client/udf.c:151-228 | an empty module name or bad policy is ERR_PARAM, an unreadable file ERR_UDF_NOT_FOUND, an empty or too large one ERR_UDF, a missing base path or a path ending in '/' ERR_CLIENT, a copy path longer than 511 bytes ERR_PARAM; it succeeds exactly when everything passes and the copy path fits 511 bytes, and then is the directory followed by the file name |
| Udf.Register | src/client/udf.c:110-293 | a failed check is returned as it is; after it, a copy that cannot be opened is ERR_LUA_FILE_NOT_FOUND, a failed allocation or copy ERR_CLIENT, and otherwise the server's answer to the upload is returned |
| Udf.CopyDirIdempotent | src/client/udf.c:201-205 | a base path that already ends in '/' is used as it is |
| Udf.LastIndexOfAt | src/client/udf.c:207 | the last occurrence of a character is found at the position after which it no longer appears |
| Udf.SplitAfterDirectory | src/client/udf.c:207-217 | in a directory ending in '/' followed by a name without one, the last '/' is the directory's |
| Udf.CopyPathSplitsBack | src/client/udf.c:199-228 | the copy path's name part is the stored name again |
| Udf.CopyOfFileInDirectory | src/client/udf.c:207-218 | "dir/file" and "file" are both stored under "file" |
| Udf.OfLanguage | src/client/udf.c:399-401 | the filter keeps at most all the files |
| Udf.OfLanguageMembers | src/client/udf.c:399-401 | the filter keeps exactly the files of the requested language |
| Udf.OfLanguageAppend | src/client/udf.c:399-407 | the filter distributes over concatenation, so the kept files stay in the server's order |
| Udf.OfLanguageIdempotent | src/client/udf.c:399-401 | filtering twice is filtering once |
| Udf.ModuleEntryFields | src/client/udf.c:402-404 | a module entry holds exactly the file's name, cut at its first NUL, under "name" and its language under "type" |
| Udf.ListStep | src/client/udf.c:399-407 | one more file of the server's list is appended as the last module exactly when it is of the requested language |
| Udf.ListModules | src/client/udf.c:398-407 | the loop builds a list holding one entry per file of the language, in the server's order |
| Udf.ListRegistered | src/client/udf.c:348-414 | a failed object check leaves the modules variable alone; a bad policy or a failed listing leaves null with its status; a success holds the entries of the files of the requested language |
| Udf.ListedExactlyTheLanguage | src/client/udf.c:399-407 | every listed module is the entry of a file of the requested language, and every such file is listed |
| Udf.ListedTypes | src/client/udf.c:404 | every listed module carries the requested language as its "type" |

## Left out

- The server's list and map semantics are not modelled: rank, index, inversion, ranges, map increment, generation checks and TTL expiry. They run inside the server, behind C-client calls that are parameters here.
- Key digest computation (RIPEMD-160) and every network call are not modelled. Each appears only through the status and data it returns.
- PHP `serialize`/`unserialize`, user serializer callbacks, `json_encode`/`json_decode`, GeoJSON.php and PHP's numeric-string test are opaque functions of `Php.Runtime`.
- Memory management, ZTS threading, the mutex around user callbacks and the log handlers are not modelled. This includes the forced thread pool size of 0 in ZTS builds.
- The thin wrappers around a single C-client call are not modelled: admin, append, prepend, touch, remove, removeBin, exists, select, apply, scan, scanApply, scanInfo, jobInfo, secondary indexes, log handlers, user serializers, TLS config. So are the constant registration tables, module setup, and `getRegistered`/`deregister` in udf.c.
- Zend parameter parsing (`zend_parse_parameters`) is not modelled: each method starts from arguments already of the declared PHP types.
- The object-and-connection check is modelled by a `ready` status parameter.
- The iteration order of the C client's hash maps is taken to be insertion order. `as_map_to_zval` and the map walks depend on it.
- The C client's `as_operations_add_*` calls are taken to succeed whenever the extension has checked their arguments. Their failure on allocation is not modelled.
- `operate` narrows the "op" integer to `int` before dispatch. `Operate.OpType` states the 32-bit wrap explicitly, and the list counts wrap modulo 2^64 on their way into `uint64_t`; the other integer fields keep PHP's 64-bit range.
- The enumeration-typed policy fields (key, exists, commit level, read modes, replica, generation policy) take the PHP integer as it is. Converting an out-of-range integer to a C enumeration is implementation-defined, and the C client compares these fields only against their named values.
- `operateOrdered` with no policy passes a NULL policy, which makes the C client use the client's configured default. The model passes that default.
- Policies.RemovePolicy, Policies.OperateFrom: generation element 0 is used with `Z_LVAL_P` without a type check (policy_conversions.c:108 and 229). The model keeps the generation policy unchanged when that element is not an integer, because the C reads an unrelated field of the zval.
- Policies.RemovePolicy: a two-element generation array that lacks key 0 or key 1 makes the C dereference NULL (policy_conversions.c:107-111). The model returns ERR_PARAM for a missing element 1.
- Policies.QueryNoBins: the flag is read with `Z_LVAL_P` from a boolean zval (policy_conversions.c:420), whose integer field PHP 7 does not set. The model stores the boolean's value.
- Predicates.PredicateGeoContainsPoint, Predicates.PredicateGeoWithinRadius: doubles are reals, so NaN and the infinities cannot be given. For them `json_encode` returns false while the call itself succeeds, and the C builds the predicate from the string fields of that non-string zval (predicate.c:246-254, 309-318). The model's `jsonEncode` fails only when the call cannot be made, and then gives null.
- Udf.CopyDir: an empty `aerospike.udf.lua_user_path` makes the C read `copy_file_path[-1]` (udf.c:202). The model appends the '/' in that case.
- Udf.RegisterChecks: the base path is copied into the buffer before the combined length is checked (udf.c:199, 222). The model checks the length only, as the copy cannot be observed.
- Udf.Register: the copy loop, the upload and `aerospike_udf_put_wait` are parameters giving their outcome.
- Commands.ExistsMany: the check for a NULL key array before the batch read is not modelled.
- `get` leaves an empty array in its record argument only after failures that reach its cleanup (get.c:115-119). A bad policy, a bad key or a non-array filter returns earlier and leaves null (get.c:60-85). `Commands.Get` follows the code here.
- Commands.GetAsWritten: its contract states only that the outcome ignores the connection check. The rest of its behaviour is that of `Commands.Get` past the check, which the corrected member states.
- Commands.GetManyAsWritten: its contract states only the failed-check outcome. The other outcomes are stated by `Commands.GetManyUnrecordedKeyFailure` and by the corrected `Commands.GetMany`.
- Commands.ExistsManyAsWritten: its contract states only the failed-check outcome. The other outcomes are stated by `Commands.ExistsManyUnrecordedKeyFailure` and by the corrected `Commands.ExistsMany`.
- ListOperations.ListCommandAsWritten: its contract states only the failed-check outcome. Its other behaviour is stated by `ListOperations.BinNameCheckedFirst`, `ListOperations.ItemsMustBeList` and `ListOperations.UnconvertedItemsSent`.
- ListOperations.Reply: `as_operations_add_list_*` are taken to succeed. The count of `listSize` stays a signed 64-bit integer. After a failed `as_val_to_zval`, the out-parameter is modelled as null.
- Persistent.BuildSearchString: with neither hosts nor shared memory, `malloc(0)` is followed by a write of the terminating NUL. The contract states that the buffer is then too small, and does not model the write.

## Findings

| source | as written | input that shows it | evidently intended | confidence | as-written member | corrected member |
|---|---|---|---|---|---|---|
| src/conversions.c:852-857 | `z_hashtable_to_as_key` returns ERR_CLIENT for a key of another type, or when `as_key_init_*` fails, without recording it in `err`. `getMany` and `existsMany` look only at `err` and report OK. | a key array `["ns" => "test", "set" => "s", "key" => 1.5]` passed to `getMany` | the failure is recorded and reported as ERR_CLIENT | not executed | RecordConversions.KeyFromArrayAsWritten, RecordConversions.UnsupportedKeyTypeUnrecorded, Commands.GetManyAsWritten, Commands.GetManyUnrecordedKeyFailure, Commands.ExistsManyAsWritten, Commands.ExistsManyUnrecordedKeyFailure | RecordConversions.KeyFromArray, Commands.GetMany, Commands.ExistsMany |
| src/client/query.c:524-538 | An "=" or CONTAINS predicate whose value is neither an integer nor a string records ERR_PARAM but returns OK. `query` then resets the error and runs the query with no filter. | `["bin" => "b", "op" => "=", "val" => 1.5]` | the predicate is refused with ERR_PARAM and the query does not run | not executed | Query.EqualsAsWritten, Query.ContainsAsWritten, Query.AddPredicateAsWritten, Query.QueryAsWritten, Query.DoubleEqualityRunsUnfiltered | Query.Equals, Query.Contains, Query.AddPredicate, Query.RunQuery |
| src/conversions.c:947 | `z_hashtable_to_as_list` returns OK even after an item failed to convert, leaving a NULL list. `operate`'s list merge and insert-items ops, and `listMerge` and `listInsertItems`, then send that NULL list. | the list `[true]` with SERIALIZER_NONE | the conversion failure is returned and the operation refused | not executed | ValueConversions.ToAsListAsWritten, ValueConversions.ListConversionFailureReportedOk, Operate.ListItemsAsWritten, Operate.MergeOfUnconvertibleItemsAdded, ListOperations.UnconvertedItemsSent, ListOperations.ListCommandAsWritten | ValueConversions.ToAsList, Operate.ListItems, ListOperations.UnconvertedItemsRefused, ListOperations.ListCommand |
| src/policy_conversions.c:201 | `as_policy_operate_copy(operate_policy, default_policy)` copies the freshly initialised policy over the client's default. The arguments are swapped compared with every other policy conversion. | a client whose default operate policy differs from the library's initial values, and `operate` called without options | the operate policy starts from the client's default, which is left unchanged | not executed | Policies.OperatePolicyAsWritten, Policies.OperateDefaultIgnored | Policies.OperatePolicy |
| src/client/get.c:50-52 | The failed object-and-connection check sets an error but does not return, so `get` goes on and later checks overwrite the status. | `get` on a client that is not connected, with a server that would answer | `get` returns the failed check at once | not executed | Commands.GetAsWritten, Commands.GetIgnoresFailedCheck | Commands.Get |
| src/conversions.c:361 | The class test `strncmp(class_name, "Aerospike\\Bytes", strlen(class_name))` compares only as many characters as the object's class name has. Any class whose name is a prefix of `Aerospike\Bytes` is taken for a Bytes object. | an object of class `Aero` whose bytes property holds a string | only `Aerospike\Bytes` itself is stored as a BLOB; other classes are serialized | not executed | ValueConversions.ObjectToAsValAsWritten, ValueConversions.PrefixClassTakenForBytes | ValueConversions.ObjectToAsVal |
| src/client/udf.c:128, 175-188 | `ftell`'s `long` is stored in a `uint32_t` before the size checks, so a file of 2^32 + 5 bytes passes as 5 bytes. It is then read into a 1 MiB buffer. | a UDF file 4294967301 bytes long | files of SCRIPT_LEN_MAX bytes or more are refused | not executed | Udf.SizeAcceptedAsWritten, Udf.HugeFileAccepted | Udf.SizeAccepted, Udf.SizeAcceptedFits |

=== FILE: asvalue.dfy ===
/** The C-client side: `as_val` values, keys and records as the extension builds
    them and as the client hands them back.
 */
module AsValues {
  import opened Errors
  import opened Strings

  /** `as_bytes` type tags of the C client (`AS_BYTES_BLOB`, `AS_BYTES_PHP`). */
  const BYTES_BLOB: int := 4
  const BYTES_PHP: int := 11

  /** Longest bin name (`AS_BIN_NAME_MAX_LEN`). */
  const BIN_NAME_MAX_LEN: nat := 14

  /** Size of a RIPEMD-160 key digest (`AS_DIGEST_VALUE_SIZE`). */
  const DIGEST_SIZE: nat := 20

  /** An `as_val`. A map lists its entries in the hash map's iteration order, which
      this model takes to be insertion order. `AOther` stands for the types the
      extension never creates (nil, boolean, record, pair, ...). */
  datatype AsVal =
    | AInt(n: int)
    | AStr(s: string)
    | ADouble(d: real)
    | AList(items: seq<AsVal>)
    | AMap(entries: seq<(AsVal, AsVal)>)
    | ABytes(btype: int, data: string)
    | AGeo(json: string)
    | AOther

  /** Set `k` to `v` in an association list: a key already present keeps its slot
      and takes the new value; a new key is appended. */
  function SetSlot<K(==), V>(es: seq<(K, V)>, k: K, v: V): (r: seq<(K, V)>)
    ensures k !in Firsts(es) ==> r == es + [(k, v)]
    ensures k in Firsts(es) ==> r == es[FirstIndex(es, k) := (k, v)]
    ensures k in Firsts(es) ==> Firsts(r) == Firsts(es)
    ensures forall j :: 0 <= j < |es| && es[j].0 != k ==> j < |r| && r[j] == es[j]
    ensures forall j :: 0 <= j < |r| && r[j].0 != k ==> j < |es| && r[j] == es[j]
    ensures (k, v) in r
  {
    var r :=
      if |es| == 0 then [(k, v)]
      else if es[0].0 == k then [(k, v)] + es[1..]
      else
        (var rest := SetSlot(es[1..], k, v);
         SetSlotStep(es, k, v, rest);
         [es[0]] + rest);
    if k in Firsts(es) then ReplaceFrame(es, FirstIndex(es, k), k, v); r
    else AppendFrame(es, k, v); r
  }

  /** Setting past a first entry of another key: the shape of the tail's result
      carries over to the whole list. */
  lemma SetSlotStep<K, V>(es: seq<(K, V)>, k: K, v: V, rest: seq<(K, V)>)
    requires |es| > 0 && es[0].0 != k
    requires k !in Firsts(es[1..]) ==> rest == es[1..] + [(k, v)]
    requires k in Firsts(es[1..]) ==> rest == es[1..][FirstIndex(es[1..], k) := (k, v)]
    ensures k !in Firsts(es) ==> [es[0]] + rest == es + [(k, v)]
    ensures k in Firsts(es) ==> [es[0]] + rest == es[FirstIndex(es, k) := (k, v)]
  {
    var t := es[1..];
    assert es == [es[0]] + t;
    FirstsCons(es[0], t);
    assert k in Firsts(es) <==> k in Firsts(t);
    if k in Firsts(t) {
      var i := FirstIndex(t, k);
      assert FirstIndex(es, k) == i + 1;
      ConsUpdate(es[0], t, i, (k, v));
    } else {
      assert [es[0]] + (t + [(k, v)]) == ([es[0]] + t) + [(k, v)];
    }
  }

  lemma ConsUpdate<T>(x: T, s: seq<T>, i: nat, y: T)
    requires i < |s|
    ensures [x] + s[i := y] == ([x] + s)[i + 1 := y]
  {
  }

  /** Replacing the entry of `k` at `i` leaves every other entry in place and
      keeps the key sequence. */
  lemma ReplaceFrame<K, V>(es: seq<(K, V)>, i: nat, k: K, v: V)
    requires i < |es| && es[i].0 == k
    ensures Firsts(es[i := (k, v)]) == Firsts(es)
    ensures forall j :: 0 <= j < |es| && es[j].0 != k ==> es[i := (k, v)][j] == es[j]
    ensures forall j :: 0 <= j < |es| && es[i := (k, v)][j].0 != k ==> es[i := (k, v)][j] == es[j]
    ensures (k, v) in es[i := (k, v)]
  {
    var r := es[i := (k, v)];
    assert r[i] == (k, v);
    assert Firsts(r) == Firsts(es) by {
      forall j | 0 <= j < |r| ensures Firsts(r)[j] == Firsts(es)[j] {}
    }
  }

  /** Appending the entry of `k` leaves every earlier entry in place. */
  lemma AppendFrame<K, V>(es: seq<(K, V)>, k: K, v: V)
    ensures forall j :: 0 <= j < |es| ==> (es + [(k, v)])[j] == es[j]
    ensures forall j :: 0 <= j < |es| + 1 && (es + [(k, v)])[j].0 != k ==> j < |es|
    ensures (k, v) in es + [(k, v)]
  {
    assert (es + [(k, v)])[|es|] == (k, v);
  }

  function MapKeys(es: seq<(AsVal, AsVal)>): seq<AsVal> {
    Firsts(es)
  }

  /** `as_map_set` on an `as_hashmap`. */
  function MapSet(es: seq<(AsVal, AsVal)>, k: AsVal, v: AsVal): (r: seq<(AsVal, AsVal)>)
    ensures k !in MapKeys(es) ==> r == es + [(k, v)]
    ensures k in MapKeys(es) ==> MapKeys(r) == MapKeys(es) && r == es[FirstIndex(es, k) := (k, v)]
    ensures forall j :: 0 <= j < |es| && es[j].0 != k ==> j < |r| && r[j] == es[j]
    ensures forall j :: 0 <= j < |r| && r[j].0 != k ==> j < |es| && r[j] == es[j]
    ensures (k, v) in r
  {
    SetSlot(es, k, v)
  }

  /** Buffer sizes of an `as_key`'s namespace and set (`AS_NAMESPACE_MAX_SIZE`,
      `AS_SET_MAX_SIZE`), terminating NUL included. */
  const NS_MAX_SIZE: nat := 32
  const SET_MAX_SIZE: nat := 64

  /** The primary-key value held by an `as_key`. */
  datatype KeyValue = KInt(n: int) | KStr(s: string) | KBytes(data: string) | KOther

  /** An `as_key`: namespace and set (C strings), the user key if one was given or
      returned, and the digest once it has been set or computed. */
  datatype AsKey = AsKey(ns: string, setName: string, value: Option<KeyValue>, digest: Option<string>)

  /** An `as_record`: its bins in order (operate may return several per name), its
      metadata and the key it was read under. */
  datatype Record = Record(bins: seq<(string, AsVal)>, ttl: int, gen: int, key: AsKey)

  function BinNames(bins: seq<(string, AsVal)>): seq<string> {
    Firsts(bins)
  }

  /** `as_record_set_*(rec, name, v)`: the name is copied as a C string; a bin of
      that name is overwritten in place, otherwise a new bin is added. */
  function RecordSet(bins: seq<(string, AsVal)>, name: string, v: AsVal): (r: seq<(string, AsVal)>)
    ensures CStr(name) !in BinNames(bins) ==> r == bins + [(CStr(name), v)]
    ensures CStr(name) in BinNames(bins) ==> BinNames(r) == BinNames(bins)
    ensures forall j :: 0 <= j < |bins| && bins[j].0 != CStr(name) ==> j < |r| && r[j] == bins[j]
    ensures forall j :: 0 <= j < |r| && r[j].0 != CStr(name) ==> j < |bins| && r[j] == bins[j]
    ensures (CStr(name), v) in r
    ensures BinValue(r, CStr(name)) == Some(v)
    ensures forall n :: n != CStr(name) ==> BinValue(r, n) == BinValue(bins, n)
  {
    SetSlotBinValue(bins, CStr(name), v);
    SetSlot(bins, CStr(name), v)
  }

  /** After a set, `as_record_get` finds the new value under its name and the old
      value under every other name. */
  lemma {:induction false} SetSlotBinValue(bins: seq<(string, AsVal)>, m: string, v: AsVal)
    ensures BinValue(SetSlot(bins, m, v), m) == Some(v)
    ensures forall n :: n != m ==> BinValue(SetSlot(bins, m, v), n) == BinValue(bins, n)
  {
    var r := SetSlot(bins, m, v);
    if |bins| == 0 {
      assert r == [(m, v)];
    } else if bins[0].0 == m {
      assert r == [(m, v)] + bins[1..];
      assert r[1..] == bins[1..];
      forall n | n != m ensures BinValue(r, n) == BinValue(bins, n) {
        assert BinValue(r, n) == BinValue(r[1..], n);
      }
    } else {
      var rest := SetSlot(bins[1..], m, v);
      assert r == [bins[0]] + rest;
      assert r[1..] == rest;
      SetSlotBinValue(bins[1..], m, v);
      forall n | n != m ensures BinValue(r, n) == BinValue(bins, n) {
        if bins[0].0 != n {
          assert BinValue(r, n) == BinValue(rest, n);
        }
      }
    }
  }

  /** `as_record_get`: the first bin of that name. */
  function BinValue(bins: seq<(string, AsVal)>, name: string): (r: Option<AsVal>)
    ensures r.None? <==> forall i :: 0 <= i < |bins| ==> bins[i].0 != name
    ensures r.Some? ==> exists i :: 0 <= i < |bins| && bins[i] == (name, r.value)
    ensures r.Some? ==> name in BinNames(bins) && r.value == bins[FirstIndex(bins, name)].1
  {
    if |bins| == 0 then None
    else if bins[0].0 == name then Some(bins[0].1)
    else
      var r := BinValue(bins[1..], name);
      assert forall i :: 0 < i < |bins| ==> bins[i] == bins[1..][i - 1];
      r
  }

  /** `as_key_init_int64`, `as_key_init_strp` and `as_key_init_digest`: the namespace
      and set are copied as C strings into fixed buffers, and initialisation fails
      when either does not fit. */
  function KeyInit(ns: string, setName: string, value: Option<KeyValue>, digest: Option<string>)
    : (r: Option<AsKey>)
    ensures r.Some? <==> |CStr(ns)| < NS_MAX_SIZE && |CStr(setName)| < SET_MAX_SIZE
    ensures r.Some? ==> r.value == AsKey(CStr(ns), CStr(setName), value, digest)
  {
    if |CStr(ns)| < NS_MAX_SIZE && |CStr(setName)| < SET_MAX_SIZE then
      Some(AsKey(CStr(ns), CStr(setName), value, digest))
    else None
  }
}

=== FILE: client.dfy ===
/** The `Aerospike` class itself (aerospike_class.c): `initKey`, and the
    constructor's reading of its config array (hosts, shared memory,
    credentials, thread settings) and of its options array (the client-wide
    policy defaults).
 */
module Client {
  import opened Errors
  import opened Strings
  import opened Php
  import opened AsValues
  import opened Types
  import opened Policies
  import opened RecordConversions

  // ---------------------------------------------------------------------------
  // Aerospike::initKey
  // ---------------------------------------------------------------------------

  /** What `initKey` returns (null is `None`) and the status it leaves in the
      client's error. */
  datatype InitKeyResult = InitKeyResult(key: Option<PVal>, recorded: Status)

  /** `Aerospike::initKey(ns, set, pk, is_digest)`: a string or integer primary key
      goes under "key"; with `is_digest` a string of exactly 20 bytes goes under
      "digest". An integer flagged as a digest is refused without recording an
      error. */
  function InitKey(ns: string, setName: string, pk: PVal, isDigest: bool): (r: InitKeyResult)
    ensures r.key.Some? <==> (pk.PStr? && (!isDigest || |pk.s| == DIGEST_SIZE)) || (pk.PInt? && !isDigest)
    ensures r.recorded == Ok <==> r.key.Some? || (pk.PInt? && isDigest)
    ensures r.recorded != Ok ==> r.recorded == ErrParam
    ensures r.key.Some? ==>
              && r.key.value.PArr?
              && Field(r.key.value, NAMESPACE_KEY) == Some(PStr(ns))
              && Field(r.key.value, SET_KEY) == Some(PStr(setName))
              && Field(r.key.value, PK_KEY) == (if isDigest then None else Some(pk))
              && Field(r.key.value, DIGEST_KEY) == (if isDigest then Some(pk) else None)
  {
    match pk
    case PStr(s) =>
      if isDigest then
        if |s| != DIGEST_SIZE then InitKeyResult(None, ErrParam)
        else InitKeyResult(Some(KeyArray(PStr(ns), PStr(setName), None, Some(pk))), Ok)
      else InitKeyResult(Some(KeyArray(PStr(ns), PStr(setName), Some(pk), None)), Ok)
    case PInt(_) =>
      if isDigest then InitKeyResult(None, Ok)
      else InitKeyResult(Some(KeyArray(PStr(ns), PStr(setName), Some(pk), None)), Ok)
    case _ => InitKeyResult(None, ErrParam)
  }

  /** The key `as_key_init_*` builds from an `initKey` primary key. */
  function InitKeyValue(pk: PVal, isDigest: bool): Option<KeyValue> {
    if isDigest then None else if pk.PStr? then Some(KStr(CStr(pk.s))) else if pk.PInt? then Some(KInt(pk.n)) else None
  }

  /** Every array `initKey` returns gets through all checks of
      `z_hashtable_to_as_key`; only the C client's own initialisation can still
      refuse it, and does so exactly when the namespace or set does not fit. */
  lemma InitKeyConverts(ns: string, setName: string, pk: PVal, isDigest: bool)
    requires InitKey(ns, setName, pk, isDigest).key.Some?
    ensures var k := KeyFromArray(InitKey(ns, setName, pk, isDigest).key.value);
      && (k.Success? <==> |CStr(ns)| < NS_MAX_SIZE && |CStr(setName)| < SET_MAX_SIZE)
      && (k.Failure? ==> k.error == ErrClient)
      && (k.Success? ==> k.value == AsKey(CStr(ns), CStr(setName), InitKeyValue(pk, isDigest),
                                          if isDigest then Some(pk.s) else None))
  {
    var z := InitKey(ns, setName, pk, isDigest).key.value;
    if |CStr(ns)| < NS_MAX_SIZE && |CStr(setName)| < SET_MAX_SIZE {
      if isDigest {
        DigestAccepted(z);
      } else {
        PrimaryKeyAccepted(z);
      }
    } else {
      assert KeyDecision(z, ErrClient) == KeyConversion(ErrClient, ErrClient, None);
    }
  }

  // ---------------------------------------------------------------------------
  // Hosts
  // ---------------------------------------------------------------------------

  /** One host as `as_config_add_host` / `as_config_tls_add_host` store it. */
  datatype Host = Host(name: string, port: int, tlsName: Option<string>)

  const ADDR_KEY: string := "addr"
  const PORT_KEY: string := "port"
  const TLS_NAME_KEY: string := "tls_name"

  /** One entry of the "hosts" list, checked in source order: an array of two or
      three elements holding "addr" and "port", an optional string "tls_name"
      (looked at only in a three-element array), a string address and an
      integer port, which is cast to `uint16_t`. */
  function HostEntry(z: PVal): (r: Result<Host>)
    ensures r.Failure? ==> r.error == ErrParam
    ensures r.Success? <==>
              && z.PArr? && 2 <= |z.entries| <= 3
              && Field(z, ADDR_KEY).Some? && Field(z, ADDR_KEY).value.PStr?
              && Field(z, PORT_KEY).Some? && Field(z, PORT_KEY).value.PInt?
              && (|z.entries| == 3 && Field(z, TLS_NAME_KEY).Some? ==> Field(z, TLS_NAME_KEY).value.PStr?)
    ensures r.Success? ==>
              && r.value.name == CStr(Field(z, ADDR_KEY).value.s)
              && r.value.port == U16(Field(z, PORT_KEY).value.n) && 0 <= r.value.port < U16_MODULUS
              && r.value.tlsName == (if |z.entries| == 3 && Field(z, TLS_NAME_KEY).Some?
                                     then Some(CStr(Field(z, TLS_NAME_KEY).value.s)) else None)
  {
    if !z.PArr? || |z.entries| < 2 || |z.entries| > 3 then Failure(ErrParam)
    else
      var addr := Field(z, ADDR_KEY);
      var port := Field(z, PORT_KEY);
      if addr.None? || port.None? then Failure(ErrParam)
      else
        var tls := if |z.entries| == 3 then Field(z, TLS_NAME_KEY) else None;
        if tls.Some? && !tls.value.PStr? then Failure(ErrParam)
        else if !addr.value.PStr? then Failure(ErrParam)
        else if !port.value.PInt? then Failure(ErrParam)
        else Success(Host(CStr(addr.value.s), U16(port.value.n), if tls.Some? then Some(CStr(tls.value.s)) else None))
  }

  /** `add_hosts_from_zhash`: the hosts must form a list, and every entry must
      describe a host. */
  function AddHosts(hosts: Entries): (r: Result<seq<Host>>)
    ensures r.Failure? ==> r.error == ErrParam
    ensures r.Success? <==> IsList(hosts) && forall i :: 0 <= i < |hosts| ==> HostEntry(hosts[i].1).Success?
    ensures r.Success? ==> |r.value| == |hosts|
    ensures r.Success? ==> forall i :: 0 <= i < |hosts| ==> r.value[i] == HostEntry(hosts[i].1).value
  {
    if !IsList(hosts) then Failure(ErrParam) else MapAll(Values(hosts), HostEntry)
  }

  /** A host the config array can describe exactly: a name without NUL, a port
      that fits 16 bits, and a NUL-free TLS name if any. */
  predicate Describable(h: Host) {
    NulFree(h.name) && 0 <= h.port < U16_MODULUS && (h.tlsName.Some? ==> NulFree(h.tlsName.value))
  }

  lemma HostKeysPlain()
    ensures PlainName(ADDR_KEY) && PlainName(PORT_KEY) && PlainName(TLS_NAME_KEY)
    ensures ADDR_KEY != PORT_KEY && ADDR_KEY != TLS_NAME_KEY && PORT_KEY != TLS_NAME_KEY
  {
  }

  /** The array a user writes for a host: ["addr" => name, "port" => port], plus
      "tls_name" when there is one. */
  function HostArray(h: Host): (r: PVal)
    ensures r.PArr? && |r.entries| == (if h.tlsName.Some? then 3 else 2)
    ensures Field(r, ADDR_KEY) == Some(PStr(h.name)) && Field(r, PORT_KEY) == Some(PInt(h.port))
    ensures h.tlsName.Some? ==> Field(r, TLS_NAME_KEY) == Some(PStr(h.tlsName.value))
  {
    HostKeysPlain();
    if h.tlsName.Some? then
      var fields := [(ADDR_KEY, PStr(h.name)), (PORT_KEY, PInt(h.port)), (TLS_NAME_KEY, PStr(h.tlsName.value))];
      FieldsOk3(fields[0], fields[1], fields[2]);
      AssocFindAll(fields);
      PArr(Assoc(fields))
    else
      var fields := [(ADDR_KEY, PStr(h.name)), (PORT_KEY, PInt(h.port))];
      FieldsOk2(fields[0], fields[1]);
      AssocFindAll(fields);
      PArr(Assoc(fields))
  }

  lemma HostArrayAccepted(h: Host)
    requires Describable(h)
    ensures HostEntry(HostArray(h)) == Success(h)
  {
    var z := HostArray(h);
    assert HostEntry(z).Success?;
    assert HostEntry(z).value.name == h.name by {
      CStrOfNulFree(h.name);
    }
    assert HostEntry(z).value.tlsName == h.tlsName by {
      if h.tlsName.Some? { CStrOfNulFree(h.tlsName.value); }
    }
  }

  /** Writing hosts out as a list of host arrays and reading them back gives the
      same hosts, in the same order. */
  lemma HostsRoundTrip(hs: seq<Host>)
    requires forall i :: 0 <= i < |hs| ==> Describable(hs[i])
    ensures AddHosts(ListOf(seq(|hs|, i requires 0 <= i < |hs| => HostArray(hs[i]))).entries) == Success(hs)
  {
    var es := ListOf(seq(|hs|, i requires 0 <= i < |hs| => HostArray(hs[i]))).entries;
    forall i | 0 <= i < |es| ensures HostEntry(es[i].1) == Success(hs[i]) {
      HostArrayAccepted(hs[i]);
    }
    assert IsList(es);
    var r := AddHosts(es);
    assert r.Success?;
    assert r.value == hs;
  }

  /** A port beyond 16 bits is kept modulo 65536. */
  lemma PortTruncated(name: string)
    requires NulFree(name)
    ensures HostEntry(HostArray(Host(name, 0x1_0000 + 3000, None))) == Success(Host(name, 3000, None))
  {
    CStrOfNulFree(name);
  }

  // ---------------------------------------------------------------------------
  // The rest of the config array (`set_as_config`)
  // ---------------------------------------------------------------------------

  /** The shared-memory settings of `as_config`. */
  datatype Shm = Shm(use: bool, key: int, maxNodes: int, maxNamespaces: int, takeoverThresholdSec: int)

  /** Which options fan out to which per-command policies. */
  datatype Knob = Timeout | KeyPolicy | ExistsPolicy | RetryPolicy | CommitLevel | Consistency | Replica
  datatype Scope = Global | ReadScope | InfoScope | BatchScope | ScanScope | QueryScope
                 | WriteScope | OperateScope | RemoveScope | ApplyScope

  /** The client-wide defaults the options array can change: the connect timeout,
      one value per knob and policy, and the serializer. */
  datatype Defaults = Defaults(connTimeout: int, setting: (Knob, Scope) -> int, serializer: int)

  /** The part of `as_config` (and of the client object) the constructor fills. */
  datatype ClientConfig = ClientConfig(
    hosts: seq<Host>, shm: Shm, user: string, password: string,
    maxConnsPerNode: int, threadPoolSize: int, compressionThreshold: int, defaults: Defaults)

  const SHM_KEY: string := "shm"
  const SHM_KEY_KEY: string := "shm_key"
  const SHM_MAX_NODES_KEY: string := "shm_max_nodes"
  const SHM_MAX_NAMESPACES_KEY: string := "shm_max_namespaces"
  const SHM_TAKEOVER_KEY: string := "shm_takeover_threshold_sec"
  const USER_KEY: string := "user"
  const PASS_KEY: string := "pass"
  const MAX_THREADS_KEY: string := "max_threads"
  const THREAD_POOL_SIZE_KEY: string := "thread_pool_size"
  const COMPRESSION_THRESHOLD_KEY: string := "compression_threshold"

  /** A setting that, when present, must be an integer. */
  predicate IntSettingOk(z: PVal, name: string) {
    Field(z, name).None? || Field(z, name).value.PInt?
  }

  /** The C type of the `as_config` field a setting is stored into: `shm_key` is an
      `int`, the other integer settings are `uint32_t`. */
  datatype CField = IntField | UInt32Field

  /** Assigning the 64-bit `Z_LVAL_P` to a field of that type. */
  function Narrow(f: CField, n: int): int {
    match f
    case IntField => I32(n)
    case UInt32Field => U32(n)
  }

  /** The value an integer setting leaves in its field: its own, narrowed to the
      field's C type, when present; `dflt` (the ini value) otherwise. */
  function IntSetting(z: PVal, name: string, f: CField, dflt: int): (r: Result<int>)
    ensures r.Success? <==> IntSettingOk(z, name)
    ensures r.Failure? ==> r.error == ErrParam
    ensures r.Success? && Field(z, name).None? ==> r.value == dflt
    ensures r.Success? && Field(z, name).Some? && f == UInt32Field ==>
              r.value == U32(Field(z, name).value.n) && 0 <= r.value < U32_MODULUS
    ensures r.Success? && Field(z, name).Some? && f == IntField ==>
              r.value == I32(Field(z, name).value.n) && -0x8000_0000 <= r.value < 0x8000_0000
  {
    match Field(z, name)
    case None => Success(dflt)
    case Some(v) => if v.PInt? then Success(Narrow(f, v.n)) else Failure(ErrParam)
  }

  /** The "shm" entry: present means shared memory is used; it must then be an
      array whose four settings are integers when present. */
  function ShmSettings(conf: PVal, shm: Shm): (r: Result<Shm>)
    ensures r.Failure? ==> r.error == ErrParam
    ensures Field(conf, SHM_KEY).None? ==> r == Success(shm)
    ensures Field(conf, SHM_KEY).Some? && !Field(conf, SHM_KEY).value.PArr? ==> r == Failure(ErrParam)
    ensures Field(conf, SHM_KEY).Some? && Field(conf, SHM_KEY).value.PArr? ==>
              var s := Field(conf, SHM_KEY).value;
              (r.Success? <==> IntSettingOk(s, SHM_KEY_KEY) && IntSettingOk(s, SHM_MAX_NODES_KEY)
                               && IntSettingOk(s, SHM_MAX_NAMESPACES_KEY) && IntSettingOk(s, SHM_TAKEOVER_KEY))
    ensures r.Success? && Field(conf, SHM_KEY).Some? ==>
              var s := Field(conf, SHM_KEY).value;
              r.value == Shm(true, IntSetting(s, SHM_KEY_KEY, IntField, shm.key).value,
                             IntSetting(s, SHM_MAX_NODES_KEY, UInt32Field, shm.maxNodes).value,
                             IntSetting(s, SHM_MAX_NAMESPACES_KEY, UInt32Field, shm.maxNamespaces).value,
                             IntSetting(s, SHM_TAKEOVER_KEY, UInt32Field, shm.takeoverThresholdSec).value)
  {
    match Field(conf, SHM_KEY)
    case None => Success(shm)
    case Some(s) =>
      if !s.PArr? then Failure(ErrParam)
      else
        var key :- IntSetting(s, SHM_KEY_KEY, IntField, shm.key);
        var nodes :- IntSetting(s, SHM_MAX_NODES_KEY, UInt32Field, shm.maxNodes);
        var namespaces :- IntSetting(s, SHM_MAX_NAMESPACES_KEY, UInt32Field, shm.maxNamespaces);
        var takeover :- IntSetting(s, SHM_TAKEOVER_KEY, UInt32Field, shm.takeoverThresholdSec);
        Success(Shm(true, key, nodes, namespaces, takeover))
  }

  /** "user" must be a string; "pass" is looked at only when "user" is present, must
      then be a string, and only the pair is handed to `as_config_set_user`
      (`setUser`), which may refuse it. A user without a password changes
      nothing. */
  function Credentials(conf: PVal, user: string, password: string, setUser: (string, string) -> bool)
    : (r: Result<(string, string)>)
    ensures r.Failure? ==> r.error == ErrParam
    ensures Field(conf, USER_KEY).None? ==> r == Success((user, password))
    ensures Field(conf, USER_KEY).Some? ==>
              (r.Success? <==> Field(conf, USER_KEY).value.PStr?
                               && (Field(conf, PASS_KEY).Some? ==>
                                     Field(conf, PASS_KEY).value.PStr?
                                     && setUser(CStr(Field(conf, USER_KEY).value.s), CStr(Field(conf, PASS_KEY).value.s))))
    ensures r.Success? && Field(conf, PASS_KEY).None? ==> r.value == (user, password)
    ensures r.Success? && Field(conf, USER_KEY).Some? && Field(conf, PASS_KEY).Some? ==>
              r.value == (CStr(Field(conf, USER_KEY).value.s), CStr(Field(conf, PASS_KEY).value.s))
  {
    match Field(conf, USER_KEY)
    case None => Success((user, password))
    case Some(u) =>
      if !u.PStr? then Failure(ErrParam)
      else match Field(conf, PASS_KEY)
        case None => Success((user, password))
        case Some(p) =>
          if !p.PStr? then Failure(ErrParam)
          else if !setUser(CStr(u.s), CStr(p.s)) then Failure(ErrParam)
          else Success((CStr(u.s), CStr(p.s)))
  }

  /** `set_as_config`, starting from the values `set_as_config_from_ini` put in
      `c`. The ZTS build's forcing of the thread pool size to 0 is not modelled. */
  function SetAsConfig(conf: PVal, c: ClientConfig, setUser: (string, string) -> bool): (r: Result<ClientConfig>)
    ensures r.Failure? ==> r.error == ErrParam
    ensures r.Success? <==>
              && ShmSettings(conf, c.shm).Success?
              && Credentials(conf, c.user, c.password, setUser).Success?
              && IntSettingOk(conf, MAX_THREADS_KEY) && IntSettingOk(conf, THREAD_POOL_SIZE_KEY)
              && IntSettingOk(conf, COMPRESSION_THRESHOLD_KEY)
    ensures r.Success? ==>
              && r.value.hosts == c.hosts && r.value.defaults == c.defaults
              && r.value.shm == ShmSettings(conf, c.shm).value
              && (r.value.user, r.value.password) == Credentials(conf, c.user, c.password, setUser).value
              && r.value.maxConnsPerNode == IntSetting(conf, MAX_THREADS_KEY, UInt32Field, c.maxConnsPerNode).value
              && r.value.threadPoolSize == IntSetting(conf, THREAD_POOL_SIZE_KEY, UInt32Field, c.threadPoolSize).value
              && r.value.compressionThreshold
                 == IntSetting(conf, COMPRESSION_THRESHOLD_KEY, UInt32Field, c.compressionThreshold).value
  {
    var shm :- ShmSettings(conf, c.shm);
    var cred :- Credentials(conf, c.user, c.password, setUser);
    var threads :- IntSetting(conf, MAX_THREADS_KEY, UInt32Field, c.maxConnsPerNode);
    var pool :- IntSetting(conf, THREAD_POOL_SIZE_KEY, UInt32Field, c.threadPoolSize);
    var compression :- IntSetting(conf, COMPRESSION_THRESHOLD_KEY, UInt32Field, c.compressionThreshold);
    Success(c.(shm := shm, user := cred.0, password := cred.1, maxConnsPerNode := threads,
               threadPoolSize := pool, compressionThreshold := compression))
  }

  /** An "shm" entry that is not an array is refused, whatever else the config holds. */
  lemma ShmNotArrayRefused(conf: PVal, c: ClientConfig, setUser: (string, string) -> bool)
    requires Field(conf, SHM_KEY).Some? && !Field(conf, SHM_KEY).value.PArr?
    ensures SetAsConfig(conf, c, setUser) == Failure(ErrParam)
  {
  }

  /** An "shm" array, even an empty one, turns shared memory on. */
  lemma ShmArrayEnables(conf: PVal, c: ClientConfig, setUser: (string, string) -> bool)
    requires Field(conf, SHM_KEY).Some? && Field(conf, SHM_KEY).value.PArr?
    requires SetAsConfig(conf, c, setUser).Success?
    ensures SetAsConfig(conf, c, setUser).value.shm.use
  {
  }

  // ---------------------------------------------------------------------------
  // The options array (`set_policy_defaults_from_hash`)
  // ---------------------------------------------------------------------------

  /** The options the constructor reads, in the order it reads them. */
  datatype DefaultOption = ConnectTimeoutOpt | ReadTimeoutOpt | WriteTimeoutOpt | KeyOpt | ExistsOpt
                         | RetryOpt | CommitLevelOpt | ConsistencyOpt | ReplicaOpt | SerializerOpt

  const OPTION_ORDER: seq<DefaultOption> := [
    ConnectTimeoutOpt, ReadTimeoutOpt, WriteTimeoutOpt, KeyOpt, ExistsOpt,
    RetryOpt, CommitLevelOpt, ConsistencyOpt, ReplicaOpt, SerializerOpt]

  /** The integer key of each option. `OPT_POLICY_CONSISTENCY` has no value in the
      enumeration of option keys, so it is a parameter. */
  function OptionKey(o: DefaultOption, consistencyKey: int): int {
    match o
    case ConnectTimeoutOpt => OPT_CONNECT_TIMEOUT
    case ReadTimeoutOpt => OPT_READ_TIMEOUT
    case WriteTimeoutOpt => OPT_WRITE_TIMEOUT
    case KeyOpt => OPT_POLICY_KEY
    case ExistsOpt => OPT_POLICY_EXISTS
    case RetryOpt => OPT_POLICY_RETRY
    case CommitLevelOpt => OPT_POLICY_COMMIT_LEVEL
    case ConsistencyOpt => consistencyKey
    case ReplicaOpt => OPT_POLICY_REPLICA
    case SerializerOpt => OPT_SERIALIZER
  }

  /** The knob an option sets and the policies it fans out to. */
  function Fanout(o: DefaultOption): (Knob, set<Scope>) {
    match o
    case ReadTimeoutOpt => (Timeout, {ReadScope, InfoScope, BatchScope, ScanScope, QueryScope})
    case WriteTimeoutOpt => (Timeout, {WriteScope, OperateScope, RemoveScope, ApplyScope})
    case KeyOpt => (KeyPolicy, {Global, ReadScope, WriteScope, OperateScope, RemoveScope})
    case ExistsOpt => (ExistsPolicy, {Global, WriteScope})
    case RetryOpt => (RetryPolicy, {Global, WriteScope, OperateScope, RemoveScope})
    case CommitLevelOpt => (CommitLevel, {Global, WriteScope, RemoveScope, OperateScope, ApplyScope})
    case ConsistencyOpt => (Consistency, {Global, ReadScope, OperateScope, BatchScope})
    case ReplicaOpt => (Replica, {Global, ReadScope, OperateScope})
    case _ => (Timeout, {})
  }

  predicate Writes(o: DefaultOption, k: Knob, s: Scope) {
    Fanout(o).0 == k && s in Fanout(o).1
  }

  /** Read the other way round: the one option, if any, that sets a policy's knob. */
  function Writer(k: Knob, s: Scope): Option<DefaultOption> {
    match k
    case Timeout =>
      if s in {ReadScope, InfoScope, BatchScope, ScanScope, QueryScope} then Some(ReadTimeoutOpt)
      else if s == Global then None
      else Some(WriteTimeoutOpt)
    case KeyPolicy => if s in {InfoScope, BatchScope, ScanScope, QueryScope, ApplyScope} then None else Some(KeyOpt)
    case ExistsPolicy => if s in {Global, WriteScope} then Some(ExistsOpt) else None
    case RetryPolicy => if s in {Global, WriteScope, OperateScope, RemoveScope} then Some(RetryOpt) else None
    case CommitLevel => if s in {Global, WriteScope, RemoveScope, OperateScope, ApplyScope} then Some(CommitLevelOpt) else None
    case Consistency => if s in {Global, ReadScope, OperateScope, BatchScope} then Some(ConsistencyOpt) else None
    case Replica => if s in {Global, ReadScope, OperateScope} then Some(ReplicaOpt) else None
  }

  /** The fan-out table and its inverse agree: an option sets a policy's knob
      exactly when it is that knob's writer. */
  lemma FanoutWriter(o: DefaultOption, k: Knob, s: Scope)
    ensures Writes(o, k, s) <==> Writer(k, s) == Some(o)
  {
  }

  /** The read timeout reaches every read-side policy, the write timeout every
      write-side one, and no policy gets both. */
  lemma TimeoutsPartition(s: Scope)
    ensures s != Global ==> (Writes(ReadTimeoutOpt, Timeout, s) <==> !Writes(WriteTimeoutOpt, Timeout, s))
    ensures !Writes(ReadTimeoutOpt, Timeout, Global) && !Writes(WriteTimeoutOpt, Timeout, Global)
  {
  }

  /** What a knob's field holds after being assigned `n`: the timeouts are
      `uint32_t`; the enum-typed fields are given the integer as is. */
  function KnobValue(k: Knob, n: int): int {
    if k == Timeout then U32(n) else n
  }

  /** Setting one option to `n`: `conn_timeout_ms` is a `uint32_t` and
      `serializer_type` an `int`. */
  function ApplyOption(d: Defaults, o: DefaultOption, n: int): (r: Defaults)
    ensures o == ConnectTimeoutOpt ==> r.connTimeout == U32(n)
    ensures o != ConnectTimeoutOpt ==> r.connTimeout == d.connTimeout
    ensures o == SerializerOpt ==> r.serializer == I32(n)
    ensures o != SerializerOpt ==> r.serializer == d.serializer
    ensures forall k, s :: r.setting(k, s) ==
              if Writes(o, k, s) then (if k == Timeout then U32(n) else n) else d.setting(k, s)
  {
    match o
    case ConnectTimeoutOpt => d.(connTimeout := U32(n))
    case SerializerOpt => d.(serializer := I32(n))
    case _ =>
      var (knob, scopes) := Fanout(o);
      var r := d.(setting := (k: Knob, s: Scope) => if k == knob && s in scopes then KnobValue(k, n) else d.setting(k, s));
      assert forall k, s :: r.setting(k, s) ==
               if Writes(o, k, s) then (if k == Timeout then U32(n) else n) else d.setting(k, s) by {
        forall k, s ensures r.setting(k, s) ==
                 if Writes(o, k, s) then (if k == Timeout then U32(n) else n) else d.setting(k, s) {
          assert Writes(o, k, s) <==> k == knob && s in scopes;
          assert r.setting(k, s) == if k == knob && s in scopes then KnobValue(k, n) else d.setting(k, s);
        }
      }
      r
  }

  /** The integer an option supplies, when it is present and an integer. */
  function OptionValue(es: Entries, o: DefaultOption, consistencyKey: int): Option<int> {
    var v := Find(es, IntKey(OptionKey(o, consistencyKey)));
    if v.Some? && v.value.PInt? then Some(v.value.n) else None
  }

  predicate OptionOk(es: Entries, o: DefaultOption, consistencyKey: int) {
    var v := Find(es, IntKey(OptionKey(o, consistencyKey)));
    v.None? || v.value.PInt?
  }

  /** Options `os` read in turn; the first one that is present but not an integer
      stops the walk. */
  function ApplyOptions(es: Entries, os: seq<DefaultOption>, d: Defaults, consistencyKey: int): (r: Result<Defaults>)
    ensures r.Failure? ==> r.error == ErrParam
    ensures r.Failure? ==> exists o :: o in os && !OptionOk(es, o, consistencyKey)
    decreases |os|
  {
    if |os| == 0 then Success(d)
    else
      var v := Find(es, IntKey(OptionKey(os[0], consistencyKey)));
      assert forall o :: o in os[1..] ==> o in os;
      if v.None? then ApplyOptions(es, os[1..], d, consistencyKey)
      else if !v.value.PInt? then assert !OptionOk(es, os[0], consistencyKey); Failure(ErrParam)
      else ApplyOptions(es, os[1..], ApplyOption(d, os[0], v.value.n), consistencyKey)
  }

  /** The value a walk over `os` leaves in one policy's knob: that of the knob's
      writer if the walk reads it and it is there, the starting value otherwise. */
  function SettingAfter(es: Entries, os: seq<DefaultOption>, d: Defaults, consistencyKey: int, k: Knob, s: Scope): int {
    var w := Writer(k, s);
    if w.Some? && w.value in os && OptionValue(es, w.value, consistencyKey).Some?
    then KnobValue(k, OptionValue(es, w.value, consistencyKey).value) else d.setting(k, s)
  }

  /** The step `ApplyOptions` takes for the first option. */
  function StepDefaults(es: Entries, o: DefaultOption, d: Defaults, consistencyKey: int): Defaults {
    var v := Find(es, IntKey(OptionKey(o, consistencyKey)));
    if v.Some? && v.value.PInt? then ApplyOption(d, o, v.value.n) else d
  }

  lemma {:induction false} ApplyOptionsOk(es: Entries, os: seq<DefaultOption>, d: Defaults, consistencyKey: int)
    ensures ApplyOptions(es, os, d, consistencyKey).Success? <==>
              forall o :: o in os ==> OptionOk(es, o, consistencyKey)
    decreases |os|
  {
    if |os| > 0 {
      if !OptionOk(es, os[0], consistencyKey) {
        assert os[0] in os;
      } else {
        assert ApplyOptions(es, os, d, consistencyKey)
            == ApplyOptions(es, os[1..], StepDefaults(es, os[0], d, consistencyKey), consistencyKey);
        ApplyOptionsOk(es, os[1..], StepDefaults(es, os[0], d, consistencyKey), consistencyKey);
        assert forall o :: o in os <==> o == os[0] || o in os[1..];
      }
    }
  }

  lemma {:induction false} ApplyOptionsSetting(es: Entries, os: seq<DefaultOption>, d: Defaults, consistencyKey: int,
                                               k: Knob, s: Scope)
    requires ApplyOptions(es, os, d, consistencyKey).Success?
    ensures ApplyOptions(es, os, d, consistencyKey).value.setting(k, s) == SettingAfter(es, os, d, consistencyKey, k, s)
    ensures var w := Writer(k, s);
            var v := ApplyOptions(es, os, d, consistencyKey).value.setting(k, s);
            if w.Some? && w.value in os && OptionValue(es, w.value, consistencyKey).Some?
            then v == (if k == Timeout then U32(OptionValue(es, w.value, consistencyKey).value)
                       else OptionValue(es, w.value, consistencyKey).value)
            else v == d.setting(k, s)
    decreases |os|
  {
    if |os| > 0 {
      var d' := StepDefaults(es, os[0], d, consistencyKey);
      assert ApplyOptions(es, os, d, consistencyKey) == ApplyOptions(es, os[1..], d', consistencyKey) by {
        assert OptionOk(es, os[0], consistencyKey);
      }
      ApplyOptionsSetting(es, os[1..], d', consistencyKey, k, s);
      SettingAfterStep(es, os, d, consistencyKey, k, s);
    }
  }

  /** One option's step changes a policy's knob only if the option is its writer
      and is present. */
  lemma StepSetting(es: Entries, o: DefaultOption, d: Defaults, consistencyKey: int, k: Knob, s: Scope)
    ensures StepDefaults(es, o, d, consistencyKey).setting(k, s)
         == if Writer(k, s) == Some(o) && OptionValue(es, o, consistencyKey).Some?
            then KnobValue(k, OptionValue(es, o, consistencyKey).value) else d.setting(k, s)
  {
    FanoutWriter(o, k, s);
  }

  /** Reading the first option and then the rest leaves what reading them all does. */
  lemma SettingAfterStep(es: Entries, os: seq<DefaultOption>, d: Defaults, consistencyKey: int, k: Knob, s: Scope)
    requires |os| > 0
    ensures SettingAfter(es, os[1..], StepDefaults(es, os[0], d, consistencyKey), consistencyKey, k, s)
         == SettingAfter(es, os, d, consistencyKey, k, s)
  {
    var w := Writer(k, s);
    StepSetting(es, os[0], d, consistencyKey, k, s);
    assert w.Some? ==> (w.value in os <==> w.value == os[0] || w.value in os[1..]);
  }

  lemma {:induction false} ApplyOptionsScalars(es: Entries, os: seq<DefaultOption>, d: Defaults, consistencyKey: int)
    requires ApplyOptions(es, os, d, consistencyKey).Success?
    ensures var r := ApplyOptions(es, os, d, consistencyKey).value;
              && r.connTimeout == (if ConnectTimeoutOpt in os && OptionValue(es, ConnectTimeoutOpt, consistencyKey).Some?
                                   then U32(OptionValue(es, ConnectTimeoutOpt, consistencyKey).value) else d.connTimeout)
              && r.serializer == (if SerializerOpt in os && OptionValue(es, SerializerOpt, consistencyKey).Some?
                                  then I32(OptionValue(es, SerializerOpt, consistencyKey).value) else d.serializer)
    decreases |os|
  {
    if |os| > 0 {
      var d' := StepDefaults(es, os[0], d, consistencyKey);
      assert ApplyOptions(es, os, d, consistencyKey) == ApplyOptions(es, os[1..], d', consistencyKey);
      ApplyOptionsScalars(es, os[1..], d', consistencyKey);
      assert ConnectTimeoutOpt in os <==> ConnectTimeoutOpt == os[0] || ConnectTimeoutOpt in os[1..];
      assert SerializerOpt in os <==> SerializerOpt == os[0] || SerializerOpt in os[1..];
    }
  }

  /** `set_policy_defaults_from_hash`: no options array changes nothing. */
  function PolicyDefaults(options: Option<Entries>, d: Defaults, consistencyKey: int): (r: Result<Defaults>)
    ensures r.Failure? ==> r.error == ErrParam
    ensures options.None? ==> r == Success(d)
  {
    if options.None? then Success(d) else ApplyOptions(options.value, OPTION_ORDER, d, consistencyKey)
  }

  /** Every recognised option must be an integer; each one sets exactly the knob
      and policies of its fan-out and leaves everything else at its default. */
  lemma PolicyDefaultsFromOptions(es: Entries, d: Defaults, consistencyKey: int)
    ensures PolicyDefaults(Some(es), d, consistencyKey).Success? <==>
              forall o :: OptionOk(es, o, consistencyKey)
    ensures PolicyDefaults(Some(es), d, consistencyKey).Success? ==>
              var r := PolicyDefaults(Some(es), d, consistencyKey).value;
              && (forall k, s :: r.setting(k, s) ==
                    if Writer(k, s).Some? && OptionValue(es, Writer(k, s).value, consistencyKey).Some?
                    then (var n := OptionValue(es, Writer(k, s).value, consistencyKey).value;
                          if k == Timeout then U32(n) else n)
                    else d.setting(k, s))
              && r.connTimeout == (if OptionValue(es, ConnectTimeoutOpt, consistencyKey).Some?
                                   then U32(OptionValue(es, ConnectTimeoutOpt, consistencyKey).value) else d.connTimeout)
              && r.serializer == (if OptionValue(es, SerializerOpt, consistencyKey).Some?
                                  then I32(OptionValue(es, SerializerOpt, consistencyKey).value) else d.serializer)
  {
    ApplyOptionsOk(es, OPTION_ORDER, d, consistencyKey);
    forall o ensures o in OPTION_ORDER {
      EveryOptionRead(o);
    }
    if PolicyDefaults(Some(es), d, consistencyKey).Success? {
      forall k, s ensures PolicyDefaults(Some(es), d, consistencyKey).value.setting(k, s) ==
                    if Writer(k, s).Some? && OptionValue(es, Writer(k, s).value, consistencyKey).Some?
                    then KnobValue(k, OptionValue(es, Writer(k, s).value, consistencyKey).value) else d.setting(k, s) {
        ApplyOptionsSetting(es, OPTION_ORDER, d, consistencyKey, k, s);
      }
      ApplyOptionsScalars(es, OPTION_ORDER, d, consistencyKey);
    }
  }

  /** A negative read timeout is stored as its `uint32_t` residue: -1 becomes
      4294967295 in every read-side policy. */
  lemma NegativeReadTimeoutWraps(d: Defaults, consistencyKey: int)
    ensures var r := PolicyDefaults(Some([(IntKey(OPT_READ_TIMEOUT), PInt(-1))]), d, consistencyKey);
            r.Success? && r.value.setting(Timeout, ReadScope) == 0xFFFF_FFFF
  {
    var es := [(IntKey(OPT_READ_TIMEOUT), PInt(-1))];
    PolicyDefaultsFromOptions(es, d, consistencyKey);
    assert OptionValue(es, ReadTimeoutOpt, consistencyKey) == Some(-1);
  }

  lemma EveryOptionRead(o: DefaultOption)
    ensures o in OPTION_ORDER
  {
    match o
    case ConnectTimeoutOpt => assert OPTION_ORDER[0] == o;
    case ReadTimeoutOpt => assert OPTION_ORDER[1] == o;
    case WriteTimeoutOpt => assert OPTION_ORDER[2] == o;
    case KeyOpt => assert OPTION_ORDER[3] == o;
    case ExistsOpt => assert OPTION_ORDER[4] == o;
    case RetryOpt => assert OPTION_ORDER[5] == o;
    case CommitLevelOpt => assert OPTION_ORDER[6] == o;
    case ConsistencyOpt => assert OPTION_ORDER[7] == o;
    case ReplicaOpt => assert OPTION_ORDER[8] == o;
    case SerializerOpt => assert OPTION_ORDER[9] == o;
  }

  /** The read timeout option sets the read, info, batch, scan and query timeouts;
      the write timeout option sets the write, operate, remove and apply ones. */
  lemma TimeoutFanout(es: Entries, d: Defaults, consistencyKey: int, s: Scope)
    requires PolicyDefaults(Some(es), d, consistencyKey).Success?
    ensures s in {ReadScope, InfoScope, BatchScope, ScanScope, QueryScope} && OptionValue(es, ReadTimeoutOpt, consistencyKey).Some?
            ==> PolicyDefaults(Some(es), d, consistencyKey).value.setting(Timeout, s) == U32(OptionValue(es, ReadTimeoutOpt, consistencyKey).value)
    ensures s in {WriteScope, OperateScope, RemoveScope, ApplyScope} && OptionValue(es, WriteTimeoutOpt, consistencyKey).Some?
            ==> PolicyDefaults(Some(es), d, consistencyKey).value.setting(Timeout, s) == U32(OptionValue(es, WriteTimeoutOpt, consistencyKey).value)
  {
    PolicyDefaultsFromOptions(es, d, consistencyKey);
  }

  // ---------------------------------------------------------------------------
  // The constructor's configuration steps
  // ---------------------------------------------------------------------------

  const HOSTS_KEY: string := "hosts"

  /** `Aerospike::__construct` up to `aerospike_new`: "hosts" must be present and an
      array and pass `add_hosts_from_zhash`; then the config array, then the
      options array. `ini` holds what the ini-file settings put in place. */
  function Configure(config: Entries, options: Option<Entries>, ini: ClientConfig,
                     setUser: (string, string) -> bool, consistencyKey: int): (r: Result<ClientConfig>)
    ensures r.Failure? ==> r.error == ErrParam
    ensures Find(config, StrKey(HOSTS_KEY)).None? ==> r.Failure?
    ensures Find(config, StrKey(HOSTS_KEY)).Some? && !Find(config, StrKey(HOSTS_KEY)).value.PArr? ==> r.Failure?
    ensures r.Success? ==>
              var hosts := Find(config, StrKey(HOSTS_KEY)).value;
              && hosts.PArr? && AddHosts(hosts.entries) == Success(r.value.hosts)
              && PolicyDefaults(options, ini.defaults, consistencyKey).Success?
              && r.value.defaults == PolicyDefaults(options, ini.defaults, consistencyKey).value
    ensures r.Success? ==>
              && SetAsConfig(PArr(config), ini.(hosts := r.value.hosts), setUser).Success?
              && r.value == SetAsConfig(PArr(config), ini.(hosts := r.value.hosts), setUser).value.(defaults := r.value.defaults)
    ensures r.Success? ==>
              var conf := PArr(config);
              && r.value.shm == ShmSettings(conf, ini.shm).value
              && (r.value.user, r.value.password) == Credentials(conf, ini.user, ini.password, setUser).value
              && r.value.maxConnsPerNode == IntSetting(conf, MAX_THREADS_KEY, UInt32Field, ini.maxConnsPerNode).value
              && r.value.threadPoolSize == IntSetting(conf, THREAD_POOL_SIZE_KEY, UInt32Field, ini.threadPoolSize).value
              && r.value.compressionThreshold
                 == IntSetting(conf, COMPRESSION_THRESHOLD_KEY, UInt32Field, ini.compressionThreshold).value
  {
    match Find(config, StrKey(HOSTS_KEY))
    case None => Failure(ErrParam)
    case Some(h) =>
      if !h.PArr? then Failure(ErrParam)
      else
        var hosts :- AddHosts(h.entries);
        var c :- SetAsConfig(PArr(config), ini.(hosts := hosts), setUser);
        var d :- PolicyDefaults(options, c.defaults, consistencyKey);
        Success(c.(defaults := d))
  }
}

=== FILE: commands.dfy ===
/** The record commands `truncate`, `put`, `get`, `getMany` and `existsMany`
    (truncate.c, put.c, get.c, get_many.c, exists_many.c): their argument checks,
    the request each hands to the C client, and how the answer is shaped into
    the PHP out-parameter. Every C-client call is a parameter: a status, or a
    function from the request to the server's answer.
 */
module Commands {
  import opened Errors
  import opened Strings
  import opened Php
  import opened AsValues
  import opened Types
  import opened Policies
  import opened RecordConversions
  import opened ValueConversions

  // ---------------------------------------------------------------------------
  // truncate
  // ---------------------------------------------------------------------------

  /** What `aerospike_truncate` is called with. */
  datatype TruncateRequest = TruncateRequest(ns: string, setName: Option<string>, beforeNanos: nat, policy: Policy)

  /** `Aerospike::truncate` up to the C-client call: `setName` is `None` for a
      null set. The lengths are PHP string lengths. */
  function TruncateRequestOf(ready: Status, ns: string, setName: Option<string>, nanos: int,
                             z: Option<PVal>, dflt: Policy): (r: Result<TruncateRequest>)
    ensures ready != Ok ==> r == Failure(ready)
    ensures ready == Ok ==> (r.Failure? ==> r.error == ErrParam)
    ensures r.Success? <==>
              && ready == Ok && nanos >= 0 && 0 < |ns| < NS_MAX_SIZE
              && (setName.Some? ==> |setName.value| < SET_MAX_SIZE)
              && InfoPolicy(z, dflt).Success?
    ensures r.Success? ==>
              && r.value.ns == CStr(ns) && r.value.beforeNanos == nanos
              && r.value.setName == (if setName.Some? then Some(CStr(setName.value)) else None)
              && r.value.policy == InfoPolicy(z, dflt).value
  {
    if ready != Ok then Failure(ready)
    else if nanos < 0 then Failure(ErrParam)
    else if |ns| == 0 then Failure(ErrParam)
    else if |ns| >= NS_MAX_SIZE then Failure(ErrParam)
    else if setName.Some? && |setName.value| >= SET_MAX_SIZE then Failure(ErrParam)
    else
      var policy :- InfoPolicy(z, dflt);
      Success(TruncateRequest(CStr(ns), if setName.Some? then Some(CStr(setName.value)) else None, nanos, policy))
  }

  /** `Aerospike::truncate`: the status of the checks, or the server's. */
  function Truncate(ready: Status, ns: string, setName: Option<string>, nanos: int,
                    z: Option<PVal>, dflt: Policy, server: TruncateRequest -> Status): (r: Status)
    ensures TruncateRequestOf(ready, ns, setName, nanos, z, dflt).Failure? ==>
              r == TruncateRequestOf(ready, ns, setName, nanos, z, dflt).error
    ensures TruncateRequestOf(ready, ns, setName, nanos, z, dflt).Success? ==>
              r == server(TruncateRequestOf(ready, ns, setName, nanos, z, dflt).value)
  {
    match TruncateRequestOf(ready, ns, setName, nanos, z, dflt)
    case Failure(e) => e
    case Success(req) => server(req)
  }

  /** The bounds are tight: a namespace one byte shorter than
      `AS_NAMESPACE_MAX_SIZE` and a set one byte shorter than `AS_SET_MAX_SIZE`
      pass, one more byte in either fails, and a null set always passes. */
  lemma TruncateBounds(ns: string, setName: string, nanos: nat, dflt: Policy)
    requires |ns| == NS_MAX_SIZE - 1 && |setName| == SET_MAX_SIZE - 1
    ensures TruncateRequestOf(Ok, ns, Some(setName), nanos, None, dflt).Success?
    ensures TruncateRequestOf(Ok, ns, None, nanos, None, dflt).Success?
    ensures TruncateRequestOf(Ok, ns + "x", Some(setName), nanos, None, dflt) == Failure(ErrParam)
    ensures TruncateRequestOf(Ok, ns, Some(setName + "x"), nanos, None, dflt) == Failure(ErrParam)
    ensures TruncateRequestOf(Ok, ns, None, -1, None, dflt) == Failure(ErrParam)
  {
  }

  // ---------------------------------------------------------------------------
  // put
  // ---------------------------------------------------------------------------

  /** What `aerospike_key_put` is called with: `ttl` is `None` when the record
      keeps its default. */
  datatype PutRequest = PutRequest(policy: Policy, key: AsKey, bins: seq<(string, AsVal)>, ttl: Option<int>, generation: int)

  /** The generation of a record fresh from `as_record_new`. */
  const NEW_RECORD_GENERATION: int := 0

  /** A ttl argument `put` accepts: absent, null or an integer. */
  predicate TtlArgumentOk(ttl: Option<PVal>) {
    ttl.None? || ttl.value.PNull? || ttl.value.PInt?
  }

  /** `Aerospike::put` up to the C-client call: `keyEs` is the key array, `bins`
      the record argument, `ttl` and `z` the optional ttl and policy arguments,
      `serializer` the `aerospike.serializer` ini setting. */
  function PutRequestOf(ready: Status, keyEs: Entries, bins: PVal, ttl: Option<PVal>, z: Option<PVal>,
                        dflt: Policy, serializer: int, rt: Runtime): (r: Result<PutRequest>)
    ensures ready != Ok ==> r == Failure(ready)
    ensures ready == Ok && !TtlArgumentOk(ttl) ==> r == Failure(ErrParam)
    ensures ready == Ok && TtlArgumentOk(ttl) && (!bins.PArr? || |bins.entries| == 0) ==> r == Failure(ErrParam)
    ensures ready == Ok && TtlArgumentOk(ttl) && bins.PArr? && |bins.entries| > 0
            && WritePolicy(z, dflt).Success? && KeyFromArray(PArr(keyEs)).Success?
            && SerializerFromPolicy(z, serializer).Success?
            && RecordFromArray(bins.entries, SerializerFromPolicy(z, serializer).value, rt).Failure? ==>
              r == Failure(RecordFromArray(bins.entries, SerializerFromPolicy(z, serializer).value, rt).error)
    ensures r.Success? <==>
              && ready == Ok && TtlArgumentOk(ttl) && bins.PArr? && |bins.entries| > 0
              && WritePolicy(z, dflt).Success? && KeyFromArray(PArr(keyEs)).Success?
              && SerializerFromPolicy(z, serializer).Success?
              && RecordFromArray(bins.entries, SerializerFromPolicy(z, serializer).value, rt).Success?
              && RecordGeneration(z, NEW_RECORD_GENERATION).Success?
    ensures r.Success? ==>
              && r.value.policy == WritePolicy(z, dflt).value
              && r.value.key == KeyFromArray(PArr(keyEs)).value
              && r.value.bins == RecordFromArray(bins.entries, SerializerFromPolicy(z, serializer).value, rt).value
              && r.value.ttl == (if ttl.Some? && ttl.value.PInt? then Some(U32(ttl.value.n)) else None)
              && r.value.generation == RecordGeneration(z, NEW_RECORD_GENERATION).value
    ensures r.Failure? && ready == Ok ==> r.error in {ErrParam, ErrBinName}
  {
    if ready != Ok then Failure(ready)
    else if !TtlArgumentOk(ttl) then Failure(ErrParam)
    else if !bins.PArr? || |bins.entries| == 0 then Failure(ErrParam)
    else if WritePolicy(z, dflt).Failure? then Failure(ErrParam)
    else if KeyFromArray(PArr(keyEs)).Failure? then Failure(ErrParam)
    else if SerializerFromPolicy(z, serializer).Failure? then Failure(ErrParam)
    else
      var record :- RecordFromArray(bins.entries, SerializerFromPolicy(z, serializer).value, rt);
      var t := if ttl.Some? && ttl.value.PInt? then Some(U32(ttl.value.n)) else None;
      if RecordGeneration(z, NEW_RECORD_GENERATION).Failure? then Failure(ErrParam)
      else Success(PutRequest(WritePolicy(z, dflt).value, KeyFromArray(PArr(keyEs)).value, record, t,
                              RecordGeneration(z, NEW_RECORD_GENERATION).value))
  }

  /** A put that gets as far as the server writes every bin of the argument,
      under the name the C client sees. */
  lemma PutWritesEveryBin(ready: Status, keyEs: Entries, bins: PVal, ttl: Option<PVal>, z: Option<PVal>,
                          dflt: Policy, serializer: int, rt: Runtime)
    requires PutRequestOf(ready, keyEs, bins, ttl, z, dflt, serializer, rt).Success?
    ensures var req := PutRequestOf(ready, keyEs, bins, ttl, z, dflt, serializer, rt).value;
      |req.bins| > 0 && forall j :: 0 <= j < |bins.entries| ==> CStr(bins.entries[j].0.s) in BinNames(req.bins)
    ensures var req := PutRequestOf(ready, keyEs, bins, ttl, z, dflt, serializer, rt).value;
      var ser := SerializerFromPolicy(z, serializer).value;
      forall j :: 0 <= j < |bins.entries| && LastOfName(bins.entries, j) ==>
        ToAsVal(bins.entries[j].1, ser, rt).Success? &&
        BinValue(req.bins, CStr(bins.entries[j].0.s)) == Some(ToAsVal(bins.entries[j].1, ser, rt).value)
    ensures var req := PutRequestOf(ready, keyEs, bins, ttl, z, dflt, serializer, rt).value;
      forall n :: NotNamedFrom(bins.entries, 0, n) ==> BinValue(req.bins, n) == None
  {
    var req := PutRequestOf(ready, keyEs, bins, ttl, z, dflt, serializer, rt).value;
    assert CStr(bins.entries[0].0.s) in BinNames(req.bins);
  }

  /** `Aerospike::put`: the status of the checks, or the server's. */
  function Put(ready: Status, keyEs: Entries, bins: PVal, ttl: Option<PVal>, z: Option<PVal>,
               dflt: Policy, serializer: int, rt: Runtime, server: PutRequest -> Status): (r: Status)
    ensures PutRequestOf(ready, keyEs, bins, ttl, z, dflt, serializer, rt).Failure? ==>
              r == PutRequestOf(ready, keyEs, bins, ttl, z, dflt, serializer, rt).error
    ensures PutRequestOf(ready, keyEs, bins, ttl, z, dflt, serializer, rt).Success? ==>
              r == server(PutRequestOf(ready, keyEs, bins, ttl, z, dflt, serializer, rt).value)
  {
    match PutRequestOf(ready, keyEs, bins, ttl, z, dflt, serializer, rt)
    case Failure(e) => e
    case Success(req) => server(req)
  }

  // ---------------------------------------------------------------------------
  // Filter bins, shared by get and getMany
  // ---------------------------------------------------------------------------

  /** One filter entry: a string of at most `AS_BIN_NAME_MAX_LEN` bytes, which
      the C client sees up to its first NUL. */
  function BinNameOf(v: PVal): (r: Result<string>)
    ensures r.Success? <==> v.PStr? && |v.s| <= BIN_NAME_MAX_LEN
    ensures r.Failure? ==> r.error == ErrParam
    ensures r.Success? ==> r.value == CStr(v.s) && |r.value| <= BIN_NAME_MAX_LEN
  {
    if v.PStr? && |v.s| <= BIN_NAME_MAX_LEN then Success(CStr(v.s)) else Failure(ErrParam)
  }

  /** The names of a filter array, in iteration order. */
  function FilterNames(es: Entries): (r: Result<seq<string>>)
    ensures r.Success? <==> forall i :: 0 <= i < |es| ==> es[i].1.PStr? && |es[i].1.s| <= BIN_NAME_MAX_LEN
    ensures r.Failure? ==> r.error == ErrParam
    ensures r.Success? ==> |r.value| == |es|
    ensures r.Success? ==> forall i :: 0 <= i < |es| ==> r.value[i] == CStr(es[i].1.s) && |r.value[i]| <= BIN_NAME_MAX_LEN
  {
    var vs := Values(es);
    var r := MapAll(vs, BinNameOf);
    assert r.Success? <==> forall i :: 0 <= i < |es| ==> BinNameOf(vs[i]).Success?;
    r
  }

  /** `as_get_with_bins`: the filter must also be a list. The names become a
      NULL-terminated `char*` array of one more slot than there are names. */
  function GetBinNames(es: Entries): (r: Result<seq<string>>)
    ensures r.Success? <==> IsList(es) && FilterNames(es).Success?
    ensures r.Failure? ==> r.error == ErrParam
    ensures r.Success? ==> r == FilterNames(es)
  {
    if !IsList(es) then Failure(ErrParam) else FilterNames(es)
  }

  /** A list of short strings is accepted and read back name for name. */
  lemma FilterOfNames(names: seq<string>)
    requires forall i :: 0 <= i < |names| ==> NulFree(names[i]) && |names[i]| <= BIN_NAME_MAX_LEN
    ensures GetBinNames(ListOf(seq(|names|, i requires 0 <= i < |names| => PStr(names[i]))).entries) == Success(names)
  {
    var es := ListOf(seq(|names|, i requires 0 <= i < |names| => PStr(names[i]))).entries;
    forall i | 0 <= i < |names| ensures CStr(es[i].1.s) == names[i] {
      CStrOfNulFree(names[i]);
    }
    assert FilterNames(es).Success?;
    assert FilterNames(es).value == names;
  }

  // ---------------------------------------------------------------------------
  // get
  // ---------------------------------------------------------------------------

  /** What `get` returns and what it leaves in its record out-parameter. */
  datatype Outcome = Outcome(status: Status, value: PVal)

  /** The empty array `get` leaves behind after a failure past its early checks. */
  const EMPTY: PVal := PArr([])

  /** Whether the read policy asks for the user key to be sent, and so shown. */
  predicate ShowsKey(p: Policy) {
    p.key == POLICY_KEY_SEND
  }

  /** `get` after the connection check: `filter` is `None` when absent or null,
      and `fetch` answers `aerospike_key_get` (bins `None`) or
      `aerospike_key_select` (the filter's names) with a status and a record. */
  function GetAfterCheck(keyEs: Entries, filter: Option<PVal>, z: Option<PVal>, dflt: Policy,
                         fetch: (AsKey, Option<seq<string>>, Policy) -> (Status, Record), rt: Runtime): (r: Outcome)
    ensures ReadPolicy(z, dflt).Failure? ==> r == Outcome(ErrParam, PNull)
    ensures ReadPolicy(z, dflt).Success? && KeyFromArray(PArr(keyEs)).Failure? ==> r == Outcome(ErrParam, PNull)
    ensures ReadPolicy(z, dflt).Success? && KeyFromArray(PArr(keyEs)).Success? ==>
              var p := ReadPolicy(z, dflt).value;
              var key := KeyFromArray(PArr(keyEs)).value;
              && (filter.Some? && !filter.value.PArr? ==> r == Outcome(ErrParam, PNull))
              && (filter.Some? && filter.value.PArr? && GetBinNames(filter.value.entries).Failure? ==> r == Outcome(ErrParam, EMPTY))
              && (filter.None? || (filter.value.PArr? && GetBinNames(filter.value.entries).Success?) ==>
                    var bins := if filter.None? then None else Some(GetBinNames(filter.value.entries).value);
                    var (st, rec) := fetch(key, bins, p);
                    && (st != Ok ==> r == Outcome(st, EMPTY))
                    && (st == Ok && RecordToZval(rec, Some(key), ShowsKey(p), rt).Failure? ==>
                          r == Outcome(RecordToZval(rec, Some(key), ShowsKey(p), rt).error, EMPTY))
                    && (st == Ok && RecordToZval(rec, Some(key), ShowsKey(p), rt).Success? ==>
                          r == Outcome(Ok, RecordToZval(rec, Some(key), ShowsKey(p), rt).value)))
    ensures r.status != Ok ==> r.value == PNull || r.value == EMPTY
  {
    if ReadPolicy(z, dflt).Failure? then Outcome(ErrParam, PNull)
    else if KeyFromArray(PArr(keyEs)).Failure? then Outcome(ErrParam, PNull)
    else
      var p := ReadPolicy(z, dflt).value;
      var key := KeyFromArray(PArr(keyEs)).value;
      if filter.Some? && !filter.value.PArr? then Outcome(ErrParam, PNull)
      else if filter.Some? && GetBinNames(filter.value.entries).Failure? then Outcome(ErrParam, EMPTY)
      else
        var bins := if filter.None? then None else Some(GetBinNames(filter.value.entries).value);
        var (st, rec) := fetch(key, bins, p);
        if st != Ok then Outcome(st, EMPTY)
        else match RecordToZval(rec, Some(key), ShowsKey(p), rt)
          case Failure(e) => Outcome(e, EMPTY)
          case Success(v) => Outcome(Ok, v)
  }

  /** `Aerospike::get` as written: a failed connection check is recorded but
      does not stop the call, so the outcome is whatever the rest produces. */
  function GetAsWritten(ready: Status, keyEs: Entries, filter: Option<PVal>, z: Option<PVal>, dflt: Policy,
                        fetch: (AsKey, Option<seq<string>>, Policy) -> (Status, Record), rt: Runtime): (r: Outcome)
    ensures r == GetAfterCheck(keyEs, filter, z, dflt, fetch, rt)
  {
    GetAfterCheck(keyEs, filter, z, dflt, fetch, rt)
  }

  /** `Aerospike::get` returning on a failed connection check, as every other
      command does; `record` is the out-parameter as passed in. */
  function Get(ready: Status, record: PVal, keyEs: Entries, filter: Option<PVal>, z: Option<PVal>, dflt: Policy,
               fetch: (AsKey, Option<seq<string>>, Policy) -> (Status, Record), rt: Runtime): (r: Outcome)
    ensures ready != Ok ==> r == Outcome(ready, record)
    ensures ready == Ok ==> r == GetAsWritten(ready, keyEs, filter, z, dflt, fetch, rt)
  {
    if ready != Ok then Outcome(ready, record)
    else GetAfterCheck(keyEs, filter, z, dflt, fetch, rt)
  }

  /** With the client not connected, `get` as written still reads: well-formed
      arguments and a server that answers make it report success, where the
      corrected `get` reports the failed check and leaves the record alone. */
  lemma GetIgnoresFailedCheck(record: PVal, keyEs: Entries, dflt: Policy, rec: Record, rt: Runtime)
    ensures var fetch := (k: AsKey, b: Option<seq<string>>, p: Policy) => (Ok, rec);
      && GetAsWritten(ErrCluster, keyEs, None, None, dflt, fetch, rt).status != ErrCluster
      && Get(ErrCluster, record, keyEs, None, None, dflt, fetch, rt) == Outcome(ErrCluster, record)
  {
  }

  /** The user key is shown exactly when the read policy sends it. */
  lemma GetShowsKeyWhenSent(ready: Status, record: PVal, keyEs: Entries, filter: Option<PVal>, z: Option<PVal>,
                            dflt: Policy, fetch: (AsKey, Option<seq<string>>, Policy) -> (Status, Record), rt: Runtime)
    requires Get(ready, record, keyEs, filter, z, dflt, fetch, rt).status == Ok
    ensures var key := KeyFromArray(PArr(keyEs)).value;
      var shown := Field(Get(ready, record, keyEs, filter, z, dflt, fetch, rt).value, PK_KEY).value;
      Field(shown, PK_KEY) == PrimaryKeyField(key, ReadPolicy(z, dflt).value.key == POLICY_KEY_SEND)
  {
  }

  // ---------------------------------------------------------------------------
  // Batch keys, shared by getMany and existsMany
  // ---------------------------------------------------------------------------

  /** One key of the batch: a non-array is ERR_PARAM; otherwise
      `z_hashtable_to_as_key`. As written (`asWritten`) a failure it does not
      record leaves `err` at OK, which is what the command then reports. */
  function KeyResult(z: PVal, asWritten: bool): (r: Result<AsKey>)
    ensures r.Success? <==> z.PArr? && KeyFromArray(z).Success?
    ensures r.Success? ==> r.value == KeyFromArray(z).value
    ensures !asWritten ==> Proper(r)
  {
    if !z.PArr? then Failure(ErrParam)
    else if asWritten then
      var c := KeyFromArrayAsWritten(z);
      if c.ret == Ok then Success(c.key.value) else Failure(c.recorded)
    else KeyFromArray(z)
  }

  /** The key loop: keys in iteration order, stopping at the first that fails. */
  function KeysOf(zs: seq<PVal>, asWritten: bool): (r: Result<seq<AsKey>>)
    ensures r.Success? <==> forall i :: 0 <= i < |zs| ==> KeyResult(zs[i], asWritten).Success?
    ensures r.Success? ==> |r.value| == |zs| && forall i :: 0 <= i < |zs| ==> r.value[i] == KeyResult(zs[i], asWritten).value
    ensures r.Failure? ==> exists i :: 0 <= i < |zs| && KeyResult(zs[i], asWritten) == Failure(r.error)
  {
    MapAll(zs, z => KeyResult(z, asWritten))
  }

  /** Every key of a batch converts exactly when each is an array that
      `z_hashtable_to_as_key` accepts; the corrected loop reports a failure
      with a status other than OK. */
  lemma KeysOfSpec(zs: seq<PVal>, asWritten: bool)
    ensures KeysOf(zs, asWritten).Success? <==> forall i :: 0 <= i < |zs| ==> zs[i].PArr? && KeyFromArray(zs[i]).Success?
    ensures KeysOf(zs, asWritten).Success? ==> forall i :: 0 <= i < |zs| ==> KeysOf(zs, asWritten).value[i] == KeyFromArray(zs[i]).value
    ensures !asWritten && KeysOf(zs, asWritten).Failure? ==> KeysOf(zs, asWritten).error != Ok
  {
    var r := KeysOf(zs, asWritten);
    if !asWritten && r.Failure? {
      var i :| 0 <= i < |zs| && KeyResult(zs[i], asWritten) == Failure(r.error);
    }
  }

  // ---------------------------------------------------------------------------
  // getMany
  // ---------------------------------------------------------------------------

  /** The entry `get_many_with_batch_read` makes for a key the server did not
      find: the key, and null metadata and bins. */
  function MissingEntry(key: AsKey): (r: Result<PVal>)
    ensures r.Success? <==> KeyToZval(key, true).Success?
    ensures r.Success? ==>
              && Field(r.value, PK_KEY) == Some(KeyToZval(key, true).value)
              && Field(r.value, "metadata") == Some(PNull) && Field(r.value, "bins") == Some(PNull)
  {
    var k :- KeyToZval(key, true);
    Success(RecordArray(k, PNull, PNull))
  }

  /** The entry for one key of the batch, from the server's answer for it. */
  function BatchEntry(key: AsKey, answer: (Status, Record), rt: Runtime): (r: Result<PVal>)
    ensures r.Failure? ==> r.error == ErrClient
  {
    if answer.0 == ErrRecordNotFound then MissingEntry(key)
    else RecordToZval(answer.1, Some(key), true, rt)
  }

  /** The bins a batch read asks for: the filter's names when it has any. */
  function BatchBins(filter: Option<Entries>): (r: Option<seq<string>>)
    requires filter.Some? && |filter.value| > 0 ==> FilterNames(filter.value).Success?
    ensures r.Some? <==> filter.Some? && |filter.value| > 0
    ensures r.Some? ==> r.value == FilterNames(filter.value).value
  {
    if filter.Some? && |filter.value| > 0 then Some(FilterNames(filter.value).value) else None
  }

  /** The batch read once every key converted: `batch` is what
      `aerospike_batch_read` returns; the entries follow the keys. */
  function BatchRecords(ks: seq<AsKey>, bins: Option<seq<string>>, batch: Status,
                        read: (AsKey, Option<seq<string>>) -> (Status, Record), rt: Runtime): (r: Outcome)
    ensures r.status != Ok ==> r.value == PNull
    ensures batch == Ok && r.status != Ok ==> r.status == ErrClient
    ensures r.status == Ok ==>
              && batch == Ok && r.value.PArr? && |r.value.entries| == |ks|
              && forall i :: 0 <= i < |ks| ==>
                   && BatchEntry(ks[i], read(ks[i], bins), rt).Success?
                   && r.value.entries[i] == (IntKey(i), BatchEntry(ks[i], read(ks[i], bins), rt).value)
  {
    if batch != Ok then Outcome(batch, PNull)
    else match MapAll(ks, (k: AsKey) => BatchEntry(k, read(k, bins), rt))
    case Failure(e) =>
      assert e == ErrClient by {
        var i :| 0 <= i < |ks| && BatchEntry(ks[i], read(ks[i], bins), rt) == Failure(e);
      }
      Outcome(e, PNull)
    case Success(entries) => Outcome(Ok, ListOf(entries))
  }

  /** `Aerospike::getMany` with `get_many_with_batch_read`: `records` is the
      out-parameter as passed in, `filter` the filter array when given,
      `batch` the status of `aerospike_batch_read` and `read` its answer for
      each key given the bins to read. */
  function GetManyWith(asWritten: bool, ready: Status, records: PVal, keys: seq<PVal>, filter: Option<Entries>,
                       z: Option<PVal>, dflt: Policy, batch: Status,
                       read: (AsKey, Option<seq<string>>) -> (Status, Record), rt: Runtime): (r: Outcome)
    ensures ready != Ok ==> r == Outcome(ready, records)
    ensures ready == Ok && BatchPolicy(z, dflt).Failure? ==> r == Outcome(ErrParam, PNull)
    ensures (ready == Ok && BatchPolicy(z, dflt).Success? && filter.Some? && |filter.value| > 0
             && FilterNames(filter.value).Failure?) ==> r == Outcome(ErrParam, PNull)
    ensures ready == Ok && r.status != Ok ==> r.value == PNull
    ensures ready == Ok && r.status == Ok ==>
              r.value.PArr? && (|r.value.entries| == |keys| || (asWritten && r.value.entries == []))
  {
    KeysOfSpec(keys, asWritten);
    if ready != Ok then Outcome(ready, records)
    else if BatchPolicy(z, dflt).Failure? then Outcome(ErrParam, PNull)
    else if filter.Some? && |filter.value| > 0 && FilterNames(filter.value).Failure? then Outcome(ErrParam, PNull)
    else
      match KeysOf(keys, asWritten)
      case Failure(e) => Outcome(e, if e == Ok then EMPTY else PNull)
      case Success(ks) => BatchRecords(ks, BatchBins(filter), batch, read, rt)
  }

  /** `getMany` as written: a key that `z_hashtable_to_as_key` rejects without
      recording it ends the call with OK and an empty list. */
  function GetManyAsWritten(ready: Status, records: PVal, keys: seq<PVal>, filter: Option<Entries>,
                            z: Option<PVal>, dflt: Policy, batch: Status,
                            read: (AsKey, Option<seq<string>>) -> (Status, Record), rt: Runtime): (r: Outcome)
    ensures ready != Ok ==> r == Outcome(ready, records)
  {
    GetManyWith(true, ready, records, keys, filter, z, dflt, batch, read, rt)
  }

  /** `getMany` with every key failure reported. */
  function GetMany(ready: Status, records: PVal, keys: seq<PVal>, filter: Option<Entries>,
                   z: Option<PVal>, dflt: Policy, batch: Status,
                   read: (AsKey, Option<seq<string>>) -> (Status, Record), rt: Runtime): (r: Outcome)
    ensures ready != Ok ==> r == Outcome(ready, records)
    ensures ready == Ok && r.status != Ok ==> r.value == PNull
    ensures ready == Ok && BatchPolicy(z, dflt).Failure? ==> r == Outcome(ErrParam, PNull)
    ensures (ready == Ok && BatchPolicy(z, dflt).Success? && filter.Some? && |filter.value| > 0
             && FilterNames(filter.value).Failure?) ==> r == Outcome(ErrParam, PNull)
  {
    GetManyWith(false, ready, records, keys, filter, z, dflt, batch, read, rt)
  }

  /** A successful `getMany` lists one entry per key, in key order, each made
      from the server's answer for that key read for the filter's bins. */
  lemma GetManyListsEveryKey(ready: Status, records: PVal, keys: seq<PVal>, filter: Option<Entries>,
                             z: Option<PVal>, dflt: Policy, batch: Status,
                             read: (AsKey, Option<seq<string>>) -> (Status, Record), rt: Runtime)
    requires GetMany(ready, records, keys, filter, z, dflt, batch, read, rt).status == Ok
    ensures ready == Ok && batch == Ok && BatchPolicy(z, dflt).Success?
    ensures forall i :: 0 <= i < |keys| ==> keys[i].PArr? && KeyFromArray(keys[i]).Success?
    ensures var r := GetMany(ready, records, keys, filter, z, dflt, batch, read, rt);
      && (filter.Some? && |filter.value| > 0 ==> FilterNames(filter.value).Success?)
      && r.value.PArr? && |r.value.entries| == |keys|
      && forall i :: 0 <= i < |keys| ==>
           var k := KeyFromArray(keys[i]).value;
           r.value.entries[i] == (IntKey(i), BatchEntry(k, read(k, BatchBins(filter)), rt).value)
  {
    KeysOfSpec(keys, false);
    var ks := KeysOf(keys, false).value;
    assert GetMany(ready, records, keys, filter, z, dflt, batch, read, rt) == BatchRecords(ks, BatchBins(filter), batch, read, rt);
  }

  /** A key whose primary key is a double: `getMany` as written reports success
      with no records, while the corrected call reports ERR_CLIENT and leaves
      null. */
  lemma GetManyUnrecordedKeyFailure(dflt: Policy, batch: Status,
                                    read: (AsKey, Option<seq<string>>) -> (Status, Record), rt: Runtime)
    ensures var z := PArr([(StrKey(NAMESPACE_KEY), PStr("test")), (StrKey(SET_KEY), PStr("demo")),
                           (StrKey(PK_KEY), PDouble(1.5))]);
      && GetManyAsWritten(Ok, PNull, [z], None, None, dflt, batch, read, rt) == Outcome(Ok, EMPTY)
      && GetMany(Ok, PNull, [z], None, None, dflt, batch, read, rt) == Outcome(ErrClient, PNull)
  {
    UnsupportedKeyTypeUnrecorded();
    var z := PArr([(StrKey(NAMESPACE_KEY), PStr("test")), (StrKey(SET_KEY), PStr("demo")),
                   (StrKey(PK_KEY), PDouble(1.5))]);
    assert KeyResult(z, true) == Failure(Ok) && KeyResult(z, false) == Failure(ErrClient);
    assert [z][..0] == [];
    assert KeysOf([z], true) == Failure(Ok);
    assert KeysOf([z], false) == Failure(ErrClient);
  }

  // ---------------------------------------------------------------------------
  // existsMany
  // ---------------------------------------------------------------------------

  /** The entry `exists_callback` makes for one result: the key, and the
      record's `{ttl, generation}` when found or null when not. Any other
      result aborts with ERR_CLIENT. */
  function ExistsEntry(key: AsKey, answer: (Status, Record)): (r: Result<PVal>)
    ensures answer.0 != Ok && answer.0 != ErrRecordNotFound ==> r == Failure(ErrClient)
    ensures r.Failure? ==> r.error == ErrClient
    ensures (answer.0 == Ok || answer.0 == ErrRecordNotFound) ==>
              (r.Success? <==> KeyToZval(key, true).Success?)
    ensures r.Success? ==>
              && Field(r.value, PK_KEY) == Some(KeyToZval(key, true).value)
              && Field(r.value, "metadata") == Some(if answer.0 == Ok then Metadata(answer.1) else PNull)
  {
    if answer.0 != Ok && answer.0 != ErrRecordNotFound then Failure(ErrClient)
    else
      var k :- KeyToZval(key, true);
      Success(ExistsArray(k, if answer.0 == Ok then Metadata(answer.1) else PNull))
  }

  /** The `{key, metadata}` array of one `existsMany` entry. */
  function ExistsArray(key: PVal, meta: PVal): (r: PVal)
    ensures Field(r, PK_KEY) == Some(key)
    ensures Field(r, "metadata") == Some(meta)
  {
    var fields := [(PK_KEY, key), ("metadata", meta)];
    AssocFind(fields, 0);
    AssocFind(fields, 1);
    PArr(Assoc(fields))
  }

  /** The batch probe once every key converted: `batch` is what
      `aerospike_batch_exists` returns; the entries follow the keys. */
  function BatchProbe(ks: seq<AsKey>, batch: Status, probe: AsKey -> (Status, Record)): (r: Outcome)
    ensures r.status != Ok ==> r.value == PNull
    ensures batch == Ok && r.status != Ok ==> r.status == ErrClient
    ensures r.status == Ok ==>
              && batch == Ok && r.value.PArr? && |r.value.entries| == |ks|
              && forall i :: 0 <= i < |ks| ==>
                   && probe(ks[i]).0 in {Ok, ErrRecordNotFound}
                   && ExistsEntry(ks[i], probe(ks[i])).Success?
                   && r.value.entries[i] == (IntKey(i), ExistsEntry(ks[i], probe(ks[i])).value)
  {
    if batch != Ok then Outcome(batch, PNull)
    else match MapAll(ks, (k: AsKey) => ExistsEntry(k, probe(k)))
    case Failure(e) => Outcome(e, PNull)
    case Success(entries) => Outcome(Ok, ListOf(entries))
  }

  /** `Aerospike::existsMany`: `metadata` is the out-parameter as passed in,
      `batch` the status of `aerospike_batch_exists` and `probe` its answer for
      each key. */
  function ExistsManyWith(asWritten: bool, ready: Status, metadata: PVal, keys: seq<PVal>, z: Option<PVal>,
                          dflt: Policy, batch: Status, probe: AsKey -> (Status, Record)): (r: Outcome)
    ensures ready != Ok ==> r == Outcome(ready, metadata)
    ensures ready == Ok && BatchPolicy(z, dflt).Failure? ==> r == Outcome(ErrParam, PNull)
    ensures ready == Ok && r.status != Ok ==> r.value == PNull
    ensures ready == Ok && r.status == Ok ==>
              (r.value.PArr? && |r.value.entries| == |keys|) || (asWritten && r.value == PNull)
  {
    KeysOfSpec(keys, asWritten);
    if ready != Ok then Outcome(ready, metadata)
    else if BatchPolicy(z, dflt).Failure? then Outcome(ErrParam, PNull)
    else
      match KeysOf(keys, asWritten)
      case Failure(e) => Outcome(e, PNull)
      case Success(ks) => BatchProbe(ks, batch, probe)
  }

  /** `existsMany` as written: a key rejected without being recorded ends the
      call with OK and null metadata. */
  function ExistsManyAsWritten(ready: Status, metadata: PVal, keys: seq<PVal>, z: Option<PVal>,
                               dflt: Policy, batch: Status, probe: AsKey -> (Status, Record)): (r: Outcome)
    ensures ready != Ok ==> r == Outcome(ready, metadata)
  {
    ExistsManyWith(true, ready, metadata, keys, z, dflt, batch, probe)
  }

  /** `existsMany` with every key failure reported. */
  function ExistsMany(ready: Status, metadata: PVal, keys: seq<PVal>, z: Option<PVal>,
                      dflt: Policy, batch: Status, probe: AsKey -> (Status, Record)): (r: Outcome)
    ensures ready != Ok ==> r == Outcome(ready, metadata)
    ensures ready == Ok && r.status != Ok ==> r.value == PNull
    ensures ready == Ok && BatchPolicy(z, dflt).Failure? ==> r == Outcome(ErrParam, PNull)
  {
    ExistsManyWith(false, ready, metadata, keys, z, dflt, batch, probe)
  }

  /** A successful `existsMany` lists one entry per key, in key order: every key
      was found or not found, and its entry is made from that answer. */
  lemma ExistsManyListsEveryKey(ready: Status, metadata: PVal, keys: seq<PVal>, z: Option<PVal>,
                                dflt: Policy, batch: Status, probe: AsKey -> (Status, Record))
    requires ExistsMany(ready, metadata, keys, z, dflt, batch, probe).status == Ok
    ensures ready == Ok && batch == Ok && BatchPolicy(z, dflt).Success?
    ensures forall i :: 0 <= i < |keys| ==> keys[i].PArr? && KeyFromArray(keys[i]).Success?
    ensures var r := ExistsMany(ready, metadata, keys, z, dflt, batch, probe);
      && r.value.PArr? && |r.value.entries| == |keys|
      && forall i :: 0 <= i < |keys| ==>
           var k := KeyFromArray(keys[i]).value;
           && probe(k).0 in {Ok, ErrRecordNotFound}
           && r.value.entries[i] == (IntKey(i), ExistsEntry(k, probe(k)).value)
  {
    KeysOfSpec(keys, false);
    var ks := KeysOf(keys, false).value;
    assert ExistsMany(ready, metadata, keys, z, dflt, batch, probe) == BatchProbe(ks, batch, probe);
  }

  /** A key whose primary key is a double: `existsMany` as written reports
      success with null metadata, while the corrected call reports ERR_CLIENT. */
  lemma ExistsManyUnrecordedKeyFailure(dflt: Policy, batch: Status, probe: AsKey -> (Status, Record))
    ensures var z := PArr([(StrKey(NAMESPACE_KEY), PStr("test")), (StrKey(SET_KEY), PStr("demo")),
                           (StrKey(PK_KEY), PDouble(1.5))]);
      && ExistsManyAsWritten(Ok, PNull, [z], None, dflt, batch, probe) == Outcome(Ok, PNull)
      && ExistsMany(Ok, PNull, [z], None, dflt, batch, probe) == Outcome(ErrClient, PNull)
  {
    UnsupportedKeyTypeUnrecorded();
    var z := PArr([(StrKey(NAMESPACE_KEY), PStr("test")), (StrKey(SET_KEY), PStr("demo")),
                   (StrKey(PK_KEY), PDouble(1.5))]);
    assert KeyResult(z, true) == Failure(Ok) && KeyResult(z, false) == Failure(ErrClient);
    assert [z][..0] == [];
    assert KeysOf([z], true) == Failure(Ok);
    assert KeysOf([z], false) == Failure(ErrClient);
  }

  /** A result other than found or not found, for any key, aborts the whole
      call with ERR_CLIENT and null metadata. */
  lemma ExistsManyAbortsOnFailedKey(metadata: PVal, keys: seq<PVal>, dflt: Policy,
                                    probe: AsKey -> (Status, Record), i: nat)
    requires forall j :: 0 <= j < |keys| ==> keys[j].PArr? && KeyFromArray(keys[j]).Success?
    requires i < |keys| && probe(KeyFromArray(keys[i]).value).0 !in {Ok, ErrRecordNotFound}
    ensures ExistsMany(Ok, metadata, keys, None, dflt, Ok, probe).status == ErrClient
    ensures ExistsMany(Ok, metadata, keys, None, dflt, Ok, probe).value == PNull
  {
    KeysOfSpec(keys, false);
    var ks := KeysOf(keys, false).value;
    assert ks[i] == KeyFromArray(keys[i]).value;
    assert ExistsMany(Ok, metadata, keys, None, dflt, Ok, probe) == BatchProbe(ks, Ok, probe);
  }
}

=== FILE: errors.dfy ===
/** Status codes of the Aerospike C client as seen by the PHP extension, and the
    failure-compatible wrappers every validator and converter of this model returns.

    Only the codes the extension itself produces are named; every status that can
    only come back from the server or from a C-client call is `ErrServer`.
 */
module Errors {

  /** `as_status` values that the extension sets or tests. */
  datatype Status =
    | Ok
    | ErrParam
    | ErrClient
    | ErrBinName
    | ErrUdf
    | ErrUdfNotFound
    | ErrLuaFileNotFound
    | ErrCluster
    | ErrRecordNotFound
    | ErrServer(code: int)

  /** The conventional Some/None datatype, used for optional fields and PHP hash lookups. */
  datatype Option<+T> = None | Some(value: T) {

    predicate IsFailure() {
      None?
    }

    function PropagateFailure<U>(): Option<U>
      requires None?
    {
      None
    }

    function Extract(): T
      requires Some?
    {
      value
    }
  }

  /** Either a value or the `as_status` an operation failed with. */
  datatype Result<+T> = Success(value: T) | Failure(error: Status) {

    predicate IsFailure() {
      Failure?
    }

    function PropagateFailure<U>(): Result<U>
      requires Failure?
    {
      Failure(error)
    }

    function Extract(): T
      requires Success?
    {
      value
    }

    /** The status an `as_error` holds after the operation: `Ok` on success. */
    function StatusOf(): Status {
      match this
      case Success(_) => Ok
      case Failure(e) => e
    }
  }

  /** A result that never carries `Ok` as its failure code. */
  predicate Proper<T>(r: Result<T>) {
    r.Failure? ==> r.error != Ok
  }

  /** The keys of an association list, in order. */
  function Firsts<K, V>(es: seq<(K, V)>): (r: seq<K>)
    ensures |r| == |es|
    ensures forall i :: 0 <= i < |es| ==> r[i] == es[i].0
  {
    seq(|es|, i requires 0 <= i < |es| => es[i].0)
  }

  lemma FirstsCons<K, V>(e: (K, V), es: seq<(K, V)>)
    ensures Firsts([e] + es) == [e.0] + Firsts(es)
  {
    var a := Firsts([e] + es);
    forall i | 0 <= i < |a| ensures a[i] == ([e.0] + Firsts(es))[i] {
      if i > 0 { assert ([e] + es)[i] == es[i - 1]; }
    }
  }

  /** The position of the first entry whose key is `k`. */
  function FirstIndex<K(==), V>(es: seq<(K, V)>, k: K): (r: nat)
    requires k in Firsts(es)
    ensures r < |es| && es[r].0 == k
    ensures forall j :: 0 <= j < r ==> es[j].0 != k
  {
    if es[0].0 == k then 0
    else
      FirstsTail(es, k);
      FirstIndex(es[1..], k) + 1
  }

  lemma FirstsTail<K, V>(es: seq<(K, V)>, k: K)
    requires k in Firsts(es) && es[0].0 != k
    ensures k in Firsts(es[1..])
  {
    var i :| 0 <= i < |es| && Firsts(es)[i] == k;
    assert Firsts(es[1..])[i - 1] == k;
  }

  /** `f` applied to each element in order; the first failure stops the walk and
      is what the walk fails with. */
  function MapAll<A, B>(xs: seq<A>, f: A -> Result<B>): (r: Result<seq<B>>)
    ensures r.Success? <==> forall i :: 0 <= i < |xs| ==> f(xs[i]).Success?
    ensures r.Success? ==> |r.value| == |xs| && forall i :: 0 <= i < |xs| ==> r.value[i] == f(xs[i]).value
    ensures r.Failure? ==> exists i :: 0 <= i < |xs| && f(xs[i]) == Failure(r.error)
  {
    if |xs| == 0 then Success([])
    else
      var front :- MapAll(xs[..|xs| - 1], f);
      var last :- f(xs[|xs| - 1]);
      Success(front + [last])
  }

  /** A walk that stops at the first element satisfying `p`. */
  function Any<A>(xs: seq<A>, p: A -> bool): (r: bool)
    ensures r <==> exists i :: 0 <= i < |xs| && p(xs[i])
  {
    if |xs| == 0 then false
    else
      assert forall i :: 0 <= i < |xs| - 1 ==> xs[..|xs| - 1][i] == xs[i];
      Any(xs[..|xs| - 1], p) || p(xs[|xs| - 1])
  }

  /** `f` applied to each element in order, stopping before the first element it
      maps to `None`; the results made before it are kept. */
  function MapWhile<A, B>(xs: seq<A>, f: A -> Option<B>): (r: seq<B>)
    ensures |r| <= |xs|
    ensures forall i :: 0 <= i < |r| ==> f(xs[i]) == Some(r[i])
    ensures |r| < |xs| ==> f(xs[|r|]).None?
  {
    if |xs| == 0 then []
    else match f(xs[0])
      case None => []
      case Some(y) => [y] + MapWhile(xs[1..], f)
  }
}

=== FILE: info.dfy ===
/** `Aerospike::info` and `Aerospike::infoMany` (info.c): which host a single
    info request goes to, the host-list filter of `infoMany`, and the response
    array its per-node callback builds.
 */
module Info {
  import opened Errors
  import opened Strings
  import opened Php
  import opened Policies
  import opened Client

  /** `AS_HOSTNAME_SIZE`, the C client's buffer for a "host:port" text. */
  const HOSTNAME_SIZE: nat := 256

  // ---------------------------------------------------------------------------
  // Host lists
  // ---------------------------------------------------------------------------

  /** A filter entry: an array of exactly two elements, a string "addr" and an
      integer "port". */
  predicate HostPair(z: PVal) {
    && z.PArr? && |z.entries| == 2
    && Field(z, ADDR_KEY).Some? && Field(z, ADDR_KEY).value.PStr?
    && Field(z, PORT_KEY).Some? && Field(z, PORT_KEY).value.PInt?
  }

  predicate AllPairs(hosts: Entries) {
    forall i :: 0 <= i < |hosts| ==> HostPair(hosts[i].1)
  }

  /** What `is_valid_hosts_list` accepts: a "hosts" array of host pairs. */
  predicate ValidHostsList(outer: Entries) {
    var h := Find(outer, StrKey(HOSTS_KEY));
    h.Some? && h.value.PArr? && AllPairs(h.value.entries)
  }

  /** `is_valid_hosts_list`, walking the entries and stopping at the first bad one. */
  method IsValidHostsList(outer: Entries) returns (valid: bool)
    ensures valid <==> ValidHostsList(outer)
  {
    var h := Find(outer, StrKey(HOSTS_KEY));
    if h.None? || !h.value.PArr? {
      return false;
    }
    var hosts := h.value.entries;
    var i := 0;
    while i < |hosts|
      invariant 0 <= i <= |hosts|
      invariant forall j :: 0 <= j < i ==> HostPair(hosts[j].1)
    {
      var pair := hosts[i].1;
      if !pair.PArr? || |pair.entries| != 2 {
        return false;
      }
      var addr := Field(pair, ADDR_KEY);
      var port := Field(pair, PORT_KEY);
      if addr.None? || port.None? {
        return false;
      }
      if !addr.value.PStr? || !port.value.PInt? {
        return false;
      }
      i := i + 1;
    }
    valid := true;
  }

  /** A list-shaped filter is also a hosts list the constructor accepts: every pair
      reads as a host without a TLS name. */
  lemma FilterHostsConfigure(outer: Entries)
    requires ValidHostsList(outer) && IsList(Find(outer, StrKey(HOSTS_KEY)).value.entries)
    ensures var hosts := Find(outer, StrKey(HOSTS_KEY)).value.entries;
      && AddHosts(hosts).Success?
      && forall i :: 0 <= i < |hosts| ==>
           AddHosts(hosts).value[i].tlsName.None?
           && AddHosts(hosts).value[i].name == CStr(Field(hosts[i].1, ADDR_KEY).value.s)
  {
  }

  /** A filter entry's address and port; the walk reads nothing else. */
  type Pair = (string, int)

  function PairOf(z: PVal): (r: Pair)
    requires HostPair(z)
  {
    (Field(z, ADDR_KEY).value.s, Field(z, PORT_KEY).value.n)
  }

  /** The pairs of a validated "hosts" array, in iteration order. */
  function Pairs(hosts: Entries): (r: seq<Pair>)
    requires AllPairs(hosts)
    ensures |r| == |hosts| && forall i :: 0 <= i < |hosts| ==> r[i] == PairOf(hosts[i].1)
  {
    seq(|hosts|, i requires 0 <= i < |hosts| && AllPairs(hosts) => PairOf(hosts[i].1))
  }

  /** The "addr:port" text `snprintf` leaves in the buffer: cut to
      `HOSTNAME_SIZE - 1` characters. */
  function HostBuffer(p: Pair): (r: string)
    ensures |r| < HOSTNAME_SIZE && NulFree(r)
  {
    var a := CStr(p.0);
    var full := a + ":" + IntToDecimal(p.1);
    assert NulFree(full) by {
      assert forall k :: 0 <= k < |IntToDecimal(p.1)| ==> IntToDecimal(p.1)[k] == '-' || IsDigit(IntToDecimal(p.1)[k]);
      assert forall k :: 0 <= k < |full| ==> (k < |a| && full[k] == a[k]) || full[k] == ':' || full[k] == IntToDecimal(p.1)[k - |a| - 1];
    }
    if |full| < HOSTNAME_SIZE then full else full[..HOSTNAME_SIZE - 1]
  }

  /** A filter entry whose "addr:port" text equals an address string, as `strcmp`
      compares them. */
  predicate Names(p: Pair, address: string) {
    HostBuffer(p) == CStr(address)
  }

  /** `node_in_hosts_list`: some pair names the node's address string. */
  function NodeInHostsList(address: string, pairs: seq<Pair>): (r: bool)
    ensures r <==> exists i :: 0 <= i < |pairs| && Names(pairs[i], address)
  {
    Any(pairs, p => Names(p, address))
  }

  /** The text of a short host name and a 16-bit port is written whole. */
  lemma BufferOfHost(name: string, port: nat)
    requires NulFree(name) && |name| + 6 < HOSTNAME_SIZE && port < U16_MODULUS
    ensures HostBuffer((name, port)) == name + ":" + NatToDigits(port)
    ensures NulFree(name + ":" + NatToDigits(port))
  {
    CStrOfNulFree(name);
    PortWidth(port);
    var full := name + ":" + NatToDigits(port);
    assert forall k :: 0 <= k < |NatToDigits(port)| ==> IsDigit(NatToDigits(port)[k]);
    assert forall k :: 0 <= k < |full| ==> (k < |name| && full[k] == name[k]) || full[k] == ':' || full[k] == NatToDigits(port)[k - |name| - 1];
  }

  /** A node is picked by a filter entry naming its address and port. */
  lemma NodeOfListedHostIncluded(pairs: seq<Pair>, i: nat, name: string, port: nat)
    requires i < |pairs| && pairs[i] == (name, port)
    requires NulFree(name) && |name| + 6 < HOSTNAME_SIZE && port < U16_MODULUS
    ensures NodeInHostsList(name + ":" + NatToDigits(port), pairs)
  {
    var full := name + ":" + NatToDigits(port);
    BufferOfHost(name, port);
    CStrOfNulFree(full);
    assert Names(pairs[i], full);
  }

  // ---------------------------------------------------------------------------
  // infoMany
  // ---------------------------------------------------------------------------

  /** A cluster node: its name and its "host:port" address string. */
  datatype Node = Node(name: string, address: string)

  /** One call of the per-node callback: the node (null is `None`) and its
      response (null is `None`). */
  datatype NodeReply = NodeReply(node: Option<Node>, res: Option<string>)

  /** The callback keeps a node's response when there is no filter or the filter
      lists the node. */
  predicate Included(n: Node, filter: Option<seq<Pair>>)
  {
    filter.None? || NodeInHostsList(n.address, filter.value)
  }

  /** A response as stored: the string, or null for no response. */
  function ResponseValue(res: Option<string>): PVal {
    if res.Some? then PStr(CStr(res.value)) else PNull
  }

  /** `AerospikeClient_Info_each`: a null node stops the iteration with
      ERR_CLIENT; otherwise the response is filed under the node name if the node
      is included. Returns whether to go on, the status, and the array. */
  function InfoEach(reply: NodeReply, filter: Option<seq<Pair>>, responses: Entries): (r: (bool, Status, Entries))
    ensures r.0 <==> reply.node.Some?
    ensures r.1 == if reply.node.Some? then Ok else ErrClient
    ensures reply.node.None? || !Included(reply.node.value, filter) ==> r.2 == responses
    ensures reply.node.Some? && Included(reply.node.value, filter) ==>
              Find(r.2, SymKey(CStr(reply.node.value.name))) == Some(ResponseValue(reply.res))
  {
    match reply.node
    case None => (false, ErrClient, responses)
    case Some(n) =>
      if Included(n, filter) then (true, Ok, AddAssoc(responses, n.name, ResponseValue(reply.res)))
      else (true, Ok, responses)
  }

  /** The callback leaves every other node's entry alone. */
  lemma InfoEachKeepsOthers(reply: NodeReply, filter: Option<seq<Pair>>, responses: Entries, k: PKey)
    requires reply.node.Some? && k != SymKey(CStr(reply.node.value.name))
    ensures Find(InfoEach(reply, filter, responses).2, k) == Find(responses, k)
  {
  }

  /** The replies the callback sees before the first null node. */
  function UpToNull(replies: seq<NodeReply>): (r: seq<NodeReply>)
    ensures r <= replies
    ensures forall i :: 0 <= i < |r| ==> r[i].node.Some?
    ensures |r| < |replies| ==> replies[|r|].node.None?
  {
    if |replies| == 0 || replies[0].node.None? then []
    else [replies[0]] + UpToNull(replies[1..])
  }

  /** Independent reference: keep the included replies, then file each one. */
  function Collect(replies: seq<NodeReply>, filter: Option<seq<Pair>>): Entries
    requires forall i :: 0 <= i < |replies| ==> replies[i].node.Some?
  {
    if |replies| == 0 then []
    else
      var front := Collect(replies[..|replies| - 1], filter);
      var n := replies[|replies| - 1].node.value;
      if Included(n, filter) then AddAssoc(front, n.name, ResponseValue(replies[|replies| - 1].res)) else front
  }

  /** A reply the callback files under key `k`. */
  predicate FiledUnder(reply: NodeReply, filter: Option<seq<Pair>>, k: PKey) {
    reply.node.Some? && Included(reply.node.value, filter) && SymKey(CStr(reply.node.value.name)) == k
  }

  /** The reference files each reply as the callback would. */
  lemma CollectByCallback(replies: seq<NodeReply>, filter: Option<seq<Pair>>, i: nat)
    requires i < |replies| && forall j :: 0 <= j <= i ==> replies[j].node.Some?
    ensures Collect(replies[..i + 1], filter) == InfoEach(replies[i], filter, Collect(replies[..i], filter)).2
  {
    var upTo := replies[..i + 1];
    assert forall j :: 0 <= j < |upTo| ==> upTo[j] == replies[j];
    assert upTo[..i] == replies[..i];
  }

  /** Filing one more reply adds at most its own key. */
  lemma CollectStep(replies: seq<NodeReply>, filter: Option<seq<Pair>>, k: PKey)
    requires |replies| > 0 && forall i :: 0 <= i < |replies| ==> replies[i].node.Some?
    ensures HasKey(Collect(replies, filter), k) <==>
              HasKey(Collect(replies[..|replies| - 1], filter), k) || FiledUnder(replies[|replies| - 1], filter, k)
  {
    var last := replies[|replies| - 1];
    var before := Collect(replies[..|replies| - 1], filter);
    if Included(last.node.value, filter) {
      var key := SymKey(CStr(last.node.value.name));
      assert Collect(replies, filter) == Update(before, key, ResponseValue(last.res));
      if k != key {
        assert Find(Collect(replies, filter), k) == Find(before, k);
      }
    }
  }

  /** The array holds an entry for a key exactly when some included node's name is
      filed under that key. */
  lemma {:induction false} CollectKeys(replies: seq<NodeReply>, filter: Option<seq<Pair>>, k: PKey)
    requires forall i :: 0 <= i < |replies| ==> replies[i].node.Some?
    ensures HasKey(Collect(replies, filter), k) <==> Any(replies, r => FiledUnder(r, filter, k))
    ensures HasKey(Collect(replies, filter), k) <==> exists i :: 0 <= i < |replies| && FiledUnder(replies[i], filter, k)
  {
    if |replies| > 0 {
      var front := replies[..|replies| - 1];
      assert forall i :: 0 <= i < |front| ==> front[i].node.Some?;
      CollectKeys(front, filter, k);
      CollectStep(replies, filter, k);
    }
  }

  /** `aerospike_info_foreach` driving the callback over the replies in order until
      it returns false. */
  method InfoForeach(replies: seq<NodeReply>, filter: Option<seq<Pair>>) returns (status: Status, responses: Entries)
    ensures status == Ok <==> forall i :: 0 <= i < |replies| ==> replies[i].node.Some?
    ensures status == Ok || status == ErrClient
    ensures responses == Collect(UpToNull(replies), filter)
  {
    status := Ok;
    responses := [];
    var i := 0;
    while i < |replies|
      invariant 0 <= i <= |replies|
      invariant forall j :: 0 <= j < i ==> replies[j].node.Some?
      invariant responses == Collect(replies[..i], filter)
    {
      var step := InfoEach(replies[i], filter, responses);
      if !step.0 {
        status := step.1;
        UpToNullAt(replies, i);
        return;
      }
      CollectByCallback(replies, filter, i);
      responses := step.2;
      i := i + 1;
    }
    UpToNullAt(replies, i);
  }

  /** The replies before the first null node, located. */
  lemma {:induction false} UpToNullAt(replies: seq<NodeReply>, i: nat)
    requires i <= |replies| && forall j :: 0 <= j < i ==> replies[j].node.Some?
    requires i < |replies| ==> replies[i].node.None?
    ensures UpToNull(replies) == replies[..i]
  {
    if i > 0 {
      assert replies[0].node.Some?;
      UpToNullAt(replies[1..], i - 1);
      assert replies[..i] == [replies[0]] + replies[1..][..i - 1];
    }
  }

  /** What `infoMany` returns: the responses array, or null. */
  datatype InfoManyResult = InfoManyResult(status: Status, value: PVal)

  /** `Aerospike::infoMany`: `ready` is the object-and-connection check, `filterHosts`
      the optional filter array, `policy` the optional options, `replies` the
      callback calls the C client makes and `clusterErr` the status it reports
      when the callback never stopped it. */
  method InfoMany(ready: Status, filterHosts: Option<Entries>, policy: Option<PVal>, dflt: Policy,
                  replies: seq<NodeReply>, clusterErr: Status)
    returns (r: InfoManyResult)
    ensures r.value.PNull? <==> r.status != Ok
    ensures ready != Ok ==> r == InfoManyResult(ready, PNull)
    ensures ready == Ok && filterHosts.Some? && !ValidHostsList(filterHosts.value) ==> r == InfoManyResult(ErrParam, PNull)
    ensures ready == Ok && (filterHosts.None? || ValidHostsList(filterHosts.value)) && InfoPolicy(policy, dflt).Failure? ==>
              r == InfoManyResult(ErrParam, PNull)
    ensures r.status == Ok ==>
              && ready == Ok && clusterErr == Ok && InfoPolicy(policy, dflt).Success?
              && (forall i :: 0 <= i < |replies| ==> replies[i].node.Some?)
              && (filterHosts.Some? ==> ValidHostsList(filterHosts.value))
              && r.value == PArr(Collect(replies, if filterHosts.Some?
                                                  then Some(Pairs(Find(filterHosts.value, StrKey(HOSTS_KEY)).value.entries))
                                                  else None))
    ensures (&& ready == Ok && (filterHosts.None? || ValidHostsList(filterHosts.value)) && InfoPolicy(policy, dflt).Success?
             && exists i :: 0 <= i < |replies| && replies[i].node.None?) ==> r == InfoManyResult(ErrClient, PNull)
  {
    if ready != Ok {
      return InfoManyResult(ready, PNull);
    }
    var filter: Option<seq<Pair>> := None;
    if filterHosts.Some? {
      var valid := IsValidHostsList(filterHosts.value);
      if !valid {
        return InfoManyResult(ErrParam, PNull);
      }
      // The second look-up of "hosts" cannot fail once the list was validated.
      filter := Some(Pairs(Find(filterHosts.value, StrKey(HOSTS_KEY)).value.entries));
    }
    if InfoPolicy(policy, dflt).Failure? {
      return InfoManyResult(ErrParam, PNull);
    }
    var status, responses := InfoForeach(replies, filter);
    if status != Ok {
      return InfoManyResult(status, PNull);
    }
    assert UpToNull(replies) == replies;
    if clusterErr != Ok {
      return InfoManyResult(clusterErr, PNull);
    }
    r := InfoManyResult(Ok, PArr(responses));
  }

  // ---------------------------------------------------------------------------
  // info
  // ---------------------------------------------------------------------------

  /** The host and port a single info request goes to: the first configured host,
      unless a destination array gives a string "addr" and an integer "port". */
  function Destination(first: Host, destination: Option<Entries>): (r: Result<(string, int)>)
    ensures destination.None? ==> r == Success((first.name, first.port))
    ensures r.Failure? ==> r.error == ErrParam
    ensures destination.Some? ==>
              var d := PArr(destination.value);
              && (r.Success? <==> Field(d, ADDR_KEY).Some? && Field(d, ADDR_KEY).value.PStr?
                                  && Field(d, PORT_KEY).Some? && Field(d, PORT_KEY).value.PInt?)
              && (r.Success? ==> r.value == (CStr(Field(d, ADDR_KEY).value.s), U16(Field(d, PORT_KEY).value.n)))
  {
    match destination
    case None => Success((first.name, first.port))
    case Some(es) =>
      var d := PArr(es);
      var addr := Field(d, ADDR_KEY);
      if addr.None? || !addr.value.PStr? then Failure(ErrParam)
      else
        var port := Field(d, PORT_KEY);
        if port.None? || !port.value.PInt? then Failure(ErrParam)
        else Success((CStr(addr.value.s), U16(port.value.n)))
  }

  /** Naming the first configured host as the destination changes nothing. */
  lemma DestinationOfFirstHost(first: Host)
    requires Describable(first) && first.tlsName.None?
    ensures Destination(first, Some(HostArray(first).entries)) == Destination(first, None)
  {
    CStrOfNulFree(first.name);
  }

  /** What `info` returns and what it leaves in its response argument. */
  datatype InfoResult = InfoResult(status: Status, response: PVal)

  /** `Aerospike::info`: `response` is the argument's value on entry (left alone
      when the object check fails); `infoHost` is `aerospike_info_host`, given the
      host, port and policy, returning its status and the response text. */
  function Info(ready: Status, response: PVal, first: Host, destination: Option<Entries>, policy: Option<PVal>,
                dflt: Policy, infoHost: (string, int, Policy) -> (Status, Option<string>)): (r: InfoResult)
    ensures ready != Ok ==> r == InfoResult(ready, response)
    ensures ready == Ok && r.status != Ok ==> r.response == PNull
    ensures ready == Ok && InfoPolicy(policy, dflt).Failure? ==> r == InfoResult(ErrParam, PNull)
    ensures ready == Ok && InfoPolicy(policy, dflt).Success? && Destination(first, destination).Failure? ==>
              r == InfoResult(ErrParam, PNull)
    ensures r.status == Ok ==>
              && ready == Ok && InfoPolicy(policy, dflt).Success? && Destination(first, destination).Success?
              && var to := Destination(first, destination).value;
                 var got := infoHost(to.0, to.1, InfoPolicy(policy, dflt).value);
                 got.0 == Ok && r.response == ResponseValue(got.1)
  {
    if ready != Ok then InfoResult(ready, response)
    else match InfoPolicy(policy, dflt)
      case Failure(_) => InfoResult(ErrParam, PNull)
      case Success(p) =>
        match Destination(first, destination)
        case Failure(e) => InfoResult(e, PNull)
        case Success(to) =>
          var got := infoHost(to.0, to.1, p);
          if got.0 != Ok then InfoResult(got.0, PNull) else InfoResult(Ok, ResponseValue(got.1))
  }
}

=== FILE: listops.dfy ===
/** The list methods of the client (list_operations.c): `listSize`, `listAppend`,
    `listMerge`, `listInsert`, `listInsertItems`, `listPop`, `listPopRange`,
    `listRemove`, `listRemoveRange`, `listTrim`, `listClear`, `listSet`, `listGet`
    and `listGetRange`. Each checks the bin name, converts the key and the
    operate policy, takes the generation and TTL from the policy, converts its
    values, sends one list operation and shapes what comes back. The call to
    `aerospike_key_operate` is a parameter that gives its status and record.
 */
module ListOperations {
  import opened Errors
  import opened Strings
  import opened Php
  import opened AsValues
  import opened Types
  import opened ValueConversions
  import opened Policies
  import opened RecordConversions
  import opened Operate
  import opened Commands

  /** The arguments each method takes after the key and the bin name. The item
      arrays of `listMerge` and `listInsertItems` are parsed as arrays. */
  datatype ListCall =
    | SizeCall
    | AppendCall(value: PVal)
    | MergeCall(items: Entries)
    | InsertCall(index: int, value: PVal)
    | InsertItemsCall(index: int, items: Entries)
    | PopCall(index: int)
    | PopRangeCall(index: int, count: int)
    | RemoveCall(index: int)
    | RemoveRangeCall(index: int, count: int)
    | TrimCall(index: int, count: int)
    | ClearCall
    | SetCall(index: int, value: PVal)
    | GetCall(index: int)
    | GetRangeCall(index: int, count: int)

  /** The list operation each method adds. */
  function OpOf(c: ListCall): ListOp {
    match c
    case SizeCall => ListSize
    case AppendCall(_) => ListAppend
    case MergeCall(_) => ListMerge
    case InsertCall(_, _) => ListInsert
    case InsertItemsCall(_, _) => ListInsertItems
    case PopCall(_) => ListPop
    case PopRangeCall(_, _) => ListPopRange
    case RemoveCall(_) => ListRemove
    case RemoveRangeCall(_, _) => ListRemoveRange
    case TrimCall(_, _) => ListTrim
    case ClearCall => ListClear
    case SetCall(_, _) => ListSet
    case GetCall(_) => ListGet
    case GetRangeCall(_, _) => ListGetRange
  }

  /** The methods that hand a value back through an out-parameter. */
  predicate Returns(c: ListCall) {
    c.SizeCall? || c.PopCall? || c.PopRangeCall? || c.GetCall? || c.GetRangeCall?
  }

  /** Where a method sets its out-parameter to null: before the bin-name check
      (`listSize`, `listPopRange`, `listGetRange`), right after it (`listPop`),
      or only once the key and policy have been accepted (`listGet`). */
  datatype NullPoint = BeforeBinCheck | AfterBinCheck | AfterSetup | NoOutParameter

  function NullPointOf(c: ListCall): (r: NullPoint)
    ensures r == NoOutParameter <==> !Returns(c)
  {
    match c
    case SizeCall => BeforeBinCheck
    case PopRangeCall(_, _) => BeforeBinCheck
    case GetRangeCall(_, _) => BeforeBinCheck
    case PopCall(_) => AfterBinCheck
    case GetCall(_) => AfterSetup
    case _ => NoOutParameter
  }

  /** The methods that read the serializer from their options, `listPop`
      included although it converts nothing. */
  predicate ChecksSerializer(c: ListCall) {
    c.AppendCall? || c.MergeCall? || c.InsertCall? || c.InsertItemsCall? || c.PopCall? || c.SetCall?
  }

  // ---------------------------------------------------------------------------
  // setup_list_operation_variables
  // ---------------------------------------------------------------------------

  /** What the setup leaves: the key, the operate policy, and the generation and
      TTL of the operations. */
  datatype Setup = Setup(key: AsKey, policy: Policy, gen: int, ttl: int)

  /** `setup_list_operation_variables`: key, then operate policy, then
      generation, then TTL. Whatever went wrong, the status is ERR_PARAM. */
  function SetupOperation(keyEs: Entries, z: Option<PVal>, dflt: Policy): (r: Result<Setup>)
    ensures r.Failure? ==> r.error == ErrParam
    ensures KeyFromArray(PArr(keyEs)).Failure? ==> r == Failure(ErrParam)
    ensures !Absent(z) && !z.value.PArr? ==> r == Failure(ErrParam)
    ensures r.Success? ==> r.value.key == KeyFromArray(PArr(keyEs)).value
    ensures Absent(z) && KeyFromArray(PArr(keyEs)).Success? ==> r == Success(Setup(KeyFromArray(PArr(keyEs)).value, dflt, 0, 0))
  {
    match KeyFromArray(PArr(keyEs))
    case Failure(_) => Failure(ErrParam)
    case Success(key) =>
      match OperatePolicy(z, dflt).policy
      case Failure(_) => Failure(ErrParam)
      case Success(policy) =>
        match OperationsGeneration(z, 0)
        case Failure(_) => Failure(ErrParam)
        case Success(gen) =>
          match OperationsTtl(z, 0)
          case Failure(_) => Failure(ErrParam)
          case Success(ttl) => Success(Setup(key, policy, gen, ttl))
  }

  /** The setup succeeds exactly when the key converts, the options are absent
      or an array, and the generation and TTL entries are acceptable; the
      generation and TTL are those the options name. */
  lemma SetupSucceedsExactly(keyEs: Entries, z: Option<PVal>, dflt: Policy)
    ensures SetupOperation(keyEs, z, dflt).Success? <==>
              && KeyFromArray(PArr(keyEs)).Success?
              && (Absent(z) || z.value.PArr?)
              && OperationsGeneration(z, 0).Success?
              && OperationsTtl(z, 0).Success?
    ensures SetupOperation(keyEs, z, dflt).Success? ==>
              && SetupOperation(keyEs, z, dflt).value.gen == OperationsGeneration(z, 0).value
              && SetupOperation(keyEs, z, dflt).value.ttl == OperationsTtl(z, 0).value
  {
  }

  // ---------------------------------------------------------------------------
  // The operation each method adds
  // ---------------------------------------------------------------------------

  /** The index a method passes, 0 for those without one. */
  function CallIndex(c: ListCall): int {
    match c
    case InsertCall(i, _) => i
    case InsertItemsCall(i, _) => i
    case PopCall(i) => i
    case PopRangeCall(i, _) => i
    case RemoveCall(i) => i
    case RemoveRangeCall(i, _) => i
    case TrimCall(i, _) => i
    case SetCall(i, _) => i
    case GetCall(i) => i
    case GetRangeCall(i, _) => i
    case _ => 0
  }

  /** What the method passes as the operation's value, in the shape the "val"
      entry of an `operate` operation would have: the value, the item array, or
      the count as an integer. */
  function CallVal(c: ListCall): Option<PVal> {
    match c
    case AppendCall(v) => Some(v)
    case InsertCall(_, v) => Some(v)
    case SetCall(_, v) => Some(v)
    case MergeCall(items) => Some(PArr(items))
    case InsertItemsCall(_, items) => Some(PArr(items))
    case PopRangeCall(_, n) => Some(PInt(n))
    case RemoveRangeCall(_, n) => Some(PInt(n))
    case TrimCall(_, n) => Some(PInt(n))
    case GetRangeCall(_, n) => Some(PInt(n))
    case _ => None
  }

  /** The methods that pass a count, cast to `uint64_t`. */
  predicate TakesCount(c: ListCall) {
    c.PopRangeCall? || c.RemoveRangeCall? || c.TrimCall? || c.GetRangeCall?
  }

  /** The methods that pass an index, cast to `int64_t`. */
  predicate TakesIndex(c: ListCall) {
    TakesCount(c) || c.InsertCall? || c.InsertItemsCall? || c.PopCall? || c.RemoveCall? || c.SetCall? || c.GetCall?
  }

  /** The methods that convert a single value. */
  predicate ConvertsValue(c: ListCall) {
    c.AppendCall? || c.InsertCall? || c.SetCall?
  }

  /** The methods that convert an item array. */
  predicate ConvertsItems(c: ListCall) {
    c.MergeCall? || c.InsertItemsCall?
  }

  /** The item argument: as written `z_hashtable_to_as_list` reports OK even
      when an item does not convert, and the NULL list it leaves is added. */
  function ItemsArg(items: Entries, serializer: int, rt: Runtime, asWritten: bool): (r: Result<ListArg>)
    requires IsList(items)
    ensures asWritten ==> r.Success?
    ensures !asWritten ==> (r.Success? <==> ToAsList(items, serializer, rt).Success?)
    ensures r.Failure? ==> r.error == ErrParam
    ensures r.Success? && ToAsList(items, serializer, rt).Success? ==> r.value == Items(ToAsList(items, serializer, rt).value)
    ensures r.Success? && ToAsList(items, serializer, rt).Failure? ==> r.value == NullItems
  {
    if asWritten then
      match ToAsListAsWritten(items, serializer, rt).list
      case Some(list) => Success(Items(list))
      case None => Success(NullItems)
    else
      match ToAsList(items, serializer, rt)
      case Success(list) => Success(Items(list))
      case Failure(e) => Failure(e)
  }

  /** The operation a method adds once its values are converted with
      `serializer`; the bin name is passed as a C string. `listAppend` reports
      the status the conversion recorded, `listInsert` and `listSet` ERR_PARAM,
      and the item methods refuse an array that is not a list. */
  function CallOp(c: ListCall, bin: string, serializer: int, rt: Runtime, asWritten: bool): (r: Result<Op>)
    ensures r.Failure? ==> r.error == ErrParam
    ensures r.Success? ==> r.value.ListOperation? && r.value.listOp == OpOf(c) && r.value.bin == CStr(bin)
    ensures ConvertsValue(c) ==> (r.Success? <==> ToAsVal(c.value, serializer, rt).Success?)
    ensures ConvertsItems(c) && !IsList(c.items) ==> r == Failure(ErrParam)
    ensures ConvertsItems(c) && IsList(c.items) && asWritten ==> r.Success?
    ensures ConvertsItems(c) && !asWritten ==> (r.Success? <==> ListItems(PArr(c.items), serializer, rt).Success?)
    ensures !ConvertsValue(c) && !ConvertsItems(c) ==> r.Success?
    ensures TakesCount(c) ==> r.Success? && r.value.arg == Count(U64(c.count)) && 0 <= U64(c.count) < U64_MODULUS
    ensures r.Success? && TakesIndex(c) ==> r.value.index == Some(c.index)
    ensures r.Success? && !TakesIndex(c) ==> r.value.index == None
  {
    var b := CStr(bin);
    if ConvertsValue(c) then ValueCallOp(c, b, serializer, rt)
    else if ConvertsItems(c) then ItemsCallOp(c, b, serializer, rt, asWritten)
    else PlainCallOp(c, b)
  }

  /** `listAppend`, `listInsert` and `listSet`: the value is converted first. */
  function ValueCallOp(c: ListCall, b: string, serializer: int, rt: Runtime): (r: Result<Op>)
    requires ConvertsValue(c)
    ensures r.Failure? ==> r.error == ErrParam
    ensures r.Success? <==> ToAsVal(c.value, serializer, rt).Success?
    ensures r.Success? ==>
              && r.value == ListOperation(OpOf(c), b, if c.AppendCall? then None else Some(c.index),
                                          Value(ToAsVal(c.value, serializer, rt).value))
  {
    match ToAsVal(c.value, serializer, rt)
    case Failure(_) => Failure(ErrParam)
    case Success(a) =>
      match c
      case AppendCall(_) => Success(ListOperation(ListAppend, b, None, Value(a)))
      case InsertCall(i, _) => Success(ListOperation(ListInsert, b, Some(i), Value(a)))
      case SetCall(i, _) => Success(ListOperation(ListSet, b, Some(i), Value(a)))
  }

  /** `listMerge` and `listInsertItems`: a non-list array is refused, then the
      items are converted. */
  function ItemsCallOp(c: ListCall, b: string, serializer: int, rt: Runtime, asWritten: bool): (r: Result<Op>)
    requires ConvertsItems(c)
    ensures r.Failure? ==> r.error == ErrParam
    ensures !IsList(c.items) ==> r == Failure(ErrParam)
    ensures IsList(c.items) ==> r.Success? == ItemsArg(c.items, serializer, rt, asWritten).Success?
    ensures r.Success? ==>
              && IsList(c.items)
              && r.value == ListOperation(OpOf(c), b, if c.MergeCall? then None else Some(c.index),
                                          ItemsArg(c.items, serializer, rt, asWritten).value)
  {
    if !IsList(c.items) then Failure(ErrParam)
    else
      var arg :- ItemsArg(c.items, serializer, rt, asWritten);
      match c
      case MergeCall(_) => Success(ListOperation(ListMerge, b, None, arg))
      case InsertItemsCall(i, _) => Success(ListOperation(ListInsertItems, b, Some(i), arg))
  }

  /** The methods that convert nothing: the index and the `(uint64_t)` count
      go in as they are cast. */
  function PlainCallOp(c: ListCall, b: string): (r: Result<Op>)
    requires !ConvertsValue(c) && !ConvertsItems(c)
    ensures r.Success? && r.value.ListOperation? && r.value.listOp == OpOf(c) && r.value.bin == b
    ensures r.value.index == if TakesIndex(c) then Some(c.index) else None
    ensures r.value.arg == if TakesCount(c) then Count(U64(c.count)) else NoArg
  {
    match c
    case SizeCall => Success(ListOperation(ListSize, b, None, NoArg))
    case PopCall(i) => Success(ListOperation(ListPop, b, Some(i), NoArg))
    case PopRangeCall(i, n) => Success(ListOperation(ListPopRange, b, Some(i), Count(U64(n))))
    case RemoveCall(i) => Success(ListOperation(ListRemove, b, Some(i), NoArg))
    case RemoveRangeCall(i, n) => Success(ListOperation(ListRemoveRange, b, Some(i), Count(U64(n))))
    case TrimCall(i, n) => Success(ListOperation(ListTrim, b, Some(i), Count(U64(n))))
    case ClearCall => Success(ListOperation(ListClear, b, None, NoArg))
    case GetCall(i) => Success(ListOperation(ListGet, b, Some(i), NoArg))
    case GetRangeCall(i, n) => Success(ListOperation(ListGetRange, b, Some(i), Count(U64(n))))
  }

  /** Each method adds the same operation that `operate` builds for an
      operation array naming the same list code, bin, index and value. */
  lemma SameOperationAsOperate(c: ListCall, bin: string, serializer: int, rt: Runtime)
    requires ConvertsValue(c) ==> ToAsVal(c.value, serializer, rt).Success?
    ensures var checked := if ConvertsValue(c) then Some(ToAsVal(c.value, serializer, rt).value) else None;
      CallOp(c, bin, serializer, rt, false)
        == ListOperationOf(OpOf(c), CStr(bin), CallIndex(c), CallVal(c), checked, serializer, rt)
  {
  }

  /** The count is cast to `uint64_t` before it reaches the C client, so a
      negative count asks for all but nothing: -1 becomes 2^64 - 1. */
  lemma NegativeCountWraps(bin: string, serializer: int, rt: Runtime)
    ensures CallOp(GetRangeCall(0, -1), bin, serializer, rt, false).value.arg == Count(0xFFFF_FFFF_FFFF_FFFF)
  {
  }

  // ---------------------------------------------------------------------------
  // The methods
  // ---------------------------------------------------------------------------

  /** What a method hands back once the server answered OK, from the value of
      the bin in the returned record. `listSize` reads it with
      `as_record_get_int64(rec, bin, -1)`; a missing value leaves null, except
      for `listGetRange`, which always returns an array. */
  function Reply(c: ListCall, v: Option<AsVal>, out: PVal, rt: Runtime): (r: Outcome)
    ensures !Returns(c) ==> r == Outcome(Ok, out)
    ensures c.SizeCall? ==> r.status == Ok && r.value.PInt?
    ensures r.status != Ok ==> r.status == ErrClient && r.value == PNull
    ensures Returns(c) && !c.SizeCall? && v.Some? ==>
              (r.status == Ok <==> ToZval(v.value, rt).Success?)
              && (r.status == Ok ==> r.value == ToZval(v.value, rt).value)
  {
    if c.SizeCall? then
      Outcome(Ok, PInt(if v.Some? && v.value.AInt? then v.value.n else -1))
    else if !Returns(c) then Outcome(Ok, out)
    else match v
    case None => Outcome(Ok, if c.GetRangeCall? then EMPTY else PNull)
    case Some(a) =>
      match ToZval(a, rt)
      case Success(p) => Outcome(Ok, p)
      case Failure(e) => Outcome(e, PNull)
  }

  /** The server call: given the setup and the operation, the status and the
      record `aerospike_key_operate` returns. */
  type Server = (Setup, Op) -> (Status, Record)

  /** The serializer a method converts with: the one the options name for
      the methods that read it, else the ini setting. */
  function SerializerOf(c: ListCall, z: Option<PVal>, ini: int): (r: Result<int>)
    ensures r.Failure? ==> r.error == ErrParam
    ensures r.Failure? <==> ChecksSerializer(c) && SerializerFromPolicy(z, ini).Failure?
  {
    if ChecksSerializer(c) then SerializerFromPolicy(z, ini) else Success(ini)
  }

  /** The server call and the reply, for the operation built. */
  function Send(s: Setup, op: Op, bin: string, c: ListCall, out: PVal, server: Server, rt: Runtime): (r: Outcome)
    ensures server(s, op).0 != Ok ==> r == Outcome(server(s, op).0, out)
    ensures server(s, op).0 == Ok ==> r == Reply(c, BinValue(server(s, op).1.bins, CStr(bin)), out, rt)
    ensures !Returns(c) ==> r == Outcome(server(s, op).0, out)
  {
    var answer := server(s, op);
    if answer.0 != Ok then Outcome(answer.0, out)
    else Reply(c, BinValue(answer.1.bins, CStr(bin)), out, rt)
  }

  /** A method once its key and options have been accepted: the serializer,
      the conversion of its values, then the server. */
  function AfterSetup'(asWritten: bool, s: Setup, bin: string, c: ListCall, out: PVal,
                       z: Option<PVal>, ini: int, server: Server, rt: Runtime): (r: Outcome)
    ensures SerializerOf(c, z, ini).Failure? ==> r == Outcome(ErrParam, out)
    ensures ConvertsItems(c) && !IsList(c.items) ==> r == Outcome(ErrParam, out)
    ensures !Returns(c) ==> r.value == out
    ensures r.status == Ok ==>
              && SerializerOf(c, z, ini).Success?
              && CallOp(c, bin, SerializerOf(c, z, ini).value, rt, asWritten).Success?
              && server(s, CallOp(c, bin, SerializerOf(c, z, ini).value, rt, asWritten).value).0 == Ok
    ensures SerializerOf(c, z, ini).Success? && CallOp(c, bin, SerializerOf(c, z, ini).value, rt, asWritten).Success? ==>
              r == Send(s, CallOp(c, bin, SerializerOf(c, z, ini).value, rt, asWritten).value, bin, c, out, server, rt)
    ensures r.status != Ok ==> r.value == out || r.value == PNull
  {
    match SerializerOf(c, z, ini)
    case Failure(e) => Outcome(e, out)
    case Success(serializer) =>
      match CallOp(c, bin, serializer, rt, asWritten)
      case Failure(e) => Outcome(e, out)
      case Success(op) => Send(s, op, bin, c, out, server, rt)
  }

  /** A method once its bin name has been accepted: the setup, the point where
      `listGet` nulls its out-parameter, then the rest. */
  function AfterBinCheck'(asWritten: bool, keyEs: Entries, bin: string, c: ListCall, out: PVal,
                          z: Option<PVal>, dflt: Policy, ini: int, server: Server, rt: Runtime): (r: Outcome)
    ensures SetupOperation(keyEs, z, dflt).Failure? ==> r == Outcome(ErrParam, out)
    ensures SetupOperation(keyEs, z, dflt).Success? ==>
              r == AfterSetup'(asWritten, SetupOperation(keyEs, z, dflt).value, bin, c,
                               if NullPointOf(c) == AfterSetup then PNull else out, z, ini, server, rt)
  {
    match SetupOperation(keyEs, z, dflt)
    case Failure(e) => Outcome(e, out)
    case Success(s) => AfterSetup'(asWritten, s, bin, c, if NullPointOf(c) == AfterSetup then PNull else out, z, ini, server, rt)
  }

  /** A list method. `ready` is the object-and-connection check, `out` the
      out-parameter as passed, `z` the options, `dflt` the client's operate
      policy and `ini` the `aerospike.serializer` setting. */
  function ListCommandWith(asWritten: bool, ready: Status, keyEs: Entries, bin: string, c: ListCall, out: PVal,
                           z: Option<PVal>, dflt: Policy, ini: int, server: Server, rt: Runtime): (r: Outcome)
    ensures ready != Ok ==> r == Outcome(ready, out)
    ensures ready == Ok && |bin| > BIN_NAME_MAX_LEN ==>
              r == Outcome(ErrParam, if NullPointOf(c) == BeforeBinCheck then PNull else out)
    ensures ready == Ok && SetupOperation(keyEs, z, dflt).Failure? ==> r.status == ErrParam
    ensures ready == Ok && ChecksSerializer(c) && SerializerFromPolicy(z, ini).Failure? ==> r.status == ErrParam
    ensures ready == Ok && ConvertsItems(c) && !IsList(c.items) ==> r.status == ErrParam
    ensures ready == Ok && r.status == Ok ==> |bin| <= BIN_NAME_MAX_LEN && SetupOperation(keyEs, z, dflt).Success?
    ensures !Returns(c) ==> r.value == out
  {
    if ready != Ok then Outcome(ready, out)
    else
      var out := if NullPointOf(c) == BeforeBinCheck then PNull else out;
      if |bin| > BIN_NAME_MAX_LEN then Outcome(ErrParam, out)
      else AfterBinCheck'(asWritten, keyEs, bin, c, if NullPointOf(c) == AfterBinCheck then PNull else out,
                          z, dflt, ini, server, rt)
  }

  /** The methods as written, where an item that does not convert does not stop
      `listMerge` or `listInsertItems`. */
  function ListCommandAsWritten(ready: Status, keyEs: Entries, bin: string, c: ListCall, out: PVal,
                                z: Option<PVal>, dflt: Policy, ini: int, server: Server, rt: Runtime): (r: Outcome)
    ensures ready != Ok ==> r == Outcome(ready, out)
  {
    ListCommandWith(true, ready, keyEs, bin, c, out, z, dflt, ini, server, rt)
  }

  /** The methods with a failed item conversion reported. */
  function ListCommand(ready: Status, keyEs: Entries, bin: string, c: ListCall, out: PVal,
                       z: Option<PVal>, dflt: Policy, ini: int, server: Server, rt: Runtime): (r: Outcome)
    ensures ready != Ok ==> r == Outcome(ready, out)
    ensures ready == Ok && |bin| > BIN_NAME_MAX_LEN ==>
              r == Outcome(ErrParam, if NullPointOf(c) == BeforeBinCheck then PNull else out)
    ensures ready == Ok && SetupOperation(keyEs, z, dflt).Failure? ==> r.status == ErrParam
    ensures ready == Ok && ChecksSerializer(c) && SerializerFromPolicy(z, ini).Failure? ==> r.status == ErrParam
    ensures ready == Ok && ConvertsItems(c) && !IsList(c.items) ==> r.status == ErrParam
    ensures !Returns(c) ==> r.value == out
  {
    ListCommandWith(false, ready, keyEs, bin, c, out, z, dflt, ini, server, rt)
  }

  /** A call that succeeds went through every check and reached the server,
      which answered OK to the operation the method builds. */
  lemma SuccessReachedServer(keyEs: Entries, bin: string, c: ListCall, out: PVal,
                             z: Option<PVal>, dflt: Policy, ini: int, server: Server, rt: Runtime)
    requires ListCommand(Ok, keyEs, bin, c, out, z, dflt, ini, server, rt).status == Ok
    ensures |bin| <= BIN_NAME_MAX_LEN && SetupOperation(keyEs, z, dflt).Success?
    ensures var serializer := if ChecksSerializer(c) then SerializerFromPolicy(z, ini) else Success(ini);
      && serializer.Success?
      && CallOp(c, bin, serializer.value, rt, false).Success?
      && server(SetupOperation(keyEs, z, dflt).value, CallOp(c, bin, serializer.value, rt, false).value).0 == Ok
  {
  }

  /** A bin name that is too long is refused before the key, the options or
      the server are looked at: the outcome is the same for any of them. */
  lemma BinNameCheckedFirst(keyEs: Entries, keyEs': Entries, bin: string, c: ListCall, out: PVal,
                            z: Option<PVal>, z': Option<PVal>, dflt: Policy, ini: int,
                            server: Server, server': Server, rt: Runtime)
    requires |bin| > BIN_NAME_MAX_LEN
    ensures ListCommand(Ok, keyEs, bin, c, out, z, dflt, ini, server, rt)
            == ListCommand(Ok, keyEs', bin, c, out, z', dflt, ini, server', rt)
    ensures ListCommandAsWritten(Ok, keyEs, bin, c, out, z, dflt, ini, server, rt)
            == ListCommandAsWritten(Ok, keyEs', bin, c, out, z', dflt, ini, server', rt)
  {
  }

  /** Items that do not form a list are refused with ERR_PARAM, in both versions,
      without the server being asked. */
  lemma ItemsMustBeList(keyEs: Entries, bin: string, c: ListCall, out: PVal,
                        z: Option<PVal>, dflt: Policy, ini: int, server: Server, rt: Runtime)
    requires ConvertsItems(c) && !IsList(c.items)
    ensures ListCommand(Ok, keyEs, bin, c, out, z, dflt, ini, server, rt) == Outcome(ErrParam, out)
    ensures ListCommandAsWritten(Ok, keyEs, bin, c, out, z, dflt, ini, server, rt) == Outcome(ErrParam, out)
  {
  }

  /** What the out-parameter holds after a failure: null for every method that
      has one, except `listPop` refused for its bin name and `listGet` refused
      before its setup succeeded, which leave the value passed in. */
  lemma OutParameterOnFailure(keyEs: Entries, bin: string, c: ListCall, out: PVal,
                              z: Option<PVal>, dflt: Policy, ini: int, server: Server, rt: Runtime)
    requires Returns(c)
    requires ListCommand(Ok, keyEs, bin, c, out, z, dflt, ini, server, rt).status != Ok
    ensures var kept := (c.PopCall? && |bin| > BIN_NAME_MAX_LEN)
                        || (c.GetCall? && (|bin| > BIN_NAME_MAX_LEN || SetupOperation(keyEs, z, dflt).Failure?));
      ListCommand(Ok, keyEs, bin, c, out, z, dflt, ini, server, rt).value == if kept then out else PNull
  {
  }

  /** When the server answers OK with no value in the bin: `listSize` gives -1,
      `listGetRange` an empty array, `listPop`, `listPopRange` and `listGet`
      null. */
  lemma NothingReturned(keyEs: Entries, bin: string, c: ListCall, out: PVal,
                        z: Option<PVal>, dflt: Policy, ini: int, server: Server, rt: Runtime)
    requires Returns(c)
    requires ListCommand(Ok, keyEs, bin, c, out, z, dflt, ini, server, rt).status == Ok
    requires forall s, op :: BinValue(server(s, op).1.bins, CStr(bin)).None?
    ensures ListCommand(Ok, keyEs, bin, c, out, z, dflt, ini, server, rt).value ==
              if c.SizeCall? then PInt(-1) else if c.GetRangeCall? then EMPTY else PNull
  {
    SuccessReachedServer(keyEs, bin, c, out, z, dflt, ini, server, rt);
  }

  /** `listSize` reports the integer the server returns for the bin, and -1
      when there is none, so a missing bin and an answer of -1 look alike. */
  lemma SizeReportsCount(keyEs: Entries, bin: string, out: PVal, z: Option<PVal>, dflt: Policy, ini: int,
                         server: Server, rt: Runtime)
    requires ListCommand(Ok, keyEs, bin, SizeCall, out, z, dflt, ini, server, rt).status == Ok
    ensures var s := SetupOperation(keyEs, z, dflt).value;
      var v := BinValue(server(s, ListOperation(ListSize, CStr(bin), None, NoArg)).1.bins, CStr(bin));
      ListCommand(Ok, keyEs, bin, SizeCall, out, z, dflt, ini, server, rt).value
        == PInt(if v.Some? && v.value.AInt? then v.value.n else -1)
  {
    SuccessReachedServer(keyEs, bin, SizeCall, out, z, dflt, ini, server, rt);
  }

  /** Once every check has passed, a method without an out-parameter reports
      the server's status for the operation it built. */
  lemma ServerDecides(asWritten: bool, keyEs: Entries, bin: string, c: ListCall, out: PVal,
                      z: Option<PVal>, dflt: Policy, ini: int, server: Server, rt: Runtime, s: Setup, op: Op)
    requires !Returns(c) && |bin| <= BIN_NAME_MAX_LEN && SetupOperation(keyEs, z, dflt) == Success(s)
    requires SerializerOf(c, z, ini).Success? && CallOp(c, bin, SerializerOf(c, z, ini).value, rt, asWritten) == Success(op)
    ensures ListCommandWith(asWritten, Ok, keyEs, bin, c, out, z, dflt, ini, server, rt) == Outcome(server(s, op).0, out)
  {
  }

  /** Item methods whose list-shaped items do not all convert, as written: the
      operation is built with a NULL list, so the server is asked and its
      status is the outcome (`ServerDecides`); the failed conversion is never
      reported. A list holding `true` under SERIALIZER_NONE is such a list
      (`ListConversionFailureReportedOk`). */
  lemma UnconvertedItemsSent(items: Entries, index: int, bin: string, serializer: int, rt: Runtime)
    requires IsList(items) && ToAsList(items, serializer, rt).Failure?
    ensures CallOp(MergeCall(items), bin, serializer, rt, true)
            == Success(ListOperation(ListMerge, CStr(bin), None, NullItems))
    ensures CallOp(InsertItemsCall(index, items), bin, serializer, rt, true)
            == Success(ListOperation(ListInsertItems, CStr(bin), Some(index), NullItems))
  {
  }

  /** The same items with the failed conversion reported: both methods stop
      with ERR_PARAM before the server is asked. */
  lemma UnconvertedItemsRefused(keyEs: Entries, bin: string, items: Entries, index: int, out: PVal, z: Option<PVal>,
                                dflt: Policy, ini: int, server: Server, rt: Runtime)
    requires |bin| <= BIN_NAME_MAX_LEN && SetupOperation(keyEs, z, dflt).Success?
    requires SerializerFromPolicy(z, ini).Success?
    requires IsList(items) && ToAsList(items, SerializerFromPolicy(z, ini).value, rt).Failure?
    ensures ListCommand(Ok, keyEs, bin, MergeCall(items), out, z, dflt, ini, server, rt) == Outcome(ErrParam, out)
    ensures ListCommand(Ok, keyEs, bin, InsertItemsCall(index, items), out, z, dflt, ini, server, rt) == Outcome(ErrParam, out)
  {
    var serializer := SerializerFromPolicy(z, ini).value;
    assert SerializerOf(MergeCall(items), z, ini) == Success(serializer);
    assert SerializerOf(InsertItemsCall(index, items), z, ini) == Success(serializer);
  }
}

=== FILE: nodes.dfy ===
/** `Aerospike::getNodes` (get_nodes.c): every cluster node's address string is
    split at its last ':' into an "addr" and a "port" text.
 */
module Nodes {
  import opened Errors
  import opened Strings
  import opened Php
  import opened Client

  /** The node's address as `{addr, port}`, or `None` when it holds no ':'. */
  function NodeEntry(address: string): (r: Option<PVal>)
    ensures r.None? <==> ':' !in CStr(address)
    ensures r.Some? ==>
              var t := CStr(address);
              var k := LastIndexOf(t, ':').value;
              && Field(r.value, ADDR_KEY) == Some(PStr(t[..k]))
              && Field(r.value, PORT_KEY) == Some(PStr(t[k + 1..]))
              && |r.value.entries| == 2
  {
    var t := CStr(address);
    match LastIndexOf(t, ':')
    case None => None
    case Some(k) =>
      HostKeysPlain();
      var fields := [(ADDR_KEY, PStr(t[..k])), (PORT_KEY, PStr(t[k + 1..]))];
      FieldsOk2(fields[0], fields[1]);
      AssocFindAll(fields);
      Some(PArr(Assoc(fields)))
  }

  /** The entries of the loop, in node order, up to the first address without a
      ':'; the entries made before it are kept. */
  function NodeEntries(addresses: seq<string>): (r: seq<PVal>)
    ensures |r| <= |addresses|
    ensures forall i :: 0 <= i < |r| ==> NodeEntry(addresses[i]) == Some(r[i])
    ensures |r| < |addresses| ==> NodeEntry(addresses[|r|]).None?
  {
    MapWhile(addresses, NodeEntry)
  }

  /** What `getNodes` returns: a status when it fails, the list otherwise. */
  datatype NodesResult = NodesFailed(status: Status) | NodesList(value: PVal)

  /** `Aerospike::getNodes`: `ready` is the object-and-connection check and
      `hasCluster` whether the client has a cluster. */
  function GetNodes(ready: Status, hasCluster: bool, addresses: seq<string>): (r: NodesResult)
    ensures ready != Ok ==> r == NodesFailed(ready)
    ensures ready == Ok && !hasCluster ==> r == NodesFailed(ErrCluster)
    ensures ready == Ok && hasCluster ==>
              && r.NodesList?
              && r.value == ListOf(NodeEntries(addresses))
  {
    if ready != Ok then NodesFailed(ready)
    else if !hasCluster then NodesFailed(ErrCluster)
    else NodesList(ListOf(NodeEntries(addresses)))
  }

  /** An address "host:port" whose port holds no ':' splits back into its host and
      port, even when the host itself holds colons (an IPv6 address). */
  lemma SplitAtLastColon(host: string, port: string)
    requires NulFree(host) && NulFree(port) && ':' !in port
    ensures NodeEntry(host + ":" + port).Some?
    ensures Field(NodeEntry(host + ":" + port).value, ADDR_KEY) == Some(PStr(host))
    ensures Field(NodeEntry(host + ":" + port).value, PORT_KEY) == Some(PStr(port))
  {
    var t := host + ":" + port;
    assert NulFree(t) by {
      assert forall k :: 0 <= k < |t| ==> (k < |host| && t[k] == host[k]) || t[k] == ':' || t[k] == port[k - |host| - 1];
    }
    CStrOfNulFree(t);
    assert t[|host|] == ':' && t[|host| + 1..] == port && t[..|host|] == host;
    assert LastIndexOf(t, ':') == Some(|host|);
  }

  /** Nodes whose addresses are all "host:port" are all listed, in node order,
      each with its own host and port. */
  lemma AllNodesListed(parts: seq<(string, string)>)
    requires forall i :: 0 <= i < |parts| ==> NulFree(parts[i].0) && NulFree(parts[i].1) && ':' !in parts[i].1
    ensures var r := NodeEntries(seq(|parts|, i requires 0 <= i < |parts| => parts[i].0 + ":" + parts[i].1));
      && |r| == |parts|
      && forall i :: 0 <= i < |parts| ==>
           Field(r[i], ADDR_KEY) == Some(PStr(parts[i].0)) && Field(r[i], PORT_KEY) == Some(PStr(parts[i].1))
  {
    var addresses := seq(|parts|, i requires 0 <= i < |parts| => parts[i].0 + ":" + parts[i].1);
    forall i | 0 <= i < |parts|
      ensures NodeEntry(addresses[i]).Some?
      ensures Field(NodeEntry(addresses[i]).value, ADDR_KEY) == Some(PStr(parts[i].0))
      ensures Field(NodeEntry(addresses[i]).value, PORT_KEY) == Some(PStr(parts[i].1))
    {
      SplitAtLastColon(parts[i].0, parts[i].1);
    }
  }
}

=== FILE: operate.dfy ===
/** `Aerospike::operate` and `Aerospike::operateOrdered`: how an array of loosely
    typed operation arrays is checked and turned into an `as_operations` before
    the single call to the server (`add_op_to_operations`,
    `add_map_op_to_operations`, the `op_requires_*` / `map_op_requires_*`
    classifiers and the `get_*_from_op_hash` helpers).
 */
module Operate {
  import opened Errors
  import opened Strings
  import opened Php
  import opened AsValues
  import opened Types
  import opened ValueConversions
  import opened Policies
  import opened RecordConversions

  // ---------------------------------------------------------------------------
  // Field names of an operation array
  // ---------------------------------------------------------------------------

  const OP_KEY: string := "op"
  const TTL_KEY: string := "ttl"
  const BIN_KEY: string := "bin"
  const INDEX_KEY: string := "index"
  const VAL_KEY: string := "val"
  const MAP_POLICY_KEY: string := "map_policy"
  const RANK_KEY: string := "rank"
  const COUNT_KEY: string := "count"
  const MAP_KEY_KEY: string := "key"
  const RETURN_TYPE_KEY: string := "return_type"
  const RANGE_END_KEY: string := "range_end"

  // ---------------------------------------------------------------------------
  // The operations handed to the C client
  // ---------------------------------------------------------------------------

  /** The argument a list operation carries besides its bin and index.
      `NullItems` is the NULL list an unconvertible item array leaves behind. */
  datatype ListArg = NoArg | Value(v: AsVal) | Items(items: seq<AsVal>) | NullItems | Count(n: int)

  /** The fields a map operation read from its array; a field the operation does
      not take is `None`. */
  datatype MapArgs = MapArgs(
    count: Option<int>, index: Option<int>, rank: Option<int>, returnType: Option<int>,
    policy: Option<MapPolicy>, key: Option<AsVal>, rangeEnd: Option<AsVal>, val: Option<AsVal>)

  /** One `as_operations_add_*` call. */
  datatype Op =
    | Write(bin: string, v: AsVal)
    | Read(bin: string)
    | Incr(bin: string, n: int)
    | IncrDouble(bin: string, d: real)
    | Append(bin: string, s: string)
    | Prepend(bin: string, s: string)
    | Touch
    | Delete
    | ListOperation(listOp: ListOp, bin: string, index: Option<int>, arg: ListArg)
    | MapOperation(mapOp: MapOp, bin: string, args: MapArgs)

  /** An `as_operations`: the operations added so far, the record TTL and the
      expected generation. */
  datatype Operations = Operations(ops: seq<Op>, ttl: int, gen: int)

  /** The operation code each kind of operation is added under. */
  function CodeOf(op: Op): int {
    match op
    case Write(_, _) => OPERATOR_WRITE
    case Read(_) => OPERATOR_READ
    case Incr(_, _) => OPERATOR_INCR
    case IncrDouble(_, _) => OPERATOR_INCR
    case Append(_, _) => OPERATOR_APPEND
    case Prepend(_, _) => OPERATOR_PREPEND
    case Touch => OPERATOR_TOUCH
    case Delete => OPERATOR_DELETE
    case ListOperation(lop, _, _, _) => ListOpCode(lop)
    case MapOperation(mop, _, _) => MapOpCode(mop)
  }

  /** The bin an operation acts on; touch and delete act on the whole record. */
  function BinOf(op: Op): Option<string> {
    if op.Touch? || op.Delete? then None else Some(op.bin)
  }

  // ---------------------------------------------------------------------------
  // Classifiers
  // ---------------------------------------------------------------------------

  /** `op_type = Z_LVAL_P(z_op)`: the integer is narrowed to a 32-bit C `int`. */
  function OpType(n: int): (r: int)
    ensures -0x8000_0000 <= r < 0x8000_0000
    ensures -0x8000_0000 <= n < 0x8000_0000 ==> r == n
    ensures (r - n) % U32_MODULUS == 0
  {
    I32(n)
  }

  predicate RequiresBin(code: int) {
    code != OPERATOR_DELETE
  }

  predicate RequiresVal(code: int) {
    code !in {OPERATOR_TOUCH, ListOpCode(ListClear), OPERATOR_READ, ListOpCode(ListSize),
              ListOpCode(ListPop), ListOpCode(ListRemove), ListOpCode(ListGet),
              MapOpCode(MapSize), MapOpCode(MapClear), OPERATOR_DELETE}
  }

  predicate RequiresListVal(code: int) {
    code in {ListOpCode(ListMerge), ListOpCode(ListInsertItems)}
  }

  predicate RequiresLongVal(code: int) {
    code in {ListOpCode(ListPopRange), ListOpCode(ListRemoveRange), ListOpCode(ListGetRange),
             ListOpCode(ListTrim)}
  }

  predicate RequiresAsVal(code: int) {
    code in {ListOpCode(ListInsert), ListOpCode(ListSet), ListOpCode(ListAppend), OPERATOR_WRITE}
  }

  predicate RequiresIndex(code: int) {
    code in {ListOpCode(ListInsert), ListOpCode(ListInsertItems), ListOpCode(ListPop),
             ListOpCode(ListPopRange), ListOpCode(ListRemove), ListOpCode(ListRemoveRange),
             ListOpCode(ListSet), ListOpCode(ListGet), ListOpCode(ListGetRange), ListOpCode(ListTrim)}
  }

  /** `op_is_map_op` names all 25 map codes, that is, exactly the codes that decode
      to a map operation. */
  predicate IsMapOp(code: int) {
    DecodeMapOp(code).Some?
  }

  /** The codes some branch of `add_op_to_operations` handles. */
  predicate KnownCode(code: int) {
    || code in {OPERATOR_READ, OPERATOR_WRITE, OPERATOR_INCR, OPERATOR_APPEND,
                OPERATOR_PREPEND, OPERATOR_TOUCH, OPERATOR_DELETE}
    || DecodeListOp(code).Some?
    || DecodeMapOp(code).Some?
  }

  predicate MapRequiresKey(op: MapOp) {
    op in {MapPut, MapIncrement, MapDecrement, MapRemoveByKey, MapRemoveByKeyList,
           MapRemoveByKeyRange, MapGetByKey, MapGetByKeyRange}
  }

  predicate MapRequiresVal(op: MapOp) {
    op in {MapPut, MapIncrement, MapDecrement, MapRemoveByValue, MapRemoveByValueList,
           MapRemoveByValueRange, MapGetByValue, MapGetByValueRange, MapPutItems}
  }

  predicate MapRequiresRank(op: MapOp) {
    op in {MapRemoveByRank, MapRemoveByRankRange, MapGetByRank, MapGetByRankRange}
  }

  predicate MapRequiresReturnType(op: MapOp) {
    op in {MapRemoveByKey, MapRemoveByKeyList, MapRemoveByKeyRange, MapRemoveByValue,
           MapRemoveByValueList, MapRemoveByValueRange, MapRemoveByIndex, MapRemoveByIndexRange,
           MapRemoveByRank, MapRemoveByRankRange, MapGetByKey, MapGetByKeyRange, MapGetByValue,
           MapGetByValueRange, MapGetByIndex, MapGetByIndexRange, MapGetByRank, MapGetByRankRange}
  }

  predicate MapRequiresPolicy(op: MapOp) {
    op in {MapSetPolicy, MapPut, MapPutItems, MapIncrement, MapDecrement}
  }

  predicate MapRequiresIndex(op: MapOp) {
    op in {MapRemoveByIndex, MapRemoveByIndexRange, MapGetByIndex, MapGetByIndexRange}
  }

  predicate MapRequiresCount(op: MapOp) {
    op in {MapRemoveByIndexRange, MapRemoveByRankRange, MapGetByIndexRange, MapGetByRankRange}
  }

  predicate MapRequiresRangeEnd(op: MapOp) {
    op in {MapRemoveByKeyRange, MapRemoveByValueRange, MapGetByKeyRange, MapGetByValueRange}
  }

  // ---------------------------------------------------------------------------
  // Fields of a map operation (`get_*_from_op_hash`)
  // ---------------------------------------------------------------------------

  /** `get_count_from_op_hash`: a non-negative integer. */
  function CountField(z: PVal): (r: Result<int>)
    ensures r.Failure? ==> r.error == ErrParam
    ensures r.Success? <==> IsInt(Field(z, COUNT_KEY)) && Field(z, COUNT_KEY).value.n >= 0
    ensures r.Success? ==> r.value == Field(z, COUNT_KEY).value.n
  {
    var c := Field(z, COUNT_KEY);
    if c.None? || !c.value.PInt? || c.value.n < 0 then Failure(ErrParam)
    else Success(c.value.n)
  }

  /** `get_index_from_op_hash`, `get_rank_from_op_hash` and
      `get_return_type_from_op_hash`: any integer; the return type is not
      range-checked. */
  function IntField(z: PVal, name: string): (r: Result<int>)
    ensures r.Failure? ==> r.error == ErrParam
    ensures r.Success? <==> IsInt(Field(z, name))
    ensures r.Success? ==> r.value == Field(z, name).value.n
  {
    var f := Field(z, name);
    if f.None? || !f.value.PInt? then Failure(ErrParam) else Success(f.value.n)
  }

  /** The converted value of a present field, if it converts. */
  function FieldAsVal(z: PVal, name: string, serializer: int, rt: Runtime): Option<AsVal> {
    var f := Field(z, name);
    if f.Some? && ToAsVal(f.value, serializer, rt).Success? then Some(ToAsVal(f.value, serializer, rt).value)
    else None
  }

  /** `get_key_from_op_hash`, `get_range_end_from_op_hash` and
      `get_value_from_op_hash`: the field must be present and convert. */
  function ValueField(z: PVal, name: string, serializer: int, rt: Runtime): (r: Result<AsVal>)
    ensures r.Failure? ==> r.error == ErrParam
    ensures r.Success? <==> FieldAsVal(z, name, serializer, rt).Some?
    ensures r.Success? ==> r.value == FieldAsVal(z, name, serializer, rt).value
  {
    var f := Field(z, name);
    if f.None? then Failure(ErrParam)
    else ToAsVal(f.value, serializer, rt)
  }

  /** `get_map_policy_from_op_hash`: the field must be present (a present null
      gives the default map policy) and pass `zval_to_as_policy_map`. */
  function MapPolicyField(z: PVal): (r: Result<MapPolicy>)
    ensures r.Failure? ==> r.error == ErrParam
    ensures Field(z, MAP_POLICY_KEY).None? ==> r.Failure?
    ensures Field(z, MAP_POLICY_KEY).Some? ==> r == MapPolicyOf(Field(z, MAP_POLICY_KEY))
  {
    var f := Field(z, MAP_POLICY_KEY);
    if f.None? then Failure(ErrParam) else MapPolicyOf(f)
  }

  /** A field read only when the operation requires it. */
  function Required<T>(needed: bool, r: Result<T>): (o: Result<Option<T>>)
    ensures o.Success? <==> !needed || r.Success?
    ensures o.Success? ==> (o.value.Some? <==> needed)
    ensures o.Success? && needed ==> o.value.value == r.value
    ensures o.Failure? ==> o.error == r.error
  {
    if !needed then Success(None)
    else match r
      case Success(v) => Success(Some(v))
      case Failure(e) => Failure(e)
  }

  /** The scalar fields a map operation demands: a non-negative count, and an
      integer index, rank and return type. */
  predicate ScalarsAcceptable(z: PVal, op: MapOp) {
    && (MapRequiresCount(op) ==> IsInt(Field(z, COUNT_KEY)) && Field(z, COUNT_KEY).value.n >= 0)
    && (MapRequiresIndex(op) ==> IsInt(Field(z, INDEX_KEY)))
    && (MapRequiresRank(op) ==> IsInt(Field(z, RANK_KEY)))
    && (MapRequiresReturnType(op) ==> IsInt(Field(z, RETURN_TYPE_KEY)))
  }

  /** The scalar fields of `a` are the array's, present exactly when required. */
  predicate ScalarsMatch(z: PVal, op: MapOp, a: MapArgs) {
    && (a.count.Some? <==> MapRequiresCount(op))
    && (a.index.Some? <==> MapRequiresIndex(op))
    && (a.rank.Some? <==> MapRequiresRank(op))
    && (a.returnType.Some? <==> MapRequiresReturnType(op))
    && (a.count.Some? ==> IsInt(Field(z, COUNT_KEY)) && a.count.value == Field(z, COUNT_KEY).value.n)
    && (a.index.Some? ==> IsInt(Field(z, INDEX_KEY)) && a.index.value == Field(z, INDEX_KEY).value.n)
    && (a.rank.Some? ==> IsInt(Field(z, RANK_KEY)) && a.rank.value == Field(z, RANK_KEY).value.n)
    && (a.returnType.Some? ==> IsInt(Field(z, RETURN_TYPE_KEY)) && a.returnType.value == Field(z, RETURN_TYPE_KEY).value.n)
  }

  /** The value fields a map operation demands: a map policy that passes
      `zval_to_as_policy_map`, and a key, range end and value that convert. */
  predicate ValuesAcceptable(z: PVal, op: MapOp, serializer: int, rt: Runtime) {
    && (MapRequiresPolicy(op) ==> Field(z, MAP_POLICY_KEY).Some? && MapPolicyOf(Field(z, MAP_POLICY_KEY)).Success?)
    && (MapRequiresKey(op) ==> FieldAsVal(z, MAP_KEY_KEY, serializer, rt).Some?)
    && (MapRequiresRangeEnd(op) ==> FieldAsVal(z, RANGE_END_KEY, serializer, rt).Some?)
    && (MapRequiresVal(op) ==> FieldAsVal(z, VAL_KEY, serializer, rt).Some?)
  }

  /** The value fields of `a` are the array's converted ones, present exactly when
      required. */
  predicate ValuesMatch(z: PVal, op: MapOp, a: MapArgs, serializer: int, rt: Runtime) {
    && (a.policy.Some? <==> MapRequiresPolicy(op))
    && (a.key.Some? <==> MapRequiresKey(op))
    && (a.rangeEnd.Some? <==> MapRequiresRangeEnd(op))
    && (a.val.Some? <==> MapRequiresVal(op))
    && (a.policy.Some? ==> MapPolicyOf(Field(z, MAP_POLICY_KEY)) == Success(a.policy.value))
    && (a.key.Some? ==> a.key == FieldAsVal(z, MAP_KEY_KEY, serializer, rt))
    && (a.rangeEnd.Some? ==> a.rangeEnd == FieldAsVal(z, RANGE_END_KEY, serializer, rt))
    && (a.val.Some? ==> a.val == FieldAsVal(z, VAL_KEY, serializer, rt))
  }

  /** The container shapes PUT_ITEMS, REMOVE_BY_KEY_LIST and REMOVE_BY_VALUE_LIST
      need once their key or value has converted. */
  predicate ShapeAcceptable(z: PVal, op: MapOp, serializer: int, rt: Runtime)
    requires ValuesAcceptable(z, op, serializer, rt)
  {
    && (op == MapPutItems ==> FieldAsVal(z, VAL_KEY, serializer, rt).value.AMap?)
    && (op == MapRemoveByKeyList ==> FieldAsVal(z, MAP_KEY_KEY, serializer, rt).value.AList?)
    && (op == MapRemoveByValueList ==> FieldAsVal(z, VAL_KEY, serializer, rt).value.AList?)
  }

  /** Everything `add_map_op_to_operations` demands of an operation array. */
  predicate MapArgsAcceptable(z: PVal, op: MapOp, serializer: int, rt: Runtime) {
    && ScalarsAcceptable(z, op)
    && ValuesAcceptable(z, op, serializer, rt)
    && ShapeAcceptable(z, op, serializer, rt)
  }

  /** The first half of `add_map_op_to_operations`: count, index, rank and return
      type, in that order. */
  function MapScalars(z: PVal, op: MapOp): (r: Result<MapArgs>)
    ensures r.Failure? ==> r.error == ErrParam
    ensures r.Success? <==> ScalarsAcceptable(z, op)
    ensures r.Success? ==> ScalarsMatch(z, op, r.value)
  {
    var count :- Required(MapRequiresCount(op), CountField(z));
    var index :- Required(MapRequiresIndex(op), IntField(z, INDEX_KEY));
    var rank :- Required(MapRequiresRank(op), IntField(z, RANK_KEY));
    var returnType :- Required(MapRequiresReturnType(op), IntField(z, RETURN_TYPE_KEY));
    Success(MapArgs(count, index, rank, returnType, None, None, None, None))
  }

  /** The second half: map policy, key, range end and value, in that order, added
      to the scalar fields already read. */
  function MapValues(z: PVal, op: MapOp, a: MapArgs, serializer: int, rt: Runtime): (r: Result<MapArgs>)
    ensures r.Failure? ==> r.error == ErrParam
    ensures r.Success? <==> ValuesAcceptable(z, op, serializer, rt)
    ensures r.Success? ==> ValuesMatch(z, op, r.value, serializer, rt)
    ensures r.Success? ==> r.value.count == a.count && r.value.index == a.index
                           && r.value.rank == a.rank && r.value.returnType == a.returnType
  {
    var policy :- Required(MapRequiresPolicy(op), MapPolicyField(z));
    var key :- Required(MapRequiresKey(op), ValueField(z, MAP_KEY_KEY, serializer, rt));
    var rangeEnd :- Required(MapRequiresRangeEnd(op), ValueField(z, RANGE_END_KEY, serializer, rt));
    var val :- Required(MapRequiresVal(op), ValueField(z, VAL_KEY, serializer, rt));
    Success(a.(policy := policy, key := key, rangeEnd := rangeEnd, val := val))
  }

  /** `add_map_op_to_operations`: the fields are read in the order count, index,
      rank, return type, map policy, key, range end, value, and the first failure
      is returned; every failure is ERR_PARAM, so the order does not show in the
      status. */
  function AddMapOp(z: PVal, op: MapOp, bin: string, serializer: int, rt: Runtime): (r: Result<Op>)
    ensures r.Failure? ==> r.error == ErrParam
    ensures r.Success? <==> MapArgsAcceptable(z, op, serializer, rt)
    ensures r.Success? ==> r.value.MapOperation? && r.value.mapOp == op && r.value.bin == bin
    ensures r.Success? ==> ScalarsMatch(z, op, r.value.args) && ValuesMatch(z, op, r.value.args, serializer, rt)
  {
    var scalars :- MapScalars(z, op);
    var a :- MapValues(z, op, scalars, serializer, rt);
    assert ScalarsMatch(z, op, a);
    if op == MapPutItems && !a.val.value.AMap? then Failure(ErrParam)
    else if op == MapRemoveByKeyList && !a.key.value.AList? then Failure(ErrParam)
    else if op == MapRemoveByValueList && !a.val.value.AList? then Failure(ErrParam)
    else Success(MapOperation(op, bin, a))
  }

  // ---------------------------------------------------------------------------
  // Single-bin and list operations (`add_op_to_operations`)
  // ---------------------------------------------------------------------------

  /** A bin name `add_op_to_operations` accepts: a string whose C-string length is
      at most AS_BIN_NAME_MAX_LEN. */
  predicate ValidBin(b: Option<PVal>) {
    b.Some? && b.value.PStr? && |CStr(b.value.s)| <= BIN_NAME_MAX_LEN
  }

  /** The bin-name check; an operation that takes no bin gets the empty name. */
  function BinName(z: PVal, code: int): (r: Result<string>)
    ensures r.Failure? ==> r.error == ErrParam
    ensures RequiresBin(code) ==> (r.Success? <==> ValidBin(Field(z, BIN_KEY)))
    ensures RequiresBin(code) && r.Success? ==> r.value == CStr(Field(z, BIN_KEY).value.s)
    ensures r.Success? ==> |r.value| <= BIN_NAME_MAX_LEN
    ensures !RequiresBin(code) ==> r == Success("")
  {
    if !RequiresBin(code) then Success("")
    else
      var b := Field(z, BIN_KEY);
      if b.None? || !b.value.PStr? || |CStr(b.value.s)| > BIN_NAME_MAX_LEN then Failure(ErrParam)
      else Success(CStr(b.value.s))
  }

  /** The index check of the list operations that take one. */
  function IndexOf(z: PVal, code: int): (r: Result<int>)
    ensures r.Failure? ==> r.error == ErrParam
    ensures RequiresIndex(code) ==> (r.Success? <==> IsInt(Field(z, INDEX_KEY)))
    ensures RequiresIndex(code) && r.Success? ==> r.value == Field(z, INDEX_KEY).value.n
    ensures !RequiresIndex(code) ==> r.Success?
  {
    if !RequiresIndex(code) then Success(0) else IntField(z, INDEX_KEY)
  }

  /** The "val" checks: present when required, an array for the item-list
      operations, an integer for the ranged ones, and converted for the operations
      that take an `as_val`. */
  function CheckedVal(z: PVal, code: int, serializer: int, rt: Runtime): (r: Result<Option<AsVal>>)
    ensures r.Failure? ==> r.error == ErrParam
    ensures RequiresVal(code) && Field(z, VAL_KEY).None? ==> r.Failure?
    ensures r.Success? && RequiresVal(code) ==> Field(z, VAL_KEY).Some?
    ensures RequiresVal(code) && RequiresListVal(code) && Field(z, VAL_KEY).Some? && !Field(z, VAL_KEY).value.PArr?
            ==> r.Failure?
    ensures r.Success? && RequiresVal(code) && RequiresListVal(code) ==> Field(z, VAL_KEY).value.PArr?
    ensures RequiresVal(code) && RequiresLongVal(code) && Field(z, VAL_KEY).Some? && !Field(z, VAL_KEY).value.PInt?
            ==> r.Failure?
    ensures r.Success? && RequiresVal(code) && RequiresLongVal(code) ==> Field(z, VAL_KEY).value.PInt?
    ensures r.Success? ==> (r.value.Some? <==> RequiresVal(code) && RequiresAsVal(code))
    ensures r.Success? && r.value.Some? ==> r.value == FieldAsVal(z, VAL_KEY, serializer, rt)
  {
    if !RequiresVal(code) then Success(None)
    else
      var v := Field(z, VAL_KEY);
      if v.None? then Failure(ErrParam)
      else if RequiresListVal(code) && !v.value.PArr? then Failure(ErrParam)
      else if !RequiresListVal(code) && RequiresLongVal(code) && !v.value.PInt? then Failure(ErrParam)
      else if RequiresAsVal(code) then
        match ToAsVal(v.value, serializer, rt)
        case Success(a) => Success(Some(a))
        case Failure(_) => Failure(ErrParam)
      else Success(None)
  }

  /** INCR: an integer, a double, or a string PHP reads as either. */
  function IncrOp(bin: string, v: PVal, rt: Runtime): (r: Result<Op>)
    ensures r.Failure? ==> r.error == ErrParam
    ensures r.Success? <==> v.PInt? || v.PDouble? || (v.PStr? && !rt.isNumericString(v.s).NotNumeric?)
    ensures r.Success? ==> CodeOf(r.value) == OPERATOR_INCR && BinOf(r.value) == Some(bin)
    ensures v.PInt? ==> r == Success(Incr(bin, v.n))
    ensures v.PDouble? ==> r == Success(IncrDouble(bin, v.d))
    ensures v.PStr? && rt.isNumericString(v.s).NumericLong? ==> r == Success(Incr(bin, rt.isNumericString(v.s).n))
    ensures v.PStr? && rt.isNumericString(v.s).NumericDouble? ==> r == Success(IncrDouble(bin, rt.isNumericString(v.s).d))
  {
    match v
    case PInt(n) => Success(Incr(bin, n))
    case PDouble(d) => Success(IncrDouble(bin, d))
    case PStr(s) =>
      (match rt.isNumericString(s)
       case NumericLong(n) => Success(Incr(bin, n))
       case NumericDouble(d) => Success(IncrDouble(bin, d))
       case NotNumeric => Failure(ErrParam))
    case _ => Failure(ErrParam)
  }

  /** The items of LIST_MERGE / LIST_INSERT_ITEMS: a list-shaped array whose every
      element converts. A map-shaped array is refused with ERR_PARAM, which is what
      `err` records even though the function returns ERR_CLIENT; both callers
      report `err.code`. */
  function ListItems(v: PVal, serializer: int, rt: Runtime): (r: Result<seq<AsVal>>)
    requires v.PArr?
    ensures r.Failure? ==> r.error == ErrParam
    ensures !IsList(v.entries) ==> r == Failure(ErrParam)
    ensures IsList(v.entries) ==> r == ToAsList(v.entries, serializer, rt)
    ensures r.Success? ==> |r.value| == |v.entries|
  {
    if !IsList(v.entries) then Failure(ErrParam)
    else ToAsList(v.entries, serializer, rt)
  }

  /** What the LIST_MERGE / LIST_INSERT_ITEMS branch leaves behind: the status it
      returns, the status recorded in `err`, and the argument it adds. */
  datatype ItemsOutcome = ItemsOutcome(ret: Status, recorded: Status, arg: ListArg)

  /** The LIST_MERGE / LIST_INSERT_ITEMS branch as written: `z_hashtable_to_as_list`
      always returns OK, so an element that does not convert leaves a NULL list
      that is still added, and the branch returns OK with ERR_PARAM in `err`. */
  function ListItemsAsWritten(v: PVal, serializer: int, rt: Runtime): (r: ItemsOutcome)
    requires v.PArr?
    ensures !IsList(v.entries) ==> r.ret == ErrClient && r.recorded == ErrParam
    ensures IsList(v.entries) ==> r.ret == Ok
    ensures IsList(v.entries) && ToAsList(v.entries, serializer, rt).Failure?
            ==> r.arg == NullItems && r.recorded == ErrParam
  {
    if !IsList(v.entries) then ItemsOutcome(ErrClient, ErrParam, NoArg)
    else
      var c := ToAsListAsWritten(v.entries, serializer, rt);
      match c.list
      case None => ItemsOutcome(Ok, c.recorded, NullItems)
      case Some(items) => ItemsOutcome(Ok, Ok, Items(items))
  }

  /** A merge of `[true]` under SERIALIZER_NONE: as written the operation is added
      with a NULL list and the branch reports OK; corrected, it is ERR_PARAM. */
  lemma MergeOfUnconvertibleItemsAdded(rt: Runtime)
    ensures ListItemsAsWritten(PArr([(IntKey(0), PBool(true))]), SERIALIZER_NONE, rt)
            == ItemsOutcome(Ok, ErrParam, NullItems)
    ensures ListItems(PArr([(IntKey(0), PBool(true))]), SERIALIZER_NONE, rt) == Failure(ErrParam)
  {
    ListConversionFailureReportedOk(rt);
  }

  /** A list operation built from checked fields; only the item-list operations
      can still fail. */
  function ListOperationOf(lop: ListOp, bin: string, index: int, v: Option<PVal>, checked: Option<AsVal>,
                           serializer: int, rt: Runtime): (r: Result<Op>)
    requires RequiresAsVal(ListOpCode(lop)) ==> checked.Some?
    requires RequiresListVal(ListOpCode(lop)) ==> v.Some? && v.value.PArr?
    requires RequiresLongVal(ListOpCode(lop)) ==> v.Some? && v.value.PInt?
    ensures r.Failure? ==> r.error == ErrParam
    ensures r.Failure? <==> RequiresListVal(ListOpCode(lop)) && ListItems(v.value, serializer, rt).Failure?
    ensures r.Success? ==> r.value.ListOperation? && r.value.listOp == lop && r.value.bin == bin
    ensures r.Success? ==> (r.value.index.Some? <==> RequiresIndex(ListOpCode(lop)))
    ensures r.Success? && r.value.index.Some? ==> r.value.index.value == index
    ensures r.Success? && RequiresAsVal(ListOpCode(lop)) ==> r.value.arg == Value(checked.value)
    ensures r.Success? && RequiresLongVal(ListOpCode(lop)) ==> r.value.arg == Count(U64(v.value.n))
    ensures r.Success? && RequiresListVal(ListOpCode(lop)) ==> r.value.arg == Items(ListItems(v.value, serializer, rt).value)
  {
    match lop
    case ListAppend => Success(ListOperation(lop, bin, None, Value(checked.value)))
    case ListMerge =>
      var items :- ListItems(v.value, serializer, rt);
      Success(ListOperation(lop, bin, None, Items(items)))
    case ListInsert => Success(ListOperation(lop, bin, Some(index), Value(checked.value)))
    case ListInsertItems =>
      var items :- ListItems(v.value, serializer, rt);
      Success(ListOperation(lop, bin, Some(index), Items(items)))
    case ListPop => Success(ListOperation(lop, bin, Some(index), NoArg))
    case ListPopRange => Success(ListOperation(lop, bin, Some(index), Count(U64(v.value.n))))
    case ListRemove => Success(ListOperation(lop, bin, Some(index), NoArg))
    case ListRemoveRange => Success(ListOperation(lop, bin, Some(index), Count(U64(v.value.n))))
    case ListClear => Success(ListOperation(lop, bin, None, NoArg))
    case ListSet => Success(ListOperation(lop, bin, Some(index), Value(checked.value)))
    case ListGet => Success(ListOperation(lop, bin, Some(index), NoArg))
    case ListGetRange => Success(ListOperation(lop, bin, Some(index), Count(U64(v.value.n))))
    case ListTrim => Success(ListOperation(lop, bin, Some(index), Count(U64(v.value.n))))
    case ListSize => Success(ListOperation(lop, bin, None, NoArg))
  }

  /** The single-bin branches of the `switch`: WRITE, READ, INCR, PREPEND, APPEND
      and DELETE; any other code that reaches it is unknown. */
  function SingleBinOp(code: int, bin: string, v: Option<PVal>, checked: Option<AsVal>, rt: Runtime): (r: Result<Op>)
    requires code == OPERATOR_WRITE ==> checked.Some?
    requires code in {OPERATOR_INCR, OPERATOR_PREPEND, OPERATOR_APPEND} ==> v.Some?
    ensures r.Failure? ==> r.error == ErrParam
    ensures r.Success? ==> CodeOf(r.value) == code
    ensures r.Success? && code != OPERATOR_DELETE ==> BinOf(r.value) == Some(bin)
    ensures r.Success? ==> code in {OPERATOR_READ, OPERATOR_WRITE, OPERATOR_INCR, OPERATOR_APPEND,
                                    OPERATOR_PREPEND, OPERATOR_DELETE}
    ensures code in {OPERATOR_APPEND, OPERATOR_PREPEND} ==> (r.Success? <==> v.value.PStr?)
    ensures code == OPERATOR_APPEND && v.value.PStr? ==> r == Success(Append(bin, CStr(v.value.s)))
    ensures code == OPERATOR_PREPEND && v.value.PStr? ==> r == Success(Prepend(bin, CStr(v.value.s)))
    ensures code == OPERATOR_INCR ==> r == IncrOp(bin, v.value, rt)
    ensures code == OPERATOR_WRITE ==> r == Success(Write(bin, checked.value))
    ensures code == OPERATOR_READ ==> r == Success(Read(bin))
    ensures code == OPERATOR_DELETE ==> r == Success(Delete)
  {
    if code == OPERATOR_WRITE then Success(Write(bin, checked.value))
    else if code == OPERATOR_READ then Success(Read(bin))
    else if code == OPERATOR_INCR then IncrOp(bin, v.value, rt)
    else if code == OPERATOR_PREPEND then
      if v.value.PStr? then Success(Prepend(bin, CStr(v.value.s))) else Failure(ErrParam)
    else if code == OPERATOR_APPEND then
      if v.value.PStr? then Success(Append(bin, CStr(v.value.s))) else Failure(ErrParam)
    else if code == OPERATOR_DELETE then Success(Delete)
    else Failure(ErrParam)
  }

  /** The "val" checks followed by the `switch` of `add_op_to_operations` for an
      operation that is neither TOUCH nor a map operation. */
  function NonMapOp(z: PVal, code: int, bin: string, index: int, serializer: int, rt: Runtime): (r: Result<Op>)
    requires !IsMapOp(code) && code != OPERATOR_TOUCH
    ensures r.Failure? ==> r.error == ErrParam
    ensures r.Success? ==> CodeOf(r.value) == code && KnownCode(code)
    ensures r.Success? && RequiresBin(code) ==> BinOf(r.value) == Some(bin)
    ensures RequiresVal(code) && Field(z, VAL_KEY).None? ==> r.Failure?
    ensures code == OPERATOR_WRITE ==>
      (r.Success? <==> FieldAsVal(z, VAL_KEY, serializer, rt).Some?) &&
      (r.Success? ==> r.value == Write(bin, FieldAsVal(z, VAL_KEY, serializer, rt).value))
    ensures code == OPERATOR_READ ==> r == Success(Read(bin))
    ensures code == OPERATOR_DELETE ==> r == Success(Delete)
    ensures code == OPERATOR_INCR && Field(z, VAL_KEY).Some? ==> r == IncrOp(bin, Field(z, VAL_KEY).value, rt)
    ensures code in {OPERATOR_APPEND, OPERATOR_PREPEND} && Field(z, VAL_KEY).Some? ==>
      (r.Success? <==> Field(z, VAL_KEY).value.PStr?)
    ensures code == OPERATOR_APPEND && Field(z, VAL_KEY).Some? && Field(z, VAL_KEY).value.PStr? ==>
      r == Success(Append(bin, CStr(Field(z, VAL_KEY).value.s)))
    ensures code == OPERATOR_PREPEND && Field(z, VAL_KEY).Some? && Field(z, VAL_KEY).value.PStr? ==>
      r == Success(Prepend(bin, CStr(Field(z, VAL_KEY).value.s)))
    ensures DecodeListOp(code).Some? && r.Success? ==>
      r.value.ListOperation? && r.value.listOp == DecodeListOp(code).value && r.value.bin == bin
    ensures DecodeListOp(code).Some? && r.Success? && RequiresAsVal(code) ==>
      FieldAsVal(z, VAL_KEY, serializer, rt).Some? && r.value.arg == Value(FieldAsVal(z, VAL_KEY, serializer, rt).value)
  {
    var checked :- CheckedVal(z, code, serializer, rt);
    var v := Field(z, VAL_KEY);
    ValRequirementsNeedVal(code);
    match DecodeListOp(code)
    case Some(lop) =>
      DecodeListOpInverse(code);
      ListOperationOf(lop, bin, index, v, checked, serializer, rt)
    case None => SingleBinOp(code, bin, v, checked, rt)
  }

  /** Every operation that checks the shape of "val" also requires it. */
  lemma ValRequirementsNeedVal(code: int)
    ensures RequiresListVal(code) || RequiresLongVal(code) || RequiresAsVal(code) ==> RequiresVal(code)
    ensures code in {OPERATOR_INCR, OPERATOR_PREPEND, OPERATOR_APPEND} ==> RequiresVal(code)
    ensures code == OPERATOR_WRITE ==> RequiresAsVal(code)
  {
  }

  /** The operation code of an operation array, when it has an integer "op". */
  predicate HasCode(es: Entries) {
    IsInt(Field(PArr(es), OP_KEY))
  }

  function Code(es: Entries): int
    requires HasCode(es)
  {
    OpType(Field(PArr(es), OP_KEY).value.n)
  }

  /** `add_op_to_operations`: one operation array checked and added. */
  function AddOp(es: Entries, acc: Operations, serializer: int, rt: Runtime): (r: Result<Operations>)
    ensures r.Failure? ==> r.error == ErrParam
    ensures !HasCode(es) ==> r == Failure(ErrParam)
    ensures r.Success? ==> r.value.gen == acc.gen
    // TOUCH
    ensures HasCode(es) && Code(es) == OPERATOR_TOUCH && Field(PArr(es), TTL_KEY).None? ==> r == Success(acc)
    ensures HasCode(es) && Code(es) == OPERATOR_TOUCH && Field(PArr(es), TTL_KEY).Some? && !IsInt(Field(PArr(es), TTL_KEY))
            ==> r == Failure(ErrParam)
    ensures HasCode(es) && Code(es) == OPERATOR_TOUCH && IsInt(Field(PArr(es), TTL_KEY))
            ==> r == Success(acc.(ops := acc.ops + [Touch], ttl := U32(Field(PArr(es), TTL_KEY).value.n)))
    // every other code
    ensures HasCode(es) && Code(es) != OPERATOR_TOUCH && RequiresBin(Code(es)) && !ValidBin(Field(PArr(es), BIN_KEY))
            ==> r == Failure(ErrParam)
    ensures HasCode(es) && Code(es) != OPERATOR_TOUCH && ValidBin(Field(PArr(es), BIN_KEY))
            && RequiresIndex(Code(es)) && !IsInt(Field(PArr(es), INDEX_KEY))
            ==> r == Failure(ErrParam)
    ensures HasCode(es) && !KnownCode(Code(es)) ==> r == Failure(ErrParam)
    ensures HasCode(es) && !IsMapOp(Code(es)) && RequiresVal(Code(es)) && Field(PArr(es), VAL_KEY).None?
            ==> r == Failure(ErrParam)
    ensures r.Success? && Code(es) != OPERATOR_TOUCH ==>
      && r.value.ttl == acc.ttl
      && |r.value.ops| == |acc.ops| + 1
      && r.value.ops[..|acc.ops|] == acc.ops
      && CodeOf(r.value.ops[|acc.ops|]) == Code(es)
    ensures r.Success? && Code(es) != OPERATOR_TOUCH && RequiresBin(Code(es)) ==>
      BinOf(r.value.ops[|acc.ops|]) == Some(CStr(Field(PArr(es), BIN_KEY).value.s))
  {
    var z := PArr(es);
    if !HasCode(es) then Failure(ErrParam)
    else
      var code := Code(es);
      if code == OPERATOR_TOUCH then
        var ttl := Field(z, TTL_KEY);
        if ttl.None? then Success(acc)
        else if !ttl.value.PInt? then Failure(ErrParam)
        else Success(acc.(ops := acc.ops + [Touch], ttl := U32(ttl.value.n)))
      else
        var op :- OpFor(z, code, serializer, rt);
        Success(acc.(ops := acc.ops + [op]))
  }

  /** The operation an array adds is the one built from its fields. */
  lemma AddOpAppendsOpFor(es: Entries, acc: Operations, serializer: int, rt: Runtime)
    requires HasCode(es) && Code(es) != OPERATOR_TOUCH
    ensures AddOp(es, acc, serializer, rt).Success? <==> OpFor(PArr(es), Code(es), serializer, rt).Success?
    ensures AddOp(es, acc, serializer, rt).Success? ==>
      AddOp(es, acc, serializer, rt).value == acc.(ops := acc.ops + [OpFor(PArr(es), Code(es), serializer, rt).value])
  {
  }

  /** The operation built for a code other than TOUCH: the bin name and index
      checks, then the map or non-map builder. */
  function OpFor(z: PVal, code: int, serializer: int, rt: Runtime): (r: Result<Op>)
    requires z.PArr? && code != OPERATOR_TOUCH
    ensures r.Failure? ==> r.error == ErrParam
    ensures RequiresBin(code) && !ValidBin(Field(z, BIN_KEY)) ==> r == Failure(ErrParam)
    ensures ValidBin(Field(z, BIN_KEY)) && RequiresIndex(code) && !IsInt(Field(z, INDEX_KEY)) ==> r == Failure(ErrParam)
    ensures !KnownCode(code) ==> r == Failure(ErrParam)
    ensures !IsMapOp(code) && RequiresVal(code) && Field(z, VAL_KEY).None? ==> r == Failure(ErrParam)
    ensures r.Success? ==> CodeOf(r.value) == code
    ensures r.Success? && RequiresBin(code) ==> BinOf(r.value) == Some(CStr(Field(z, BIN_KEY).value.s))
    ensures code == OPERATOR_WRITE ==>
      (r.Success? <==> ValidBin(Field(z, BIN_KEY)) && FieldAsVal(z, VAL_KEY, serializer, rt).Some?) &&
      (r.Success? ==> r.value == Write(CStr(Field(z, BIN_KEY).value.s), FieldAsVal(z, VAL_KEY, serializer, rt).value))
    ensures code == OPERATOR_READ ==>
      (r.Success? <==> ValidBin(Field(z, BIN_KEY))) &&
      (r.Success? ==> r.value == Read(CStr(Field(z, BIN_KEY).value.s)))
    ensures code == OPERATOR_DELETE ==> r == Success(Delete)
    ensures code == OPERATOR_INCR && ValidBin(Field(z, BIN_KEY)) && Field(z, VAL_KEY).Some? ==>
      r == IncrOp(CStr(Field(z, BIN_KEY).value.s), Field(z, VAL_KEY).value, rt)
    ensures code == OPERATOR_APPEND && ValidBin(Field(z, BIN_KEY)) && Field(z, VAL_KEY).Some? ==>
      r == if Field(z, VAL_KEY).value.PStr? then Success(Append(CStr(Field(z, BIN_KEY).value.s), CStr(Field(z, VAL_KEY).value.s)))
           else Failure(ErrParam)
    ensures code == OPERATOR_PREPEND && ValidBin(Field(z, BIN_KEY)) && Field(z, VAL_KEY).Some? ==>
      r == if Field(z, VAL_KEY).value.PStr? then Success(Prepend(CStr(Field(z, BIN_KEY).value.s), CStr(Field(z, VAL_KEY).value.s)))
           else Failure(ErrParam)
  {
    if IsMapOp(code) then MapOpFor(z, code, serializer, rt)
    else
      WriteOpFor(z, serializer, rt);
      ReadOpFor(z, serializer, rt);
      if ValidBin(Field(z, BIN_KEY)) && Field(z, VAL_KEY).Some? then
        IncrOpFor(z, serializer, rt);
        if code in {OPERATOR_APPEND, OPERATOR_PREPEND} then ConcatOpFor(z, code, serializer, rt); NonMapOpFor(z, code, serializer, rt)
        else NonMapOpFor(z, code, serializer, rt)
      else NonMapOpFor(z, code, serializer, rt)
  }

  /** `add_op_to_operations` for a map operation: the bin check, then the map
      operation's own fields. */
  function MapOpFor(z: PVal, code: int, serializer: int, rt: Runtime): (r: Result<Op>)
    requires z.PArr? && IsMapOp(code)
    ensures r.Failure? ==> r.error == ErrParam
    ensures !ValidBin(Field(z, BIN_KEY)) ==> r == Failure(ErrParam)
    ensures r.Success? ==> CodeOf(r.value) == code && BinOf(r.value) == Some(CStr(Field(z, BIN_KEY).value.s))
  {
    OpCodeRangesDisjoint(code);
    assert RequiresBin(code);
    var bin :- BinName(z, code);
    var index :- IndexOf(z, code);
    var op := DecodeMapOp(code).value;
    DecodeMapOpInverse(code);
    var r := AddMapOp(z, op, bin, serializer, rt);
    assert r.Success? ==> CodeOf(r.value) == MapOpCode(op) == code;
    r
  }

  /** `add_op_to_operations` for every other code: the bin and index checks, then
      the operation itself. */
  function NonMapOpFor(z: PVal, code: int, serializer: int, rt: Runtime): (r: Result<Op>)
    requires z.PArr? && !IsMapOp(code) && code != OPERATOR_TOUCH
    ensures r.Failure? ==> r.error == ErrParam
    ensures RequiresBin(code) && !ValidBin(Field(z, BIN_KEY)) ==> r == Failure(ErrParam)
    ensures ValidBin(Field(z, BIN_KEY)) && RequiresIndex(code) && !IsInt(Field(z, INDEX_KEY)) ==> r == Failure(ErrParam)
    ensures !KnownCode(code) ==> r == Failure(ErrParam)
    ensures RequiresVal(code) && Field(z, VAL_KEY).None? ==> r == Failure(ErrParam)
    ensures r.Success? ==> CodeOf(r.value) == code
    ensures r.Success? && RequiresBin(code) ==> BinOf(r.value) == Some(CStr(Field(z, BIN_KEY).value.s))
  {
    var bin :- BinName(z, code);
    var index :- IndexOf(z, code);
    NonMapOp(z, code, bin, index, serializer, rt)
  }

  /** For a code with a bin and no index, a valid bin name hands the operation
      itself to `NonMapOp` under its C name. */
  lemma NonMapOpForIs(z: PVal, code: int, serializer: int, rt: Runtime)
    requires z.PArr? && !IsMapOp(code) && code != OPERATOR_TOUCH && RequiresBin(code) && !RequiresIndex(code)
    requires ValidBin(Field(z, BIN_KEY))
    ensures NonMapOpFor(z, code, serializer, rt) == NonMapOp(z, code, CStr(Field(z, BIN_KEY).value.s), 0, serializer, rt)
  {
    assert BinName(z, code) == Success(CStr(Field(z, BIN_KEY).value.s));
  }

  /** A write adds the checked bin name and the converted value. */
  lemma WriteOpFor(z: PVal, serializer: int, rt: Runtime)
    requires z.PArr?
    ensures var r := NonMapOpFor(z, OPERATOR_WRITE, serializer, rt);
      && (r.Success? <==> ValidBin(Field(z, BIN_KEY)) && FieldAsVal(z, VAL_KEY, serializer, rt).Some?)
      && (r.Success? ==> r.value == Write(CStr(Field(z, BIN_KEY).value.s), FieldAsVal(z, VAL_KEY, serializer, rt).value))
  {
    assert BinName(z, OPERATOR_WRITE).Success? <==> ValidBin(Field(z, BIN_KEY));
  }

  /** A read adds the checked bin name and nothing else. */
  lemma ReadOpFor(z: PVal, serializer: int, rt: Runtime)
    requires z.PArr?
    ensures var r := NonMapOpFor(z, OPERATOR_READ, serializer, rt);
      && (r.Success? <==> ValidBin(Field(z, BIN_KEY)))
      && (r.Success? ==> r.value == Read(CStr(Field(z, BIN_KEY).value.s)))
  {
    assert BinName(z, OPERATOR_READ).Success? <==> ValidBin(Field(z, BIN_KEY));
  }

  /** An increment adds the checked bin name and the number the value reads as. */
  lemma IncrOpFor(z: PVal, serializer: int, rt: Runtime)
    requires z.PArr? && ValidBin(Field(z, BIN_KEY)) && Field(z, VAL_KEY).Some?
    ensures NonMapOpFor(z, OPERATOR_INCR, serializer, rt) == IncrOp(CStr(Field(z, BIN_KEY).value.s), Field(z, VAL_KEY).value, rt)
  {
    NonMapOpForIs(z, OPERATOR_INCR, serializer, rt);
  }

  /** An append or prepend adds the checked bin name and the C string of a string
      value; any other value is ERR_PARAM. */
  lemma ConcatOpFor(z: PVal, code: int, serializer: int, rt: Runtime)
    requires z.PArr? && code in {OPERATOR_APPEND, OPERATOR_PREPEND}
    requires ValidBin(Field(z, BIN_KEY)) && Field(z, VAL_KEY).Some?
    ensures var r := NonMapOpFor(z, code, serializer, rt);
      var bin := CStr(Field(z, BIN_KEY).value.s);
      var v := Field(z, VAL_KEY).value;
      && (r.Success? <==> v.PStr?)
      && (r.Success? ==> r.value == if code == OPERATOR_APPEND then Append(bin, CStr(v.s)) else Prepend(bin, CStr(v.s)))
  {
    NonMapOpForIs(z, code, serializer, rt);
  }

  /** `["op" => OPERATOR_WRITE, "bin" => "b", "val" => 5]` adds a write of the
      integer 5 to bin "b". */
  lemma WriteOperationAdded(acc: Operations, serializer: int, rt: Runtime)
    ensures AddOp([(StrKey(OP_KEY), PInt(OPERATOR_WRITE)), (StrKey(BIN_KEY), PStr("b")), (StrKey(VAL_KEY), PInt(5))],
                  acc, serializer, rt)
            == Success(acc.(ops := acc.ops + [Write("b", AInt(5))]))
  {
    var es := [(StrKey(OP_KEY), PInt(OPERATOR_WRITE)), (StrKey(BIN_KEY), PStr("b")), (StrKey(VAL_KEY), PInt(5))];
    assert Firsts(es) == [StrKey(OP_KEY), StrKey(BIN_KEY), StrKey(VAL_KEY)];
    assert DistinctKeys(es);
    FindDistinct(es, StrKey(OP_KEY), PInt(OPERATOR_WRITE));
    FindDistinct(es, StrKey(BIN_KEY), PStr("b"));
    FindDistinct(es, StrKey(VAL_KEY), PInt(5));
    assert CStr("b") == "b";
    WriteOpFor(PArr(es), serializer, rt);
    AddOpAppendsOpFor(es, acc, serializer, rt);
  }

  /** The walk over the operations of `operate`: every element must be an array
      and is added in order; the first failure stops the walk. */
  function AddOps(items: seq<PVal>, i: nat, acc: Operations, serializer: int, rt: Runtime): (r: Result<Operations>)
    requires i <= |items|
    ensures r.Failure? ==> r.error == ErrParam
    ensures r.Success? ==> forall j :: i <= j < |items| ==> items[j].PArr?
    ensures r.Success? ==> |acc.ops| <= |r.value.ops| <= |acc.ops| + (|items| - i)
    ensures r.Success? ==> r.value.ops[..|acc.ops|] == acc.ops && r.value.gen == acc.gen
    decreases |items| - i
  {
    if i == |items| then Success(acc)
    else if !items[i].PArr? then Failure(ErrParam)
    else
      var next :- AddOp(items[i].entries, acc, serializer, rt);
      var r := AddOps(items, i + 1, next, serializer, rt);
      assert r.Success? ==> r.value.ops[..|acc.ops|] == acc.ops by {
        if r.Success? {
          assert next.ops[..|acc.ops|] == acc.ops;
          assert r.value.ops[..|next.ops|] == next.ops;
          assert r.value.ops[..|acc.ops|] == r.value.ops[..|next.ops|][..|acc.ops|];
        }
      }
      r
  }

  /** The walk of `operateOrdered`: a string key is refused, integer keys are taken
      in iteration order whatever their values. */
  function AddOpsOrdered(es: Entries, i: nat, acc: Operations, serializer: int, rt: Runtime): (r: Result<Operations>)
    requires i <= |es|
    ensures r.Failure? ==> r.error == ErrParam
    ensures r.Success? ==> forall j :: i <= j < |es| ==> es[j].0.IntKey? && es[j].1.PArr?
    ensures r.Success? ==> r.value.gen == acc.gen
    decreases |es| - i
  {
    if i == |es| then Success(acc)
    else if es[i].0.StrKey? then Failure(ErrParam)
    else if !es[i].1.PArr? then Failure(ErrParam)
    else
      var next :- OrderedStep(es[i].1.entries, acc, serializer, rt);
      OrderedShapeStep(es, i);
      AddOpsOrdered(es, i + 1, next, serializer, rt)
  }

  /** An integer-keyed array entry `i` leaves the shape of entries `i..` to that
      of `i + 1..`. */
  lemma OrderedShapeStep(es: Entries, i: nat)
    requires i < |es| && es[i].0.IntKey? && es[i].1.PArr?
    ensures (forall j :: i <= j < |es| ==> es[j].0.IntKey? && es[j].1.PArr?)
            <==> (forall j :: i + 1 <= j < |es| ==> es[j].0.IntKey? && es[j].1.PArr?)
  {
  }

  /** `AddOp` seen only through what the ordered walk needs of it. */
  function OrderedStep(es: Entries, acc: Operations, serializer: int, rt: Runtime): (r: Result<Operations>)
    ensures r.Failure? ==> r.error == ErrParam
    ensures r.Success? ==> r.value.gen == acc.gen
  {
    AddOp(es, acc, serializer, rt)
  }

  /** On integer keys the ordered walk is the plain walk over the values. */
  lemma {:induction false} OrderedWalkIsPlainWalk(es: Entries, i: nat, acc: Operations, serializer: int, rt: Runtime)
    requires i <= |es|
    requires forall j :: 0 <= j < |es| ==> es[j].0.IntKey?
    ensures AddOpsOrdered(es, i, acc, serializer, rt) == AddOps(Values(es), i, acc, serializer, rt)
    decreases |es| - i
  {
    if i < |es| && es[i].1.PArr? {
      var next := AddOp(es[i].1.entries, acc, serializer, rt);
      if next.Success? {
        OrderedWalkIsPlainWalk(es, i + 1, next.value, serializer, rt);
      }
    }
  }

  // ---------------------------------------------------------------------------
  // operate / operateOrdered up to the server call
  // ---------------------------------------------------------------------------

  /** What reaches `aerospike_key_operate`: the key, the policy, the serializer the
      values were converted with, and the operations. */
  datatype Prepared = Prepared(key: AsKey, policy: Policy, serializer: int, operations: Operations)

  /** The serializer `set_serializer_from_policy_hash` leaves; its status is
      ignored, so a failure keeps the ini setting. */
  function OperateSerializer(z: Option<PVal>, ini: int): int {
    match SerializerFromPolicy(z, ini)
    case Success(s) => s
    case Failure(_) => ini
  }

  /** The steps shared by both entry points once the policy has been converted:
      the empty check, serializer, generation, TTL and the walk. `ordered` selects
      the walk of `operateOrdered`. */
  function PrepareFrom(key: AsKey, policy: Policy, ops: Entries, z: Option<PVal>, ini: int, ordered: bool, rt: Runtime)
    : (r: Result<Prepared>)
    ensures r.Failure? ==> r.error == ErrParam
    ensures |ops| == 0 ==> r == Failure(ErrParam)
    ensures r.Success? ==> r.value.key == key && r.value.policy == policy
    ensures r.Success? ==> r.value.serializer == OperateSerializer(z, ini)
    ensures r.Success? ==> OperationsGeneration(z, 0).Success? && r.value.operations.gen == OperationsGeneration(z, 0).value
    ensures r.Success? ==> OperationsTtl(z, 0).Success?
    ensures r.Success? ==> |r.value.operations.ops| <= |ops|
    ensures r.Success? && !ordered ==> IsList(ops)
    ensures r.Success? ==> forall j :: 0 <= j < |ops| ==> ops[j].1.PArr?
  {
    if |ops| == 0 then Failure(ErrParam)
    else
      var serializer := OperateSerializer(z, ini);
      var gen :- OperationsGeneration(z, 0);
      var ttl :- OperationsTtl(z, 0);
      var start := Operations([], ttl, gen);
      if ordered then
        var built :- AddOpsOrdered(ops, 0, start, serializer, rt);
        assert |built.ops| <= |ops| by {
          forall j | 0 <= j < |ops| ensures ops[j].0.IntKey? { }
          OrderedWalkIsPlainWalk(ops, 0, start, serializer, rt);
        }
        Success(Prepared(key, policy, serializer, built))
      else if !IsList(ops) then Failure(ErrParam)
      else
        var built :- AddOps(Values(ops), 0, start, serializer, rt);
        Success(Prepared(key, policy, serializer, built))
  }

  /** `Aerospike::operate` up to the server call. The key is checked first, then
      the policy; `dflt` is the client's configured operate policy. */
  function PrepareOperate(key: Entries, ops: Entries, z: Option<PVal>, dflt: Policy, ini: int, rt: Runtime)
    : (r: Result<Prepared>)
    ensures r.Failure? ==> r.error == ErrParam
    ensures KeyFromArray(PArr(key)).Failure? ==> r == Failure(ErrParam)
    ensures !Absent(z) && !z.value.PArr? ==> r == Failure(ErrParam)
    ensures |ops| == 0 ==> r == Failure(ErrParam)
    ensures r.Success? ==> IsList(ops)
    ensures r.Success? ==> forall j :: 0 <= j < |ops| ==> ops[j].1.PArr?
    ensures r.Success? ==> KeyFromArray(PArr(key)) == Success(r.value.key)
    ensures r.Success? ==> OperateFrom(z, dflt) == Success(r.value.policy)
    ensures r.Success? && Absent(z) ==> r.value.policy == dflt && r.value.serializer == ini
  {
    var k := KeyFromArray(PArr(key));
    if k.Failure? then Failure(ErrParam)
    else
      var policy := OperatePolicy(z, dflt).policy;
      if policy.Failure? then Failure(ErrParam)
      else PrepareFrom(k.value, policy.value, ops, z, ini, false, rt)
  }

  /** `Aerospike::operateOrdered` up to the server call. The policy is converted
      only when the argument was passed (`z` is `None` otherwise), and the
      operations array may have any integer keys. */
  function PrepareOperateOrdered(key: Entries, ops: Entries, z: Option<PVal>, dflt: Policy, ini: int, rt: Runtime)
    : (r: Result<Prepared>)
    ensures r.Failure? ==> r.error == ErrParam
    ensures KeyFromArray(PArr(key)).Failure? ==> r == Failure(ErrParam)
    ensures |ops| == 0 ==> r == Failure(ErrParam)
    ensures (exists j :: 0 <= j < |ops| && ops[j].0.StrKey?) ==> r.Failure?
    ensures r.Success? ==> KeyFromArray(PArr(key)) == Success(r.value.key)
  {
    var k := KeyFromArray(PArr(key));
    if k.Failure? then Failure(ErrParam)
    else
      var policy := if z.None? then Success(dflt) else OperatePolicy(z, dflt).policy;
      if policy.Failure? then Failure(ErrParam)
      else PrepareFrom(k.value, policy.value, ops, z, ini, true, rt)
  }

  /** On a list-shaped operations array the two entry points agree. */
  lemma OrderedAgreesOnLists(key: Entries, ops: Entries, z: Option<PVal>, dflt: Policy, ini: int, rt: Runtime)
    requires IsList(ops)
    ensures PrepareOperateOrdered(key, ops, z, dflt, ini, rt) == PrepareOperate(key, ops, z, dflt, ini, rt)
  {
    var k := KeyFromArray(PArr(key));
    if k.Success? && OperatePolicy(z, dflt).policy.Success? {
      WalksAgreeOnLists(k.value, OperatePolicy(z, dflt).policy.value, ops, z, ini, rt);
    }
  }

  /** Once the policy is known, both walks prepare the same call on a list. */
  lemma WalksAgreeOnLists(key: AsKey, policy: Policy, ops: Entries, z: Option<PVal>, ini: int, rt: Runtime)
    requires IsList(ops)
    ensures PrepareFrom(key, policy, ops, z, ini, true, rt) == PrepareFrom(key, policy, ops, z, ini, false, rt)
  {
    if |ops| > 0 && OperationsGeneration(z, 0).Success? && OperationsTtl(z, 0).Success? {
      var start := Operations([], OperationsTtl(z, 0).value, OperationsGeneration(z, 0).value);
      OrderedWalkIsPlainWalk(ops, 0, start, OperateSerializer(z, ini), rt);
    }
  }

  /** `operateOrdered` looks only at the values of an integer-keyed array, so an
      array keyed 5, 9, ... behaves like the list of its values, which `operate`
      would accept; `operate` itself refuses the array. */
  lemma OrderedIgnoresIntegerKeys(key: Entries, ops: Entries, z: Option<PVal>, dflt: Policy, ini: int, rt: Runtime)
    requires forall j :: 0 <= j < |ops| ==> ops[j].0.IntKey?
    ensures PrepareOperateOrdered(key, ops, z, dflt, ini, rt)
            == PrepareOperate(key, ListOf(Values(ops)).entries, z, dflt, ini, rt)
    ensures !IsList(ops) ==> PrepareOperate(key, ops, z, dflt, ini, rt).Failure?
  {
    var list := ListOf(Values(ops)).entries;
    assert Values(list) == Values(ops);
    var k := KeyFromArray(PArr(key));
    var policy := if z.None? then Success(dflt) else OperatePolicy(z, dflt).policy;
    if k.Success? && policy.Success? {
      OrderedSameValues(k.value, policy.value, ops, list, z, ini, rt);
    }
    OrderedAgreesOnLists(key, list, z, dflt, ini, rt);
  }

  /** The ordered walk over two integer-keyed arrays with the same values
      prepares the same call. */
  lemma OrderedSameValues(key: AsKey, policy: Policy, ops: Entries, list: Entries, z: Option<PVal>, ini: int, rt: Runtime)
    requires forall j :: 0 <= j < |ops| ==> ops[j].0.IntKey?
    requires forall j :: 0 <= j < |list| ==> list[j].0.IntKey?
    requires Values(list) == Values(ops)
    ensures PrepareFrom(key, policy, ops, z, ini, true, rt) == PrepareFrom(key, policy, list, z, ini, true, rt)
  {
    if |ops| > 0 && OperationsGeneration(z, 0).Success? && OperationsTtl(z, 0).Success? {
      var start := Operations([], OperationsTtl(z, 0).value, OperationsGeneration(z, 0).value);
      OrderedWalkIsPlainWalk(ops, 0, start, OperateSerializer(z, ini), rt);
      OrderedWalkIsPlainWalk(list, 0, start, OperateSerializer(z, ini), rt);
    }
  }

  // ---------------------------------------------------------------------------
  // After the server call
  // ---------------------------------------------------------------------------

  /** What `operate` returns once the server has answered: the server's error, or
      the bins of the returned record as one array (`as_bins_to_zval`), where a
      later operation on a bin replaces an earlier one. */
  function OperateReturn(server: Result<Record>, rt: Runtime): (r: Result<PVal>)
    ensures server.Failure? ==> r == Failure(server.error)
    ensures server.Success? ==> (r.Success? <==> BinsToZval(server.value.bins, rt).Success?)
    ensures r.Success? ==> r.value.PArr?
    ensures r.Success? ==> forall k :: HasKey(r.value.entries, k) <==> NamedIn(server.value.bins, k)
  {
    match server
    case Failure(e) => Failure(e)
    case Success(rec) =>
      match BinsToZval(rec.bins, rt)
      case Failure(e) => Failure(e)
      case Success(es) =>
        assert forall k :: HasKey(es, k) <==> NamedIn(rec.bins, k) by {
          forall k ensures HasKey(es, k) <==> NamedIn(rec.bins, k) {
            BinsToZvalKeys(rec.bins, rt, k);
          }
        }
        Success(PArr(es))
  }

  /** What `operateOrdered` returns once the server has answered: the server's
      error, or every returned bin as a `[name, value]` pair in record order
      (`as_operate_record_to_zval`). */
  function OperateOrderedReturn(server: Result<Record>, rt: Runtime): (r: Result<PVal>)
    ensures server.Failure? ==> r == Failure(server.error)
    ensures server.Success? ==> r == OperateRecordToZval(server.value.bins, rt)
  {
    match server
    case Failure(e) => Failure(e)
    case Success(rec) => OperateRecordToZval(rec.bins, rt)
  }
}

=== FILE: persistent.dfy ===
/** The registry of persistent connections (persistent_list.c): the search string
    a client is filed under, the size of the buffer it is written into, and how
    `persistent_connect` creates or shares a registry entry.
 */
module Persistent {
  import opened Errors
  import opened Strings
  import opened Policies
  import opened Client

  /** Room reserved per host for the decimal port, and for the hex shm key. */
  const MAX_PORT_SIZE: nat := 6
  const MAX_SHM_SIZE: nat := 19

  /** The delimiters written per host: ':' after the name, ':' after the port and
      ';' after the user. */
  const HOST_DELIMITERS: nat := 3

  // ---------------------------------------------------------------------------
  // get_persistent_search_string
  // ---------------------------------------------------------------------------

  /** What one host contributes: name ":" port ":" user ";". */
  function HostText(h: Host, user: string): string {
    CStr(h.name) + ":" + NatToDigits(if h.port < 0 then 0 else h.port) + ":" + CStr(user) + ";"
  }

  /** The hosts' contributions, in host order. */
  function HostsText(hosts: seq<Host>, user: string): string {
    if |hosts| == 0 then "" else HostsText(hosts[..|hosts| - 1], user) + HostText(hosts[|hosts| - 1], user)
  }

  /** `%x` of the `int` shm key, which prints its 32-bit two's complement. */
  function ShmText(shm: Shm): string {
    if shm.use then NatToHex(U32(shm.key)) else ""
  }

  /** The key a client is filed under in the registry. */
  function SearchString(hosts: seq<Host>, user: string, shm: Shm): string {
    HostsText(hosts, user) + ShmText(shm)
  }

  /** The first loop's total over some hosts: name, port room, delimiters, user. */
  function HostsSize(hosts: seq<Host>, user: string): nat {
    if |hosts| == 0 then 0
    else HostsSize(hosts[..|hosts| - 1], user) + |CStr(hosts[|hosts| - 1].name)| + MAX_PORT_SIZE + HOST_DELIMITERS + |CStr(user)|
  }

  /** The number of bytes `malloc` is asked for. */
  function AllocSize(hosts: seq<Host>, user: string, shm: Shm): nat {
    HostsSize(hosts, user) + if shm.use then MAX_SHM_SIZE else 0
  }

  /** Ports as `as_host` stores them: `uint16_t`. */
  predicate PortsFit(hosts: seq<Host>) {
    forall i :: 0 <= i < |hosts| ==> 0 <= hosts[i].port < U16_MODULUS
  }

  /** Every host leaves at least one byte of its reservation unused, since a 16-bit
      port needs at most five of the six bytes. */
  lemma {:induction false} HostsTextFits(hosts: seq<Host>, user: string)
    requires PortsFit(hosts)
    ensures |HostsText(hosts, user)| + |hosts| <= HostsSize(hosts, user)
  {
    if |hosts| > 0 {
      var last := hosts[|hosts| - 1];
      assert PortsFit(hosts[..|hosts| - 1]) by {
        assert forall i :: 0 <= i < |hosts| - 1 ==> hosts[..|hosts| - 1][i] == hosts[i];
      }
      HostsTextFits(hosts[..|hosts| - 1], user);
      assert 0 <= last.port < U16_MODULUS;
      PortWidth(last.port);
    }
  }

  /** The buffer holds the written text and its terminating NUL exactly when there
      is a host or shared memory is used; with neither nothing is reserved at all,
      yet the terminator is still written. */
  lemma SearchStringFits(hosts: seq<Host>, user: string, shm: Shm)
    requires PortsFit(hosts)
    ensures |SearchString(hosts, user, shm)| + 1 <= AllocSize(hosts, user, shm) <==> |hosts| > 0 || shm.use
  {
    HostsTextFits(hosts, user);
    if shm.use {
      KeyWidth(U32(shm.key));
    }
  }

  /** The first loop of `get_persistent_search_string`, summing what each host
      needs. */
  method MeasureHosts(hosts: seq<Host>, user: string) returns (size: nat)
    ensures size == HostsSize(hosts, user)
  {
    size := 0;
    var i := 0;
    while i < |hosts|
      invariant 0 <= i <= |hosts|
      invariant size == HostsSize(hosts[..i], user)
    {
      assert hosts[..i + 1][..i] == hosts[..i];
      size := size + |CStr(hosts[i].name)| + MAX_PORT_SIZE + HOST_DELIMITERS + |CStr(user)|;
      i := i + 1;
    }
    assert hosts[..|hosts|] == hosts;
  }

  /** The second loop, appending each host's text with `strcat`. */
  method WriteHosts(hosts: seq<Host>, user: string) returns (s: string)
    requires PortsFit(hosts)
    ensures s == HostsText(hosts, user)
  {
    s := "";
    var i := 0;
    while i < |hosts|
      invariant 0 <= i <= |hosts|
      invariant s == HostsText(hosts[..i], user)
    {
      assert hosts[..i + 1][..i] == hosts[..i];
      var port := NatToDigits(hosts[i].port);
      assert HostsText(hosts[..i + 1], user) == HostsText(hosts[..i], user) + HostText(hosts[i], user);
      s := s + (CStr(hosts[i].name) + ":" + port + ":" + CStr(user) + ";");
      i := i + 1;
    }
    assert hosts[..|hosts|] == hosts;
  }

  /** `get_persistent_search_string`: the size, the allocation (`allocOk` says
      whether `malloc` succeeded) and the text. */
  method BuildSearchString(hosts: seq<Host>, user: string, shm: Shm, allocOk: bool)
    returns (size: nat, text: Option<string>)
    requires PortsFit(hosts)
    ensures size == AllocSize(hosts, user, shm)
    ensures text.None? <==> !allocOk
    ensures text.Some? ==> text.value == SearchString(hosts, user, shm)
    ensures text.Some? ==> (|text.value| + 1 <= size <==> |hosts| > 0 || shm.use)
  {
    size := MeasureHosts(hosts, user);
    if shm.use {
      size := size + MAX_SHM_SIZE;
    }
    if !allocOk {
      return size, None;
    }
    var s := WriteHosts(hosts, user);
    if shm.use {
      s := s + NatToHex(U32(shm.key));
    }
    SearchStringFits(hosts, user, shm);
    text := Some(s);
  }

  // ---------------------------------------------------------------------------
  // The registry and persistent_connect
  // ---------------------------------------------------------------------------

  /** A registry entry: the shared C-client handle and its counters. */
  datatype PersistentHost = PersistentHost(client: nat, refCnt: int, connCnt: int, connected: bool)

  /** The process-wide registry, keyed by search string. */
  type Registry = map<string, PersistentHost>

  /** What `persistent_connect` returns, the registry it leaves and the handle the
      client object ends up holding. */
  datatype Connection = Connection(status: Status, registry: Registry, client: nat)

  /** `persistent_connect`: `search` is the search string (`None` when it could
      not be allocated), `own` the client's freshly made handle and `connect` what
      `aerospike_connect` returns if it is called. */
  function PersistentConnect(reg: Registry, own: nat, search: Option<string>, connect: Status): (r: Connection)
    ensures search.None? ==> r == Connection(ErrClient, reg, own)
    ensures search.Some? && search.value !in reg ==>
              && r.client == own && r.status == connect
              && r.registry == if connect == Ok then reg[search.value := PersistentHost(own, 1, 1, true)] else reg
    ensures search.Some? && search.value in reg ==>
              var e := reg[search.value];
              && r.client == e.client && search.value in r.registry
              && r.registry.Keys == reg.Keys
              && (r.status == Ok <==> e.connected || connect == Ok)
              && (r.status != Ok ==> r.status == connect && r.registry == reg)
              && (r.status == Ok ==>
                    r.registry == reg[search.value := e.(refCnt := e.refCnt + 1, connCnt := e.connCnt + 1, connected := true)])
  {
    match search
    case None => Connection(ErrClient, reg, own)
    case Some(key) =>
      if key in reg then
        var e := reg[key];
        if !e.connected && connect != Ok then Connection(connect, reg, e.client)
        else Connection(Ok, reg[key := e.(refCnt := e.refCnt + 1, connCnt := e.connCnt + 1, connected := true)], e.client)
      else if connect == Ok then
        Connection(Ok, reg[key := PersistentHost(own, 1, 1, true)], own)
      else Connection(connect, reg, own)
  }

  /** What `persistent_connect` keeps true of every entry: it is connected and has
      been handed out as often as it has been connected, at least once. */
  predicate Consistent(reg: Registry) {
    forall k :: k in reg ==> reg[k].connected && reg[k].refCnt == reg[k].connCnt >= 1
  }

  /** Connecting keeps the registry consistent, and touches no entry other than
      the one filed under the search string. */
  lemma ConnectPreservesConsistency(reg: Registry, own: nat, search: Option<string>, connect: Status)
    requires Consistent(reg)
    ensures Consistent(PersistentConnect(reg, own, search, connect).registry)
    ensures forall k :: k in reg && Some(k) != search ==>
              (k in PersistentConnect(reg, own, search, connect).registry
               && PersistentConnect(reg, own, search, connect).registry[k] == reg[k])
  {
  }

  /** In a consistent registry an existing entry is always connected, so reusing it
      never calls `aerospike_connect` again: it succeeds, whatever `connect` would
      have returned, and bumps both counters. */
  lemma ReuseSucceeds(reg: Registry, own: nat, key: string, connect: Status)
    requires Consistent(reg) && key in reg
    ensures var r := PersistentConnect(reg, own, Some(key), connect);
      && r.status == Ok && r.client == reg[key].client
      && r.registry[key].refCnt == reg[key].refCnt + 1 && r.registry[key].connCnt == reg[key].connCnt + 1
  {
  }

  /** `n` connections under the same search string, the first of which succeeds:
      all share the first client's handle and the entry counts `n` references. */
  function ConnectTimes(reg: Registry, owns: seq<nat>, key: string, connect: Status): (r: Connection)
    requires |owns| > 0
    decreases |owns|
  {
    if |owns| == 1 then PersistentConnect(reg, owns[0], Some(key), connect)
    else
      var before := ConnectTimes(reg, owns[..|owns| - 1], key, connect);
      PersistentConnect(before.registry, owns[|owns| - 1], Some(key), connect)
  }

  lemma {:induction false} SharedAfterFirstConnect(reg: Registry, owns: seq<nat>, key: string)
    requires Consistent(reg) && key !in reg && |owns| > 0
    ensures var r := ConnectTimes(reg, owns, key, Ok);
      && r.status == Ok && r.client == owns[0] && key in r.registry
      && r.registry[key] == PersistentHost(owns[0], |owns|, |owns|, true)
      && Consistent(r.registry)
    decreases |owns|
  {
    if |owns| > 1 {
      var front := owns[..|owns| - 1];
      SharedAfterFirstConnect(reg, front, key);
      assert front[0] == owns[0];
      var before := ConnectTimes(reg, front, key, Ok);
      ReuseSucceeds(before.registry, owns[|owns| - 1], key, Ok);
      ConnectPreservesConsistency(before.registry, owns[|owns| - 1], Some(key), Ok);
    }
  }
}

=== FILE: php.dfy ===
/** The PHP side of the extension: zvals, PHP 7 hash tables as ordered entry
    sequences, and the engine hooks (serializers, GeoJSON class methods) that the
    conversions call but that are implemented outside the extension.
 */
module Php {
  import opened Errors
  import opened Strings

  /** Range of a PHP integer (`zend_long`, 64 bits). */
  const LONG_MIN: int := -0x8000_0000_0000_0000
  const LONG_MAX: int := 0x7fff_ffff_ffff_ffff

  predicate IsLong(n: int) {
    LONG_MIN <= n <= LONG_MAX
  }

  /** A hash-table key: an integer index or a string. */
  datatype PKey = IntKey(n: int) | StrKey(s: string)

  /** A zval. Doubles are carried unchanged and never computed with, so they are
      modelled as reals. An object is its class name and its declared properties. */
  datatype PVal =
    | PNull
    | PBool(b: bool)
    | PInt(n: int)
    | PDouble(d: real)
    | PStr(s: string)
    | PArr(entries: seq<(PKey, PVal)>)
    | PObj(cls: string, props: seq<(string, PVal)>)
    | PUndef

  type Entries = seq<(PKey, PVal)>

  // ---------------------------------------------------------------------------
  // Hash-table keys
  // ---------------------------------------------------------------------------

  /** Strings that PHP's symbol table stores as integer keys: canonical decimal
      text of a value in the `zend_long` range. */
  predicate IsNumericKeyText(s: string) {
    ParseDecimal(s).Some? && IsLong(ParseDecimal(s).value)
  }

  /** The key `add_assoc_*` and `zend_symtable_update` file a string under. */
  function SymKey(s: string): (k: PKey)
    ensures k.IntKey? <==> IsNumericKeyText(s)
    ensures k.IntKey? ==> IsLong(k.n) && IntToDecimal(k.n) == s
    ensures k.StrKey? ==> k.s == s
  {
    if IsNumericKeyText(s) then
      FormatParsed(s);
      IntKey(ParseDecimal(s).value)
    else StrKey(s)
  }

  /** A decimal string key and the integer key it spells are the same slot. */
  lemma SymKeyOfDecimal(n: int)
    requires IsLong(n)
    ensures SymKey(IntToDecimal(n)) == IntKey(n)
  {
    ParseFormatted(n);
  }

  // ---------------------------------------------------------------------------
  // Ordered hash tables
  // ---------------------------------------------------------------------------

  predicate HasKey(es: Entries, k: PKey) {
    k in Firsts(es)
  }

  predicate DistinctKeys(es: Entries) {
    forall i, j :: 0 <= i < j < |es| ==> es[i].0 != es[j].0
  }

  /** The position of the first occurrence of `k`. */
  function Position(ks: seq<PKey>, k: PKey): (r: Option<nat>)
    ensures r.None? <==> k !in ks
    ensures r.Some? ==> r.value < |ks| && ks[r.value] == k && k !in ks[..r.value]
  {
    if |ks| == 0 then None
    else if ks[0] == k then Some(0)
    else match Position(ks[1..], k)
      case None => None
      case Some(i) => assert ks[1..][..i] == ks[1..i + 1]; Some(i + 1)
  }

  /** `zend_hash_find`: the value stored under `k`. */
  function Find(es: Entries, k: PKey): (r: Option<PVal>)
    ensures r.None? <==> !HasKey(es, k)
    ensures r.Some? ==> exists i :: 0 <= i < |es| && es[i] == (k, r.value)
  {
    match Position(Firsts(es), k)
    case None => None
    case Some(i) => Some(es[i].1)
  }

  /** In a table with distinct keys, an entry is found under its own key. */
  lemma FindDistinct(es: Entries, k: PKey, v: PVal)
    requires DistinctKeys(es) && (k, v) in es
    ensures Find(es, k) == Some(v)
  {
    var i :| 0 <= i < |es| && es[i] == (k, v);
    assert Firsts(es)[i] == k;
    var p := Position(Firsts(es), k).value;
    assert es[p].0 == k;
    assert p == i;
  }

  /** `zend_hash_update` / `add_index_zval`: overwrite the value in place when the key
      exists, else append a new entry. */
  function Update(es: Entries, k: PKey, v: PVal): (r: Entries)
    ensures Find(r, k) == Some(v)
    ensures forall k' :: k' != k ==> Find(r, k') == Find(es, k')
    ensures !HasKey(es, k) ==> r == es + [(k, v)]
    ensures HasKey(es, k) ==> |r| == |es| && Firsts(r) == Firsts(es)
    ensures DistinctKeys(es) ==> DistinctKeys(r)
  {
    match Position(Firsts(es), k)
    case None =>
      var r := es + [(k, v)];
      assert Firsts(r) == Firsts(es) + [k];
      assert forall k' :: k' != k ==> Position(Firsts(r), k') == Position(Firsts(es), k') by {
        forall k' | k' != k ensures Position(Firsts(r), k') == Position(Firsts(es), k') {
          PositionAppend(Firsts(es), k, k');
        }
      }
      r
    case Some(i) =>
      var r := es[i := (k, v)];
      assert Firsts(r) == Firsts(es);
      r
  }

  /** After an update the table holds the keys it held before and the updated one. */
  lemma UpdateHasKey(es: Entries, k: PKey, v: PVal, k': PKey)
    ensures HasKey(Update(es, k, v), k') <==> k' == k || HasKey(es, k')
  {
    if k' != k {
      assert Find(Update(es, k, v), k') == Find(es, k');
    }
  }

  lemma PositionAppend(ks: seq<PKey>, k: PKey, k': PKey)
    requires k' != k
    ensures Position(ks + [k], k') == Position(ks, k')
  {
    var p := Position(ks + [k], k');
    if p.Some? {
      assert p.value < |ks|;
      assert (ks + [k])[..p.value] == ks[..p.value];
    }
  }

  /** `add_assoc_*(array, name, value)`: the name is read as a C string and filed
      through the symbol table. */
  function AddAssoc(es: Entries, name: string, v: PVal): Entries {
    Update(es, SymKey(CStr(name)), v)
  }

  /** A field name that is neither numeric nor cut short: the symbol table files it
      as itself. */
  predicate PlainName(name: string) {
    NulFree(name) && |name| > 0 && !IsDigit(name[0]) && name[0] != '-'
  }

  lemma PlainKey(name: string)
    requires PlainName(name)
    ensures SymKey(CStr(name)) == StrKey(name)
  {
    CStrOfNulFree(name);
  }

  /** Field names an `add_assoc_*` sequence can use: plain and pairwise distinct. */
  predicate FieldsOk(fields: seq<(string, PVal)>) {
    && (forall i :: 0 <= i < |fields| ==> PlainName(fields[i].0))
    && (forall i, j :: 0 <= i < j < |fields| ==> fields[i].0 != fields[j].0)
  }

  lemma FieldsOk2(a: (string, PVal), b: (string, PVal))
    requires PlainName(a.0) && PlainName(b.0) && a.0 != b.0
    ensures FieldsOk([a, b])
  {
  }

  lemma FieldsOk3(a: (string, PVal), b: (string, PVal), c: (string, PVal))
    requires PlainName(a.0) && PlainName(b.0) && PlainName(c.0)
    requires a.0 != b.0 && a.0 != c.0 && b.0 != c.0
    ensures FieldsOk([a, b, c])
  {
  }

  lemma FieldsOk4(a: (string, PVal), b: (string, PVal), c: (string, PVal), d: (string, PVal))
    requires PlainName(a.0) && PlainName(b.0) && PlainName(c.0) && PlainName(d.0)
    requires a.0 != b.0 && a.0 != c.0 && a.0 != d.0 && b.0 != c.0 && b.0 != d.0 && c.0 != d.0
    ensures FieldsOk([a, b, c, d])
  {
  }

  /** A fresh array filled by `add_assoc_*` calls with distinct plain field names:
      one entry per call, in call order. */
  function Assoc(fields: seq<(string, PVal)>): (r: Entries)
    requires FieldsOk(fields)
    ensures |r| == |fields|
    ensures forall i :: 0 <= i < |fields| ==> r[i] == (StrKey(fields[i].0), fields[i].1)
    ensures DistinctKeys(r)
  {
    if |fields| == 0 then []
    else
      var front := Assoc(fields[..|fields| - 1]);
      AssocStep(front, fields);
      AddAssoc(front, fields[|fields| - 1].0, fields[|fields| - 1].1)
  }

  /** The last `add_assoc_*` call appends its field to the array built from the
      others. */
  lemma AssocStep(front: Entries, fields: seq<(string, PVal)>)
    requires FieldsOk(fields) && |fields| > 0 && |front| == |fields| - 1 && DistinctKeys(front)
    requires forall i :: 0 <= i < |front| ==> front[i] == (StrKey(fields[..|fields| - 1][i].0), fields[..|fields| - 1][i].1)
    ensures var r := AddAssoc(front, fields[|fields| - 1].0, fields[|fields| - 1].1);
      && |r| == |fields| && DistinctKeys(r)
      && forall i :: 0 <= i < |fields| ==> r[i] == (StrKey(fields[i].0), fields[i].1)
  {
    var last := fields[|fields| - 1];
    PlainKey(last.0);
    FreshName(front, fields);
    var r := AddAssoc(front, last.0, last.1);
    assert r == front + [(StrKey(last.0), last.1)];
    forall i | 0 <= i < |fields| ensures r[i] == (StrKey(fields[i].0), fields[i].1) {
      if i < |front| { assert fields[..|fields| - 1][i] == fields[i]; }
    }
  }

  /** The array built from all fields but the last holds no entry under the last
      field's name. */
  lemma FreshName(front: Entries, fields: seq<(string, PVal)>)
    requires |fields| > 0 && |front| == |fields| - 1
    requires forall i, j :: 0 <= i < j < |fields| ==> fields[i].0 != fields[j].0
    requires forall i :: 0 <= i < |front| ==> front[i].0 == StrKey(fields[..|fields| - 1][i].0)
    ensures !HasKey(front, StrKey(fields[|fields| - 1].0))
  {
    forall i | 0 <= i < |front| ensures Firsts(front)[i] != StrKey(fields[|fields| - 1].0) {
      assert fields[..|fields| - 1][i] == fields[i];
    }
  }

  /** Every field of such an array is found under its name. */
  lemma AssocFind(fields: seq<(string, PVal)>, i: nat)
    requires FieldsOk(fields)
    requires i < |fields|
    ensures Field(PArr(Assoc(fields)), fields[i].0) == Some(fields[i].1)
  {
    FindDistinct(Assoc(fields), StrKey(fields[i].0), fields[i].1);
  }

  /** Every field of such an array is found under its name, all at once. */
  lemma AssocFindAll(fields: seq<(string, PVal)>)
    requires FieldsOk(fields)
    ensures forall i :: 0 <= i < |fields| ==> Field(PArr(Assoc(fields)), fields[i].0) == Some(fields[i].1)
  {
    forall i | 0 <= i < |fields| ensures Field(PArr(Assoc(fields)), fields[i].0) == Some(fields[i].1) {
      AssocFind(fields, i);
    }
  }

  /** A name that was never added is not found. */
  lemma AssocMissing(fields: seq<(string, PVal)>, name: string)
    requires FieldsOk(fields)
    requires forall i :: 0 <= i < |fields| ==> fields[i].0 != name
    ensures Field(PArr(Assoc(fields)), name).None?
  {
  }

  /** `zend_hash_str_find(Z_ARRVAL_P(z), name)` on a zval that is an array; a
      non-array has no fields. */
  function Field(z: PVal, name: string): Option<PVal> {
    if z.PArr? then Find(z.entries, StrKey(name)) else None
  }

  /** A fresh array built by `add_next_index_*` only: keys 0, 1, 2, ... in order. */
  function ListOf(items: seq<PVal>): (r: PVal)
    ensures r.PArr? && |r.entries| == |items|
    ensures forall i :: 0 <= i < |items| ==> r.entries[i] == (IntKey(i), items[i])
  {
    PArr(seq(|items|, i requires 0 <= i < |items| => (IntKey(i), items[i])))
  }

  /** The shape `hashtable_is_list` accepts: only integer keys, 0 .. n-1 in
      iteration order. */
  predicate IsList(es: Entries) {
    forall i :: 0 <= i < |es| ==> es[i].0 == IntKey(i)
  }

  function Values(es: Entries): (r: seq<PVal>)
    ensures |r| == |es|
    ensures forall i :: 0 <= i < |es| ==> r[i] == es[i].1
  {
    seq(|es|, i requires 0 <= i < |es| => es[i].1)
  }

  lemma ListOfValues(es: Entries)
    requires IsList(es)
    ensures ListOf(Values(es)) == PArr(es)
  {
    assert ListOf(Values(es)).entries == es;
  }

  /** `zend_hash_index_find(list, i)` on a list-shaped table finds its i-th value. */
  lemma FindInList(es: Entries, i: nat)
    requires IsList(es) && i < |es|
    ensures Find(es, IntKey(i)) == Some(es[i].1)
  {
    assert es[i] == (IntKey(i), es[i].1);
    FindDistinct(es, IntKey(i), es[i].1);
  }

  /** `zend_hash_num_elements`. */
  function Count(z: PVal): nat {
    if z.PArr? then |z.entries| else 0
  }

  /** `hashtable_is_list`: walk the keys in order and stop at the first string key
      or the first integer key that is not the running index. */
  method HashtableIsList(es: Entries) returns (b: bool)
    ensures b <==> IsList(es)
  {
    var i := 0;
    while i < |es|
      invariant 0 <= i <= |es|
      invariant forall j :: 0 <= j < i ==> es[j].0 == IntKey(j)
    {
      if es[i].0.StrKey? || es[i].0.n != i {
        return false;
      }
      i := i + 1;
    }
    return true;
  }

  // ---------------------------------------------------------------------------
  // Engine hooks the extension calls but does not implement
  // ---------------------------------------------------------------------------

  /** What `is_numeric_string` makes of a string. */
  datatype Numeric = NotNumeric | NumericLong(n: int) | NumericDouble(d: real)

  /** Behaviour of the PHP runtime seen as functions: each is `None` when the call
      fails or raises. A user (de)serializer that was never registered is `None`. */
  datatype Runtime = Runtime(
    phpSerialize: PVal -> Option<string>,
    userSerializer: Option<PVal -> Option<PVal>>,
    phpUnserialize: string -> Option<PVal>,
    userDeserializer: Option<string -> Option<PVal>>,
    geoToString: PVal -> Option<PVal>,
    geoFromJson: string -> Option<PVal>,
    isNumericString: string -> Numeric)
}

=== FILE: policies.dfy ===
/** Conversion of PHP option arrays into C-client policies, map policies, scan and
    query options, and the TTL, generation and serializer settings of a single call
    (`policy_conversions.c`).

    A policy array is keyed by the integer `OPT_*` constants, plus the two string
    keys "deserialize" and "sleep_between_retries". Every `as_policy_*` struct is
    modelled by one `Policy` datatype holding the union of their fields; a kind of
    policy simply never touches the fields its struct does not have. The info and
    admin policies' single `timeout` field is `totalTimeout` here.
 */
module Policies {
  import opened Errors
  import opened Php
  import opened Types

  // ---------------------------------------------------------------------------
  // Casts of a 64-bit PHP integer to narrower unsigned C fields
  // ---------------------------------------------------------------------------

  const U8_MODULUS: int := 0x100
  const U16_MODULUS: int := 0x1_0000
  const U32_MODULUS: int := 0x1_0000_0000
  const U64_MODULUS: int := 0x1_0000_0000_0000_0000

  /** `(uintN_t)n`: the residue of `n` modulo 2^N. */
  function Wrap(n: int, modulus: int): (r: int)
    requires modulus > 0
    ensures 0 <= r < modulus
    ensures 0 <= n < modulus ==> r == n
  {
    n % modulus
  }

  function U32(n: int): int {
    Wrap(n, U32_MODULUS)
  }

  function U64(n: int): int {
    Wrap(n, U64_MODULUS)
  }

  function U16(n: int): int {
    Wrap(n, U16_MODULUS)
  }

  function U8(n: int): int {
    Wrap(n, U8_MODULUS)
  }

  /** `(int)n` for a 32-bit C `int`: the value in [-2^31, 2^31) congruent to `n`
      modulo 2^32, as two's-complement targets define the conversion. */
  function I32(n: int): (r: int)
    ensures -0x8000_0000 <= r < 0x8000_0000
    ensures -0x8000_0000 <= n < 0x8000_0000 ==> r == n
    ensures (r - n) % U32_MODULUS == 0
  {
    var w := n % U32_MODULUS;
    if w < 0x8000_0000 then w else w - U32_MODULUS
  }

  /** The TTL sentinels -1 ("never expire") and -2 ("do not change") reach the C
      client as the largest two `uint32_t` values. */
  lemma TtlSentinelsWrap()
    ensures U32(-1) == 0xFFFF_FFFF && U32(-2) == 0xFFFF_FFFE
  {
  }

  // ---------------------------------------------------------------------------
  // Reading typed entries
  // ---------------------------------------------------------------------------

  /** An argument that was not passed (`z == NULL`) or was passed as null. */
  predicate Absent(z: Option<PVal>) {
    z.None? || z.value.PNull?
  }

  /** The value of an option key. */
  function Setting(es: Entries, key: int): Option<PVal> {
    Find(es, IntKey(key))
  }

  predicate IsInt(v: Option<PVal>) {
    v.Some? && v.value.PInt?
  }

  predicate IsBool(v: Option<PVal>) {
    v.Some? && v.value.PBool?
  }

  /** `set_uint32t_policy_value_from_hash_*`: an integer entry is cast to 32 bits;
      a missing entry or one of another type leaves the field as it was. */
  function SetU32(v: Option<PVal>, current: int): (r: int)
    ensures IsInt(v) ==> r == U32(v.value.n)
    ensures !IsInt(v) ==> r == current
  {
    if IsInt(v) then U32(v.value.n) else current
  }

  /** The enumeration setters (`set_key_policy_value_from_hash` and the like): an
      integer entry is stored, anything else is ignored. */
  function SetEnum(v: Option<PVal>, current: int): (r: int)
    ensures IsInt(v) ==> r == v.value.n
    ensures !IsInt(v) ==> r == current
  {
    if IsInt(v) then v.value.n else current
  }

  /** `set_bool_policy_value_from_hash_*`: only `true` and `false` are taken. */
  function SetBool(v: Option<PVal>, current: bool): (r: bool)
    ensures IsBool(v) ==> r == v.value.b
    ensures !IsBool(v) ==> r == current
  {
    if IsBool(v) then v.value.b else current
  }

  // ---------------------------------------------------------------------------
  // Policies
  // ---------------------------------------------------------------------------

  const DESERIALIZE_KEY: string := "deserialize"
  const SLEEP_BETWEEN_RETRIES_KEY: string := "sleep_between_retries"

  datatype Policy = Policy(
    totalTimeout: int, socketTimeout: int, maxRetries: int, sleepBetweenRetries: int,
    key: int, replica: int, readModeAp: int, readModeSc: int, existsPolicy: int, commitLevel: int,
    gen: int, generation: int, durableDelete: bool, deserialize: bool,
    compressionThreshold: int, recordsPerSecond: int, failOnClusterChange: bool,
    concurrent: bool, allowInline: bool, sendSetName: bool)

  /** `set_base_policy_from_hash`: the fields every policy shares. */
  function BaseFromHash(es: Entries, p: Policy): (r: Policy)
    ensures r == p.(sleepBetweenRetries := r.sleepBetweenRetries, maxRetries := r.maxRetries,
                    totalTimeout := r.totalTimeout, socketTimeout := r.socketTimeout)
    ensures r.totalTimeout == SetU32(Setting(es, OPT_TOTAL_TIMEOUT), p.totalTimeout)
  {
    p.(sleepBetweenRetries := SetU32(Find(es, StrKey(SLEEP_BETWEEN_RETRIES_KEY)), p.sleepBetweenRetries),
       maxRetries := SetU32(Setting(es, OPT_MAX_RETRIES), p.maxRetries),
       totalTimeout := SetU32(Setting(es, OPT_TOTAL_TIMEOUT), p.totalTimeout),
       socketTimeout := SetU32(Setting(es, OPT_SOCKET_TIMEOUT), p.socketTimeout))
  }

  /** `set_read_policy_from_hash`. */
  function ReadFromHash(es: Entries, p: Policy): (r: Policy)
    ensures r == p.(sleepBetweenRetries := r.sleepBetweenRetries, maxRetries := r.maxRetries,
                    totalTimeout := r.totalTimeout, socketTimeout := r.socketTimeout,
                    readModeAp := r.readModeAp, deserialize := r.deserialize, readModeSc := r.readModeSc, key := r.key, replica := r.replica)
    ensures |es| == 0 ==> r == p
    ensures IsInt(Setting(es, OPT_POLICY_KEY)) ==> r.key == Setting(es, OPT_POLICY_KEY).value.n
    ensures !IsInt(Setting(es, OPT_POLICY_KEY)) ==> r.key == p.key
    ensures IsBool(Find(es, StrKey(DESERIALIZE_KEY))) ==> r.deserialize == Find(es, StrKey(DESERIALIZE_KEY)).value.b
    ensures !IsBool(Find(es, StrKey(DESERIALIZE_KEY))) ==> r.deserialize == p.deserialize
  {
    var q := p.(readModeAp := SetEnum(Setting(es, OPT_POLICY_READ_MODE_AP), p.readModeAp),
                deserialize := SetBool(Find(es, StrKey(DESERIALIZE_KEY)), p.deserialize),
                readModeSc := SetEnum(Setting(es, OPT_POLICY_READ_MODE_SC), p.readModeSc),
                key := SetEnum(Setting(es, OPT_POLICY_KEY), p.key),
                replica := SetEnum(Setting(es, OPT_POLICY_REPLICA), p.replica));
    BaseFromHash(es, q)
  }

  /** `set_write_policy_from_hash`. */
  function WriteFromHash(es: Entries, p: Policy): (r: Policy)
    ensures r == p.(sleepBetweenRetries := r.sleepBetweenRetries, maxRetries := r.maxRetries,
                    totalTimeout := r.totalTimeout, socketTimeout := r.socketTimeout,
                    compressionThreshold := r.compressionThreshold, existsPolicy := r.existsPolicy, commitLevel := r.commitLevel, durableDelete := r.durableDelete, key := r.key, replica := r.replica)
    ensures |es| == 0 ==> r == p
    ensures IsInt(Setting(es, OPT_POLICY_KEY)) ==> r.key == Setting(es, OPT_POLICY_KEY).value.n
    ensures !IsInt(Setting(es, OPT_POLICY_KEY)) ==> r.key == p.key
    ensures IsBool(Setting(es, OPT_POLICY_DURABLE_DELETE)) ==> r.durableDelete == Setting(es, OPT_POLICY_DURABLE_DELETE).value.b
    ensures !IsBool(Setting(es, OPT_POLICY_DURABLE_DELETE)) ==> r.durableDelete == p.durableDelete
    ensures r.compressionThreshold == SetU32(Setting(es, COMPRESSION_THRESHOLD), p.compressionThreshold)
  {
    var q := p.(compressionThreshold := SetU32(Setting(es, COMPRESSION_THRESHOLD), p.compressionThreshold),
                existsPolicy := SetEnum(Setting(es, OPT_POLICY_EXISTS), p.existsPolicy),
                commitLevel := SetEnum(Setting(es, OPT_POLICY_COMMIT_LEVEL), p.commitLevel),
                durableDelete := SetBool(Setting(es, OPT_POLICY_DURABLE_DELETE), p.durableDelete),
                key := SetEnum(Setting(es, OPT_POLICY_KEY), p.key),
                replica := SetEnum(Setting(es, OPT_POLICY_REPLICA), p.replica));
    BaseFromHash(es, q)
  }

  /** `set_remove_policy_from_hash` and `set_apply_policy_from_hash`, which set the
      same fields. */
  function RemoveFromHash(es: Entries, p: Policy): (r: Policy)
    ensures r == p.(sleepBetweenRetries := r.sleepBetweenRetries, maxRetries := r.maxRetries,
                    totalTimeout := r.totalTimeout, socketTimeout := r.socketTimeout,
                    commitLevel := r.commitLevel, durableDelete := r.durableDelete, key := r.key, replica := r.replica)
    ensures |es| == 0 ==> r == p
    ensures IsInt(Setting(es, OPT_POLICY_KEY)) ==> r.key == Setting(es, OPT_POLICY_KEY).value.n
    ensures !IsInt(Setting(es, OPT_POLICY_KEY)) ==> r.key == p.key
    ensures IsBool(Setting(es, OPT_POLICY_DURABLE_DELETE)) ==> r.durableDelete == Setting(es, OPT_POLICY_DURABLE_DELETE).value.b
    ensures !IsBool(Setting(es, OPT_POLICY_DURABLE_DELETE)) ==> r.durableDelete == p.durableDelete
  {
    var q := p.(commitLevel := SetEnum(Setting(es, OPT_POLICY_COMMIT_LEVEL), p.commitLevel),
                durableDelete := SetBool(Setting(es, OPT_POLICY_DURABLE_DELETE), p.durableDelete),
                key := SetEnum(Setting(es, OPT_POLICY_KEY), p.key),
                replica := SetEnum(Setting(es, OPT_POLICY_REPLICA), p.replica));
    BaseFromHash(es, q)
  }

  /** `set_operate_policy_from_hash`. */
  function OperateFromHash(es: Entries, p: Policy): (r: Policy)
    ensures r == p.(sleepBetweenRetries := r.sleepBetweenRetries, maxRetries := r.maxRetries,
                    totalTimeout := r.totalTimeout, socketTimeout := r.socketTimeout,
                    readModeAp := r.readModeAp, deserialize := r.deserialize, readModeSc := r.readModeSc, existsPolicy := r.existsPolicy, commitLevel := r.commitLevel, durableDelete := r.durableDelete, key := r.key, replica := r.replica)
    ensures |es| == 0 ==> r == p
    ensures IsInt(Setting(es, OPT_POLICY_KEY)) ==> r.key == Setting(es, OPT_POLICY_KEY).value.n
    ensures !IsInt(Setting(es, OPT_POLICY_KEY)) ==> r.key == p.key
    ensures IsBool(Setting(es, OPT_POLICY_DURABLE_DELETE)) ==> r.durableDelete == Setting(es, OPT_POLICY_DURABLE_DELETE).value.b
    ensures !IsBool(Setting(es, OPT_POLICY_DURABLE_DELETE)) ==> r.durableDelete == p.durableDelete
    ensures IsBool(Find(es, StrKey(DESERIALIZE_KEY))) ==> r.deserialize == Find(es, StrKey(DESERIALIZE_KEY)).value.b
    ensures !IsBool(Find(es, StrKey(DESERIALIZE_KEY))) ==> r.deserialize == p.deserialize
  {
    var q := p.(readModeAp := SetEnum(Setting(es, OPT_POLICY_READ_MODE_AP), p.readModeAp),
                deserialize := SetBool(Find(es, StrKey(DESERIALIZE_KEY)), p.deserialize),
                readModeSc := SetEnum(Setting(es, OPT_POLICY_READ_MODE_SC), p.readModeSc),
                existsPolicy := SetEnum(Setting(es, OPT_POLICY_EXISTS), p.existsPolicy),
                commitLevel := SetEnum(Setting(es, OPT_POLICY_COMMIT_LEVEL), p.commitLevel),
                durableDelete := SetBool(Setting(es, OPT_POLICY_DURABLE_DELETE), p.durableDelete),
                key := SetEnum(Setting(es, OPT_POLICY_KEY), p.key),
                replica := SetEnum(Setting(es, OPT_POLICY_REPLICA), p.replica));
    BaseFromHash(es, q)
  }

  /** `set_batch_policy_from_hash`. */
  function BatchFromHash(es: Entries, p: Policy): (r: Policy)
    ensures r == p.(sleepBetweenRetries := r.sleepBetweenRetries, maxRetries := r.maxRetries,
                    totalTimeout := r.totalTimeout, socketTimeout := r.socketTimeout,
                    concurrent := r.concurrent, allowInline := r.allowInline, sendSetName := r.sendSetName, readModeAp := r.readModeAp, deserialize := r.deserialize, readModeSc := r.readModeSc)
    ensures |es| == 0 ==> r == p
    ensures IsBool(Find(es, StrKey(DESERIALIZE_KEY))) ==> r.deserialize == Find(es, StrKey(DESERIALIZE_KEY)).value.b
    ensures !IsBool(Find(es, StrKey(DESERIALIZE_KEY))) ==> r.deserialize == p.deserialize
  {
    var q := p.(concurrent := SetBool(Setting(es, OPT_BATCH_CONCURRENT), p.concurrent),
                allowInline := SetBool(Setting(es, OPT_ALLOW_INLINE), p.allowInline),
                sendSetName := SetBool(Setting(es, OPT_SEND_SET_NAME), p.sendSetName),
                readModeAp := SetEnum(Setting(es, OPT_POLICY_READ_MODE_AP), p.readModeAp),
                deserialize := SetBool(Find(es, StrKey(DESERIALIZE_KEY)), p.deserialize),
                readModeSc := SetEnum(Setting(es, OPT_POLICY_READ_MODE_SC), p.readModeSc));
    BaseFromHash(es, q)
  }

  /** `set_query_policy_from_hash`. */
  function QueryFromHash(es: Entries, p: Policy): (r: Policy)
    ensures r == p.(sleepBetweenRetries := r.sleepBetweenRetries, maxRetries := r.maxRetries,
                    totalTimeout := r.totalTimeout, socketTimeout := r.socketTimeout,
                    deserialize := r.deserialize)
    ensures |es| == 0 ==> r == p
    ensures IsBool(Find(es, StrKey(DESERIALIZE_KEY))) ==> r.deserialize == Find(es, StrKey(DESERIALIZE_KEY)).value.b
    ensures !IsBool(Find(es, StrKey(DESERIALIZE_KEY))) ==> r.deserialize == p.deserialize
  {
    BaseFromHash(es, p.(deserialize := SetBool(Find(es, StrKey(DESERIALIZE_KEY)), p.deserialize)))
  }

  /** `set_scan_policy_from_hash`. */
  function ScanFromHash(es: Entries, p: Policy): (r: Policy)
    ensures r == p.(sleepBetweenRetries := r.sleepBetweenRetries, maxRetries := r.maxRetries,
                    totalTimeout := r.totalTimeout, socketTimeout := r.socketTimeout,
                    durableDelete := r.durableDelete, failOnClusterChange := r.failOnClusterChange, recordsPerSecond := r.recordsPerSecond)
    ensures |es| == 0 ==> r == p
    ensures IsBool(Setting(es, OPT_POLICY_DURABLE_DELETE)) ==> r.durableDelete == Setting(es, OPT_POLICY_DURABLE_DELETE).value.b
    ensures !IsBool(Setting(es, OPT_POLICY_DURABLE_DELETE)) ==> r.durableDelete == p.durableDelete
    ensures r.recordsPerSecond == SetU32(Setting(es, OPT_SCAN_RPS_LIMIT), p.recordsPerSecond)
  {
    var q := p.(durableDelete := SetBool(Setting(es, OPT_POLICY_DURABLE_DELETE), p.durableDelete),
                failOnClusterChange := SetBool(Setting(es, OPT_FAIL_ON_CLUSTER_CHANGE), p.failOnClusterChange),
                recordsPerSecond := SetU32(Setting(es, OPT_SCAN_RPS_LIMIT), p.recordsPerSecond));
    BaseFromHash(es, q)
  }

  /** The first element of a generation array: `[policy, value]`. */
  function GenEntry(gen: Option<PVal>, i: int): Option<PVal> {
    if gen.Some? && gen.value.PArr? then Find(gen.value.entries, IntKey(i)) else None
  }

  /** `zval_to_as_policy_read`: a copy of the defaults; an integer OPT_READ_TIMEOUT
      becomes the total timeout, and OPT_TOTAL_TIMEOUT, read later, overrides it. */
  function ReadPolicy(z: Option<PVal>, dflt: Policy): (r: Result<Policy>)
    ensures Absent(z) ==> r == Success(dflt)
    ensures !Absent(z) && !z.value.PArr? ==> r == Failure(ErrParam)
    ensures r.Success? <==> Absent(z) || z.value.PArr?
    ensures z.Some? && z.value.PArr? ==>
      var es := z.value.entries;
      r.value.totalTimeout ==
        if IsInt(Setting(es, OPT_TOTAL_TIMEOUT)) then U32(Setting(es, OPT_TOTAL_TIMEOUT).value.n)
        else if IsInt(Setting(es, OPT_READ_TIMEOUT)) then U32(Setting(es, OPT_READ_TIMEOUT).value.n)
        else dflt.totalTimeout
    ensures r.Success? ==> r.value.gen == dflt.gen && r.value.existsPolicy == dflt.existsPolicy
  {
    if Absent(z) then Success(dflt)
    else if !z.value.PArr? then Failure(ErrParam)
    else
      var es := z.value.entries;
      var p := dflt.(totalTimeout := SetU32(Setting(es, OPT_READ_TIMEOUT), dflt.totalTimeout));
      Success(ReadFromHash(es, p))
  }

  /** `zval_to_as_policy_write`: OPT_WRITE_TIMEOUT, the generation policy from the
      first element of a non-empty OPT_POLICY_GEN array, then the write fields. */
  function WritePolicy(z: Option<PVal>, dflt: Policy): (r: Result<Policy>)
    ensures Absent(z) ==> r == Success(dflt)
    ensures !Absent(z) && !z.value.PArr? ==> r == Failure(ErrParam)
    ensures r.Success? <==> Absent(z) || z.value.PArr?
    ensures z.Some? && z.value.PArr? ==>
      var gen := Setting(z.value.entries, OPT_POLICY_GEN);
      r.value.gen == if IsInt(GenEntry(gen, 0)) then GenEntry(gen, 0).value.n else dflt.gen
    ensures z.Some? && z.value.PArr? ==>
      var es := z.value.entries;
      r.value.totalTimeout ==
        if IsInt(Setting(es, OPT_TOTAL_TIMEOUT)) then U32(Setting(es, OPT_TOTAL_TIMEOUT).value.n)
        else if IsInt(Setting(es, OPT_WRITE_TIMEOUT)) then U32(Setting(es, OPT_WRITE_TIMEOUT).value.n)
        else dflt.totalTimeout
  {
    if Absent(z) then Success(dflt)
    else if !z.value.PArr? then Failure(ErrParam)
    else
      var es := z.value.entries;
      var p := dflt.(totalTimeout := SetU32(Setting(es, OPT_WRITE_TIMEOUT), dflt.totalTimeout));
      var gen := Setting(es, OPT_POLICY_GEN);
      var p := if gen.Some? && gen.value.PArr? && |gen.value.entries| > 0
               then p.(gen := SetEnum(GenEntry(gen, 0), p.gen)) else p;
      HashKeepsGen(es, p);
      Success(WriteFromHash(es, p))
  }

  /** The option walk after the generation step leaves the generation policy alone,
      and only OPT_TOTAL_TIMEOUT can still change the total timeout. */
  lemma HashKeepsGen(es: Entries, p: Policy)
    ensures WriteFromHash(es, p).gen == p.gen
    ensures WriteFromHash(es, p).totalTimeout == SetU32(Setting(es, OPT_TOTAL_TIMEOUT), p.totalTimeout)
  {
  }

  /** `zval_to_as_policy_remove`: OPT_WRITE_TIMEOUT; a two-element OPT_POLICY_GEN
      array sets the generation policy and the expected generation, whose element 1
      must be an integer. */
  function RemovePolicy(z: Option<PVal>, dflt: Policy): (r: Result<Policy>)
    ensures Absent(z) ==> r == Success(dflt)
    ensures !Absent(z) && !z.value.PArr? ==> r == Failure(ErrParam)
    ensures r.Failure? ==> r.error == ErrParam
    ensures z.Some? && z.value.PArr? ==>
      var gen := Setting(z.value.entries, OPT_POLICY_GEN);
      (r.Failure? <==> gen.Some? && gen.value.PArr? && |gen.value.entries| == 2 && !IsInt(GenEntry(gen, 1)))
    ensures r.Success? && z.Some? && z.value.PArr? ==>
      var gen := Setting(z.value.entries, OPT_POLICY_GEN);
      r.value.generation == if gen.Some? && gen.value.PArr? && |gen.value.entries| == 2
                            then U16(GenEntry(gen, 1).value.n) else dflt.generation
    ensures r.Success? && z.Some? && z.value.PArr? ==>
      var es := z.value.entries;
      r.value.totalTimeout ==
        if IsInt(Setting(es, OPT_TOTAL_TIMEOUT)) then U32(Setting(es, OPT_TOTAL_TIMEOUT).value.n)
        else if IsInt(Setting(es, OPT_WRITE_TIMEOUT)) then U32(Setting(es, OPT_WRITE_TIMEOUT).value.n)
        else dflt.totalTimeout
  {
    if Absent(z) then Success(dflt)
    else if !z.value.PArr? then Failure(ErrParam)
    else RemoveFromArray(z.value.entries, dflt)
  }

  /** The array case of `zval_to_as_policy_remove`. */
  function RemoveFromArray(es: Entries, dflt: Policy): (r: Result<Policy>)
    ensures r.Failure? ==> r.error == ErrParam
    ensures var gen := Setting(es, OPT_POLICY_GEN);
      r.Failure? <==> gen.Some? && gen.value.PArr? && |gen.value.entries| == 2 && !IsInt(GenEntry(gen, 1))
    ensures r.Success? ==>
      var gen := Setting(es, OPT_POLICY_GEN);
      r.value.generation == if gen.Some? && gen.value.PArr? && |gen.value.entries| == 2
                            then U16(GenEntry(gen, 1).value.n) else dflt.generation
    ensures r.Success? ==>
      r.value.totalTimeout ==
        if IsInt(Setting(es, OPT_TOTAL_TIMEOUT)) then U32(Setting(es, OPT_TOTAL_TIMEOUT).value.n)
        else if IsInt(Setting(es, OPT_WRITE_TIMEOUT)) then U32(Setting(es, OPT_WRITE_TIMEOUT).value.n)
        else dflt.totalTimeout
  {
    var p := dflt.(totalTimeout := SetU32(Setting(es, OPT_WRITE_TIMEOUT), dflt.totalTimeout));
    var gen := Setting(es, OPT_POLICY_GEN);
    if gen.Some? && gen.value.PArr? && |gen.value.entries| == 2 then
      if !IsInt(GenEntry(gen, 1)) then Failure(ErrParam)
      else
        var p := p.(gen := SetEnum(GenEntry(gen, 0), p.gen), generation := U16(GenEntry(gen, 1).value.n));
        RemoveHashKeeps(es, p);
        Success(RemoveFromHash(es, p))
    else
      RemoveHashKeeps(es, p);
      Success(RemoveFromHash(es, p))
  }

  /** The option walk after the generation step leaves the expected generation
      alone, and only OPT_TOTAL_TIMEOUT can still change the total timeout. */
  lemma RemoveHashKeeps(es: Entries, p: Policy)
    ensures RemoveFromHash(es, p).generation == p.generation
    ensures RemoveFromHash(es, p).totalTimeout == SetU32(Setting(es, OPT_TOTAL_TIMEOUT), p.totalTimeout)
  {
  }

  /** The common body of `zval_to_as_policy_operate` once its starting policy has
      been fixed: the generation policy from element 0 of OPT_POLICY_GEN, then
      OPT_WRITE_TIMEOUT and the operate fields. */
  function OperateFrom(z: Option<PVal>, start: Policy): (r: Result<Policy>)
    ensures Absent(z) ==> r == Success(start)
    ensures r.Success? <==> Absent(z) || z.value.PArr?
    ensures r.Failure? ==> r.error == ErrParam
    ensures z.Some? && z.value.PArr? ==>
      var es := z.value.entries;
      r.value.totalTimeout ==
        if IsInt(Setting(es, OPT_TOTAL_TIMEOUT)) then U32(Setting(es, OPT_TOTAL_TIMEOUT).value.n)
        else if IsInt(Setting(es, OPT_WRITE_TIMEOUT)) then U32(Setting(es, OPT_WRITE_TIMEOUT).value.n)
        else start.totalTimeout
    ensures z.Some? && z.value.PArr? ==>
      var gen := Setting(z.value.entries, OPT_POLICY_GEN);
      r.value.gen == if gen.Some? && gen.value.PArr? && IsInt(GenEntry(gen, 0)) then GenEntry(gen, 0).value.n else start.gen
  {
    if Absent(z) then Success(start)
    else if !z.value.PArr? then Failure(ErrParam)
    else
      var es := z.value.entries;
      var gen := Setting(es, OPT_POLICY_GEN);
      var p := if gen.Some? && gen.value.PArr? then start.(gen := SetEnum(GenEntry(gen, 0), start.gen)) else start;
      var p := p.(totalTimeout := SetU32(Setting(es, OPT_WRITE_TIMEOUT), p.totalTimeout));
      Success(OperateFromHash(es, p))
  }

  /** What `zval_to_as_policy_operate` leaves behind: the policy it fills and the
      client's default operate policy after the call. */
  datatype OperateConversion = OperateConversion(policy: Result<Policy>, clientDefault: Policy)

  /** `zval_to_as_policy_operate` as written: `as_policy_operate_copy` is called
      with source and destination swapped, so the policy starts from the library's
      initial values `init` and the client's configured default is overwritten
      with them. */
  function OperatePolicyAsWritten(z: Option<PVal>, dflt: Policy, init: Policy): (r: OperateConversion)
    ensures r.clientDefault == init
    ensures Absent(z) ==> r.policy == Success(init)
    ensures !Absent(z) && !z.value.PArr? ==> r.policy == Failure(ErrParam)
    ensures r.policy.Success? <==> Absent(z) || z.value.PArr?
    ensures r.policy == OperatePolicy(z, init).policy
  {
    OperateConversion(OperateFrom(z, init), init)
  }

  /** `zval_to_as_policy_operate` with the copy the right way round: the policy
      starts from the client's default, which stays as it was. */
  function OperatePolicy(z: Option<PVal>, dflt: Policy): (r: OperateConversion)
    ensures r.clientDefault == dflt
    ensures Absent(z) ==> r.policy == Success(dflt)
    ensures !Absent(z) && !z.value.PArr? ==> r.policy == Failure(ErrParam)
    ensures r.policy.Success? <==> Absent(z) || z.value.PArr?
    ensures z.Some? && z.value.PArr? ==>
      var es := z.value.entries;
      r.policy.value.totalTimeout ==
        if IsInt(Setting(es, OPT_TOTAL_TIMEOUT)) then U32(Setting(es, OPT_TOTAL_TIMEOUT).value.n)
        else if IsInt(Setting(es, OPT_WRITE_TIMEOUT)) then U32(Setting(es, OPT_WRITE_TIMEOUT).value.n)
        else dflt.totalTimeout
    ensures z.Some? && z.value.PArr? ==>
      var gen := Setting(z.value.entries, OPT_POLICY_GEN);
      r.policy.value.gen == if gen.Some? && gen.value.PArr? && IsInt(GenEntry(gen, 0)) then GenEntry(gen, 0).value.n else dflt.gen
  {
    OperateConversion(OperateFrom(z, dflt), dflt)
  }

  /** With no policy argument, the as-written operate conversion ignores a
      configured default that differs from the library's initial values, and
      resets the client's default; the corrected one keeps and uses it. */
  lemma OperateDefaultIgnored(dflt: Policy, init: Policy)
    requires dflt != init
    ensures OperatePolicyAsWritten(None, dflt, init).policy != Success(dflt)
    ensures OperatePolicyAsWritten(None, dflt, init).clientDefault != dflt
    ensures OperatePolicy(None, dflt).policy == Success(dflt)
  {
  }

  /** `zval_to_as_policy_info`: OPT_WRITE_TIMEOUT and then OPT_READ_TIMEOUT set the
      single timeout, so the read timeout wins. Nothing else is read. */
  function InfoPolicy(z: Option<PVal>, dflt: Policy): (r: Result<Policy>)
    ensures Absent(z) ==> r == Success(dflt)
    ensures r.Success? <==> Absent(z) || z.value.PArr?
    ensures r.Failure? ==> r.error == ErrParam
    ensures r.Success? ==> r.value == dflt.(totalTimeout := r.value.totalTimeout)
    ensures z.Some? && z.value.PArr? ==>
      var es := z.value.entries;
      r.value.totalTimeout ==
        if IsInt(Setting(es, OPT_READ_TIMEOUT)) then U32(Setting(es, OPT_READ_TIMEOUT).value.n)
        else if IsInt(Setting(es, OPT_WRITE_TIMEOUT)) then U32(Setting(es, OPT_WRITE_TIMEOUT).value.n)
        else dflt.totalTimeout
  {
    if Absent(z) then Success(dflt)
    else if !z.value.PArr? then Failure(ErrParam)
    else
      var es := z.value.entries;
      var t := SetU32(Setting(es, OPT_WRITE_TIMEOUT), dflt.totalTimeout);
      Success(dflt.(totalTimeout := SetU32(Setting(es, OPT_READ_TIMEOUT), t)))
  }

  /** `zval_to_as_policy_apply`: OPT_WRITE_TIMEOUT, then the apply fields. */
  function ApplyPolicy(z: Option<PVal>, dflt: Policy): (r: Result<Policy>)
    ensures Absent(z) ==> r == Success(dflt)
    ensures r.Success? <==> Absent(z) || z.value.PArr?
    ensures r.Failure? ==> r.error == ErrParam
    ensures z.Some? && z.value.PArr? ==>
      var es := z.value.entries;
      r.value.totalTimeout ==
        if IsInt(Setting(es, OPT_TOTAL_TIMEOUT)) then U32(Setting(es, OPT_TOTAL_TIMEOUT).value.n)
        else if IsInt(Setting(es, OPT_WRITE_TIMEOUT)) then U32(Setting(es, OPT_WRITE_TIMEOUT).value.n)
        else dflt.totalTimeout
  {
    if Absent(z) then Success(dflt)
    else if !z.value.PArr? then Failure(ErrParam)
    else
      var es := z.value.entries;
      Success(RemoveFromHash(es, dflt.(totalTimeout := SetU32(Setting(es, OPT_WRITE_TIMEOUT), dflt.totalTimeout))))
  }

  /** A timeout read by the strict conversions: when present it must be an integer. */
  function StrictU32(v: Option<PVal>, current: int): (r: Result<int>)
    ensures r.Failure? <==> v.Some? && !v.value.PInt?
    ensures r.Failure? ==> r.error == ErrParam
    ensures r.Success? ==> r.value == SetU32(v, current)
  {
    if v.None? then Success(current)
    else if v.value.PInt? then Success(U32(v.value.n))
    else Failure(ErrParam)
  }

  /** `zval_to_as_policy_scan`: OPT_READ_TIMEOUT when present, otherwise
      OPT_WRITE_TIMEOUT; either, and OPT_SCAN_RPS_LIMIT, must be an integer when
      present. */
  function ScanPolicy(z: Option<PVal>, dflt: Policy): (r: Result<Policy>)
    ensures Absent(z) ==> r == Success(dflt)
    ensures !Absent(z) && !z.value.PArr? ==> r == Failure(ErrParam)
    ensures r.Failure? ==> r.error == ErrParam
    ensures z.Some? && z.value.PArr? ==>
      var es := z.value.entries;
      (r.Failure? <==>
        (Setting(es, OPT_READ_TIMEOUT).Some? && !IsInt(Setting(es, OPT_READ_TIMEOUT)))
        || (Setting(es, OPT_READ_TIMEOUT).None? && Setting(es, OPT_WRITE_TIMEOUT).Some? && !IsInt(Setting(es, OPT_WRITE_TIMEOUT)))
        || (Setting(es, OPT_SCAN_RPS_LIMIT).Some? && !IsInt(Setting(es, OPT_SCAN_RPS_LIMIT))))
    ensures r.Success? && z.Some? && z.value.PArr? ==>
      var es := z.value.entries;
      r.value.totalTimeout ==
        if IsInt(Setting(es, OPT_TOTAL_TIMEOUT)) then U32(Setting(es, OPT_TOTAL_TIMEOUT).value.n)
        else if Setting(es, OPT_READ_TIMEOUT).Some? then U32(Setting(es, OPT_READ_TIMEOUT).value.n)
        else if Setting(es, OPT_WRITE_TIMEOUT).Some? then U32(Setting(es, OPT_WRITE_TIMEOUT).value.n)
        else dflt.totalTimeout
  {
    if Absent(z) then Success(dflt)
    else if !z.value.PArr? then Failure(ErrParam)
    else
      var es := z.value.entries;
      var timeout :-
        if Setting(es, OPT_READ_TIMEOUT).Some? then StrictU32(Setting(es, OPT_READ_TIMEOUT), dflt.totalTimeout)
        else StrictU32(Setting(es, OPT_WRITE_TIMEOUT), dflt.totalTimeout);
      var rps :- StrictU32(Setting(es, OPT_SCAN_RPS_LIMIT), dflt.recordsPerSecond);
      Success(ScanFromHash(es, dflt.(totalTimeout := timeout, recordsPerSecond := rps)))
  }

  /** `zval_to_as_policy_query`: a present OPT_READ_TIMEOUT must be an integer. */
  function QueryPolicy(z: Option<PVal>, dflt: Policy): (r: Result<Policy>)
    ensures Absent(z) ==> r == Success(dflt)
    ensures r.Failure? ==> r.error == ErrParam
    ensures r.Success? <==>
      Absent(z) || (z.value.PArr? && (Setting(z.value.entries, OPT_READ_TIMEOUT).Some? ==> IsInt(Setting(z.value.entries, OPT_READ_TIMEOUT))))
    ensures r.Success? && z.Some? && z.value.PArr? ==>
      var es := z.value.entries;
      r.value.totalTimeout ==
        if IsInt(Setting(es, OPT_TOTAL_TIMEOUT)) then U32(Setting(es, OPT_TOTAL_TIMEOUT).value.n)
        else if IsInt(Setting(es, OPT_READ_TIMEOUT)) then U32(Setting(es, OPT_READ_TIMEOUT).value.n)
        else dflt.totalTimeout
  {
    if Absent(z) then Success(dflt)
    else if !z.value.PArr? then Failure(ErrParam)
    else
      var es := z.value.entries;
      var timeout :- StrictU32(Setting(es, OPT_READ_TIMEOUT), dflt.totalTimeout);
      Success(QueryFromHash(es, dflt.(totalTimeout := timeout)))
  }

  /** `zval_to_as_policy_batch`: a present OPT_READ_TIMEOUT must be an integer. */
  function BatchPolicy(z: Option<PVal>, dflt: Policy): (r: Result<Policy>)
    ensures Absent(z) ==> r == Success(dflt)
    ensures r.Failure? ==> r.error == ErrParam
    ensures r.Success? <==>
      Absent(z) || (z.value.PArr? && (Setting(z.value.entries, OPT_READ_TIMEOUT).Some? ==> IsInt(Setting(z.value.entries, OPT_READ_TIMEOUT))))
    ensures r.Success? && z.Some? && z.value.PArr? ==>
      var es := z.value.entries;
      r.value.totalTimeout ==
        if IsInt(Setting(es, OPT_TOTAL_TIMEOUT)) then U32(Setting(es, OPT_TOTAL_TIMEOUT).value.n)
        else if IsInt(Setting(es, OPT_READ_TIMEOUT)) then U32(Setting(es, OPT_READ_TIMEOUT).value.n)
        else dflt.totalTimeout
  {
    if Absent(z) then Success(dflt)
    else if !z.value.PArr? then Failure(ErrParam)
    else
      var es := z.value.entries;
      var timeout :- StrictU32(Setting(es, OPT_READ_TIMEOUT), dflt.totalTimeout);
      Success(BatchFromHash(es, dflt.(totalTimeout := timeout)))
  }

  /** `zval_to_as_policy_admin`: only OPT_WRITE_TIMEOUT, which must be an integer
      when present. */
  function AdminPolicy(z: Option<PVal>, dflt: Policy): (r: Result<Policy>)
    ensures Absent(z) ==> r == Success(dflt)
    ensures r.Failure? ==> r.error == ErrParam
    ensures r.Success? <==>
      Absent(z) || (z.value.PArr? && (Setting(z.value.entries, OPT_WRITE_TIMEOUT).Some? ==> IsInt(Setting(z.value.entries, OPT_WRITE_TIMEOUT))))
    ensures r.Success? ==> r.value == dflt.(totalTimeout := r.value.totalTimeout)
    ensures r.Success? && z.Some? && z.value.PArr? ==>
      var es := z.value.entries;
      r.value.totalTimeout ==
        if IsInt(Setting(es, OPT_WRITE_TIMEOUT)) then U32(Setting(es, OPT_WRITE_TIMEOUT).value.n) else dflt.totalTimeout
  {
    if Absent(z) then Success(dflt)
    else if !z.value.PArr? then Failure(ErrParam)
    else
      var timeout :- StrictU32(Setting(z.value.entries, OPT_WRITE_TIMEOUT), dflt.totalTimeout);
      Success(dflt.(totalTimeout := timeout))
  }

  /** No entry holds an integer, a boolean or an array: nothing the typed setters
      would take. */
  predicate NothingTyped(es: Entries) {
    forall i :: 0 <= i < |es| ==> !es[i].1.PInt? && !es[i].1.PBool? && !es[i].1.PArr?
  }

  lemma NothingTypedFind(es: Entries, k: PKey)
    requires NothingTyped(es)
    ensures !IsInt(Find(es, k)) && !IsBool(Find(es, k))
    ensures Find(es, k).Some? ==> !Find(es, k).value.PArr?
  {
  }

  lemma BaseIgnores(es: Entries, p: Policy)
    requires NothingTyped(es)
    ensures BaseFromHash(es, p) == p
  {
    NothingTypedFind(es, StrKey(SLEEP_BETWEEN_RETRIES_KEY));
    NothingTypedFind(es, IntKey(OPT_MAX_RETRIES));
    NothingTypedFind(es, IntKey(OPT_TOTAL_TIMEOUT));
    NothingTypedFind(es, IntKey(OPT_SOCKET_TIMEOUT));
  }

  lemma CommonIgnores(es: Entries, p: Policy)
    requires NothingTyped(es)
    ensures !IsInt(Setting(es, OPT_POLICY_READ_MODE_AP)) && !IsInt(Setting(es, OPT_POLICY_READ_MODE_SC))
    ensures !IsBool(Find(es, StrKey(DESERIALIZE_KEY))) && !IsInt(Setting(es, OPT_POLICY_KEY))
    ensures !IsInt(Setting(es, OPT_POLICY_REPLICA)) && !IsInt(Setting(es, OPT_POLICY_EXISTS))
    ensures !IsInt(Setting(es, OPT_POLICY_COMMIT_LEVEL)) && !IsBool(Setting(es, OPT_POLICY_DURABLE_DELETE))
    ensures !IsInt(Setting(es, COMPRESSION_THRESHOLD)) && !IsInt(Setting(es, OPT_WRITE_TIMEOUT))
    ensures !IsInt(Setting(es, OPT_READ_TIMEOUT))
    ensures Setting(es, OPT_POLICY_GEN).Some? ==> !Setting(es, OPT_POLICY_GEN).value.PArr?
    ensures BaseFromHash(es, p) == p
  {
    NothingTypedFind(es, IntKey(OPT_POLICY_READ_MODE_AP));
    NothingTypedFind(es, IntKey(OPT_POLICY_READ_MODE_SC));
    NothingTypedFind(es, StrKey(DESERIALIZE_KEY));
    NothingTypedFind(es, IntKey(OPT_POLICY_KEY));
    NothingTypedFind(es, IntKey(OPT_POLICY_REPLICA));
    NothingTypedFind(es, IntKey(OPT_POLICY_EXISTS));
    NothingTypedFind(es, IntKey(OPT_POLICY_COMMIT_LEVEL));
    NothingTypedFind(es, IntKey(OPT_POLICY_DURABLE_DELETE));
    NothingTypedFind(es, IntKey(COMPRESSION_THRESHOLD));
    NothingTypedFind(es, IntKey(OPT_WRITE_TIMEOUT));
    NothingTypedFind(es, IntKey(OPT_READ_TIMEOUT));
    NothingTypedFind(es, IntKey(OPT_POLICY_GEN));
    BaseIgnores(es, p);
  }

  /** Entries of the wrong type are ignored: a policy array in which no entry is
      an integer, boolean or array yields exactly the defaults for the read, write,
      remove, apply, info and operate conversions. */
  lemma WrongTypesIgnored(es: Entries, dflt: Policy)
    requires NothingTyped(es)
    ensures ReadPolicy(Some(PArr(es)), dflt) == Success(dflt)
    ensures WritePolicy(Some(PArr(es)), dflt) == Success(dflt)
    ensures RemovePolicy(Some(PArr(es)), dflt) == Success(dflt)
    ensures ApplyPolicy(Some(PArr(es)), dflt) == Success(dflt)
    ensures InfoPolicy(Some(PArr(es)), dflt) == Success(dflt)
    ensures OperatePolicy(Some(PArr(es)), dflt).policy == Success(dflt)
  {
    ReadIgnoresWrongTypes(es, dflt);
    WriteIgnoresWrongTypes(es, dflt);
    RemoveIgnoresWrongTypes(es, dflt);
    ApplyIgnoresWrongTypes(es, dflt);
    InfoIgnoresWrongTypes(es, dflt);
    OperateIgnoresWrongTypes(es, dflt);
  }

  // One lemma per conversion, so that each proof sees only its own unfolding.

  lemma ReadIgnoresWrongTypes(es: Entries, dflt: Policy)
    requires NothingTyped(es)
    ensures ReadPolicy(Some(PArr(es)), dflt) == Success(dflt)
  {
    CommonIgnores(es, dflt);
  }

  lemma WriteIgnoresWrongTypes(es: Entries, dflt: Policy)
    requires NothingTyped(es)
    ensures WritePolicy(Some(PArr(es)), dflt) == Success(dflt)
  {
    CommonIgnores(es, dflt);
  }

  lemma RemoveIgnoresWrongTypes(es: Entries, dflt: Policy)
    requires NothingTyped(es)
    ensures RemovePolicy(Some(PArr(es)), dflt) == Success(dflt)
  {
    CommonIgnores(es, dflt);
  }

  lemma ApplyIgnoresWrongTypes(es: Entries, dflt: Policy)
    requires NothingTyped(es)
    ensures ApplyPolicy(Some(PArr(es)), dflt) == Success(dflt)
  {
    CommonIgnores(es, dflt);
  }

  lemma InfoIgnoresWrongTypes(es: Entries, dflt: Policy)
    requires NothingTyped(es)
    ensures InfoPolicy(Some(PArr(es)), dflt) == Success(dflt)
  {
    CommonIgnores(es, dflt);
  }

  lemma OperateIgnoresWrongTypes(es: Entries, dflt: Policy)
    requires NothingTyped(es)
    ensures OperatePolicy(Some(PArr(es)), dflt).policy == Success(dflt)
  {
    CommonIgnores(es, dflt);
  }

  // ---------------------------------------------------------------------------
  // Map policies
  // ---------------------------------------------------------------------------

  /** How a map write is constrained: a write mode (`as_map_policy_set`) or write
      flags (`as_map_policy_set_flags`). */
  datatype MapWrite = WriteMode(mode: int) | WriteFlags(flags: int)

  datatype MapPolicy = MapPolicy(order: int, write: MapWrite)

  /** `as_map_policy_init` followed by nothing: unordered, plain update. */
  const DEFAULT_MAP_POLICY: MapPolicy := MapPolicy(MAP_UNORDERED, WriteMode(MAP_UPDATE))

  predicate ValidMapOrder(n: int) {
    n == MAP_UNORDERED || n == MAP_KEY_ORDERED || n == MAP_KEY_VALUE_ORDERED
  }

  predicate ValidWriteMode(n: int) {
    n == MAP_UPDATE || n == MAP_UPDATE_ONLY || n == MAP_CREATE_ONLY
  }

  /** `write_flags & ~AS_MAP_WRITE_NO_FAIL & ~AS_MAP_WRITE_PARTIAL` on a 64-bit
      `long`: the two's-complement word with bits 2 and 3 (the values 4 and 8)
      cleared. */
  function FlagsWithoutModifiers(flags: int): int {
    var x := flags % U64_MODULUS;
    x - ((x / 4) % 4) * 4
  }

  predicate ValidWriteFlags(flags: int) {
    var base := FlagsWithoutModifiers(flags);
    base == MAP_WRITE_DEFAULT || base == MAP_WRITE_CREATE_ONLY || base == MAP_WRITE_UPDATE_ONLY
  }

  /** The accepted write flags are exactly DEFAULT, CREATE_ONLY or UPDATE_ONLY,
      each optionally combined with NO_FAIL and PARTIAL. */
  lemma {:induction false} WriteFlagsAccepted(flags: int)
    requires IsLong(flags)
    ensures ValidWriteFlags(flags) <==> flags in {0, 1, 2, 4, 5, 6, 8, 9, 10, 12, 13, 14}
  {
    var x := flags % U64_MODULUS;
    var low, mid, high := x % 4, (x / 4) % 4, x / 16;
    assert x == 16 * high + 4 * mid + low;
    assert FlagsWithoutModifiers(flags) == 16 * high + low;
    if flags < 0 {
      assert x == flags + U64_MODULUS;
      assert high > 0;
    } else {
      assert x == flags;
    }
  }

  /** `zval_to_as_policy_map`. */
  function MapPolicyOf(z: Option<PVal>): (r: Result<MapPolicy>)
    ensures Absent(z) ==> r == Success(DEFAULT_MAP_POLICY)
    ensures r.Failure? ==> r.error == ErrParam
    ensures !Absent(z) ==>
      (r.Success? <==>
        z.value.PArr?
        && (Setting(z.value.entries, OPT_MAP_ORDER).Some? ==>
              IsInt(Setting(z.value.entries, OPT_MAP_ORDER)) && ValidMapOrder(Setting(z.value.entries, OPT_MAP_ORDER).value.n))
        && (Setting(z.value.entries, OPT_MAP_WRITE_FLAGS).Some? ==>
              IsInt(Setting(z.value.entries, OPT_MAP_WRITE_FLAGS)) && ValidWriteFlags(Setting(z.value.entries, OPT_MAP_WRITE_FLAGS).value.n))
        && (Setting(z.value.entries, OPT_MAP_WRITE_MODE).Some? ==>
              IsInt(Setting(z.value.entries, OPT_MAP_WRITE_MODE)) && ValidWriteMode(Setting(z.value.entries, OPT_MAP_WRITE_MODE).value.n)))
    ensures r.Success? ==> ValidMapOrder(r.value.order)
    ensures r.Success? && !Absent(z) ==>
      var es := z.value.entries;
      && r.value.order == (if Setting(es, OPT_MAP_ORDER).Some? then Setting(es, OPT_MAP_ORDER).value.n else MAP_UNORDERED)
      && r.value.write == (if Setting(es, OPT_MAP_WRITE_FLAGS).Some? then WriteFlags(Setting(es, OPT_MAP_WRITE_FLAGS).value.n)
                           else if Setting(es, OPT_MAP_WRITE_MODE).Some? then WriteMode(Setting(es, OPT_MAP_WRITE_MODE).value.n)
                           else WriteMode(MAP_UPDATE))
  {
    if Absent(z) then Success(DEFAULT_MAP_POLICY)
    else if !z.value.PArr? then Failure(ErrParam)
    else
      var es := z.value.entries;
      var order := Setting(es, OPT_MAP_ORDER);
      var flags := Setting(es, OPT_MAP_WRITE_FLAGS);
      var mode := Setting(es, OPT_MAP_WRITE_MODE);
      if order.Some? && !(order.value.PInt? && ValidMapOrder(order.value.n)) then Failure(ErrParam)
      else if flags.Some? && !(flags.value.PInt? && ValidWriteFlags(flags.value.n)) then Failure(ErrParam)
      else if mode.Some? && !(mode.value.PInt? && ValidWriteMode(mode.value.n)) then Failure(ErrParam)
      else
        var o := if order.Some? then order.value.n else MAP_UNORDERED;
        if flags.Some? then Success(MapPolicy(o, WriteFlags(flags.value.n)))
        else Success(MapPolicy(o, WriteMode(if mode.Some? then mode.value.n else MAP_UPDATE)))
  }

  /** Write flags take precedence over a write mode, but an invalid write mode is
      still refused. */
  lemma FlagsOverrideWriteMode(flags: int, mode: int)
    requires ValidWriteFlags(flags)
    ensures ValidWriteMode(mode) ==>
      MapPolicyOf(Some(PArr([(IntKey(OPT_MAP_WRITE_FLAGS), PInt(flags)), (IntKey(OPT_MAP_WRITE_MODE), PInt(mode))])))
        == Success(MapPolicy(MAP_UNORDERED, WriteFlags(flags)))
    ensures !ValidWriteMode(mode) ==>
      MapPolicyOf(Some(PArr([(IntKey(OPT_MAP_WRITE_FLAGS), PInt(flags)), (IntKey(OPT_MAP_WRITE_MODE), PInt(mode))])))
        == Failure(ErrParam)
  {
    var es := [(IntKey(OPT_MAP_WRITE_FLAGS), PInt(flags)), (IntKey(OPT_MAP_WRITE_MODE), PInt(mode))];
    assert Firsts(es) == [IntKey(OPT_MAP_WRITE_FLAGS), IntKey(OPT_MAP_WRITE_MODE)];
    assert Setting(es, OPT_MAP_ORDER).None?;
    assert Setting(es, OPT_MAP_WRITE_FLAGS) == Some(PInt(flags));
    assert Setting(es, OPT_MAP_WRITE_MODE) == Some(PInt(mode));
  }

  // ---------------------------------------------------------------------------
  // Per-call settings
  // ---------------------------------------------------------------------------

  /** `set_operations_ttl_from_operate_policy`: an integer OPT_TTL, cast to 32
      bits, replaces the current TTL. */
  function OperationsTtl(z: Option<PVal>, ttl: int): (r: Result<int>)
    ensures Absent(z) ==> r == Success(ttl)
    ensures r.Failure? ==> r.error == ErrParam
    ensures !Absent(z) ==>
      (r.Success? <==> z.value.PArr? && (Setting(z.value.entries, OPT_TTL).Some? ==> IsInt(Setting(z.value.entries, OPT_TTL))))
    ensures r.Success? && !Absent(z) ==> r.value == SetU32(Setting(z.value.entries, OPT_TTL), ttl)
  {
    if Absent(z) then Success(ttl)
    else if !z.value.PArr? then Failure(ErrParam)
    else StrictU32(Setting(z.value.entries, OPT_TTL), ttl)
  }

  /** The generation check shared by `set_operations_generation_from_operate_policy`
      and `set_record_generation_from_write_policy` once the policy is an array: a
      present OPT_POLICY_GEN must be an array; only a two-element one changes the
      generation, to its element 1, which must be an integer (cast to 16 bits). */
  function GenerationFromArray(es: Entries, generation: int): (r: Result<int>)
    ensures r.Failure? ==> r.error == ErrParam
    ensures var gen := Setting(es, OPT_POLICY_GEN);
      r.Failure? <==> gen.Some? && (!gen.value.PArr? || (|gen.value.entries| == 2 && !IsInt(GenEntry(gen, 1))))
    ensures var gen := Setting(es, OPT_POLICY_GEN);
      r.Success? ==> r.value == if gen.Some? && |gen.value.entries| == 2 then U16(GenEntry(gen, 1).value.n) else generation
  {
    var gen := Setting(es, OPT_POLICY_GEN);
    if gen.None? then Success(generation)
    else if !gen.value.PArr? then Failure(ErrParam)
    else if |gen.value.entries| != 2 then Success(generation)
    else if !IsInt(GenEntry(gen, 1)) then Failure(ErrParam)
    else Success(U16(GenEntry(gen, 1).value.n))
  }

  /** `set_operations_generation_from_operate_policy`: a non-array policy is
      ERR_PARAM. */
  function OperationsGeneration(z: Option<PVal>, generation: int): (r: Result<int>)
    ensures Absent(z) ==> r == Success(generation)
    ensures !Absent(z) && !z.value.PArr? ==> r == Failure(ErrParam)
    ensures !Absent(z) && z.value.PArr? ==> r == GenerationFromArray(z.value.entries, generation)
  {
    if Absent(z) then Success(generation)
    else if !z.value.PArr? then Failure(ErrParam)
    else GenerationFromArray(z.value.entries, generation)
  }

  /** `set_record_generation_from_write_policy`: a policy that is not an array
      leaves the generation alone. */
  function RecordGeneration(z: Option<PVal>, generation: int): (r: Result<int>)
    ensures z.None? || !z.value.PArr? ==> r == Success(generation)
    ensures z.Some? && z.value.PArr? ==> r == GenerationFromArray(z.value.entries, generation)
  {
    if z.None? || !z.value.PArr? then Success(generation)
    else GenerationFromArray(z.value.entries, generation)
  }

  /** Only a two-element generation array can change the generation; arrays of any
      other size are accepted and ignored. */
  lemma GenerationNeedsTwoElements(es: Entries, generation: int)
    requires Setting(es, OPT_POLICY_GEN).Some? && Setting(es, OPT_POLICY_GEN).value.PArr?
    requires |Setting(es, OPT_POLICY_GEN).value.entries| != 2
    ensures GenerationFromArray(es, generation) == Success(generation)
  {
  }

  /** `set_serializer_from_policy_hash`: the serializer named by OPT_SERIALIZER,
      else the `aerospike.serializer` ini setting. */
  function SerializerFromPolicy(z: Option<PVal>, ini: int): (r: Result<int>)
    ensures Absent(z) ==> r == Success(ini)
    ensures r.Failure? ==> r.error == ErrParam
    ensures !Absent(z) ==>
      (r.Success? <==> z.value.PArr? && (Setting(z.value.entries, OPT_SERIALIZER).Some? ==> IsInt(Setting(z.value.entries, OPT_SERIALIZER))))
    ensures r.Success? && !Absent(z) ==> r.value == SetEnum(Setting(z.value.entries, OPT_SERIALIZER), ini)
  {
    if Absent(z) then Success(ini)
    else if !z.value.PArr? then Failure(ErrParam)
    else
      var s := Setting(z.value.entries, OPT_SERIALIZER);
      if s.None? then Success(ini)
      else if !s.value.PInt? then Failure(ErrParam)
      else Success(s.value.n)
  }

  /** The options of an `as_scan` that a policy array can set. */
  datatype ScanOptions = ScanOptions(priority: int, percent: int, concurrent: bool, noBins: bool)

  /** A present entry that is not of the required kind. */
  predicate Mistyped(v: Option<PVal>, wantInt: bool) {
    v.Some? && (if wantInt then !v.value.PInt? else !v.value.PBool?)
  }

  /** `set_scan_options_from_policy_hash` (built without ZTS): priority and
      percentage must be integers, the percentage being cast to 8 bits without a
      range check; concurrently and nobins must be booleans, and only `true`
      changes them. */
  function ScanOptionsFromPolicy(z: Option<PVal>, scan: ScanOptions): (r: Result<ScanOptions>)
    ensures Absent(z) ==> r == Success(scan)
    ensures r.Failure? ==> r.error == ErrParam
    ensures !Absent(z) ==>
      (r.Success? <==>
        z.value.PArr?
        && !Mistyped(Setting(z.value.entries, OPT_SCAN_PRIORITY), true)
        && !Mistyped(Setting(z.value.entries, OPT_SCAN_PERCENTAGE), true)
        && !Mistyped(Setting(z.value.entries, OPT_SCAN_CONCURRENTLY), false)
        && !Mistyped(Setting(z.value.entries, OPT_SCAN_NOBINS), false))
    ensures r.Success? && !Absent(z) ==>
      var es := z.value.entries;
      && (IsInt(Setting(es, OPT_SCAN_PERCENTAGE)) ==> r.value.percent == U8(Setting(es, OPT_SCAN_PERCENTAGE).value.n))
      && (!IsInt(Setting(es, OPT_SCAN_PERCENTAGE)) ==> r.value.percent == scan.percent)
      && (r.value.concurrent <==> scan.concurrent || Setting(es, OPT_SCAN_CONCURRENTLY) == Some(PBool(true)))
      && (r.value.noBins <==> scan.noBins || Setting(es, OPT_SCAN_NOBINS) == Some(PBool(true)))
  {
    if Absent(z) then Success(scan)
    else if !z.value.PArr? then Failure(ErrParam)
    else
      var es := z.value.entries;
      var priority := Setting(es, OPT_SCAN_PRIORITY);
      var percent := Setting(es, OPT_SCAN_PERCENTAGE);
      var concurrently := Setting(es, OPT_SCAN_CONCURRENTLY);
      var noBins := Setting(es, OPT_SCAN_NOBINS);
      if Mistyped(priority, true) || Mistyped(percent, true) || Mistyped(concurrently, false) || Mistyped(noBins, false)
      then Failure(ErrParam)
      else
        Success(ScanOptions(
          SetEnum(priority, scan.priority),
          if IsInt(percent) then U8(percent.value.n) else scan.percent,
          scan.concurrent || concurrently == Some(PBool(true)),
          scan.noBins || noBins == Some(PBool(true))))
  }

  /** `set_query_options_from_policy_hash`: OPT_QUERY_NOBINS must be a boolean when
      present, and sets the query's `no_bins`. */
  function QueryNoBins(z: Option<PVal>, noBins: bool): (r: Result<bool>)
    ensures Absent(z) ==> r == Success(noBins)
    ensures r.Failure? ==> r.error == ErrParam
    ensures !Absent(z) ==> (r.Success? <==> z.value.PArr? && !Mistyped(Setting(z.value.entries, OPT_QUERY_NOBINS), false))
    ensures r.Success? && !Absent(z) ==> r.value == SetBool(Setting(z.value.entries, OPT_QUERY_NOBINS), noBins)
  {
    if Absent(z) then Success(noBins)
    else if !z.value.PArr? then Failure(ErrParam)
    else
      var v := Setting(z.value.entries, OPT_QUERY_NOBINS);
      if Mistyped(v, false) then Failure(ErrParam) else Success(SetBool(v, noBins))
  }
}

=== FILE: predicates.dfy ===
/** The static `Aerospike::predicate*` builders: each returns the PHP array
    `Aerospike::query` expects as its "where" argument, or null. Only the shape of
    the array is modelled; `json_encode`, which the point and circle builders
    call, is a parameter.
 */
module Predicates {
  import opened Errors
  import opened Strings
  import opened Php
  import opened AsValues
  import opened Types
  import opened Query

  // ---------------------------------------------------------------------------
  // Builders
  // ---------------------------------------------------------------------------

  /** The three-entry array `bin`, `op`, `val` the builders without an index type
      return; each entry is found under its name. */
  function Predicate3(bin: string, op: string, v: PVal): (r: PVal)
    ensures r.PArr? && |r.entries| == 3
    ensures Field(r, PREDICATE_BIN_KEY) == Some(PStr(CStr(bin)))
    ensures Field(r, PREDICATE_OP_KEY) == Some(PStr(op))
    ensures Field(r, PREDICATE_VAL_KEY) == Some(v)
  {
    var fields := [(PREDICATE_BIN_KEY, PStr(CStr(bin))), (PREDICATE_OP_KEY, PStr(op)), (PREDICATE_VAL_KEY, v)];
    NamesPlain();
    FieldsOk3(fields[0], fields[1], fields[2]);
    AssocFindAll(fields);
    PArr(Assoc(fields))
  }

  /** The four-entry array of a RANGE or CONTAINS predicate, in the order the builder
      adds the entries; each entry is found under its name. */
  function Predicate4(fields: seq<(string, PVal)>, bin: string, op: string, indexType: int, v: PVal): (r: PVal)
    requires fields == [(PREDICATE_BIN_KEY, PStr(CStr(bin))), (PREDICATE_INDEX_TYPE_KEY, PInt(indexType)),
                        (PREDICATE_OP_KEY, PStr(op)), (PREDICATE_VAL_KEY, v)]
          || fields == [(PREDICATE_BIN_KEY, PStr(CStr(bin))), (PREDICATE_OP_KEY, PStr(op)),
                        (PREDICATE_INDEX_TYPE_KEY, PInt(indexType)), (PREDICATE_VAL_KEY, v)]
    ensures r.PArr? && |r.entries| == 4
    ensures Field(r, PREDICATE_BIN_KEY) == Some(PStr(CStr(bin)))
    ensures Field(r, PREDICATE_OP_KEY) == Some(PStr(op))
    ensures Field(r, PREDICATE_INDEX_TYPE_KEY) == Some(PInt(indexType))
    ensures Field(r, PREDICATE_VAL_KEY) == Some(v)
  {
    NamesPlain();
    FieldsOk4(fields[0], fields[1], fields[2], fields[3]);
    AssocFindAll(fields);
    PArr(Assoc(fields))
  }

  /** `predicateEquals(bin, val)`. */
  function PredicateEquals(bin: string, v: PVal): (r: Option<PVal>)
    ensures r.Some? <==> |bin| <= BIN_NAME_MAX_LEN && (v.PInt? || v.PStr?)
    ensures r.Some? ==> r.value == Predicate3(bin, PREDICATE_EQUAL, v)
  {
    if |bin| > BIN_NAME_MAX_LEN || !(v.PInt? || v.PStr?) then None
    else Some(Predicate3(bin, PREDICATE_EQUAL, v))
  }

  /** `predicateBetween(bin, min, max)`: the bounds go in as the list `[min, max]`. */
  function PredicateBetween(bin: string, min: int, max: int): (r: Option<PVal>)
    ensures r.Some? <==> |bin| <= BIN_NAME_MAX_LEN
    ensures r.Some? ==> r.value == Predicate3(bin, PREDICATE_BETWEEN, ListOf([PInt(min), PInt(max)]))
  {
    if |bin| > BIN_NAME_MAX_LEN then None
    else Some(Predicate3(bin, PREDICATE_BETWEEN, ListOf([PInt(min), PInt(max)])))
  }

  /** `predicateRange(bin, index_type, min, max)`: as `predicateBetween`, with the
      index type (not checked here) and op RANGE. */
  function PredicateRange(bin: string, indexType: int, min: int, max: int): (r: Option<PVal>)
    ensures r.Some? <==> |bin| <= BIN_NAME_MAX_LEN
    ensures r.Some? ==>
      && Field(r.value, PREDICATE_BIN_KEY) == Some(PStr(CStr(bin)))
      && Field(r.value, PREDICATE_OP_KEY) == Some(PStr(PREDICATE_RANGE))
      && Field(r.value, PREDICATE_INDEX_TYPE_KEY) == Some(PInt(indexType))
      && Field(r.value, PREDICATE_VAL_KEY) == Some(ListOf([PInt(min), PInt(max)]))
      && r.value.PArr? && |r.value.entries| == 4
  {
    if |bin| > BIN_NAME_MAX_LEN then None
    else
      var val := ListOf([PInt(min), PInt(max)]);
      Some(Predicate4([(PREDICATE_BIN_KEY, PStr(CStr(bin))), (PREDICATE_INDEX_TYPE_KEY, PInt(indexType)),
                       (PREDICATE_OP_KEY, PStr(PREDICATE_RANGE)), (PREDICATE_VAL_KEY, val)],
                      bin, PREDICATE_RANGE, indexType, val))
  }

  /** `predicateContains(bin, index_type, val)`. */
  function PredicateContains(bin: string, indexType: int, v: PVal): (r: Option<PVal>)
    ensures r.Some? <==> |bin| <= BIN_NAME_MAX_LEN && (v.PInt? || v.PStr?)
    ensures r.Some? ==>
      && Field(r.value, PREDICATE_BIN_KEY) == Some(PStr(CStr(bin)))
      && Field(r.value, PREDICATE_OP_KEY) == Some(PStr(PREDICATE_CONTAINS))
      && Field(r.value, PREDICATE_INDEX_TYPE_KEY) == Some(PInt(indexType))
      && Field(r.value, PREDICATE_VAL_KEY) == Some(v)
      && r.value.PArr? && |r.value.entries| == 4
  {
    if |bin| > BIN_NAME_MAX_LEN || !(v.PInt? || v.PStr?) then None
    else Some(Predicate4([(PREDICATE_BIN_KEY, PStr(CStr(bin))), (PREDICATE_OP_KEY, PStr(PREDICATE_CONTAINS)),
                          (PREDICATE_INDEX_TYPE_KEY, PInt(indexType)), (PREDICATE_VAL_KEY, v)],
                         bin, PREDICATE_CONTAINS, indexType, v))
  }

  /** `predicateGeoContainsGeoJSONPoint(bin, point)`: the JSON text is stored with
      its full length. */
  function PredicateGeoContainsGeoJsonPoint(bin: string, point: string): (r: Option<PVal>)
    ensures r.Some? <==> |bin| <= BIN_NAME_MAX_LEN
    ensures r.Some? ==> r.value == Predicate3(bin, PREDICATE_GEO_CONTAINS, PStr(point))
  {
    if |bin| > BIN_NAME_MAX_LEN then None
    else Some(Predicate3(bin, PREDICATE_GEO_CONTAINS, PStr(point)))
  }

  /** `predicateGeoWithinGeoJSONRegion(bin, region)`. */
  function PredicateGeoWithinGeoJsonRegion(bin: string, region: string): (r: Option<PVal>)
    ensures r.Some? <==> |bin| <= BIN_NAME_MAX_LEN
    ensures r.Some? ==> r.value == Predicate3(bin, PREDICATE_GEO_WITHIN, PStr(region))
  {
    if |bin| > BIN_NAME_MAX_LEN then None
    else Some(Predicate3(bin, PREDICATE_GEO_WITHIN, PStr(region)))
  }

  /** The GeoJSON array `["type" => "Point", "coordinates" => [lat, long]]`. */
  function GeoPoint(lat: real, long: real): PVal {
    PArr(Assoc([("type", PStr("Point")), ("coordinates", ListOf([PDouble(lat), PDouble(long)]))]))
  }

  /** The array `["type" => "AeroCircle", "coordinates" => [[lat, long], radius]]`. */
  function GeoCircle(lat: real, long: real, radius: real): PVal {
    PArr(Assoc([("type", PStr("AeroCircle")),
                ("coordinates", ListOf([ListOf([PDouble(lat), PDouble(long)]), PDouble(radius)]))]))
  }

  /** `predicateGeoContainsPoint(bin, lat, long)`: null when the name is too long or
      the call to `json_encode` cannot be made. */
  function PredicateGeoContainsPoint(bin: string, lat: real, long: real, jsonEncode: PVal -> Option<string>)
    : (r: Option<PVal>)
    ensures r.Some? <==> |bin| <= BIN_NAME_MAX_LEN && jsonEncode(GeoPoint(lat, long)).Some?
    ensures r.Some? ==> r == PredicateGeoContainsGeoJsonPoint(bin, jsonEncode(GeoPoint(lat, long)).value)
  {
    if |bin| > BIN_NAME_MAX_LEN then None
    else match jsonEncode(GeoPoint(lat, long))
      case None => None
      case Some(json) => Some(Predicate3(bin, PREDICATE_GEO_CONTAINS, PStr(json)))
  }

  /** `predicateGeoWithinRadius(bin, lat, long, radius)`: the circle's JSON goes out
      under op GEOCONTAINS, the same op the point builder uses. */
  function PredicateGeoWithinRadius(bin: string, lat: real, long: real, radius: real,
                                    jsonEncode: PVal -> Option<string>): (r: Option<PVal>)
    ensures r.Some? <==> |bin| <= BIN_NAME_MAX_LEN && jsonEncode(GeoCircle(lat, long, radius)).Some?
    ensures r.Some? ==> r == PredicateGeoContainsGeoJsonPoint(bin, jsonEncode(GeoCircle(lat, long, radius)).value)
  {
    if |bin| > BIN_NAME_MAX_LEN then None
    else match jsonEncode(GeoCircle(lat, long, radius))
      case None => None
      case Some(json) => Some(Predicate3(bin, PREDICATE_GEO_CONTAINS, PStr(json)))
  }

  // ---------------------------------------------------------------------------
  // Every built predicate passes add_predicate_to_query
  // ---------------------------------------------------------------------------

  /** A three-entry predicate array passes the structural checks with its own
      fields. */
  lemma Predicate3Fields(bin: string, op: string, v: PVal)
    requires NulFree(op)
    ensures PredicateFields(Predicate3(bin, op, v).entries) == Success(Fields(CStr(bin), op, v))
  {
    FieldsFound(Predicate3(bin, op, v).entries, CStr(bin), op, v);
    CStrOfNulFree(CStr(bin));
    CStrOfNulFree(op);
  }

  /** `predicateEquals` output is an equality filter on the default index. */
  lemma EqualsBuilderAccepted(bin: string, v: PVal, whereAdded: bool)
    requires PredicateEquals(bin, v).Some?
    ensures AddPredicate(PredicateEquals(bin, v).value.entries, whereAdded) ==
      if whereAdded then Success(Where(CStr(bin), INDEX_TYPE_DEFAULT, ScalarTest(v).value)) else Failure(ErrClient)
  {
    var es := Predicate3(bin, PREDICATE_EQUAL, v).entries;
    NamesPlain();
    Predicate3Fields(bin, PREDICATE_EQUAL, v);
    Dispatch(es, whereAdded);
  }

  /** `predicateBetween` output is an integer range on the default index. */
  lemma BetweenBuilderAccepted(bin: string, min: int, max: int, whereAdded: bool)
    requires PredicateBetween(bin, min, max).Some?
    ensures AddPredicate(PredicateBetween(bin, min, max).value.entries, whereAdded) ==
      if whereAdded then Success(Where(CStr(bin), INDEX_TYPE_DEFAULT, Between(min, max))) else Failure(ErrParam)
  {
    var val := ListOf([PInt(min), PInt(max)]);
    var es := Predicate3(bin, PREDICATE_BETWEEN, val).entries;
    assert AddPredicate(es, whereAdded) == BetweenOf(CStr(bin), val, whereAdded) by {
      NamesPlain();
      Predicate3Fields(bin, PREDICATE_BETWEEN, val);
      Dispatch(es, whereAdded);
    }
    BetweenOfPair(CStr(bin), min, max, whereAdded);
  }

  /** `predicateRange` output passes every structural check; only an index type
      the builder does not check can make it fail. */
  lemma RangeBuilderAccepted(bin: string, indexType: int, min: int, max: int, whereAdded: bool)
    requires PredicateRange(bin, indexType, min, max).Some?
    ensures AddPredicate(PredicateRange(bin, indexType, min, max).value.entries, whereAdded) ==
      if !CollectionIndex(indexType) then Failure(ErrParam)
      else if whereAdded then Success(Where(CStr(bin), indexType, Between(min, max)))
      else Failure(ErrClient)
  {
    var val := ListOf([PInt(min), PInt(max)]);
    var es := PredicateRange(bin, indexType, min, max).value.entries;
    assert AddPredicate(es, whereAdded) == RangeOf(CStr(bin), indexType, val, whereAdded) by {
      assert PredicateFields(es) == Success(Fields(CStr(bin), PREDICATE_RANGE, val)) by {
        NamesPlain();
        FieldsFound(es, CStr(bin), PREDICATE_RANGE, val);
        CStrOfNulFree(CStr(bin));
        CStrOfNulFree(PREDICATE_RANGE);
      }
      Dispatch(es, whereAdded);
    }
    RangeOfPair(CStr(bin), indexType, min, max, whereAdded);
  }

  /** `predicateContains` output passes every structural check; only an index
      type the builder does not check can make it fail. */
  lemma ContainsBuilderAccepted(bin: string, indexType: int, v: PVal, whereAdded: bool)
    requires PredicateContains(bin, indexType, v).Some?
    ensures AddPredicate(PredicateContains(bin, indexType, v).value.entries, whereAdded) ==
      if !CollectionIndex(indexType) then Failure(ErrParam)
      else if whereAdded then Success(Where(CStr(bin), indexType, ScalarTest(v).value))
      else Failure(ErrClient)
  {
    var es := PredicateContains(bin, indexType, v).value.entries;
    assert AddPredicate(es, whereAdded) == Contains(CStr(bin), indexType, v, whereAdded) by {
      assert PredicateFields(es) == Success(Fields(CStr(bin), PREDICATE_CONTAINS, v)) by {
        NamesPlain();
        FieldsFound(es, CStr(bin), PREDICATE_CONTAINS, v);
        CStrOfNulFree(CStr(bin));
        CStrOfNulFree(PREDICATE_CONTAINS);
      }
      Dispatch(es, whereAdded);
    }
    ContainsOfScalar(CStr(bin), indexType, v, whereAdded);
  }

  /** The GeoJSON-point builder's output is a containment test on the JSON text. */
  lemma GeoPointBuilderAccepted(bin: string, point: string, whereAdded: bool)
    requires PredicateGeoContainsGeoJsonPoint(bin, point).Some?
    ensures AddPredicate(PredicateGeoContainsGeoJsonPoint(bin, point).value.entries, whereAdded) ==
      if whereAdded then Success(Where(CStr(bin), INDEX_TYPE_DEFAULT, GeoContains(CStr(point)))) else Failure(ErrClient)
  {
    NamesPlain();
    Predicate3Fields(bin, PREDICATE_GEO_CONTAINS, PStr(point));
    Dispatch(Predicate3(bin, PREDICATE_GEO_CONTAINS, PStr(point)).entries, whereAdded);
  }

  /** The GeoJSON-region builder's output is a within test on the JSON text. */
  lemma GeoRegionBuilderAccepted(bin: string, region: string, whereAdded: bool)
    requires PredicateGeoWithinGeoJsonRegion(bin, region).Some?
    ensures AddPredicate(PredicateGeoWithinGeoJsonRegion(bin, region).value.entries, whereAdded) ==
      if whereAdded then Success(Where(CStr(bin), INDEX_TYPE_DEFAULT, GeoWithin(CStr(region)))) else Failure(ErrClient)
  {
    NamesPlain();
    Predicate3Fields(bin, PREDICATE_GEO_WITHIN, PStr(region));
    Dispatch(Predicate3(bin, PREDICATE_GEO_WITHIN, PStr(region)).entries, whereAdded);
  }

  /** A radius predicate reaches the server as a containment test of the circle,
      not as a within test. */
  lemma RadiusBuilderContains(bin: string, lat: real, long: real, radius: real,
                              jsonEncode: PVal -> Option<string>, whereAdded: bool)
    requires PredicateGeoWithinRadius(bin, lat, long, radius, jsonEncode).Some?
    ensures var json := jsonEncode(GeoCircle(lat, long, radius)).value;
      AddPredicate(PredicateGeoWithinRadius(bin, lat, long, radius, jsonEncode).value.entries, whereAdded) ==
      if whereAdded then Success(Where(CStr(bin), INDEX_TYPE_DEFAULT, GeoContains(CStr(json)))) else Failure(ErrClient)
  {
    GeoPointBuilderAccepted(bin, jsonEncode(GeoCircle(lat, long, radius)).value, whereAdded);
  }
}

=== FILE: query.dfy ===
/** Secondary-index query predicates: the arrays the `Aerospike::predicate*`
    builders return, and how `Aerospike::query` checks such an array and turns it
    into the one `as_query_where` filter of the query (`add_predicate_to_query`,
    `get_min_max_from_zval` and the per-operator adders).

    Whether the C client's `as_query_where` accepts the filter is a parameter,
    `whereAdded`; nothing in the extension decides it.
 */
module Query {
  import opened Errors
  import opened Strings
  import opened Php
  import opened AsValues
  import opened Types
  import opened Policies

  const PREDICATE_BIN_KEY: string := "bin"
  const PREDICATE_OP_KEY: string := "op"
  const PREDICATE_VAL_KEY: string := "val"
  const PREDICATE_INDEX_TYPE_KEY: string := "index_type"

  /** The field names are plain names the symbol table files as themselves, and
      the operator names hold no NUL. */
  lemma NamesPlain()
    ensures PlainName(PREDICATE_BIN_KEY) && PlainName(PREDICATE_OP_KEY)
    ensures PlainName(PREDICATE_VAL_KEY) && PlainName(PREDICATE_INDEX_TYPE_KEY)
    ensures PREDICATE_BIN_KEY != PREDICATE_VAL_KEY
    ensures NulFree(PREDICATE_EQUAL) && NulFree(PREDICATE_BETWEEN) && NulFree(PREDICATE_CONTAINS)
    ensures NulFree(PREDICATE_RANGE) && NulFree(PREDICATE_GEO_CONTAINS) && NulFree(PREDICATE_GEO_WITHIN)
  {
    assert PREDICATE_BIN_KEY[0] != PREDICATE_VAL_KEY[0];
  }

  // ---------------------------------------------------------------------------
  // The filter handed to the C client
  // ---------------------------------------------------------------------------

  /** What an `as_predicate` compares the indexed value with. */
  datatype Test =
    | EqualsInt(n: int)
    | EqualsStr(s: string)
    | Between(min: int, max: int)
    | GeoWithin(region: string)
    | GeoContains(point: string)

  /** One `as_query_where` call: bin, index type and test. */
  datatype Where = Where(bin: string, indexType: int, test: Test)

  /** The index types a CONTAINS or RANGE predicate may name. */
  predicate CollectionIndex(t: int) {
    t == INDEX_TYPE_LIST || t == INDEX_TYPE_MAPKEYS || t == INDEX_TYPE_MAPVALUES
  }

  /** What an adder hands back: the status it returns, the status it leaves in
      `err`, and the filter it added. */
  datatype PredicateAdd = PredicateAdd(ret: Status, recorded: Status, where: Option<Where>)

  /** An adder that returns exactly what it records. */
  function Consistent(r: Result<Where>): (a: PredicateAdd)
    ensures a.ret == a.recorded == r.StatusOf()
    ensures a.where.Some? <==> r.Success?
    ensures r.Success? ==> a.where == Some(r.value)
  {
    match r
    case Success(w) => PredicateAdd(Ok, Ok, Some(w))
    case Failure(e) => PredicateAdd(e, e, None)
  }

  // ---------------------------------------------------------------------------
  // The per-operator adders
  // ---------------------------------------------------------------------------

  /** `get_min_max_from_zval`: the value must be a list-shaped array of exactly two
      integers, lower bound first. */
  function MinMax(v: PVal): (r: Result<(int, int)>)
    ensures r.Failure? ==> r.error == ErrParam
    ensures r.Success? <==>
      v.PArr? && |v.entries| == 2 && IsList(v.entries) && v.entries[0].1.PInt? && v.entries[1].1.PInt?
    ensures r.Success? ==> r.value == (v.entries[0].1.n, v.entries[1].1.n)
  {
    if !v.PArr? || |v.entries| != 2 || !IsList(v.entries) then Failure(ErrParam)
    else
      FindInList(v.entries, 0);
      FindInList(v.entries, 1);
      var min := Find(v.entries, IntKey(0));
      var max := Find(v.entries, IntKey(1));
      if min.None? || !min.value.PInt? then Failure(ErrParam)
      else if max.None? || !max.value.PInt? then Failure(ErrParam)
      else Success((min.value.n, max.value.n))
  }

  /** The pair `[min, max]` a builder writes is read back as those bounds. */
  lemma MinMaxOfPair(min: int, max: int)
    ensures MinMax(ListOf([PInt(min), PInt(max)])) == Success((min, max))
  {
    var v := ListOf([PInt(min), PInt(max)]);
    assert IsList(v.entries);
  }

  /** A BETWEEN on the pair `[min, max]` fails only when the C client refuses it. */
  lemma BetweenOfPair(bin: string, min: int, max: int, whereAdded: bool)
    ensures BetweenOf(bin, ListOf([PInt(min), PInt(max)]), whereAdded) ==
      if whereAdded then Success(Where(bin, INDEX_TYPE_DEFAULT, Between(min, max))) else Failure(ErrParam)
  {
    MinMaxOfPair(min, max);
  }

  /** A RANGE on the pair `[min, max]` fails only on its index type or when the C
      client refuses it. */
  lemma RangeOfPair(bin: string, indexType: int, min: int, max: int, whereAdded: bool)
    ensures RangeOf(bin, indexType, ListOf([PInt(min), PInt(max)]), whereAdded) ==
      if !CollectionIndex(indexType) then Failure(ErrParam)
      else if whereAdded then Success(Where(bin, indexType, Between(min, max)))
      else Failure(ErrClient)
  {
    MinMaxOfPair(min, max);
  }

  /** A CONTAINS on an integer or string fails only on its index type or when the
      C client refuses it. */
  lemma ContainsOfScalar(bin: string, indexType: int, v: PVal, whereAdded: bool)
    requires v.PInt? || v.PStr?
    ensures Contains(bin, indexType, v, whereAdded) ==
      if !CollectionIndex(indexType) then Failure(ErrParam)
      else if whereAdded then Success(Where(bin, indexType, ScalarTest(v).value))
      else Failure(ErrClient)
  {
  }

  /** The test of a `=` or CONTAINS predicate: equality with an integer or with the
      C text of a string. */
  function ScalarTest(v: PVal): Option<Test> {
    match v
    case PInt(n) => Some(EqualsInt(n))
    case PStr(s) => Some(EqualsStr(CStr(s)))
    case _ => None
  }

  /** `add_equal_predicate_to_query` and `add_{list,mapkeys,mapvalues}_contains_predicate_to_query`
      as written: a value that is neither an integer nor a string, and a filter the
      C client refuses, are recorded in `err` but the adder returns OK. */
  function EqualsAsWritten(bin: string, indexType: int, v: PVal, whereAdded: bool): (r: PredicateAdd)
    ensures r.ret == Ok
    ensures r.where.Some? <==> r.recorded == Ok
    ensures r.recorded == ErrParam <==> !(v.PInt? || v.PStr?)
  {
    match ScalarTest(v)
    case None => PredicateAdd(Ok, ErrParam, None)
    case Some(t) =>
      if whereAdded then PredicateAdd(Ok, Ok, Some(Where(bin, indexType, t)))
      else PredicateAdd(Ok, ErrClient, None)
  }

  /** The equality adders with every recorded failure also returned. */
  function Equals(bin: string, indexType: int, v: PVal, whereAdded: bool): (r: Result<Where>)
    ensures r.Success? <==> (v.PInt? || v.PStr?) && whereAdded
    ensures r.StatusOf() == EqualsAsWritten(bin, indexType, v, whereAdded).recorded
    ensures r.Success? ==> Some(r.value) == EqualsAsWritten(bin, indexType, v, whereAdded).where
    ensures r.Success? ==> r.value.bin == bin && r.value.indexType == indexType
  {
    match ScalarTest(v)
    case None => Failure(ErrParam)
    case Some(t) => if whereAdded then Success(Where(bin, indexType, t)) else Failure(ErrClient)
  }

  /** `add_between_predicate_to_query`: an integer range on the default index; a
      refused filter is ERR_PARAM here. */
  function BetweenOf(bin: string, v: PVal, whereAdded: bool): (r: Result<Where>)
    ensures MinMax(v).Failure? ==> r == Failure(ErrParam)
    ensures MinMax(v).Success? && !whereAdded ==> r == Failure(ErrParam)
    ensures r.Success? <==> MinMax(v).Success? && whereAdded
    ensures r.Success? ==> r.value == Where(bin, INDEX_TYPE_DEFAULT, Between(MinMax(v).value.0, MinMax(v).value.1))
  {
    var (min, max) :- MinMax(v);
    if !whereAdded then Failure(ErrParam)
    else Success(Where(bin, INDEX_TYPE_DEFAULT, Between(min, max)))
  }

  /** `add_contains_predicate_to_query` as written: the index type is checked, then
      the equality adder of that index type runs. */
  function ContainsAsWritten(bin: string, indexType: int, v: PVal, whereAdded: bool): (r: PredicateAdd)
    ensures !CollectionIndex(indexType) ==> r == PredicateAdd(ErrParam, ErrParam, None)
    ensures CollectionIndex(indexType) ==> r == EqualsAsWritten(bin, indexType, v, whereAdded)
  {
    if !CollectionIndex(indexType) then PredicateAdd(ErrParam, ErrParam, None)
    else EqualsAsWritten(bin, indexType, v, whereAdded)
  }

  /** `add_contains_predicate_to_query` with every recorded failure also returned. */
  function Contains(bin: string, indexType: int, v: PVal, whereAdded: bool): (r: Result<Where>)
    ensures r.Success? <==> CollectionIndex(indexType) && (v.PInt? || v.PStr?) && whereAdded
    ensures r.StatusOf() == ContainsAsWritten(bin, indexType, v, whereAdded).recorded
    ensures r.Success? ==> Some(r.value) == ContainsAsWritten(bin, indexType, v, whereAdded).where
  {
    if !CollectionIndex(indexType) then Failure(ErrParam)
    else Equals(bin, indexType, v, whereAdded)
  }

  /** `add_range_predicate_to_query`: the bounds are read before the index type is
      checked; a refused filter is ERR_CLIENT. */
  function RangeOf(bin: string, indexType: int, v: PVal, whereAdded: bool): (r: Result<Where>)
    ensures MinMax(v).Failure? ==> r == Failure(ErrParam)
    ensures MinMax(v).Success? && !CollectionIndex(indexType) ==> r == Failure(ErrParam)
    ensures MinMax(v).Success? && CollectionIndex(indexType) && !whereAdded ==> r == Failure(ErrClient)
    ensures r.Success? <==> MinMax(v).Success? && CollectionIndex(indexType) && whereAdded
    ensures r.Success? ==> r.value == Where(bin, indexType, Between(MinMax(v).value.0, MinMax(v).value.1))
  {
    var (min, max) :- MinMax(v);
    if !CollectionIndex(indexType) then Failure(ErrParam)
    else if !whereAdded then Failure(ErrClient)
    else Success(Where(bin, indexType, Between(min, max)))
  }

  /** `add_geo_within_predicate_to_query` (`within`) and
      `add_geo_contains_predicate_to_query`: the GeoJSON text must be a string, and
      both failures are ERR_CLIENT, not ERR_PARAM. */
  function GeoOf(bin: string, v: PVal, within: bool, whereAdded: bool): (r: Result<Where>)
    ensures r.Failure? ==> r.error == ErrClient
    ensures r.Success? <==> v.PStr? && whereAdded
    ensures r.Success? ==>
      r.value == Where(bin, INDEX_TYPE_DEFAULT, if within then GeoWithin(CStr(v.s)) else GeoContains(CStr(v.s)))
  {
    if !v.PStr? || !whereAdded then Failure(ErrClient)
    else Success(Where(bin, INDEX_TYPE_DEFAULT, if within then GeoWithin(CStr(v.s)) else GeoContains(CStr(v.s))))
  }

  // ---------------------------------------------------------------------------
  // add_predicate_to_query
  // ---------------------------------------------------------------------------

  /** The three fields every predicate array must hold, as C text where the adders
      read C text. */
  datatype Fields = Fields(bin: string, op: string, val: PVal)

  /** The structural checks of `add_predicate_to_query`, in source order: at least
      three entries, a string "bin", a string "op", and some "val". */
  function PredicateFields(es: Entries): (r: Result<Fields>)
    ensures r.Failure? ==> r.error == ErrParam
    ensures r.Success? <==>
      |es| >= 3
      && Find(es, StrKey(PREDICATE_BIN_KEY)).Some? && Find(es, StrKey(PREDICATE_BIN_KEY)).value.PStr?
      && Find(es, StrKey(PREDICATE_OP_KEY)).Some? && Find(es, StrKey(PREDICATE_OP_KEY)).value.PStr?
      && Find(es, StrKey(PREDICATE_VAL_KEY)).Some?
    ensures r.Success? ==>
      r.value == Fields(CStr(Find(es, StrKey(PREDICATE_BIN_KEY)).value.s),
                        CStr(Find(es, StrKey(PREDICATE_OP_KEY)).value.s),
                        Find(es, StrKey(PREDICATE_VAL_KEY)).value)
  {
    if |es| < 3 then Failure(ErrParam)
    else
      var bin := Find(es, StrKey(PREDICATE_BIN_KEY));
      if bin.None? || !bin.value.PStr? then Failure(ErrParam)
      else
        var op := Find(es, StrKey(PREDICATE_OP_KEY));
        if op.None? || !op.value.PStr? then Failure(ErrParam)
        else
          var val := Find(es, StrKey(PREDICATE_VAL_KEY));
          if val.None? then Failure(ErrParam)
          else Success(Fields(CStr(bin.value.s), CStr(op.value.s), val.value))
  }

  /** An array holding a string "bin", a string "op" and a "val" among at least
      three entries passes the structural checks with those fields. */
  lemma FieldsFound(es: Entries, bin: string, op: string, v: PVal)
    requires |es| >= 3
    requires Find(es, StrKey(PREDICATE_BIN_KEY)) == Some(PStr(bin))
    requires Find(es, StrKey(PREDICATE_OP_KEY)) == Some(PStr(op))
    requires Find(es, StrKey(PREDICATE_VAL_KEY)) == Some(v)
    ensures PredicateFields(es) == Success(Fields(CStr(bin), CStr(op), v))
  {
  }

  /** The "index_type" entry CONTAINS and RANGE read: present and an integer. */
  function IndexTypeField(es: Entries): (r: Result<int>)
    ensures r.Failure? ==> r.error == ErrParam
    ensures r.Success? <==> Find(es, StrKey(PREDICATE_INDEX_TYPE_KEY)).Some? && Find(es, StrKey(PREDICATE_INDEX_TYPE_KEY)).value.PInt?
    ensures r.Success? ==> r.value == Find(es, StrKey(PREDICATE_INDEX_TYPE_KEY)).value.n
  {
    var t := Find(es, StrKey(PREDICATE_INDEX_TYPE_KEY));
    if t.None? || !t.value.PInt? then Failure(ErrParam) else Success(t.value.n)
  }

  /** The six operators `add_predicate_to_query` dispatches on (compared with `strcmp`). */
  predicate KnownOp(op: string) {
    op == PREDICATE_EQUAL || op == PREDICATE_BETWEEN || op == PREDICATE_CONTAINS
    || op == PREDICATE_RANGE || op == PREDICATE_GEO_CONTAINS || op == PREDICATE_GEO_WITHIN
  }

  /** `add_predicate_to_query` as written. */
  function AddPredicateAsWritten(es: Entries, whereAdded: bool): (r: PredicateAdd)
    ensures r.ret != Ok ==> r.recorded == r.ret
    ensures r.where.Some? <==> r.recorded == Ok
    ensures r.recorded in {Ok, ErrParam, ErrClient}
  {
    match PredicateFields(es)
    case Failure(e) => PredicateAdd(e, e, None)
    case Success(f) =>
      if f.op == PREDICATE_EQUAL then EqualsAsWritten(f.bin, INDEX_TYPE_DEFAULT, f.val, whereAdded)
      else if f.op == PREDICATE_BETWEEN then Consistent(BetweenOf(f.bin, f.val, whereAdded))
      else if f.op == PREDICATE_CONTAINS then
        (match IndexTypeField(es)
         case Failure(e) => PredicateAdd(e, e, None)
         case Success(t) => ContainsAsWritten(f.bin, t, f.val, whereAdded))
      else if f.op == PREDICATE_RANGE then
        (match IndexTypeField(es)
         case Failure(e) => PredicateAdd(e, e, None)
         case Success(t) => Consistent(RangeOf(f.bin, t, f.val, whereAdded)))
      else if f.op == PREDICATE_GEO_CONTAINS then Consistent(GeoOf(f.bin, f.val, false, whereAdded))
      else if f.op == PREDICATE_GEO_WITHIN then Consistent(GeoOf(f.bin, f.val, true, whereAdded))
      else PredicateAdd(ErrParam, ErrParam, None)
  }

  /** `add_predicate_to_query` with the equality and contains adders returning what
      they record. */
  function AddPredicate(es: Entries, whereAdded: bool): (r: Result<Where>)
    ensures PredicateFields(es).Failure? ==> r == Failure(ErrParam)
    ensures PredicateFields(es).Success? && !KnownOp(PredicateFields(es).value.op) ==> r == Failure(ErrParam)
    ensures r.Failure? ==> r.error in {ErrParam, ErrClient}
    ensures r.Success? ==> KnownOp(PredicateFields(es).value.op) && r.value.bin == PredicateFields(es).value.bin
  {
    var f :- PredicateFields(es);
    if f.op == PREDICATE_EQUAL then Equals(f.bin, INDEX_TYPE_DEFAULT, f.val, whereAdded)
    else if f.op == PREDICATE_BETWEEN then BetweenOf(f.bin, f.val, whereAdded)
    else if f.op == PREDICATE_CONTAINS then
      var t :- IndexTypeField(es);
      Contains(f.bin, t, f.val, whereAdded)
    else if f.op == PREDICATE_RANGE then
      var t :- IndexTypeField(es);
      RangeOf(f.bin, t, f.val, whereAdded)
    else if f.op == PREDICATE_GEO_CONTAINS then GeoOf(f.bin, f.val, false, whereAdded)
    else if f.op == PREDICATE_GEO_WITHIN then GeoOf(f.bin, f.val, true, whereAdded)
    else Failure(ErrParam)
  }

  /** The six operator names differ in length, so `strcmp` tells them apart at once. */
  lemma OpNamesDistinct()
    ensures |PREDICATE_EQUAL| == 1 && |PREDICATE_BETWEEN| == 7 && |PREDICATE_CONTAINS| == 8
    ensures |PREDICATE_RANGE| == 5 && |PREDICATE_GEO_CONTAINS| == 11 && |PREDICATE_GEO_WITHIN| == 9
  {
  }

  /** Which adder a well-formed predicate array reaches, operator by operator. */
  lemma Dispatch(es: Entries, whereAdded: bool)
    requires PredicateFields(es).Success?
    ensures var f := PredicateFields(es).value;
      && (f.op == PREDICATE_EQUAL ==> AddPredicate(es, whereAdded) == Equals(f.bin, INDEX_TYPE_DEFAULT, f.val, whereAdded))
      && (f.op == PREDICATE_BETWEEN ==> AddPredicate(es, whereAdded) == BetweenOf(f.bin, f.val, whereAdded))
      && (f.op == PREDICATE_CONTAINS && IndexTypeField(es).Success? ==>
            AddPredicate(es, whereAdded) == Contains(f.bin, IndexTypeField(es).value, f.val, whereAdded))
      && (f.op == PREDICATE_RANGE && IndexTypeField(es).Success? ==>
            AddPredicate(es, whereAdded) == RangeOf(f.bin, IndexTypeField(es).value, f.val, whereAdded))
      && (f.op == PREDICATE_GEO_CONTAINS ==> AddPredicate(es, whereAdded) == GeoOf(f.bin, f.val, false, whereAdded))
      && (f.op == PREDICATE_GEO_WITHIN ==> AddPredicate(es, whereAdded) == GeoOf(f.bin, f.val, true, whereAdded))
  {
    OpNamesDistinct();
  }

  /** The corrected dispatcher fails exactly when the written one records a failure,
      with that status, and otherwise adds the same filter. */
  lemma AddPredicateRecords(es: Entries, whereAdded: bool)
    ensures AddPredicate(es, whereAdded).StatusOf() == AddPredicateAsWritten(es, whereAdded).recorded
    ensures AddPredicate(es, whereAdded).Success? ==>
              AddPredicateAsWritten(es, whereAdded).where == Some(AddPredicate(es, whereAdded).value)
  {
    match PredicateFields(es)
    case Failure(_) =>
    case Success(f) =>
      OpNamesDistinct();
      if f.op == PREDICATE_CONTAINS || f.op == PREDICATE_RANGE {
        match IndexTypeField(es)
        case Failure(_) =>
        case Success(t) =>
      }
  }

  /** CONTAINS and RANGE succeed only with an integer "index_type" naming a list,
      map-keys or map-values index, and the filter uses that index type. */
  lemma CollectionOpsNeedIndexType(es: Entries, whereAdded: bool)
    requires PredicateFields(es).Success?
    requires PredicateFields(es).value.op in {PREDICATE_CONTAINS, PREDICATE_RANGE}
    ensures AddPredicate(es, whereAdded).Success? ==>
              IndexTypeField(es).Success? && CollectionIndex(IndexTypeField(es).value)
              && AddPredicate(es, whereAdded).value.indexType == IndexTypeField(es).value
    ensures IndexTypeField(es).Failure? ==> AddPredicate(es, whereAdded) == Failure(ErrParam)
  {
  }

  // ---------------------------------------------------------------------------
  // Aerospike::query
  // ---------------------------------------------------------------------------

  /** What `Aerospike::query` hands to `aerospike_query_foreach`. */
  datatype QueryPlan = QueryPlan(
    ns: string, setName: string, select: seq<string>, where: Option<Where>, policy: Policy, noBins: bool)

  /** The "select" bin names: every value must be a string. */
  function SelectNames(es: Entries): (r: Result<seq<string>>)
    ensures r.Failure? ==> r.error == ErrParam
    ensures r.Success? <==> forall i :: 0 <= i < |es| ==> es[i].1.PStr?
    ensures r.Success? ==> |r.value| == |es| && forall i :: 0 <= i < |es| ==> r.value[i] == CStr(es[i].1.s)
  {
    if |es| == 0 then Success([])
    else
      var front :- SelectNames(es[..|es| - 1]);
      var last := es[|es| - 1].1;
      if !last.PStr? then Failure(ErrParam) else Success(front + [CStr(last.s)])
  }

  /** Everything `Aerospike::query` checks before the predicate, in source order:
      a non-empty namespace, the query policy, the query options, the select list. */
  function QuerySetup(ns: string, setName: string, select: Option<Entries>, policy: Option<PVal>, dflt: Policy)
    : (r: Result<QueryPlan>)
    ensures |ns| == 0 ==> r == Failure(ErrParam)
    ensures r.Failure? ==> r.error == ErrParam
    ensures r.Success? ==> r.value.where.None? && r.value.ns == CStr(ns) && r.value.setName == CStr(setName)
    ensures r.Success? && select.Some? ==> SelectNames(select.value) == Success(r.value.select)
  {
    if |ns| == 0 then Failure(ErrParam)
    else
      var p :- QueryPolicy(policy, dflt);
      var noBins :- QueryNoBins(policy, false);
      var names :- if select.Some? then SelectNames(select.value) else Success([]);
      Success(QueryPlan(CStr(ns), CStr(setName), names, None, p, noBins))
  }

  /** `Aerospike::query` as written up to the server call: when the adder returns OK
      the query runs, with whatever filter it added. */
  function QueryAsWritten(ns: string, setName: string, filter: Entries, select: Option<Entries>,
                          policy: Option<PVal>, dflt: Policy, whereAdded: bool): (r: Result<QueryPlan>)
    ensures r.Failure? ==> r.error in {ErrParam, ErrClient}
  {
    var plan :- QuerySetup(ns, setName, select, policy, dflt);
    if |filter| == 0 then Success(plan)
    else
      var a := AddPredicateAsWritten(filter, whereAdded);
      if a.ret != Ok then Failure(a.recorded) else Success(plan.(where := a.where))
  }

  /** `Aerospike::query` with the corrected dispatcher: a non-empty predicate either
      becomes the query's filter or stops the query. */
  function RunQuery(ns: string, setName: string, filter: Entries, select: Option<Entries>,
                    policy: Option<PVal>, dflt: Policy, whereAdded: bool): (r: Result<QueryPlan>)
    ensures r.Failure? ==> r.error in {ErrParam, ErrClient}
    ensures QuerySetup(ns, setName, select, policy, dflt).Failure? ==> r.Failure?
    ensures r.Success? && |filter| == 0 ==> r.value.where.None?
    ensures r.Success? && |filter| > 0 ==> r.value.where.Some? && AddPredicate(filter, whereAdded) == Success(r.value.where.value)
    ensures |filter| > 0 && AddPredicate(filter, whereAdded).Failure? ==> r.Failure?
  {
    var plan :- QuerySetup(ns, setName, select, policy, dflt);
    if |filter| == 0 then Success(plan)
    else
      var w :- AddPredicate(filter, whereAdded);
      Success(plan.(where := Some(w)))
  }

  /** A well-formed "=" predicate whose value is a double: the written query runs
      with no filter at all, the corrected one stops with ERR_PARAM. */
  lemma DoubleEqualityRunsUnfiltered(dflt: Policy)
    ensures var p := [(StrKey(PREDICATE_BIN_KEY), PStr("age")), (StrKey(PREDICATE_OP_KEY), PStr(PREDICATE_EQUAL)),
                      (StrKey(PREDICATE_VAL_KEY), PDouble(1.5))];
      && QueryAsWritten("test", "demo", p, None, None, dflt, true).Success?
      && QueryAsWritten("test", "demo", p, None, None, dflt, true).value.where.None?
      && RunQuery("test", "demo", p, None, None, dflt, true) == Failure(ErrParam)
  {
    var p := [(StrKey(PREDICATE_BIN_KEY), PStr("age")), (StrKey(PREDICATE_OP_KEY), PStr(PREDICATE_EQUAL)),
              (StrKey(PREDICATE_VAL_KEY), PDouble(1.5))];
    assert PredicateFields(p) == Success(Fields("age", PREDICATE_EQUAL, PDouble(1.5))) by {
      assert Firsts(p) == [StrKey(PREDICATE_BIN_KEY), StrKey(PREDICATE_OP_KEY), StrKey(PREDICATE_VAL_KEY)];
      assert Find(p, StrKey(PREDICATE_BIN_KEY)) == Some(PStr("age"));
      assert Find(p, StrKey(PREDICATE_OP_KEY)) == Some(PStr(PREDICATE_EQUAL));
      assert Find(p, StrKey(PREDICATE_VAL_KEY)) == Some(PDouble(1.5));
      FieldsFound(p, "age", PREDICATE_EQUAL, PDouble(1.5));
      CStrOfNulFree(PREDICATE_EQUAL);
      CStrOfNulFree("age");
    }
    assert AddPredicateAsWritten(p, true) == PredicateAdd(Ok, ErrParam, None);
    assert AddPredicate(p, true) == Failure(ErrParam) by {
      Dispatch(p, true);
    }
  }
}

=== FILE: records.dfy ===
/** Conversion of keys and records between their PHP array form and the C
    client's `as_key` / `as_record` (`z_hashtable_to_as_key`,
    `z_hashtable_to_as_record`, `as_record_to_zval`, `as_bins_to_zval`,
    `as_operate_record_to_zval`, `as_key_to_zval`).
 */
module RecordConversions {
  import opened Errors
  import opened Strings
  import opened Php
  import opened AsValues
  import opened Types
  import opened ValueConversions

  // ---------------------------------------------------------------------------
  // PHP key array -> as_key
  // ---------------------------------------------------------------------------

  /** What `z_hashtable_to_as_key` hands back: the status it returns, the status it
      leaves in `err`, and the key when initialisation succeeded. */
  datatype KeyConversion = KeyConversion(ret: Status, recorded: Status, key: Option<AsKey>)

  /** The shared decision procedure of `z_hashtable_to_as_key`. `unrecorded` is the
      status recorded when a primary key of an unsupported type or a failed
      initialisation makes the function return ERR_CLIENT. */
  function KeyDecision(z: PVal, unrecorded: Status): (r: KeyConversion)
    ensures r.key.Some? <==> r.ret == Ok
    ensures r.ret == Ok ==> r.recorded == Ok
  {
    var ns := Field(z, NAMESPACE_KEY);
    var setField := Field(z, SET_KEY);
    var pk := Field(z, PK_KEY);
    var digest := Field(z, DIGEST_KEY);
    if ns.None? || !ns.value.PStr? then KeyConversion(ErrParam, ErrParam, None)
    else if setField.Some? && !setField.value.PStr? then KeyConversion(ErrParam, ErrParam, None)
    else if pk.None? && (digest.None? || !digest.value.PStr?) then KeyConversion(ErrParam, ErrParam, None)
    else if setField.None? then KeyConversion(ErrParam, ErrParam, None)
    else
      var nsText := ns.value.s;
      var setText := setField.value.s;
      var init: Result<Option<AsKey>> :=
        if pk.None? then
          if |digest.value.s| != DIGEST_SIZE then Failure(ErrParam)
          else Success(KeyInit(nsText, setText, None, Some(digest.value.s)))
        else match pk.value
          case PStr(s) => Success(KeyInit(nsText, setText, Some(KStr(CStr(s))), None))
          case PInt(n) => Success(KeyInit(nsText, setText, Some(KInt(n)), None))
          case _ => Success(None);
      match init
      case Failure(e) => KeyConversion(e, e, None)
      case Success(None) => KeyConversion(ErrClient, unrecorded, None)
      case Success(Some(k)) => KeyConversion(Ok, Ok, Some(k))
  }

  /** `z_hashtable_to_as_key` as written: a primary key that is neither a string nor
      an integer, and a key the C client refuses to initialise, make it return
      ERR_CLIENT while `err` still says OK. */
  function KeyFromArrayAsWritten(z: PVal): (r: KeyConversion)
    ensures r.ret == ErrClient ==> r.recorded == Ok
  {
    KeyDecision(z, Ok)
  }

  /** `z_hashtable_to_as_key` with every failure recorded as it is returned. */
  function KeyFromArray(z: PVal): (r: Result<AsKey>)
    ensures r.Failure? <==> KeyFromArrayAsWritten(z).ret != Ok
    ensures r.Failure? ==> r.error == KeyFromArrayAsWritten(z).ret && r.error in {ErrParam, ErrClient}
    ensures Field(z, NAMESPACE_KEY).None? || !Field(z, NAMESPACE_KEY).value.PStr? ==> r == Failure(ErrParam)
    ensures Field(z, SET_KEY).None? || !Field(z, SET_KEY).value.PStr? ==> r == Failure(ErrParam)
    ensures Field(z, PK_KEY).None? && (Field(z, DIGEST_KEY).None? || !Field(z, DIGEST_KEY).value.PStr?)
            ==> r == Failure(ErrParam)
    ensures r.Success? ==>
              r.value.ns == CStr(Field(z, NAMESPACE_KEY).value.s)
              && r.value.setName == CStr(Field(z, SET_KEY).value.s)
    ensures r.Success? && Field(z, PK_KEY).Some? ==>
              r.value.digest.None?
              && (Field(z, PK_KEY).value.PStr? ==> r.value.value == Some(KStr(CStr(Field(z, PK_KEY).value.s))))
              && (Field(z, PK_KEY).value.PInt? ==> r.value.value == Some(KInt(Field(z, PK_KEY).value.n)))
    ensures r.Success? && Field(z, PK_KEY).None? ==>
              r.value.value.None? && r.value.digest == Some(Field(z, DIGEST_KEY).value.s)
              && |Field(z, DIGEST_KEY).value.s| == DIGEST_SIZE
    ensures Field(z, PK_KEY).Some? && !Field(z, PK_KEY).value.PStr? && !Field(z, PK_KEY).value.PInt?
            ==> r.Failure?
  {
    var c := KeyDecision(z, ErrClient);
    if c.ret == Ok then Success(c.key.value) else Failure(c.recorded)
  }

  /** A key whose primary key is a double: `z_hashtable_to_as_key` as written returns
      ERR_CLIENT but leaves OK in `err`. */
  lemma UnsupportedKeyTypeUnrecorded()
    ensures var z := PArr([(StrKey(NAMESPACE_KEY), PStr("test")), (StrKey(SET_KEY), PStr("demo")),
                           (StrKey(PK_KEY), PDouble(1.5))]);
      && KeyFromArrayAsWritten(z) == KeyConversion(ErrClient, Ok, None)
      && KeyFromArray(z) == Failure(ErrClient)
  {
    var z := PArr([(StrKey(NAMESPACE_KEY), PStr("test")), (StrKey(SET_KEY), PStr("demo")),
                   (StrKey(PK_KEY), PDouble(1.5))]);
    assert Firsts(z.entries) == [StrKey(NAMESPACE_KEY), StrKey(SET_KEY), StrKey(PK_KEY)];
    assert Field(z, NAMESPACE_KEY) == Some(PStr("test"));
    assert Field(z, SET_KEY) == Some(PStr("demo"));
    assert Field(z, PK_KEY) == Some(PDouble(1.5));
  }

  /** A key array with a string namespace and set that fit, and a string or integer
      "key", is accepted; "key" wins over any "digest" entry. */
  lemma PrimaryKeyAccepted(z: PVal)
    requires Field(z, NAMESPACE_KEY).Some? && Field(z, NAMESPACE_KEY).value.PStr?
    requires Field(z, SET_KEY).Some? && Field(z, SET_KEY).value.PStr?
    requires |CStr(Field(z, NAMESPACE_KEY).value.s)| < NS_MAX_SIZE && |CStr(Field(z, SET_KEY).value.s)| < SET_MAX_SIZE
    requires Field(z, PK_KEY).Some? && (Field(z, PK_KEY).value.PStr? || Field(z, PK_KEY).value.PInt?)
    ensures KeyFromArray(z).Success?
    ensures KeyFromArray(z).value.value == Some(
      if Field(z, PK_KEY).value.PStr? then KStr(CStr(Field(z, PK_KEY).value.s)) else KInt(Field(z, PK_KEY).value.n))
  {
  }

  /** A key array without "key" but with a 20-byte "digest" string is accepted as a
      digest key. */
  lemma DigestAccepted(z: PVal)
    requires Field(z, NAMESPACE_KEY).Some? && Field(z, NAMESPACE_KEY).value.PStr?
    requires Field(z, SET_KEY).Some? && Field(z, SET_KEY).value.PStr?
    requires |CStr(Field(z, NAMESPACE_KEY).value.s)| < NS_MAX_SIZE && |CStr(Field(z, SET_KEY).value.s)| < SET_MAX_SIZE
    requires Field(z, PK_KEY).None?
    requires Field(z, DIGEST_KEY).Some? && Field(z, DIGEST_KEY).value.PStr? && |Field(z, DIGEST_KEY).value.s| == DIGEST_SIZE
    ensures KeyFromArray(z) == Success(AsKey(CStr(Field(z, NAMESPACE_KEY).value.s), CStr(Field(z, SET_KEY).value.s),
                                             None, Some(Field(z, DIGEST_KEY).value.s)))
  {
  }

  // ---------------------------------------------------------------------------
  // PHP bins array -> as_record
  // ---------------------------------------------------------------------------

  /** Entries `i..` of a bins array added to the record built so far
      (`z_hashtable_to_as_record` and `add_zval_to_record`): a string name longer
      than `AS_BIN_NAME_MAX_LEN` is ERR_BIN_NAME, an integer name ERR_PARAM, and a
      value that does not convert fails with the conversion's status. */
  function RecordFromEntries(es: Entries, i: nat, bins: seq<(string, AsVal)>, serializer: int, rt: Runtime)
    : (r: Result<seq<(string, AsVal)>>)
    requires i <= |es|
    ensures r.Success? <==> forall j :: i <= j < |es| ==> BinEntryOk(es[j], serializer, rt)
    ensures r.Failure? ==> r.error in {ErrParam, ErrBinName}
    ensures r.Failure? && r.error == ErrBinName ==>
      exists j :: i <= j < |es| && es[j].0.StrKey? && |es[j].0.s| > BIN_NAME_MAX_LEN
    ensures r.Success? ==> forall j :: i <= j < |es| ==> CStr(es[j].0.s) in BinNames(r.value)
    ensures r.Success? ==> forall n :: n in BinNames(bins) ==> n in BinNames(r.value)
    ensures r.Success? ==> forall j :: i <= j < |es| && LastOfName(es, j) ==>
      BinValue(r.value, CStr(es[j].0.s)) == Some(ToAsVal(es[j].1, serializer, rt).value)
    ensures r.Success? ==> forall n :: NotNamedFrom(es, i, n) ==> BinValue(r.value, n) == BinValue(bins, n)
    decreases |es| - i
  {
    if i == |es| then Success(bins)
    else match es[i].0
      case IntKey(_) => assert !BinEntryOk(es[i], serializer, rt); Failure(ErrParam)
      case StrKey(name) =>
        if |name| > BIN_NAME_MAX_LEN then assert !BinEntryOk(es[i], serializer, rt); Failure(ErrBinName)
        else
          var v :- ToAsVal(es[i].1, serializer, rt);
          var bins' := RecordSet(bins, name, v);
          assert CStr(name) in BinNames(bins') && forall n :: n in BinNames(bins) ==> n in BinNames(bins') by {
            RecordSetNames(bins, name, v);
          }
          BinEntriesOkStep(es, i, serializer, rt);
          var r := RecordFromEntries(es, i + 1, bins', serializer, rt);
          if r.Success? then BinValuesStep(es, i, bins, bins', r.value, serializer, rt); r else r
  }

  /** Entry `j` is a string-named entry that no later entry renames to the same
      C string, so its value is the one the record keeps. */
  predicate LastOfName(es: Entries, j: nat)
    requires j < |es|
  {
    es[j].0.StrKey? && forall k :: j < k < |es| && es[k].0.StrKey? ==> CStr(es[k].0.s) != CStr(es[j].0.s)
  }

  /** No string-named entry from `i` on has the C name `n`. */
  predicate NotNamedFrom(es: Entries, i: nat, n: string) {
    forall j :: i <= j < |es| && es[j].0.StrKey? ==> CStr(es[j].0.s) != n
  }

  /** Setting entry `i` before the rest: what the rest leaves the record holding
      under each name. */
  lemma BinValuesStep(es: Entries, i: nat, bins: seq<(string, AsVal)>, bins': seq<(string, AsVal)>,
                      rest: seq<(string, AsVal)>, serializer: int, rt: Runtime)
    requires i < |es|
    requires forall j :: i <= j < |es| ==> es[j].0.StrKey? && ToAsVal(es[j].1, serializer, rt).Success?
    requires BinValue(bins', CStr(es[i].0.s)) == Some(ToAsVal(es[i].1, serializer, rt).value)
    requires forall n :: n != CStr(es[i].0.s) ==> BinValue(bins', n) == BinValue(bins, n)
    requires forall j :: i + 1 <= j < |es| && LastOfName(es, j) ==>
      BinValue(rest, CStr(es[j].0.s)) == Some(ToAsVal(es[j].1, serializer, rt).value)
    requires forall n :: NotNamedFrom(es, i + 1, n) ==> BinValue(rest, n) == BinValue(bins', n)
    ensures forall j :: i <= j < |es| && LastOfName(es, j) ==>
      BinValue(rest, CStr(es[j].0.s)) == Some(ToAsVal(es[j].1, serializer, rt).value)
    ensures forall n :: NotNamedFrom(es, i, n) ==> BinValue(rest, n) == BinValue(bins, n)
  {
    var name := CStr(es[i].0.s);
    if LastOfName(es, i) {
      assert NotNamedFrom(es, i + 1, name);
    }
    forall n | NotNamedFrom(es, i, n) ensures BinValue(rest, n) == BinValue(bins, n) {
      assert n != name;
      assert NotNamedFrom(es, i + 1, n);
    }
  }

  /** An accepted entry `i` leaves acceptance of `i..` to that of `i + 1..`. */
  lemma BinEntriesOkStep(es: Entries, i: nat, serializer: int, rt: Runtime)
    requires i < |es| && BinEntryOk(es[i], serializer, rt)
    ensures (forall j :: i <= j < |es| ==> BinEntryOk(es[j], serializer, rt))
            <==> (forall j :: i + 1 <= j < |es| ==> BinEntryOk(es[j], serializer, rt))
  {
  }

  /** An entry `add_zval_to_record` accepts: a string name that fits and a value
      that converts. */
  predicate BinEntryOk(e: (PKey, PVal), serializer: int, rt: Runtime) {
    e.0.StrKey? && |e.0.s| <= BIN_NAME_MAX_LEN && ToAsVal(e.1, serializer, rt).Success?
  }

  /** After `as_record_set_*` the record holds the new name and every old one. */
  lemma RecordSetNames(bins: seq<(string, AsVal)>, name: string, v: AsVal)
    ensures CStr(name) in BinNames(RecordSet(bins, name, v))
    ensures forall n :: n in BinNames(bins) ==> n in BinNames(RecordSet(bins, name, v))
  {
    var bins' := RecordSet(bins, name, v);
    assert BinValue(bins', CStr(name)).Some?;
    forall n | n in BinNames(bins) ensures n in BinNames(bins') {
      if n != CStr(name) {
        var j :| 0 <= j < |bins| && BinNames(bins)[j] == n;
        assert bins'[j] == bins[j];
        assert BinNames(bins')[j] == n;
      }
    }
  }

  /** `z_hashtable_to_as_record`. */
  function RecordFromArray(es: Entries, serializer: int, rt: Runtime): (r: Result<seq<(string, AsVal)>>)
    ensures r.Success? <==> forall j :: 0 <= j < |es| ==> BinEntryOk(es[j], serializer, rt)
    ensures r.Failure? ==> r.error in {ErrParam, ErrBinName}
    ensures r.Success? ==> forall j :: 0 <= j < |es| ==> CStr(es[j].0.s) in BinNames(r.value)
    ensures r.Success? ==> forall j :: 0 <= j < |es| && LastOfName(es, j) ==>
      BinValue(r.value, CStr(es[j].0.s)) == Some(ToAsVal(es[j].1, serializer, rt).value)
    ensures r.Success? ==> forall n :: NotNamedFrom(es, 0, n) ==> BinValue(r.value, n) == None
  {
    RecordFromEntries(es, 0, [], serializer, rt)
  }

  /** A bin name of fifteen characters is refused with ERR_BIN_NAME. */
  lemma LongBinNameRejected(v: PVal, serializer: int, rt: Runtime)
    ensures RecordFromArray([(StrKey("abcdefghijklmno"), v)], serializer, rt) == Failure(ErrBinName)
  {
  }

  // ---------------------------------------------------------------------------
  // as_record -> PHP
  // ---------------------------------------------------------------------------

  /** `as_bins_to_zval`: every bin added in record order with `add_assoc_zval`, so
      a later bin of the same name replaces an earlier one. */
  function BinsToZval(bins: seq<(string, AsVal)>, rt: Runtime): (r: Result<Entries>)
    ensures r.Success? <==> forall j :: 0 <= j < |bins| ==> ToZval(bins[j].1, rt).Success?
    ensures r.Failure? ==> r.error == ErrClient
    ensures r.Success? ==> DistinctKeys(r.value)
  {
    if |bins| == 0 then Success([])
    else
      var front :- BinsToZval(bins[..|bins| - 1], rt);
      var v :- ToZval(bins[|bins| - 1].1, rt);
      assert forall j :: 0 <= j < |bins| - 1 ==> bins[..|bins| - 1][j] == bins[j];
      Success(AddAssoc(front, bins[|bins| - 1].0, v))
  }

  /** The keys `add_assoc_zval` files the bins under, in record order. */
  function BinKeys(bins: seq<(string, AsVal)>): seq<PKey> {
    if |bins| == 0 then [] else BinKeys(bins[..|bins| - 1]) + [SymKey(CStr(bins[|bins| - 1].0))]
  }

  /** Some bin's name is filed under `k`. */
  predicate NamedIn(bins: seq<(string, AsVal)>, k: PKey) {
    k in BinKeys(bins)
  }

  lemma NamedInSnoc(bins: seq<(string, AsVal)>, k: PKey)
    requires |bins| > 0
    ensures NamedIn(bins, k) <==> NamedIn(bins[..|bins| - 1], k) || SymKey(CStr(bins[|bins| - 1].0)) == k
  {
  }

  /** The last step of `as_bins_to_zval`. */
  lemma BinsToZvalStep(bins: seq<(string, AsVal)>, rt: Runtime)
    requires |bins| > 0 && BinsToZval(bins, rt).Success?
    ensures BinsToZval(bins[..|bins| - 1], rt).Success? && ToZval(bins[|bins| - 1].1, rt).Success?
    ensures BinsToZval(bins, rt).value
            == AddAssoc(BinsToZval(bins[..|bins| - 1], rt).value, bins[|bins| - 1].0, ToZval(bins[|bins| - 1].1, rt).value)
  {
  }

  /** The names `as_bins_to_zval` files values under are exactly the bins' names. */
  lemma {:induction false} BinsToZvalKeys(bins: seq<(string, AsVal)>, rt: Runtime, k: PKey)
    requires BinsToZval(bins, rt).Success?
    ensures HasKey(BinsToZval(bins, rt).value, k) <==> NamedIn(bins, k)
    decreases |bins|
  {
    if |bins| > 0 {
      var front := bins[..|bins| - 1];
      var last := bins[|bins| - 1];
      BinsToZvalStep(bins, rt);
      UpdateHasKey(BinsToZval(front, rt).value, SymKey(CStr(last.0)), ToZval(last.1, rt).value, k);
      BinsToZvalKeys(front, rt, k);
      NamedInSnoc(bins, k);
    }
  }

  /** The value `as_bins_to_zval` leaves under a bin's name is that of the last bin
      with that name: for operate results, the last operation on a bin wins. */
  lemma {:induction false} LastBinWins(bins: seq<(string, AsVal)>, i: nat, rt: Runtime)
    requires i < |bins| && BinsToZval(bins, rt).Success?
    requires forall j :: i < j < |bins| ==> SymKey(CStr(bins[j].0)) != SymKey(CStr(bins[i].0))
    ensures Find(BinsToZval(bins, rt).value, SymKey(CStr(bins[i].0))) == Some(ToZval(bins[i].1, rt).value)
    decreases |bins|
  {
    var front := bins[..|bins| - 1];
    assert BinsToZval(front, rt).Success?;
    if i < |bins| - 1 {
      assert forall j :: i < j < |front| ==> front[j] == bins[j];
      LastBinWins(front, i, rt);
    }
  }

  /** `as_record_to_z_metadata`: the record's ttl and generation. */
  function Metadata(rec: Record): (r: PVal)
    ensures Field(r, "ttl") == Some(PInt(rec.ttl))
    ensures Field(r, "generation") == Some(PInt(rec.gen))
    ensures Count(r) == 2
  {
    var fields := [("ttl", PInt(rec.ttl)), ("generation", PInt(rec.gen))];
    AssocFind(fields, 0);
    AssocFind(fields, 1);
    PArr(Assoc(fields))
  }

  /** The value `as_key_to_zval` stores under "key": the user key when one exists
      and `show_pk` is set, null when either is missing; a user key of another
      type stores nothing. */
  function PrimaryKeyField(k: AsKey, showPk: bool): Option<PVal> {
    if k.value.Some? && showPk then
      match k.value.value
      case KStr(s) => Some(PStr(CStr(s)))
      case KInt(n) => Some(PInt(n))
      case KBytes(data) => Some(PStr(data))
      case KOther => None
    else Some(PNull)
  }

  lemma KeyFieldNames()
    ensures PlainName(NAMESPACE_KEY) && PlainName(SET_KEY) && PlainName(PK_KEY) && PlainName(DIGEST_KEY)
    ensures NAMESPACE_KEY != SET_KEY && NAMESPACE_KEY != PK_KEY && NAMESPACE_KEY != DIGEST_KEY
    ensures SET_KEY != PK_KEY && SET_KEY != DIGEST_KEY && PK_KEY != DIGEST_KEY
  {
  }

  /** The fields `as_key_to_zval` adds, in order: "ns" and "set", then "key" and
      "digest" when there is something to store under them. */
  function KeyFields(ns: PVal, setName: PVal, pk: Option<PVal>, digest: Option<PVal>)
    : (fields: seq<(string, PVal)>)
    ensures |fields| >= 2 && fields[0] == (NAMESPACE_KEY, ns) && fields[1] == (SET_KEY, setName)
    ensures pk.Some? ==> |fields| >= 3 && fields[2] == (PK_KEY, pk.value)
    ensures pk.None? ==> forall i :: 0 <= i < |fields| ==> fields[i].0 != PK_KEY
    ensures digest.Some? ==> fields[|fields| - 1] == (DIGEST_KEY, digest.value)
    ensures digest.None? ==> forall i :: 0 <= i < |fields| ==> fields[i].0 != DIGEST_KEY
    ensures forall i :: 0 <= i < |fields| ==> PlainName(fields[i].0)
    ensures forall i, j :: 0 <= i < j < |fields| ==> fields[i].0 != fields[j].0
  {
    KeyFieldNames();
    var p := Opt(PK_KEY, pk);
    var d := Opt(DIGEST_KEY, digest);
    var fields := [(NAMESPACE_KEY, ns), (SET_KEY, setName)] + p + d;
    assert forall i :: 2 <= i < |fields| ==>
      (fields[i].0 == PK_KEY && i == 2 && pk.Some?) || (fields[i].0 == DIGEST_KEY && i == |fields| - 1 && digest.Some?);
    fields
  }

  /** The array `as_key_to_zval` fills. */
  function KeyArray(ns: PVal, setName: PVal, pk: Option<PVal>, digest: Option<PVal>): (r: PVal)
    ensures r.PArr? && DistinctKeys(r.entries)
    ensures Field(r, NAMESPACE_KEY) == Some(ns)
    ensures Field(r, SET_KEY) == Some(setName)
    ensures Field(r, PK_KEY) == pk
    ensures Field(r, DIGEST_KEY) == digest
  {
    var fields := KeyFields(ns, setName, pk, digest);
    AssocFind(fields, 0);
    AssocFind(fields, 1);
    assert Field(PArr(Assoc(fields)), PK_KEY) == pk by {
      if pk.Some? { AssocFind(fields, 2); } else { AssocMissing(fields, PK_KEY); }
    }
    assert Field(PArr(Assoc(fields)), DIGEST_KEY) == digest by {
      if digest.Some? { AssocFind(fields, |fields| - 1); } else { AssocMissing(fields, DIGEST_KEY); }
    }
    PArr(Assoc(fields))
  }

  /** One field when there is a value, none otherwise. */
  function Opt(name: string, v: Option<PVal>): (r: seq<(string, PVal)>)
    ensures |r| == if v.Some? then 1 else 0
    ensures v.Some? ==> r[0] == (name, v.value)
  {
    if v.Some? then [(name, v.value)] else []
  }

  /** `as_key_to_zval`. */
  function KeyToZval(k: AsKey, showPk: bool): (r: Result<PVal>)
    ensures r.Failure? <==> CStr(k.ns) == ""
    ensures r.Failure? ==> r.error == ErrClient
    ensures r.Success? ==> r.value.PArr? && DistinctKeys(r.value.entries)
    ensures r.Success? ==> Field(r.value, NAMESPACE_KEY) == Some(PStr(CStr(k.ns)))
    ensures r.Success? ==> Field(r.value, SET_KEY) == Some(PStr(CStr(k.setName)))
    ensures r.Success? ==> Field(r.value, PK_KEY) == PrimaryKeyField(k, showPk)
    ensures r.Success? ==> (Field(r.value, DIGEST_KEY).Some? <==> k.digest.Some?)
    ensures r.Success? && k.digest.Some? ==> Field(r.value, DIGEST_KEY) == Some(PStr(k.digest.value))
  {
    if CStr(k.ns) == "" then Failure(ErrClient)
    else
      Success(KeyArray(PStr(CStr(k.ns)), PStr(CStr(k.setName)), PrimaryKeyField(k, showPk),
                       if k.digest.Some? then Some(PStr(k.digest.value)) else None))
  }

  /** The array `as_record_to_zval` fills. */
  function RecordArray(key: PVal, meta: PVal, bins: PVal): (r: PVal)
    ensures Field(r, PK_KEY) == Some(key)
    ensures Field(r, "metadata") == Some(meta)
    ensures Field(r, "bins") == Some(bins)
  {
    var fields := [(PK_KEY, key), ("metadata", meta), ("bins", bins)];
    AssocFind(fields, 0);
    AssocFind(fields, 1);
    AssocFind(fields, 2);
    PArr(Assoc(fields))
  }

  /** `as_record_to_zval`: ["key" => ..., "metadata" => ..., "bins" => ...], the key
      being the one the record was read under when given, else the record's own. */
  function RecordToZval(rec: Record, readKey: Option<AsKey>, showPk: bool, rt: Runtime): (r: Result<PVal>)
    ensures r.Success? <==>
      BinsToZval(rec.bins, rt).Success?
      && KeyToZval(if readKey.Some? then readKey.value else rec.key, showPk).Success?
    ensures r.Failure? ==> r.error == ErrClient
    ensures r.Success? ==>
      && Field(r.value, "bins") == Some(PArr(BinsToZval(rec.bins, rt).value))
      && Field(r.value, "metadata") == Some(Metadata(rec))
      && Field(r.value, PK_KEY) == Some(KeyToZval(if readKey.Some? then readKey.value else rec.key, showPk).value)
  {
    var bins :- BinsToZval(rec.bins, rt);
    var key :- KeyToZval(if readKey.Some? then readKey.value else rec.key, showPk);
    Success(RecordArray(key, Metadata(rec), PArr(bins)))
  }

  /** `as_operate_record_to_zval`: one [name, value] pair per bin, in record order,
      keeping every entry of a bin that several operations returned. */
  function OperateRecordToZval(bins: seq<(string, AsVal)>, rt: Runtime): (r: Result<PVal>)
    ensures r.Success? <==> forall j :: 0 <= j < |bins| ==> ToZval(bins[j].1, rt).Success?
    ensures r.Failure? ==> r.error == ErrClient
    ensures r.Success? ==> r.value.PArr? && |r.value.entries| == |bins|
    ensures r.Success? ==> forall j :: 0 <= j < |bins| ==>
      r.value.entries[j] == (IntKey(j), ListOf([PStr(CStr(bins[j].0)), ToZval(bins[j].1, rt).value]))
  {
    var pairs :- OperatePairs(bins, 0, rt);
    Success(ListOf(pairs))
  }

  function OperatePairs(bins: seq<(string, AsVal)>, i: nat, rt: Runtime): (r: Result<seq<PVal>>)
    requires i <= |bins|
    ensures r.Success? <==> forall j :: i <= j < |bins| ==> ToZval(bins[j].1, rt).Success?
    ensures r.Failure? ==> r.error == ErrClient
    ensures r.Success? ==> |r.value| == |bins| - i
    ensures r.Success? ==> forall j :: i <= j < |bins| ==>
      r.value[j - i] == ListOf([PStr(CStr(bins[j].0)), ToZval(bins[j].1, rt).value])
    decreases |bins| - i
  {
    if i == |bins| then Success([])
    else
      var v :- ToZval(bins[i].1, rt);
      var rest :- OperatePairs(bins, i + 1, rt);
      Success([ListOf([PStr(CStr(bins[i].0)), v])] + rest)
  }

  // ---------------------------------------------------------------------------
  // Keys going out and coming back
  // ---------------------------------------------------------------------------

  /** A key read with `show_pk` set, whose namespace, set and string key hold no NUL
      and fit the C client's buffers, converts back to the same key. */
  lemma KeyRoundTrip(k: AsKey)
    requires k.value.Some? && (k.value.value.KInt? || (k.value.value.KStr? && NulFree(k.value.value.s)))
    requires k.digest.None?
    requires NulFree(k.ns) && NulFree(k.setName) && k.ns != ""
    requires |k.ns| < NS_MAX_SIZE && |k.setName| < SET_MAX_SIZE
    ensures KeyToZval(k, true).Success?
    ensures KeyFromArray(KeyToZval(k, true).value) == Success(k)
  {
    CStrOfNulFree(k.ns);
    CStrOfNulFree(k.setName);
    if k.value.value.KStr? { CStrOfNulFree(k.value.value.s); }
    var z := KeyToZval(k, true).value;
    PrimaryKeyAccepted(z);
  }

  /** A key array returned without the primary key carries "key" => null, and
      handing it back is refused with ERR_CLIENT even when it holds a digest: the
      null entry hides the digest from `z_hashtable_to_as_key`. */
  lemma HiddenPrimaryKeyNotReusable(k: AsKey)
    requires CStr(k.ns) != ""
    ensures KeyToZval(k, false).Success?
    ensures KeyFromArray(KeyToZval(k, false).value).Failure?
  {
  }
}

=== FILE: session.dfy ===
/** The PHP session save handler backed by Aerospike (aerospike_session.c): the
    "ns|set|hosts" save path, and the decisions of the read, destroy and
    create-id handlers. Server calls are parameters carrying their outcome.
 */
module Session {
  import opened Errors
  import opened Strings
  import opened AsValues

  const NS_SET_DELIM: char := '|'
  const SESSION_BIN: string := "PHP_SESSION"

  /** The three parts of a save path. */
  datatype SavePath = SavePath(ns: string, setName: string, hosts: string)

  /** The save path a configuration writes for the three parts. */
  function Join(p: SavePath): string {
    p.ns + [NS_SET_DELIM] + p.setName + [NS_SET_DELIM] + p.hosts
  }

  /** Parts a save path can carry: a namespace and a set that fit the C client's
      buffers and hold no '|', non-empty host text, and no NUL anywhere. */
  predicate WellFormed(p: SavePath) {
    && 0 < |p.ns| < NS_MAX_SIZE && NS_SET_DELIM !in p.ns && NulFree(p.ns)
    && 0 < |p.setName| < SET_MAX_SIZE && NS_SET_DELIM !in p.setName && NulFree(p.setName)
    && 0 < |p.hosts| && NulFree(p.hosts)
  }

  /** `set_up_session_data_from_save_path` up to the host parsing: the namespace is
      the text before the first '|', the set the text up to the second '|', the
      hosts everything after it. The path is read as a C string. */
  function ParseSavePath(path: string): (r: Option<SavePath>)
    ensures NS_SET_DELIM !in CStr(path) ==> r.None?
    ensures r.Some? ==> WellFormed(r.value) && Join(r.value) == CStr(path)
  {
    ParseParts(CStr(path))
  }

  /** The save-path split on a NUL-free text. */
  function ParseParts(t: string): (r: Option<SavePath>)
    requires NulFree(t)
    ensures NS_SET_DELIM !in t ==> r.None?
    ensures r.Some? ==> WellFormed(r.value) && Join(r.value) == t
  {
    match IndexOf(t, NS_SET_DELIM)
    case None => None
    case Some(i) =>
      if i == 0 || i >= NS_MAX_SIZE then None
      else match SplitSetHosts(t[i + 1..])
        case None => None
        case Some(parts) =>
          PartsJoin(t, i, parts);
          Some(SavePath(t[..i], parts.0, parts.1))
  }

  /** The parts found around the first '|' and by `SplitSetHosts` make a
      well-formed path that joins back to the text. */
  lemma PartsJoin(t: string, i: nat, parts: (string, string))
    requires NulFree(t) && 0 < i < NS_MAX_SIZE && i < |t| && t[i] == NS_SET_DELIM && NS_SET_DELIM !in t[..i]
    requires t[i + 1..] == parts.0 + [NS_SET_DELIM] + parts.1
    requires 0 < |parts.0| < SET_MAX_SIZE && NS_SET_DELIM !in parts.0 && 0 < |parts.1|
    ensures WellFormed(SavePath(t[..i], parts.0, parts.1)) && Join(SavePath(t[..i], parts.0, parts.1)) == t
  {
    var ns, rest := t[..i], t[i + 1..];
    assert t == ns + [NS_SET_DELIM] + rest;
    NulFreeParts(ns, rest);
    NulFreeParts(parts.0, parts.1);
    JoinAssoc(SavePath(ns, parts.0, parts.1));
  }

  /** The text after the first '|': the set up to the next '|', then the hosts. */
  function SplitSetHosts(rest: string): (r: Option<(string, string)>)
    ensures NS_SET_DELIM !in rest ==> r.None?
    ensures r.Some? ==> && rest == r.value.0 + [NS_SET_DELIM] + r.value.1
                        && 0 < |r.value.0| < SET_MAX_SIZE && NS_SET_DELIM !in r.value.0
                        && 0 < |r.value.1|
  {
    if |rest| == 0 then None
    else match IndexOf(rest, NS_SET_DELIM)
      case None => None
      case Some(j) =>
        if j == 0 || j >= SET_MAX_SIZE || j + 1 == |rest| then None
        else
          assert rest == rest[..j] + [NS_SET_DELIM] + rest[j + 1..];
          Some((rest[..j], rest[j + 1..]))
  }

  /** `Join` read as the namespace, a '|', and the rest. */
  lemma JoinAssoc(p: SavePath)
    ensures Join(p) == p.ns + [NS_SET_DELIM] + (p.setName + [NS_SET_DELIM] + p.hosts)
  {
  }

  /** Both sides of a '|' in a NUL-free text are NUL-free. */
  lemma NulFreeParts(a: string, b: string)
    requires NulFree(a + [NS_SET_DELIM] + b)
    ensures NulFree(a) && NulFree(b)
  {
    var s := a + [NS_SET_DELIM] + b;
    assert forall k :: 0 <= k < |a| ==> a[k] == s[k];
    assert forall k :: 0 <= k < |b| ==> b[k] == s[|a| + 1 + k];
  }

  /** `strchr` on a text whose first '|' closes a '|'-free prefix. */
  lemma IndexOfAfter(a: string, b: string)
    requires NS_SET_DELIM !in a
    ensures IndexOf(a + [NS_SET_DELIM] + b, NS_SET_DELIM) == Some(|a|)
  {
    var s := a + [NS_SET_DELIM] + b;
    assert s[|a|] == NS_SET_DELIM;
  }

  /** The set and host text of a well-formed path are split back apart. */
  lemma SplitSetHostsJoin(setName: string, hosts: string)
    requires 0 < |setName| < SET_MAX_SIZE && NS_SET_DELIM !in setName && 0 < |hosts|
    ensures SplitSetHosts(setName + [NS_SET_DELIM] + hosts) == Some((setName, hosts))
  {
    var rest := setName + [NS_SET_DELIM] + hosts;
    IndexOfAfter(setName, hosts);
    assert rest[..|setName|] == setName && rest[|setName| + 1..] == hosts;
  }

  /** Every well-formed save path is read back into its parts. */
  lemma ParseJoin(p: SavePath)
    requires WellFormed(p)
    ensures ParseSavePath(Join(p)) == Some(p)
  {
    var t := Join(p);
    var rest := p.setName + [NS_SET_DELIM] + p.hosts;
    JoinAssoc(p);
    NulFreeAround(p.setName, p.hosts);
    NulFreeAround(p.ns, rest);
    CStrOfNulFree(t);
    JoinParsed(p);
  }

  /** Texts without NUL joined by a '|' hold no NUL. */
  lemma NulFreeAround(a: string, b: string)
    requires NulFree(a) && NulFree(b)
    ensures NulFree(a + [NS_SET_DELIM] + b)
  {
    var s := a + [NS_SET_DELIM] + b;
    forall k | 0 <= k < |s| ensures s[k] != '\0' {
      if k < |a| { assert s[k] == a[k]; }
      else if k > |a| { assert s[k] == b[k - |a| - 1]; }
    }
  }

  /** The split of a joined well-formed path finds its parts. */
  lemma JoinParsed(p: SavePath)
    requires WellFormed(p) && NulFree(Join(p))
    ensures ParseParts(Join(p)) == Some(p)
  {
    var t := Join(p);
    var rest := p.setName + [NS_SET_DELIM] + p.hosts;
    JoinAssoc(p);
    IndexOfAfter(p.ns, rest);
    SplitSetHostsJoin(p.setName, p.hosts);
    assert t[..|p.ns|] == p.ns && t[|p.ns| + 1..] == rest;
  }

  /** A path whose first part is empty or too long for a namespace is refused, and
      so is one with nothing, or no second '|', after the first '|'. */
  lemma SavePathRefusals(path: string)
    requires NS_SET_DELIM in CStr(path)
    ensures var i := IndexOf(CStr(path), NS_SET_DELIM).value;
      && (i == 0 || i >= NS_MAX_SIZE ==> ParseSavePath(path).None?)
      && (i + 1 == |CStr(path)| ==> ParseSavePath(path).None?)
      && (NS_SET_DELIM !in CStr(path)[i + 1..] ==> ParseSavePath(path).None?)
  {
  }

  /** The handler's state once the save path was accepted and the client connected. */
  datatype SessionData = SessionData(ns: string, setName: string)

  /** `PS_OPEN_FUNC`: parse the path, let the C client parse the host text
      (`addHosts`, `as_config_add_hosts` with default port 3000) and connect
      through the persistent registry (`connect`). */
  function Open(path: string, addHosts: string -> bool, connect: Status): (r: Option<SessionData>)
    ensures r.Some? <==> ParseSavePath(path).Some? && addHosts(ParseSavePath(path).value.hosts) && connect == Ok
    ensures r.Some? ==> r.value == SessionData(ParseSavePath(path).value.ns, ParseSavePath(path).value.setName)
  {
    match ParseSavePath(path)
    case None => None
    case Some(p) =>
      if !addHosts(p.hosts) || connect != Ok then None else Some(SessionData(p.ns, p.setName))
  }

  /** The key every handler builds from the session id (`as_key_init_str` /
      `as_key_init`). */
  function SessionKey(s: SessionData, sid: string): (r: Option<AsKey>)
    ensures r.Some? <==> |CStr(s.ns)| < NS_MAX_SIZE && |CStr(s.setName)| < SET_MAX_SIZE
    ensures r.Some? ==> r.value.ns == CStr(s.ns) && r.value.setName == CStr(s.setName) && r.value.digest.None?
    ensures r.Some? ==> r.value.value == Some(KStr(CStr(sid)))
  {
    KeyInit(s.ns, s.setName, Some(KStr(CStr(sid))), None)
  }

  /** Once a session is open its keys can always be built. */
  lemma OpenSessionKeys(path: string, addHosts: string -> bool, connect: Status, sid: string)
    requires Open(path, addHosts, connect).Some?
    ensures SessionKey(Open(path, addHosts, connect).value, sid).Some?
  {
    var p := ParseSavePath(path).value;
    CStrOfNulFree(p.ns);
    CStrOfNulFree(p.setName);
  }

  /** `PS_READ_FUNC`: `got` is what `aerospike_key_get` returned, a status or the
      record's bins. A missing record reads as the empty string; a stored value
      must be bytes or a string. `None` is FAILURE. */
  function Read(s: Option<SessionData>, sid: string, got: Result<seq<(string, AsVal)>>): (r: Option<string>)
    ensures s.Some? && SessionKey(s.value, sid).Some? && got == Failure(ErrRecordNotFound) ==> r == Some("")
    ensures r.Some? ==> s.Some? && SessionKey(s.value, sid).Some?
    ensures r.Some? && got.Success? ==>
              BinValue(got.value, SESSION_BIN).Some?
              && (BinValue(got.value, SESSION_BIN).value.ABytes? || BinValue(got.value, SESSION_BIN).value.AStr?)
    ensures got.Failure? && got.error != ErrRecordNotFound ==> r.None?
    ensures s.Some? && SessionKey(s.value, sid).Some? && got.Success? ==>
              match BinValue(got.value, SESSION_BIN)
              case Some(ABytes(_, data)) => r == Some(data)
              case Some(AStr(text)) => r == Some(text)
              case _ => r.None?
  {
    if s.None? || SessionKey(s.value, sid).None? then None
    else match got
      case Failure(e) => if e == ErrRecordNotFound then Some("") else None
      case Success(bins) =>
        match BinValue(bins, SESSION_BIN)
        case Some(ABytes(_, data)) => Some(data)
        case Some(AStr(text)) => Some(text)
        case _ => None
  }

  /** `PS_DESTROY_FUNC`: removing a record that is not there is still a success. */
  function Destroy(s: Option<SessionData>, sid: string, removed: Status): (r: bool)
    ensures r <==> s.Some? && SessionKey(s.value, sid).Some? && removed in {Ok, ErrRecordNotFound}
  {
    s.Some? && SessionKey(s.value, sid).Some? && (removed == Ok || removed == ErrRecordNotFound)
  }

  // ---------------------------------------------------------------------------
  // PS_CREATE_SID_FUNC
  // ---------------------------------------------------------------------------

  const MAX_SID_ATTEMPTS: nat := 5

  /** The first usable id among attempts `k..MAX_SID_ATTEMPTS - 1`: `newId(k)` is
      what `php_session_create_id` returned on attempt `k`, `taken` whether a
      record already exists under an id. */
  function FirstFreeId(newId: nat -> Option<string>, taken: string -> bool, k: nat): Option<string>
    decreases MAX_SID_ATTEMPTS - k
  {
    if k >= MAX_SID_ATTEMPTS then None
    else if newId(k).Some? && !taken(newId(k).value) then newId(k)
    else FirstFreeId(newId, taken, k + 1)
  }

  /** The loop of `PS_CREATE_SID_FUNC`: at most five attempts; an id that failed to
      generate or already exists is dropped and the next attempt made. */
  method CreateSid(s: Option<SessionData>, newId: nat -> Option<string>, taken: string -> bool)
    returns (sid: Option<string>)
    ensures s.None? ==> sid.None?
    ensures s.Some? ==> sid == FirstFreeId(newId, taken, 0)
    ensures sid.Some? ==> !taken(sid.value)
    ensures sid.Some? ==> exists k :: 0 <= k < MAX_SID_ATTEMPTS && newId(k) == sid
  {
    if s.None? {
      return None;
    }
    var attempt: nat := 0;
    while attempt < MAX_SID_ATTEMPTS
      invariant attempt <= MAX_SID_ATTEMPTS
      invariant FirstFreeId(newId, taken, 0) == FirstFreeId(newId, taken, attempt)
    {
      var id := newId(attempt);
      if id.Some? && !taken(id.value) {
        return id;
      }
      attempt := attempt + 1;
    }
    return None;
  }

  /** The id the handler returns is generated on one of the five attempts, does not
      exist yet, and every earlier attempt gave no id or an existing one. */
  lemma {:induction false} FirstFreeIdSpec(newId: nat -> Option<string>, taken: string -> bool, k: nat)
    ensures var r := FirstFreeId(newId, taken, k);
      && (r.Some? ==> exists j :: k <= j < MAX_SID_ATTEMPTS && newId(j) == r && !taken(r.value)
                        && forall m :: k <= m < j ==> newId(m).None? || taken(newId(m).value))
      && (r.None? <==> forall m :: k <= m < MAX_SID_ATTEMPTS ==> newId(m).None? || taken(newId(m).value))
    decreases MAX_SID_ATTEMPTS - k
  {
    if k < MAX_SID_ATTEMPTS && !(newId(k).Some? && !taken(newId(k).value)) {
      FirstFreeIdSpec(newId, taken, k + 1);
      var r := FirstFreeId(newId, taken, k);
      if r.Some? {
        var j :| k + 1 <= j < MAX_SID_ATTEMPTS && newId(j) == r && !taken(r.value)
                 && forall m :: k + 1 <= m < j ==> newId(m).None? || taken(newId(m).value);
        assert forall m :: k <= m < j ==> newId(m).None? || taken(newId(m).value);
      }
    }
  }
}

=== FILE: strings.dfy ===
/** C-string and decimal-text helpers shared by the conversions.

    A PHP string may hold NUL bytes; every `strdup`, `strlen`, `strchr` or
    `ZVAL_STRING` in the extension sees only the text before the first NUL.
 */
module Strings {
  import opened Errors

  predicate NulFree(s: string) {
    forall i :: 0 <= i < |s| ==> s[i] != '\0'
  }

  /** The text a C function sees when handed `s`: everything before the first NUL. */
  function CStr(s: string): (r: string)
    ensures r <= s
    ensures NulFree(r)
    ensures |r| < |s| ==> s[|r|] == '\0'
  {
    if |s| == 0 || s[0] == '\0' then "" else [s[0]] + CStr(s[1..])
  }

  lemma CStrOfNulFree(s: string)
    requires NulFree(s)
    ensures CStr(s) == s
  {
  }

  /** `strchr`: the position of the first occurrence of `c`, if any. */
  function IndexOf(s: string, c: char): (r: Option<nat>)
    ensures r.None? <==> c !in s
    ensures r.Some? ==> r.value < |s| && s[r.value] == c && c !in s[..r.value]
  {
    if |s| == 0 then None
    else if s[0] == c then Some(0)
    else match IndexOf(s[1..], c)
      case None => None
      case Some(i) => assert s[1..][..i] == s[1..i + 1]; Some(i + 1)
  }

  /** `strrchr`: the position of the last occurrence of `c`, if any. */
  function LastIndexOf(s: string, c: char): (r: Option<nat>)
    ensures r.None? <==> c !in s
    ensures r.Some? ==> r.value < |s| && s[r.value] == c && c !in s[r.value + 1..]
  {
    if |s| == 0 then None
    else if s[|s| - 1] == c then Some(|s| - 1)
    else match LastIndexOf(s[..|s| - 1], c)
      case None => None
      case Some(i) => assert s[i + 1..] == s[..|s| - 1][i + 1..] + [s[|s| - 1]]; Some(i)
  }

  // ---------------------------------------------------------------------------
  // Decimal text, as written by `%d`/`%ld` and as read back by PHP's symbol table
  // ---------------------------------------------------------------------------

  predicate IsDigit(c: char) {
    '0' <= c <= '9'
  }

  predicate AllDigits(s: string) {
    forall i :: 0 <= i < |s| ==> IsDigit(s[i])
  }

  function DigitChar(d: nat): char
    requires d < 10
  {
    ['0', '1', '2', '3', '4', '5', '6', '7', '8', '9'][d]
  }

  function DigitValue(c: char): nat
    requires IsDigit(c)
  {
    (c as int - '0' as int) as nat
  }

  lemma DigitRoundTrip(d: nat)
    requires d < 10
    ensures IsDigit(DigitChar(d)) && DigitValue(DigitChar(d)) == d
  {
  }

  /** The value of a string of decimal digits, most significant first. */
  function DigitsValue(s: string): nat
    requires AllDigits(s)
  {
    if |s| == 0 then 0 else DigitsValue(s[..|s| - 1]) * 10 + DigitValue(s[|s| - 1])
  }

  /** The shortest decimal text of `n`, as `%d` prints it. */
  function NatToDigits(n: nat): (r: string)
    ensures |r| > 0 && AllDigits(r)
    ensures |r| > 1 ==> r[0] != '0'
    decreases n
  {
    DigitRoundTrip(n % 10);
    if n < 10 then [DigitChar(n)] else NatToDigits(n / 10) + [DigitChar(n % 10)]
  }

  /** Digits without a superfluous leading zero: the only form `%d` produces. */
  predicate CanonicalDigits(s: string) {
    |s| > 0 && AllDigits(s) && (|s| == 1 || s[0] != '0')
  }

  /** `%ld` of a signed integer. */
  function IntToDecimal(n: int): string {
    if n < 0 then "-" + NatToDigits(-n) else NatToDigits(n)
  }

  /** The integer a canonical decimal text denotes, as PHP's numeric-string key check
      reads it: an optional '-', then digits without a leading zero, and never "-0". */
  function ParseDecimal(s: string): Option<int> {
    if |s| > 1 && s[0] == '-' && CanonicalDigits(s[1..]) && s[1..] != "0" then
      var magnitude: int := DigitsValue(s[1..]);
      Some(-magnitude)
    else if CanonicalDigits(s) then Some(DigitsValue(s))
    else None
  }

  lemma {:induction false} DigitsOfValue(n: nat)
    ensures DigitsValue(NatToDigits(n)) == n
    decreases n
  {
    DigitRoundTrip(n % 10);
    if n >= 10 {
      var s := NatToDigits(n);
      assert s[..|s| - 1] == NatToDigits(n / 10);
      DigitsOfValue(n / 10);
    }
  }

  lemma {:induction false} CanonicalValuePositive(s: string)
    requires CanonicalDigits(s) && s != "0"
    ensures DigitsValue(s) >= 1
    ensures |s| > 1 ==> DigitsValue(s) >= 10
    decreases |s|
  {
    if |s| > 1 {
      var a := s[..|s| - 1];
      assert a[0] == s[0];
      if |a| == 1 {
        assert DigitsValue(a) == DigitsValue(a[..0]) * 10 + DigitValue(a[0]);
      } else {
        CanonicalValuePositive(a);
      }
    }
  }

  lemma {:induction false} ValueOfDigits(s: string)
    requires CanonicalDigits(s)
    ensures NatToDigits(DigitsValue(s)) == s
    decreases |s|
  {
    var n := DigitsValue(s);
    var d := DigitValue(s[|s| - 1]);
    DigitRoundTrip(d);
    if |s| == 1 {
      assert s[..|s| - 1] == "";
      assert n == DigitsValue("") * 10 + d;
      assert [DigitChar(d)] == s;
    } else {
      var a := s[..|s| - 1];
      assert a[0] == s[0];
      CanonicalValuePositive(s);
      if |a| > 1 { assert a[0] != '0'; }
      ValueOfDigits(a);
      assert n / 10 == DigitsValue(a) && n % 10 == d;
      assert s == a + [s[|s| - 1]];
      assert DigitChar(d) == s[|s| - 1] by {
        assert IsDigit(s[|s| - 1]);
      }
    }
  }

  /** Formatting an integer and reading it back gives the integer. */
  lemma ParseFormatted(n: int)
    ensures ParseDecimal(IntToDecimal(n)) == Some(n)
  {
    if n < 0 {
      ParseFormattedNegative(n);
    } else {
      ParseFormattedNatural(n);
    }
  }

  lemma ParseFormattedNatural(n: nat)
    ensures ParseDecimal(IntToDecimal(n)) == Some(n)
  {
    var t := NatToDigits(n);
    assert IntToDecimal(n) == t;
    assert IsDigit(t[0]);
    DigitsOfValue(n);
  }

  lemma ParseFormattedNegative(n: int)
    requires n < 0
    ensures ParseDecimal(IntToDecimal(n)) == Some(n)
  {
    var m: nat := -n;
    var t := NatToDigits(m);
    assert IntToDecimal(n) == "-" + t;
    assert DigitsValue(t) == m by { DigitsOfValue(m); }
    ParseNegativeText(t, m);
  }

  /** A minus sign before canonical digits of a positive value reads as its
      negation. */
  lemma ParseNegativeText(t: string, m: int)
    requires CanonicalDigits(t) && DigitsValue(t) == m && m > 0
    ensures ParseDecimal("-" + t) == Some(-m)
  {
    var u := "-" + t;
    assert u[1..] == t;
    assert t != "0" by { ZeroText(); }
  }

  lemma ZeroText()
    ensures DigitsValue("0") == 0
  {
    assert "0"[..0] == "";
  }

  /** Every text that parses as an integer is the formatting of that integer. */
  lemma FormatParsed(s: string)
    requires ParseDecimal(s).Some?
    ensures IntToDecimal(ParseDecimal(s).value) == s
  {
    if |s| > 1 && s[0] == '-' && CanonicalDigits(s[1..]) && s[1..] != "0" {
      ValueOfDigits(s[1..]);
      CanonicalValuePositive(s[1..]);
      assert s == "-" + s[1..];
    } else {
      ValueOfDigits(s);
    }
  }

  // ---------------------------------------------------------------------------
  // Lower-case hexadecimal, as written by `%x`
  // ---------------------------------------------------------------------------

  function HexChar(d: nat): char
    requires d < 16
  {
    "0123456789abcdef"[d]
  }

  /** `%x` of a non-negative value. */
  function NatToHex(n: nat): (r: string)
    ensures 0 < |r|
    decreases n
  {
    if n < 16 then [HexChar(n)] else NatToHex(n / 16) + [HexChar(n % 16)]
  }

  function Pow(base: nat, k: nat): nat {
    if k == 0 then 1 else base * Pow(base, k - 1)
  }

  lemma {:induction false} DigitsWidth(n: nat, k: nat)
    requires 0 < k && n < Pow(10, k)
    ensures |NatToDigits(n)| <= k
    decreases k
  {
    if n >= 10 {
      assert k > 1;
      DigitsWidth(n / 10, k - 1);
    }
  }

  lemma {:induction false} HexWidth(n: nat, k: nat)
    requires 0 < k && n < Pow(16, k)
    ensures |NatToHex(n)| <= k
    decreases k
  {
    if n >= 16 {
      assert k > 1;
      HexWidth(n / 16, k - 1);
    }
  }

  /** A 16-bit value prints in at most five decimal digits (`%d` of a port). */
  lemma PortWidth(n: nat)
    requires n < 0x1_0000
    ensures |NatToDigits(n)| <= 5
  {
    DigitsWidth(n, 5);
  }

  /** A 32-bit value prints in at most eight hex digits (`%x` of a key_t). */
  lemma KeyWidth(n: nat)
    requires n < 0x1_0000_0000
    ensures |NatToHex(n)| <= 8
  {
    assert Pow(16, 8) == 0x1_0000_0000;
    HexWidth(n, 8);
  }
}

=== FILE: types.dfy ===
/** Constants shared by the extension: the option keys, serializer choices, list and
    map operation codes and key field names of `php_aerospike_types.h`, plus the
    C-client enumerations the extension compares against.
 */
module Types {
  import opened Errors

  // ---------------------------------------------------------------------------
  // Key arrays and query predicates
  // ---------------------------------------------------------------------------

  const NAMESPACE_KEY: string := "ns"
  const SET_KEY: string := "set"
  const PK_KEY: string := "key"
  const DIGEST_KEY: string := "digest"

  const PREDICATE_EQUAL: string := "="
  const PREDICATE_BETWEEN: string := "BETWEEN"
  const PREDICATE_CONTAINS: string := "CONTAINS"
  const PREDICATE_RANGE: string := "RANGE"
  const PREDICATE_GEO_WITHIN: string := "GEOWITHIN"
  const PREDICATE_GEO_CONTAINS: string := "GEOCONTAINS"

  // ---------------------------------------------------------------------------
  // Serializers
  // ---------------------------------------------------------------------------

  const SERIALIZER_NONE: int := 0
  const SERIALIZER_PHP: int := 1
  const SERIALIZER_USER: int := 2

  // ---------------------------------------------------------------------------
  // Single-bin operators of the C client (`as_operator`)
  // ---------------------------------------------------------------------------

  const OPERATOR_READ: int := 1
  const OPERATOR_WRITE: int := 2
  const OPERATOR_INCR: int := 5
  const OPERATOR_APPEND: int := 9
  const OPERATOR_PREPEND: int := 10
  const OPERATOR_TOUCH: int := 11
  const OPERATOR_DELETE: int := 14

  // ---------------------------------------------------------------------------
  // List operations: consecutive codes from 1001
  // ---------------------------------------------------------------------------

  datatype ListOp =
    | ListAppend | ListMerge | ListInsert | ListInsertItems | ListPop | ListPopRange
    | ListRemove | ListRemoveRange | ListClear | ListSet | ListGet | ListGetRange
    | ListTrim | ListSize

  /** The list operations in declaration order. */
  const LIST_OPS: seq<ListOp> := [
    ListAppend, ListMerge, ListInsert, ListInsertItems, ListPop, ListPopRange,
    ListRemove, ListRemoveRange, ListClear, ListSet, ListGet, ListGetRange,
    ListTrim, ListSize]

  const OP_LIST_FIRST: int := 1001

  function ListOpCode(op: ListOp): int {
    match op
    case ListAppend => 1001
    case ListMerge => 1002
    case ListInsert => 1003
    case ListInsertItems => 1004
    case ListPop => 1005
    case ListPopRange => 1006
    case ListRemove => 1007
    case ListRemoveRange => 1008
    case ListClear => 1009
    case ListSet => 1010
    case ListGet => 1011
    case ListGetRange => 1012
    case ListTrim => 1013
    case ListSize => 1014
  }

  function DecodeListOp(code: int): (r: Option<ListOp>)
    ensures r.Some? <==> OP_LIST_FIRST <= code < OP_LIST_FIRST + |LIST_OPS|
  {
    if OP_LIST_FIRST <= code < OP_LIST_FIRST + |LIST_OPS| then Some(LIST_OPS[code - OP_LIST_FIRST])
    else None
  }

  /** Each list operation's code is its position in declaration order, counted from 1001. */
  lemma ListOpCodesConsecutive(op: ListOp)
    ensures OP_LIST_FIRST <= ListOpCode(op) < OP_LIST_FIRST + |LIST_OPS|
    ensures LIST_OPS[ListOpCode(op) - OP_LIST_FIRST] == op
    ensures DecodeListOp(ListOpCode(op)) == Some(op)
  {
  }

  lemma DecodeListOpInverse(code: int)
    requires DecodeListOp(code).Some?
    ensures ListOpCode(DecodeListOp(code).value) == code
  {
  }

  // ---------------------------------------------------------------------------
  // Map operations: consecutive codes from 1101
  // ---------------------------------------------------------------------------

  datatype MapOp =
    | MapSetPolicy | MapPut | MapPutItems | MapIncrement | MapDecrement | MapSize | MapClear
    | MapRemoveByKey | MapRemoveByKeyList | MapRemoveByKeyRange
    | MapRemoveByValue | MapRemoveByValueList | MapRemoveByValueRange
    | MapRemoveByIndex | MapRemoveByIndexRange | MapRemoveByRank | MapRemoveByRankRange
    | MapGetByKey | MapGetByKeyRange | MapGetByValue | MapGetByValueRange
    | MapGetByIndex | MapGetByIndexRange | MapGetByRank | MapGetByRankRange

  const MAP_OPS: seq<MapOp> := [
    MapSetPolicy, MapPut, MapPutItems, MapIncrement, MapDecrement, MapSize, MapClear,
    MapRemoveByKey, MapRemoveByKeyList, MapRemoveByKeyRange,
    MapRemoveByValue, MapRemoveByValueList, MapRemoveByValueRange,
    MapRemoveByIndex, MapRemoveByIndexRange, MapRemoveByRank, MapRemoveByRankRange,
    MapGetByKey, MapGetByKeyRange, MapGetByValue, MapGetByValueRange,
    MapGetByIndex, MapGetByIndexRange, MapGetByRank, MapGetByRankRange]

  const OP_MAP_FIRST: int := 1101

  function MapOpCode(op: MapOp): int {
    match op
    case MapSetPolicy => 1101
    case MapPut => 1102
    case MapPutItems => 1103
    case MapIncrement => 1104
    case MapDecrement => 1105
    case MapSize => 1106
    case MapClear => 1107
    case MapRemoveByKey => 1108
    case MapRemoveByKeyList => 1109
    case MapRemoveByKeyRange => 1110
    case MapRemoveByValue => 1111
    case MapRemoveByValueList => 1112
    case MapRemoveByValueRange => 1113
    case MapRemoveByIndex => 1114
    case MapRemoveByIndexRange => 1115
    case MapRemoveByRank => 1116
    case MapRemoveByRankRange => 1117
    case MapGetByKey => 1118
    case MapGetByKeyRange => 1119
    case MapGetByValue => 1120
    case MapGetByValueRange => 1121
    case MapGetByIndex => 1122
    case MapGetByIndexRange => 1123
    case MapGetByRank => 1124
    case MapGetByRankRange => 1125
  }

  function DecodeMapOp(code: int): (r: Option<MapOp>)
    ensures r.Some? <==> OP_MAP_FIRST <= code < OP_MAP_FIRST + |MAP_OPS|
  {
    if OP_MAP_FIRST <= code < OP_MAP_FIRST + |MAP_OPS| then Some(MAP_OPS[code - OP_MAP_FIRST])
    else None
  }

  lemma MapOpCodesConsecutive(op: MapOp)
    ensures OP_MAP_FIRST <= MapOpCode(op) < OP_MAP_FIRST + |MAP_OPS|
    ensures MAP_OPS[MapOpCode(op) - OP_MAP_FIRST] == op
    ensures DecodeMapOp(MapOpCode(op)) == Some(op)
  {
  }

  lemma DecodeMapOpInverse(code: int)
    requires DecodeMapOp(code).Some?
    ensures MapOpCode(DecodeMapOp(code).value) == code
  {
  }

  /** No code is both a list and a map operation, and neither range meets the
      single-bin operators. */
  lemma OpCodeRangesDisjoint(code: int)
    ensures !(DecodeListOp(code).Some? && DecodeMapOp(code).Some?)
    ensures code in {OPERATOR_READ, OPERATOR_WRITE, OPERATOR_INCR, OPERATOR_APPEND,
                     OPERATOR_PREPEND, OPERATOR_TOUCH, OPERATOR_DELETE}
            ==> DecodeListOp(code).None? && DecodeMapOp(code).None?
  {
  }

  // ---------------------------------------------------------------------------
  // Option keys (integer keys of option and policy arrays), consecutive from 1
  // ---------------------------------------------------------------------------

  const OPT_CONNECT_TIMEOUT: int := 1
  const OPT_READ_TIMEOUT: int := 2
  const OPT_WRITE_TIMEOUT: int := 3
  const OPT_POLICY_RETRY: int := 4
  const OPT_POLICY_EXISTS: int := 5
  const OPT_SERIALIZER: int := 6
  const OPT_SCAN_PRIORITY: int := 7
  const OPT_SCAN_RPS_LIMIT: int := 8
  const OPT_SCAN_PERCENTAGE: int := 9
  const OPT_SCAN_CONCURRENTLY: int := 10
  const OPT_SCAN_NOBINS: int := 11
  const OPT_SCAN_INCLUDELDT: int := 12
  const OPT_POLICY_KEY: int := 13
  const OPT_POLICY_GEN: int := 14
  const OPT_POLICY_REPLICA: int := 15
  const OPT_POLICY_READ_MODE_AP: int := 16
  const OPT_POLICY_READ_MODE_SC: int := 17
  const OPT_POLICY_COMMIT_LEVEL: int := 18
  const OPT_TTL: int := 19
  const USE_BATCH_DIRECT: int := 20
  const USE_SERVICES_ALTERNATE: int := 21
  const COMPRESSION_THRESHOLD: int := 22
  const OPT_POLICY_DURABLE_DELETE: int := 23
  const OPT_SOCKET_TIMEOUT: int := 24
  const OPT_MAP_ORDER: int := 25
  const OPT_MAP_WRITE_MODE: int := 26
  const OPT_MAP_WRITE_FLAGS: int := 27
  const OPT_TOTAL_TIMEOUT: int := 28
  const OPT_MAX_RETRIES: int := 29
  const OPT_FAIL_ON_CLUSTER_CHANGE: int := 30
  const OPT_BATCH_CONCURRENT: int := 31
  const OPT_ALLOW_INLINE: int := 32
  const OPT_SEND_SET_NAME: int := 33
  const OPT_TLS_CONFIG: int := 34
  const OPT_TLS_ENABLE: int := 35
  const OPT_TLS_CAFILE: int := 36
  const OPT_TLS_CAPATH: int := 37
  const OPT_TLS_PROTOCOLS: int := 38
  const OPT_TLS_CIPHER_SUITE: int := 39
  const OPT_TLS_CRL_CHECK: int := 40
  const OPT_TLS_CRL_CHECK_ALL: int := 41
  const OPT_TLS_CERT_BLACKLIST: int := 42
  const OPT_TLS_LOG_SESSION_INFO: int := 43
  const OPT_TLS_KEYFILE: int := 44
  const OPT_TLS_CERTFILE: int := 45
  const OPT_READ_DEFAULT_POL: int := 46
  const OPT_WRITE_DEFAULT_POL: int := 47
  const OPT_REMOVE_DEFAULT_POL: int := 48
  const OPT_BATCH_DEFAULT_POL: int := 49
  const OPT_OPERATE_DEFAULT_POL: int := 50
  const OPT_QUERY_DEFAULT_POL: int := 51
  const OPT_SCAN_DEFAULT_POL: int := 52
  const OPT_APPLY_DEFAULT_POL: int := 53
  const OPT_QUERY_NOBINS: int := 54

  /** `OPT_POLICY_CONSISTENCY` is not part of the enumeration above; the extension
      uses it as a separate registered constant. Its value is not fixed here. */

  // ---------------------------------------------------------------------------
  // C-client enumerations the extension validates against
  // ---------------------------------------------------------------------------

  /** `as_index_type` */
  const INDEX_TYPE_DEFAULT: int := 0
  const INDEX_TYPE_LIST: int := 1
  const INDEX_TYPE_MAPKEYS: int := 2
  const INDEX_TYPE_MAPVALUES: int := 3

  /** `as_map_order` */
  const MAP_UNORDERED: int := 0
  const MAP_KEY_ORDERED: int := 1
  const MAP_KEY_VALUE_ORDERED: int := 3

  /** `as_map_write_mode` */
  const MAP_UPDATE: int := 0
  const MAP_UPDATE_ONLY: int := 1
  const MAP_CREATE_ONLY: int := 2

  /** `as_map_write_flags` */
  const MAP_WRITE_DEFAULT: int := 0
  const MAP_WRITE_CREATE_ONLY: int := 1
  const MAP_WRITE_UPDATE_ONLY: int := 2
  const MAP_WRITE_NO_FAIL: int := 4
  const MAP_WRITE_PARTIAL: int := 8

  /** `as_policy_key` */
  const POLICY_KEY_DIGEST: int := 0
  const POLICY_KEY_SEND: int := 1
}

=== FILE: udf.dfy ===
/** `Aerospike::register` and `Aerospike::listRegistered` (udf.c): the checks a
    UDF file goes through before it is copied into the local user path, the copy
    path itself, and the language filter applied to the server's module list.
 */
module Udf {
  import opened Errors
  import opened Strings
  import opened Php
  import opened Policies

  /** Files of this size or more are refused. */
  const SCRIPT_LEN_MAX: nat := 1048576

  /** `AS_CONFIG_PATH_MAX_SIZE` of the C client. */
  const CONFIG_PATH_MAX_SIZE: nat := 256

  /** The local copy path is built in a buffer of this size, and may use all but
      the byte for its terminator. */
  const COPY_FILEPATH_SIZE: nat := CONFIG_PATH_MAX_SIZE * 2
  const COPY_FILEPATH_MAXLEN: nat := COPY_FILEPATH_SIZE - 1

  // ---------------------------------------------------------------------------
  // register
  // ---------------------------------------------------------------------------

  /** The file size as `register` reads it: `ftell`'s `long` stored in a
      `uint32_t`, so it wraps modulo 2^32. */
  function StoredSize(ftell: int): int {
    U32(ftell)
  }

  /** The size check as written: the wrapped size must be positive and below
      `SCRIPT_LEN_MAX`. */
  function SizeAcceptedAsWritten(ftell: int): (r: bool)
    ensures 0 <= ftell < U32_MODULUS ==> (r <==> 0 < ftell < SCRIPT_LEN_MAX)
    ensures r <==> 0 < ftell % U32_MODULUS < SCRIPT_LEN_MAX
  {
    0 < StoredSize(ftell) < SCRIPT_LEN_MAX
  }

  /** A file 2^32 + 5 bytes long passes the check as written, and is then copied
      into a buffer of `SCRIPT_LEN_MAX` bytes. */
  lemma HugeFileAccepted()
    ensures SizeAcceptedAsWritten(U32_MODULUS + 5)
    ensures U32_MODULUS + 5 >= SCRIPT_LEN_MAX
  {
  }

  /** The size check on the file's actual length: empty files and files of
      `SCRIPT_LEN_MAX` bytes or more are refused. */
  function SizeAccepted(ftell: int): (r: bool)
    ensures r ==> SizeAcceptedAsWritten(ftell)
    ensures !r ==> ftell <= 0 || ftell >= SCRIPT_LEN_MAX
  {
    0 < ftell < SCRIPT_LEN_MAX
  }

  /** The corrected check agrees with the check as written on every size a
      `uint32_t` holds. */
  lemma SizeAcceptedFits(ftell: int)
    ensures 0 <= ftell < U32_MODULUS ==> (SizeAccepted(ftell) <==> SizeAcceptedAsWritten(ftell))
  {
  }

  /** The directory part of the copy path: the base path, with a '/' appended
      unless it already ends in one. */
  function CopyDir(base: string): (r: string)
    ensures |r| > 0 && r[|r| - 1] == '/'
    ensures NulFree(r)
    ensures r == CStr(base) || r == CStr(base) + "/"
  {
    var t := CStr(base);
    if |t| > 0 && t[|t| - 1] == '/' then t else t + "/"
  }

  /** The name the copy is stored under: the text after the last '/' of the path
      `fopen` was given, or all of it when there is none. `None` when that '/' is
      the last character of the PHP string. */
  function UdfFileName(filePath: string): (r: Option<string>)
    ensures '/' !in CStr(filePath) ==> r == Some(CStr(filePath))
    ensures r.Some? ==> '/' !in r.value && NulFree(r.value)
    ensures r.Some? ==>
              var t := CStr(filePath);
              && |r.value| <= |t| && t[|t| - |r.value|..] == r.value
              && (|r.value| < |t| ==> t[|t| - |r.value| - 1] == '/')
    ensures r.None? ==> |filePath| > 0 && |CStr(filePath)| == |filePath| && filePath[|filePath| - 1] == '/'
  {
    var t := CStr(filePath);
    match LastIndexOf(t, '/')
    case None => Some(t)
    case Some(k) =>
      if k == |filePath| - 1 then None
      else Some(t[k + 1..])
  }

  /** The first part of `register`, up to the copy path: `ready` is the object
      and connection check, `readable` whether the file could be opened for
      reading, `ftell` its length and `basePath` the `aerospike.udf.lua_user_path`
      setting (`None` when it is unset). */
  function RegisterChecks(ready: Status, moduleName: string, z: Option<PVal>, dflt: Policy,
                          readable: bool, ftell: int, basePath: Option<string>, filePath: string): (r: Result<string>)
    ensures ready != Ok ==> r == Failure(ready)
    ensures ready == Ok && |moduleName| == 0 ==> r == Failure(ErrParam)
    ensures ready == Ok && |moduleName| > 0 && InfoPolicy(z, dflt).Failure? ==> r == Failure(ErrParam)
    ensures ready == Ok && |moduleName| > 0 && InfoPolicy(z, dflt).Success? ==>
              && (!readable ==> r == Failure(ErrUdfNotFound))
              && (readable && !SizeAccepted(ftell) ==> r == Failure(ErrUdf))
              && (readable && SizeAccepted(ftell) && basePath.None? ==> r == Failure(ErrClient))
              && (readable && SizeAccepted(ftell) && basePath.Some? && UdfFileName(filePath).None? ==> r == Failure(ErrClient))
              && ((readable && SizeAccepted(ftell) && basePath.Some? && UdfFileName(filePath).Some? &&
                   |CopyDir(basePath.value)| + |UdfFileName(filePath).value| > COPY_FILEPATH_MAXLEN) ==> r == Failure(ErrParam))
    ensures r.Success? <==>
              && ready == Ok && |moduleName| > 0 && InfoPolicy(z, dflt).Success?
              && readable && SizeAccepted(ftell) && basePath.Some? && UdfFileName(filePath).Some?
              && |CopyDir(basePath.value)| + |UdfFileName(filePath).value| <= COPY_FILEPATH_MAXLEN
    ensures r.Success? ==> r.value == CopyDir(basePath.value) + UdfFileName(filePath).value
    ensures r.Failure? && ready == Ok ==> r.error in {ErrParam, ErrUdfNotFound, ErrUdf, ErrClient}
  {
    if ready != Ok then Failure(ready)
    else if |moduleName| == 0 then Failure(ErrParam)
    else if InfoPolicy(z, dflt).Failure? then Failure(ErrParam)
    else if !readable then Failure(ErrUdfNotFound)
    else if !SizeAccepted(ftell) then Failure(ErrUdf)
    else if basePath.None? then Failure(ErrClient)
    else
      var dir := CopyDir(basePath.value);
      match UdfFileName(filePath)
      case None => Failure(ErrClient)
      case Some(name) =>
        if |dir| + |name| > COPY_FILEPATH_MAXLEN then Failure(ErrParam)
        else Success(dir + name)
  }

  /** `Aerospike::register` as a whole. After the copy path come the outcomes of
      opening it for writing (`writable`), allocating the read buffer
      (`allocOk`), the first frame read and written (`copied`) and the server's
      answer to the upload (`put`). */
  function Register(ready: Status, moduleName: string, z: Option<PVal>, dflt: Policy,
                    readable: bool, ftell: int, basePath: Option<string>, filePath: string,
                    writable: bool, allocOk: bool, copied: bool, put: Status): (r: Status)
    ensures RegisterChecks(ready, moduleName, z, dflt, readable, ftell, basePath, filePath).Failure? ==>
              r == RegisterChecks(ready, moduleName, z, dflt, readable, ftell, basePath, filePath).error
    ensures RegisterChecks(ready, moduleName, z, dflt, readable, ftell, basePath, filePath).Success? ==>
              && (!writable ==> r == ErrLuaFileNotFound)
              && (writable && (!allocOk || !copied) ==> r == ErrClient)
              && (writable && allocOk && copied ==> r == put)
  {
    match RegisterChecks(ready, moduleName, z, dflt, readable, ftell, basePath, filePath)
    case Failure(e) => e
    case Success(_) =>
      if !writable then ErrLuaFileNotFound
      else if !allocOk || !copied then ErrClient
      else put
  }

  /** Appending the separator is idempotent: a base that already ends in '/' is
      used as it is. */
  lemma CopyDirIdempotent(base: string)
    ensures CopyDir(CopyDir(base)) == CopyDir(base)
  {
    CStrOfNulFree(CopyDir(base));
  }

  /** `strrchr` finds the occurrence after which the character no longer
      appears. */
  lemma LastIndexOfAt(s: string, c: char, k: nat)
    requires k < |s| && s[k] == c && c !in s[k + 1..]
    ensures LastIndexOf(s, c) == Some(k)
  {
  }

  /** A directory ending in '/' followed by a name without one: the last '/' is
      the directory's. */
  lemma SplitAfterDirectory(dir: string, name: string)
    requires NulFree(dir) && NulFree(name) && '/' !in name
    requires |dir| > 0 && dir[|dir| - 1] == '/'
    ensures CStr(dir + name) == dir + name
    ensures LastIndexOf(dir + name, '/') == Some(|dir| - 1)
  {
    var p := dir + name;
    assert NulFree(p) by {
      assert forall i :: 0 <= i < |p| ==> p[i] == if i < |dir| then dir[i] else name[i - |dir|];
    }
    CStrOfNulFree(p);
    assert p[|dir|..] == name;
    LastIndexOfAt(p, '/', |dir| - 1);
  }

  /** The copy path splits back: its last '/' ends the directory part, and the
      name after it is the name the file was stored under. */
  lemma CopyPathSplitsBack(base: string, name: string)
    requires NulFree(name) && '/' !in name && |name| > 0
    ensures UdfFileName(CopyDir(base) + name) == Some(name)
  {
    var dir := CopyDir(base);
    SplitAfterDirectory(dir, name);
    assert (dir + name)[|dir|..] == name;
  }

  /** A path "dir/file" is copied to the base directory under "file", whatever
      the directory it came from, and so is "file" on its own. */
  lemma CopyOfFileInDirectory(dir: string, file: string)
    requires NulFree(dir) && NulFree(file) && '/' !in file && |file| > 0
    ensures UdfFileName(dir + "/" + file) == Some(file)
    ensures UdfFileName(file) == Some(file)
  {
    var d := dir + "/";
    assert NulFree(d) by {
      assert forall i :: 0 <= i < |d| ==> d[i] == if i < |dir| then dir[i] else '/';
    }
    SplitAfterDirectory(d, file);
    assert (d + file)[|d|..] == file;
    CStrOfNulFree(file);
  }

  // ---------------------------------------------------------------------------
  // listRegistered
  // ---------------------------------------------------------------------------

  /** An `as_udf_file` as listed by the server: its name and its language. */
  datatype UdfFile = UdfFile(name: string, kind: int)

  const NAME_KEY: string := "name"
  const TYPE_KEY: string := "type"

  /** The files of the requested language, in the server's order. */
  function OfLanguage(files: seq<UdfFile>, language: int): (r: seq<UdfFile>)
    ensures |r| <= |files|
  {
    if |files| == 0 then []
    else
      var front := OfLanguage(files[..|files| - 1], language);
      var last := files[|files| - 1];
      if last.kind == language then front + [last] else front
  }

  /** The filter keeps exactly the files of the language. */
  lemma {:induction false} OfLanguageMembers(files: seq<UdfFile>, language: int)
    ensures forall f :: f in OfLanguage(files, language) <==> f in files && f.kind == language
    decreases |files|
  {
    if |files| > 0 {
      var front := files[..|files| - 1];
      OfLanguageMembers(front, language);
      assert files == front + [files[|files| - 1]];
    }
  }

  /** The filter distributes over concatenation, so it keeps the relative order
      of the files it lets through. */
  lemma {:induction false} OfLanguageAppend(a: seq<UdfFile>, b: seq<UdfFile>, language: int)
    ensures OfLanguage(a + b, language) == OfLanguage(a, language) + OfLanguage(b, language)
    decreases |b|
  {
    if |b| > 0 {
      var b' := b[..|b| - 1];
      assert (a + b)[..|a + b| - 1] == a + b';
      OfLanguageAppend(a, b', language);
    } else {
      assert a + b == a;
    }
  }

  /** Filtering twice is filtering once. */
  lemma {:induction false} OfLanguageIdempotent(files: seq<UdfFile>, language: int)
    ensures OfLanguage(OfLanguage(files, language), language) == OfLanguage(files, language)
    decreases |files|
  {
    if |files| > 0 {
      var front := files[..|files| - 1];
      var last := files[|files| - 1];
      OfLanguageIdempotent(front, language);
      if last.kind == language {
        OfLanguageAppend(OfLanguage(front, language), [last], language);
        assert OfLanguage([last], language) == OfLanguage([], language) + [last];
      }
    }
  }

  /** The `{name, type}` array built for one file. */
  function ModuleEntry(f: UdfFile): PVal {
    PArr([(StrKey(NAME_KEY), PStr(CStr(f.name))), (StrKey(TYPE_KEY), PInt(f.kind))])
  }

  /** The entry holds the file's name, cut at its first NUL, and its language,
      and nothing else. */
  lemma ModuleEntryFields(f: UdfFile)
    ensures ModuleEntry(f) == PArr(Assoc([(NAME_KEY, PStr(CStr(f.name))), (TYPE_KEY, PInt(f.kind))]))
    ensures Field(ModuleEntry(f), NAME_KEY) == Some(PStr(CStr(f.name)))
    ensures Field(ModuleEntry(f), TYPE_KEY) == Some(PInt(f.kind))
  {
    var fields := [(NAME_KEY, PStr(CStr(f.name))), (TYPE_KEY, PInt(f.kind))];
    FieldsOk2(fields[0], fields[1]);
    AssocFindAll(fields);
  }

  function ModuleEntries(files: seq<UdfFile>): (r: seq<PVal>)
    ensures |r| == |files|
    ensures forall i :: 0 <= i < |files| ==> r[i] == ModuleEntry(files[i])
  {
    seq(|files|, i requires 0 <= i < |files| => ModuleEntry(files[i]))
  }

  /** One more file of the server's list: it is kept, as the last module, exactly
      when it is of the language. */
  lemma ListStep(files: seq<UdfFile>, i: nat, language: int)
    requires i < |files|
    ensures ModuleEntries(OfLanguage(files[..i + 1], language)) ==
              ModuleEntries(OfLanguage(files[..i], language)) + if files[i].kind == language then [ModuleEntry(files[i])] else []
  {
    assert files[..i + 1][..i] == files[..i];
  }

  /** The loop of `listRegistered`: one entry per file of the language, appended
      with `add_next_index_zval` in the server's order. */
  method ListModules(files: seq<UdfFile>, language: int) returns (modules: PVal)
    ensures modules == ListOf(ModuleEntries(OfLanguage(files, language)))
  {
    var items: seq<PVal> := [];
    var i := 0;
    while i < |files|
      invariant 0 <= i <= |files|
      invariant items == ModuleEntries(OfLanguage(files[..i], language))
    {
      ListStep(files, i, language);
      if files[i].kind == language {
        items := items + [ModuleEntry(files[i])];
      }
      i := i + 1;
    }
    assert files[..|files|] == files;
    modules := ListOf(items);
  }

  /** What `listRegistered` returns and what it leaves in `$modules`. */
  datatype ListResult = ListResult(status: Status, modules: PVal)

  /** `Aerospike::listRegistered`: `modules` is the variable passed in and
      `listed` the outcome of `aerospike_udf_list`. */
  function ListRegistered(ready: Status, modules: PVal, z: Option<PVal>, dflt: Policy,
                          listed: Result<seq<UdfFile>>, language: int): (r: ListResult)
    ensures ready != Ok ==> r == ListResult(ready, modules)
    ensures ready == Ok && InfoPolicy(z, dflt).Failure? ==> r == ListResult(ErrParam, PNull)
    ensures ready == Ok && InfoPolicy(z, dflt).Success? && listed.Failure? ==> r == ListResult(listed.error, PNull)
    ensures ready == Ok && InfoPolicy(z, dflt).Success? && listed.Success? ==>
              r == ListResult(Ok, ListOf(ModuleEntries(OfLanguage(listed.value, language))))
  {
    if ready != Ok then ListResult(ready, modules)
    else if InfoPolicy(z, dflt).Failure? then ListResult(ErrParam, PNull)
    else match listed
      case Failure(e) => ListResult(e, PNull)
      case Success(files) => ListResult(Ok, ListOf(ModuleEntries(OfLanguage(files, language))))
  }

  /** Every module listed is the entry of a file of the requested language, and
      every file of that language is listed. */
  lemma ListedExactlyTheLanguage(files: seq<UdfFile>, language: int)
    ensures var items := ModuleEntries(OfLanguage(files, language));
      && (forall v :: v in items ==> exists f :: f in files && f.kind == language && v == ModuleEntry(f))
      && (forall f :: f in files && f.kind == language ==> ModuleEntry(f) in items)
  {
    var kept := OfLanguage(files, language);
    var items := ModuleEntries(kept);
    OfLanguageMembers(files, language);
    forall v | v in items
      ensures exists f :: f in files && f.kind == language && v == ModuleEntry(f)
    {
      var i :| 0 <= i < |items| && items[i] == v;
      assert kept[i] in kept;
    }
    forall f | f in files && f.kind == language
      ensures ModuleEntry(f) in items
    {
      var i :| 0 <= i < |kept| && kept[i] == f;
      assert items[i] == ModuleEntry(f);
    }
  }

  /** Every module listed carries the requested language as its "type". */
  lemma ListedTypes(files: seq<UdfFile>, language: int)
    ensures var items := ModuleEntries(OfLanguage(files, language));
      forall i :: 0 <= i < |items| ==> Field(items[i], TYPE_KEY) == Some(PInt(language))
  {
    var kept := OfLanguage(files, language);
    OfLanguageMembers(files, language);
    forall i | 0 <= i < |kept|
      ensures Field(ModuleEntry(kept[i]), TYPE_KEY) == Some(PInt(language))
    {
      assert kept[i] in kept;
      ModuleEntryFields(kept[i]);
    }
  }
}

=== FILE: values.dfy ===
/** Conversion between PHP values and `as_val` values (`zval_to_as_val`,
    `as_val_to_zval` and the list/map helpers they recurse through), and the
    serializer dispatch used for values that have no native Aerospike type.
 */
module ValueConversions {
  import opened Errors
  import opened Strings
  import opened Php
  import opened AsValues
  import opened Types

  const BYTES_CLASS: string := "Aerospike\\Bytes"
  const BYTES_PROPERTY: string := "s"
  const GEOJSON_CLASS: string := "Aerospike\\GeoJSON"

  /** The object `as_bytes_to_zval_bytes` creates: an `Aerospike\Bytes` whose `s`
      property holds the raw bytes. */
  function BytesObject(data: string): PVal {
    PObj(BYTES_CLASS, [(BYTES_PROPERTY, PStr(data))])
  }

  function Property(props: seq<(string, PVal)>, name: string): Option<PVal> {
    if |props| == 0 then None
    else if props[0].0 == name then Some(props[0].1)
    else Property(props[1..], name)
  }

  /** The class test of `zval_to_as_val` as written: `strncmp(class_name, NAME,
      strlen(class_name)) == 0`, which holds whenever the object's class name is a
      prefix of NAME. */
  predicate ClassMatchesAsWritten(cls: string, name: string) {
    cls <= name
  }

  /** The class test evidently intended: the object is of exactly that class. */
  predicate ClassMatches(cls: string, name: string) {
    cls == name
  }


  /** The object branch of `zval_to_as_val`, given the outcome of the two class
      tests: an `Aerospike\Bytes` object is stored as a BLOB holding its `s`
      property, a GeoJSON object as the string its `__toString` returns, and any
      other object goes to the serializer. */
  function ConvertObject(v: PVal, isBytes: bool, isGeo: bool, serializer: int, rt: Runtime)
    : (r: Result<AsVal>)
    requires v.PObj?
    ensures r.Failure? ==> r.error == ErrParam
    ensures isBytes ==> (r.Success? <==> Property(v.props, BYTES_PROPERTY).Some? && Property(v.props, BYTES_PROPERTY).value.PStr?)
    ensures isBytes && r.Success? ==> r.value == ABytes(BYTES_BLOB, Property(v.props, BYTES_PROPERTY).value.s)
    ensures !isBytes && !isGeo ==> r == Serialize(v, serializer, rt)
  {
    if isBytes then
      match Property(v.props, BYTES_PROPERTY)
      case Some(PStr(s)) => Success(ABytes(BYTES_BLOB, s))
      case _ => Failure(ErrParam)
    else if isGeo then
      match rt.geoToString(v)
      case Some(PStr(s)) => Success(AGeo(s))
      case _ => Failure(ErrParam)
    else Serialize(v, serializer, rt)
  }

  /** The object branch as written, with the prefix class test. */
  function ObjectToAsValAsWritten(v: PVal, serializer: int, rt: Runtime): (r: Result<AsVal>)
    requires v.PObj?
    ensures ClassMatchesAsWritten(v.cls, BYTES_CLASS) && r.Success? ==> r.value.ABytes? && r.value.btype == BYTES_BLOB
  {
    ConvertObject(v, ClassMatchesAsWritten(v.cls, BYTES_CLASS), ClassMatchesAsWritten(v.cls, GEOJSON_CLASS), serializer, rt)
  }

  /** The object branch with the exact class test; only genuine `Aerospike\Bytes`
      and GeoJSON objects escape the serializer. */
  function ObjectToAsVal(v: PVal, serializer: int, rt: Runtime): (r: Result<AsVal>)
    requires v.PObj?
    ensures v.cls != BYTES_CLASS && v.cls != GEOJSON_CLASS ==> r == Serialize(v, serializer, rt)
    ensures v.cls == BYTES_CLASS ==> (r.Success? <==> Property(v.props, BYTES_PROPERTY).Some? && Property(v.props, BYTES_PROPERTY).value.PStr?)
    ensures r.Success? && r.value.ABytes? && r.value.btype == BYTES_BLOB ==> v.cls == BYTES_CLASS || serializer == SERIALIZER_USER
  {
    ConvertObject(v, ClassMatches(v.cls, BYTES_CLASS), ClassMatches(v.cls, GEOJSON_CLASS), serializer, rt)
  }

  /** An object of a user class called `Aero` passes the as-written test for
      `Aerospike\Bytes`: it is stored as a BLOB and reads back as an
      `Aerospike\Bytes` object. With the exact test it goes to the serializer. */
  lemma PrefixClassTakenForBytes(serializer: int, rt: Runtime)
    requires rt.userDeserializer.None?
    ensures var v := PObj("Aero", [(BYTES_PROPERTY, PStr("x"))]);
      && ObjectToAsValAsWritten(v, serializer, rt) == Success(ABytes(BYTES_BLOB, "x"))
      && ToZval(ABytes(BYTES_BLOB, "x"), rt) == Success(BytesObject("x"))
      && BytesObject("x") != v
      && ObjectToAsVal(v, serializer, rt) == Serialize(v, serializer, rt)
  {
    var v := PObj("Aero", [(BYTES_PROPERTY, PStr("x"))]);
    assert "Aero" <= BYTES_CLASS;
    assert Property(v.props, BYTES_PROPERTY) == Some(PStr("x"));
  }

  // ---------------------------------------------------------------------------
  // PHP -> as_val
  // ---------------------------------------------------------------------------

  /** `serialize_php_object` followed by the error handling of `zval_to_as_val`:
      PHP serialization yields PHP-typed bytes, a user serializer a BLOB, and
      anything else is a failure. */
  function Serialize(v: PVal, serializer: int, rt: Runtime): (r: Result<AsVal>)
    ensures r.Failure? ==> r.error == ErrParam
    ensures r.Success? ==> r.value.ABytes? && r.value.btype in {BYTES_BLOB, BYTES_PHP}
    ensures r.Success? ==> serializer in {SERIALIZER_PHP, SERIALIZER_USER}
  {
    if serializer == SERIALIZER_USER then
      match rt.userSerializer
      case None => Failure(ErrParam)
      case Some(f) =>
        (match f(v)
         case Some(PStr(s)) => Success(ABytes(BYTES_BLOB, s))
         case _ => Failure(ErrParam))
    else if serializer == SERIALIZER_PHP then
      match rt.phpSerialize(v)
      case None => Failure(ErrParam)
      case Some(s) => Success(ABytes(BYTES_PHP, s))
    else Failure(ErrParam)
  }

  /** The `as_val` a hash-table key becomes in `z_hashtable_to_as_map`. */
  function KeyToAsVal(k: PKey): AsVal {
    match k
    case StrKey(s) => AStr(CStr(s))
    case IntKey(n) => AInt(n)
  }

  /** `zval_to_as_val`. */
  function ToAsVal(v: PVal, serializer: int, rt: Runtime): (r: Result<AsVal>)
    ensures r.Failure? ==> r.error == ErrParam
    ensures v.PInt? ==> r == Success(AInt(v.n))
    ensures v.PStr? ==> r == Success(AStr(CStr(v.s)))
    ensures v.PDouble? ==> r == Success(ADouble(v.d))
    ensures v.PArr? && IsList(v.entries) ==>
      (r.Success? <==> forall j :: 0 <= j < |v.entries| ==> ToAsVal(v.entries[j].1, serializer, rt).Success?)
    ensures v.PArr? && IsList(v.entries) && r.Success? ==>
      r.value.AList? && |r.value.items| == |v.entries| &&
      forall j :: 0 <= j < |v.entries| ==> ToAsVal(v.entries[j].1, serializer, rt) == Success(r.value.items[j])
    ensures v.PArr? && !IsList(v.entries) && r.Success? ==> r.value.AMap?
    ensures v.PObj? ==> r == ObjectToAsVal(v, serializer, rt)
    ensures !v.PInt? && !v.PStr? && !v.PDouble? && !v.PArr? && !v.PObj? ==> r == Serialize(v, serializer, rt)
    decreases v, 1
  {
    match v
    case PInt(n) => Success(AInt(n))
    case PStr(s) => Success(AStr(CStr(s)))
    case PDouble(d) => Success(ADouble(d))
    case PArr(es) =>
      if IsList(es) then
        (match ToAsItems(v, 0, serializer, rt)
         case Success(items) => Success(AList(items))
         case Failure(_) => Failure(ErrParam))
      else
        (match ToAsEntries(v, 0, [], serializer, rt)
         case Success(entries) => Success(AMap(entries))
         case Failure(_) => Failure(ErrParam))
    case PObj(_, _) => ObjectToAsVal(v, serializer, rt)
    case _ => Serialize(v, serializer, rt)
  }

  /** The values of entries `i..` of an array, converted in order (the loop of
      `z_hashtable_to_as_list`); the first failure stops the walk. */
  function ToAsItems(v: PVal, i: nat, serializer: int, rt: Runtime): (r: Result<seq<AsVal>>)
    requires v.PArr? && i <= |v.entries|
    ensures r.Success? <==> forall j :: i <= j < |v.entries| ==> ToAsVal(v.entries[j].1, serializer, rt).Success?
    ensures r.Success? ==> |r.value| == |v.entries| - i
    ensures r.Success? ==> forall j :: i <= j < |v.entries| ==> ToAsVal(v.entries[j].1, serializer, rt) == Success(r.value[j - i])
    ensures r.Failure? ==> r.error == ErrParam
    decreases v, 0, |v.entries| - i
  {
    if i == |v.entries| then Success([])
    else
      var x :- ToAsVal(v.entries[i].1, serializer, rt);
      var rest :- ToAsItems(v, i + 1, serializer, rt);
      Success([x] + rest)
  }

  /** Entries `i..` of an array added to the map built so far (the loop of
      `z_hashtable_to_as_map`). */
  function ToAsEntries(v: PVal, i: nat, acc: seq<(AsVal, AsVal)>, serializer: int, rt: Runtime)
    : (r: Result<seq<(AsVal, AsVal)>>)
    requires v.PArr? && i <= |v.entries|
    ensures r.Failure? ==> r.error == ErrParam
    decreases v, 0, |v.entries| - i
  {
    if i == |v.entries| then Success(acc)
    else
      var x :- ToAsVal(v.entries[i].1, serializer, rt);
      ToAsEntries(v, i + 1, MapSet(acc, KeyToAsVal(v.entries[i].0), x), serializer, rt)
  }

  /** The walk over a map-shaped array succeeds exactly when every value from `i`
      on converts; the keys never fail. */
  lemma {:induction false} ToAsEntriesSucceeds(v: PVal, i: nat, acc: seq<(AsVal, AsVal)>, serializer: int, rt: Runtime)
    requires v.PArr? && i <= |v.entries|
    ensures ToAsEntries(v, i, acc, serializer, rt).Success?
            <==> forall j :: i <= j < |v.entries| ==> ToAsVal(v.entries[j].1, serializer, rt).Success?
    decreases |v.entries| - i
  {
    if i < |v.entries| {
      var x := ToAsVal(v.entries[i].1, serializer, rt);
      if x.Success? {
        var acc' := MapSet(acc, KeyToAsVal(v.entries[i].0), x.value);
        assert ToAsEntries(v, i, acc, serializer, rt) == ToAsEntries(v, i + 1, acc', serializer, rt);
        ToAsEntriesSucceeds(v, i + 1, acc', serializer, rt);
        assert (forall j :: i <= j < |v.entries| ==> ToAsVal(v.entries[j].1, serializer, rt).Success?)
          <==> (forall j :: i + 1 <= j < |v.entries| ==> ToAsVal(v.entries[j].1, serializer, rt).Success?);
      } else {
        assert ToAsEntries(v, i, acc, serializer, rt).Failure?;
      }
    }
  }

  /** A successful walk leaves every key of the array, and every key of the map it
      started from, naming an entry of the map. */
  lemma {:induction false} ToAsEntriesKeys(v: PVal, i: nat, acc: seq<(AsVal, AsVal)>, serializer: int, rt: Runtime)
    requires v.PArr? && i <= |v.entries| && ToAsEntries(v, i, acc, serializer, rt).Success?
    ensures forall j :: i <= j < |v.entries| ==> KeyToAsVal(v.entries[j].0) in MapKeys(ToAsEntries(v, i, acc, serializer, rt).value)
    ensures forall k :: k in MapKeys(acc) ==> k in MapKeys(ToAsEntries(v, i, acc, serializer, rt).value)
    decreases |v.entries| - i
  {
    if i < |v.entries| {
      var x := ToAsVal(v.entries[i].1, serializer, rt).value;
      var acc' := MapSet(acc, KeyToAsVal(v.entries[i].0), x);
      assert ToAsEntries(v, i, acc, serializer, rt) == ToAsEntries(v, i + 1, acc', serializer, rt);
      ToAsEntriesKeys(v, i + 1, acc', serializer, rt);
      MapSetKeys(acc, KeyToAsVal(v.entries[i].0), x);
    }
  }

  /** A map-shaped array converts exactly when each of its values does, and the
      map then holds every key of the array. */
  lemma MapConverts(v: PVal, serializer: int, rt: Runtime)
    requires v.PArr? && !IsList(v.entries)
    ensures ToAsVal(v, serializer, rt).Success? <==>
            forall j :: 0 <= j < |v.entries| ==> ToAsVal(v.entries[j].1, serializer, rt).Success?
    ensures ToAsVal(v, serializer, rt).Success? ==>
            ToAsVal(v, serializer, rt).value.AMap? &&
            forall j :: 0 <= j < |v.entries| ==> KeyToAsVal(v.entries[j].0) in MapKeys(ToAsVal(v, serializer, rt).value.entries)
  {
    ToAsEntriesSucceeds(v, 0, [], serializer, rt);
    if ToAsVal(v, serializer, rt).Success? {
      ToAsEntriesKeys(v, 0, [], serializer, rt);
    }
  }

  /** After `as_hashmap_set` the map holds the new key and every old one. */
  lemma MapSetKeys(es: seq<(AsVal, AsVal)>, k: AsVal, v: AsVal)
    ensures k in MapKeys(MapSet(es, k, v))
    ensures forall n :: n in MapKeys(es) ==> n in MapKeys(MapSet(es, k, v))
  {
    var es' := MapSet(es, k, v);
    var i :| 0 <= i < |es'| && es'[i] == (k, v);
    assert MapKeys(es')[i] == k;
    forall n | n in MapKeys(es) ensures n in MapKeys(es') {
      if n != k {
        var j :| 0 <= j < |es| && MapKeys(es)[j] == n;
        assert es'[j] == es[j];
        assert MapKeys(es')[j] == n;
      }
    }
  }

  /** What `z_hashtable_to_as_list` hands back: its return code, the status left
      in `err`, and the list (NULL after a failed element). */
  datatype ListConversion = ListConversion(ret: Status, recorded: Status, list: Option<seq<AsVal>>)

  /** `z_hashtable_to_as_list` as written: a failed element empties the list and
      records ERR_PARAM, but the function still returns OK. */
  function ToAsListAsWritten(es: Entries, serializer: int, rt: Runtime): (r: ListConversion)
    ensures r.ret == Ok
    ensures r.list.None? <==> r.recorded == ErrParam
  {
    match ToAsItems(PArr(es), 0, serializer, rt)
    case Success(items) => ListConversion(Ok, Ok, Some(items))
    case Failure(e) => ListConversion(Ok, e, None)
  }

  /** `z_hashtable_to_as_list` returning the status it records. */
  function ToAsList(es: Entries, serializer: int, rt: Runtime): (r: Result<seq<AsVal>>)
    ensures r.Failure? <==> ToAsListAsWritten(es, serializer, rt).list.None?
    ensures r.Failure? ==> r.error == ToAsListAsWritten(es, serializer, rt).recorded
    ensures r.Success? ==> |r.value| == |es|
  {
    ToAsItems(PArr(es), 0, serializer, rt)
  }

  /** A list holding a boolean under SERIALIZER_NONE: the as-written conversion
      reports OK and yields no list, the corrected one reports ERR_PARAM. */
  lemma ListConversionFailureReportedOk(rt: Runtime)
    ensures ToAsListAsWritten([(IntKey(0), PBool(true))], SERIALIZER_NONE, rt)
            == ListConversion(Ok, ErrParam, None)
    ensures ToAsList([(IntKey(0), PBool(true))], SERIALIZER_NONE, rt) == Failure(ErrParam)
  {
    var v := PArr([(IntKey(0), PBool(true))]);
    assert ToAsVal(PBool(true), SERIALIZER_NONE, rt) == Failure(ErrParam);
    assert ToAsItems(v, 0, SERIALIZER_NONE, rt) == Failure(ErrParam);
  }

  // ---------------------------------------------------------------------------
  // as_val -> PHP
  // ---------------------------------------------------------------------------

  /** `unserialize_as_bytes`: BLOBs become `Aerospike\Bytes` objects unless a user
      deserializer is registered; PHP bytes go to `unserialize`; other types fail. */
  function Unserialize(btype: int, data: string, rt: Runtime): (r: Result<PVal>)
    ensures r.Failure? ==> r.error == ErrClient
    ensures btype == BYTES_BLOB && rt.userDeserializer.None? ==> r == Success(BytesObject(data))
    ensures btype != BYTES_BLOB && btype != BYTES_PHP ==> r == Failure(ErrClient)
  {
    if btype == BYTES_BLOB then
      match rt.userDeserializer
      case None => Success(BytesObject(data))
      case Some(f) =>
        (match f(data)
         case None => Failure(ErrClient)
         case Some(p) => Success(p))
    else if btype != BYTES_PHP then Failure(ErrClient)
    else
      match rt.phpUnserialize(data)
      case None => Failure(ErrClient)
      case Some(p) => Success(p)
  }

  /** `as_val_to_zval`. */
  function ToZval(a: AsVal, rt: Runtime): (r: Result<PVal>)
    ensures r.Failure? ==> r.error == ErrClient
    decreases a, 1
  {
    match a
    case AStr(s) => Success(PStr(CStr(s)))
    case AInt(n) => Success(PInt(n))
    case ADouble(d) => Success(PDouble(d))
    case AList(items) =>
      (match ToZvalItems(a, 0, rt)
       case Success(vs) => Success(ListOf(vs))
       case Failure(e) => Failure(e))
    case AMap(_) =>
      (match ToZvalEntries(a, 0, [], rt)
       case Success(es) => Success(PArr(es))
       case Failure(e) => Failure(e))
    case ABytes(t, data) => Unserialize(t, data, rt)
    case AGeo(json) =>
      (match rt.geoFromJson(json)
       case None => Failure(ErrClient)
       case Some(p) => Success(p))
    case AOther => Success(PUndef)
  }

  /** Items `i..` of a list, converted in order (`as_list_to_zval`). */
  function ToZvalItems(a: AsVal, i: nat, rt: Runtime): (r: Result<seq<PVal>>)
    requires a.AList? && i <= |a.items|
    ensures r.Success? <==> forall j :: i <= j < |a.items| ==> ToZval(a.items[j], rt).Success?
    ensures r.Success? ==> |r.value| == |a.items| - i
    ensures r.Success? ==> forall j :: i <= j < |a.items| ==> ToZval(a.items[j], rt) == Success(r.value[j - i])
    ensures r.Failure? ==> r.error == ErrClient
    decreases a, 0, |a.items| - i
  {
    if i == |a.items| then Success([])
    else
      var x :- ToZval(a.items[i], rt);
      var rest :- ToZvalItems(a, i + 1, rt);
      Success([x] + rest)
  }

  /** A converted map key: strings are filed through the symbol table, integers
      as indexes, and anything else is refused. */
  function ZvalKey(k: Result<PVal>): (r: Result<PKey>)
    ensures r.Failure? ==> r.error == ErrClient
  {
    match k
    case Success(PStr(s)) => Success(SymKey(CStr(s)))
    case Success(PInt(n)) => Success(IntKey(n))
    case _ => Failure(ErrClient)
  }

  /** Entries `i..` of a map added to the array built so far
      (`as_map_to_zval_foreach_converter`): the key is converted and checked
      first, then the value. */
  function ToZvalEntries(a: AsVal, i: nat, acc: Entries, rt: Runtime): (r: Result<Entries>)
    requires a.AMap? && i <= |a.entries|
    ensures r.Failure? ==> r.error == ErrClient
    decreases a, 0, |a.entries| - i
  {
    if i == |a.entries| then Success(acc)
    else
      var k :- ZvalKey(ToZval(a.entries[i].0, rt));
      var x :- ToZval(a.entries[i].1, rt);
      ToZvalEntries(a, i + 1, Update(acc, k, x), rt)
  }

  /** A map entry `as_map_to_zval` can file: its key converts to a string or an
      integer and its value converts. */
  predicate EntryConverts(e: (AsVal, AsVal), rt: Runtime) {
    ZvalKey(ToZval(e.0, rt)).Success? && ToZval(e.1, rt).Success?
  }

  /** The walk over a map succeeds exactly when every entry from `i` on converts. */
  lemma {:induction false} ToZvalEntriesSucceeds(a: AsVal, i: nat, acc: Entries, rt: Runtime)
    requires a.AMap? && i <= |a.entries|
    ensures ToZvalEntries(a, i, acc, rt).Success? <==> forall j :: i <= j < |a.entries| ==> EntryConverts(a.entries[j], rt)
    decreases |a.entries| - i
  {
    if i < |a.entries| {
      var k := ZvalKey(ToZval(a.entries[i].0, rt));
      var x := ToZval(a.entries[i].1, rt);
      if k.Success? && x.Success? {
        assert ToZvalEntries(a, i, acc, rt) == ToZvalEntries(a, i + 1, Update(acc, k.value, x.value), rt);
        ToZvalEntriesSucceeds(a, i + 1, Update(acc, k.value, x.value), rt);
        assert (forall j :: i <= j < |a.entries| ==> EntryConverts(a.entries[j], rt))
          <==> (forall j :: i + 1 <= j < |a.entries| ==> EntryConverts(a.entries[j], rt));
      } else {
        assert !EntryConverts(a.entries[i], rt);
        assert ToZvalEntries(a, i, acc, rt).Failure?;
      }
    }
  }

  /** A map whose key converts to something other than a string or an integer
      (a double, a list, a map, an unsupported type) cannot be returned to PHP. */
  lemma CompoundMapKeyRejected(entries: seq<(AsVal, AsVal)>, j: nat, rt: Runtime)
    requires j < |entries|
    requires entries[j].0.ADouble? || entries[j].0.AList? || entries[j].0.AMap? || entries[j].0.AOther?
    ensures ToZval(AMap(entries), rt) == Failure(ErrClient)
  {
    var a := AMap(entries);
    assert ZvalKey(ToZval(a.entries[j].0, rt)).Failure?;
    ToZvalEntriesSucceeds(a, 0, [], rt);
  }

  // ---------------------------------------------------------------------------
  // Round trip
  // ---------------------------------------------------------------------------

  /** A key `z_hashtable_to_as_map` and `as_map_to_zval` both keep intact: a
      string key without NUL that PHP would not itself store as an integer. */
  predicate NativeKey(k: PKey) {
    match k
    case IntKey(_) => true
    case StrKey(s) => NulFree(s) && !IsNumericKeyText(s)
  }

  /** The PHP values that survive a write and a read unchanged: integers,
      doubles, strings without NUL, `Aerospike\Bytes` objects holding just their
      `s` string, and arrays of such values under distinct native keys. */
  predicate Native(v: PVal)
    decreases v
  {
    match v
    case PInt(_) => true
    case PDouble(_) => true
    case PStr(s) => NulFree(s)
    case PArr(es) =>
      DistinctKeys(es) && forall j :: 0 <= j < |es| ==> NativeKey(es[j].0) && Native(es[j].1)
    case PObj(cls, props) =>
      cls == BYTES_CLASS && |props| == 1 && props[0].0 == BYTES_PROPERTY && props[0].1.PStr?
    case _ => false
  }

  lemma KeyToAsValInjective(k1: PKey, k2: PKey)
    requires NativeKey(k1) && NativeKey(k2) && k1 != k2
    ensures KeyToAsVal(k1) != KeyToAsVal(k2)
  {
    if k1.StrKey? { CStrOfNulFree(k1.s); }
    if k2.StrKey? { CStrOfNulFree(k2.s); }
  }

  /** Reading back a key written by `z_hashtable_to_as_map` files it under the
      same hash-table key. */
  lemma KeyRoundTrip(k: PKey, rt: Runtime)
    requires NativeKey(k)
    ensures ZvalKey(ToZval(KeyToAsVal(k), rt)) == Success(k)
  {
    if k.StrKey? { CStrOfNulFree(k.s); }
  }

  /** The entries `i..` of an array as `z_hashtable_to_as_map` converts them one by
      one: key and converted value, in array order. */
  function ConvertedEntries(v: PVal, i: nat, serializer: int, rt: Runtime): (r: seq<(AsVal, AsVal)>)
    requires v.PArr? && i <= |v.entries|
    ensures |r| == |v.entries| - i
  {
    seq(|v.entries| - i, j requires 0 <= j < |v.entries| - i => ConvertedEntry(v.entries[i + j], serializer, rt))
  }

  function ConvertedEntry(e: (PKey, PVal), serializer: int, rt: Runtime): (AsVal, AsVal) {
    (KeyToAsVal(e.0), match ToAsVal(e.1, serializer, rt) case Success(x) => x case Failure(_) => AOther)
  }

  lemma ConvertedEntriesFirst(v: PVal, i: nat, serializer: int, rt: Runtime)
    requires v.PArr? && i < |v.entries|
    ensures ConvertedEntries(v, i, serializer, rt)
            == [ConvertedEntry(v.entries[i], serializer, rt)] + ConvertedEntries(v, i + 1, serializer, rt)
  {
    var a := ConvertedEntries(v, i, serializer, rt);
    var b := [ConvertedEntry(v.entries[i], serializer, rt)] + ConvertedEntries(v, i + 1, serializer, rt);
    forall j | 0 <= j < |a| ensures a[j] == b[j] {
      if j > 0 { assert b[j] == ConvertedEntries(v, i + 1, serializer, rt)[j - 1]; }
    }
  }

  /** With distinct native keys, `as_map_set` never meets a key twice: the map
      lists the array's entries in order. */
  lemma {:induction false} ToAsEntriesAppends(v: PVal, i: nat, acc: seq<(AsVal, AsVal)>, serializer: int, rt: Runtime)
    requires v.PArr? && i <= |v.entries| && DistinctKeys(v.entries)
    requires forall j :: 0 <= j < |v.entries| ==> NativeKey(v.entries[j].0)
    requires forall j :: i <= j < |v.entries| ==> ToAsVal(v.entries[j].1, serializer, rt).Success?
    requires |acc| == i && forall j :: 0 <= j < i ==> acc[j].0 == KeyToAsVal(v.entries[j].0)
    ensures ToAsEntries(v, i, acc, serializer, rt) == Success(acc + ConvertedEntries(v, i, serializer, rt))
    decreases |v.entries| - i
  {
    var es := v.entries;
    if i == |es| {
      assert acc + ConvertedEntries(v, i, serializer, rt) == acc;
    } else {
      var acc' := acc + [ConvertedEntry(es[i], serializer, rt)];
      calc {
        ToAsEntries(v, i, acc, serializer, rt);
        { AppendStep(v, i, acc, serializer, rt); }
        ToAsEntries(v, i + 1, acc', serializer, rt);
        { AppendStep(v, i, acc, serializer, rt);
          ToAsEntriesAppends(v, i + 1, acc', serializer, rt); }
        Success(acc' + ConvertedEntries(v, i + 1, serializer, rt));
        { ConvertedEntriesFirst(v, i, serializer, rt);
          assert acc' + ConvertedEntries(v, i + 1, serializer, rt)
                 == acc + ([ConvertedEntry(es[i], serializer, rt)] + ConvertedEntries(v, i + 1, serializer, rt)); }
        Success(acc + ConvertedEntries(v, i, serializer, rt));
      }
    }
  }

  /** One step of the walk over a native array: the entry's key is new, so
      `as_map_set` appends it. */
  lemma AppendStep(v: PVal, i: nat, acc: seq<(AsVal, AsVal)>, serializer: int, rt: Runtime)
    requires v.PArr? && i < |v.entries| && DistinctKeys(v.entries)
    requires forall j :: 0 <= j < |v.entries| ==> NativeKey(v.entries[j].0)
    requires ToAsVal(v.entries[i].1, serializer, rt).Success?
    requires |acc| == i && forall j :: 0 <= j < i ==> acc[j].0 == KeyToAsVal(v.entries[j].0)
    ensures var acc' := acc + [ConvertedEntry(v.entries[i], serializer, rt)];
      && ToAsEntries(v, i, acc, serializer, rt) == ToAsEntries(v, i + 1, acc', serializer, rt)
      && forall j :: 0 <= j < i + 1 ==> acc'[j].0 == KeyToAsVal(v.entries[j].0)
  {
    AppendStepMap(v, i, acc, serializer, rt);
    AppendStepKeys(v.entries, i, acc, ConvertedEntry(v.entries[i], serializer, rt));
  }

  /** The map after the step is the old one with the converted entry appended. */
  lemma AppendStepMap(v: PVal, i: nat, acc: seq<(AsVal, AsVal)>, serializer: int, rt: Runtime)
    requires v.PArr? && i < |v.entries| && DistinctKeys(v.entries)
    requires forall j :: 0 <= j < |v.entries| ==> NativeKey(v.entries[j].0)
    requires ToAsVal(v.entries[i].1, serializer, rt).Success?
    requires |acc| == i && forall j :: 0 <= j < i ==> acc[j].0 == KeyToAsVal(v.entries[j].0)
    ensures ToAsEntries(v, i, acc, serializer, rt)
            == ToAsEntries(v, i + 1, acc + [ConvertedEntry(v.entries[i], serializer, rt)], serializer, rt)
  {
    var es := v.entries;
    var k := KeyToAsVal(es[i].0);
    var x := ToAsVal(es[i].1, serializer, rt).value;
    assert ConvertedEntry(es[i], serializer, rt) == (k, x);
    FreshMapKey(es, i, acc);
    assert MapSet(acc, k, x) == acc + [(k, x)];
    ToAsEntriesStep(v, i, acc, serializer, rt);
  }

  /** Appending the entry for key `i` keeps the accumulated keys those of the
      entries before it. */
  lemma AppendStepKeys(es: Entries, i: nat, acc: seq<(AsVal, AsVal)>, e: (AsVal, AsVal))
    requires i < |es| && e.0 == KeyToAsVal(es[i].0)
    requires |acc| == i && forall j :: 0 <= j < i ==> acc[j].0 == KeyToAsVal(es[j].0)
    ensures forall j :: 0 <= j < i + 1 ==> (acc + [e])[j].0 == KeyToAsVal(es[j].0)
  {
    forall j | 0 <= j < i + 1 ensures (acc + [e])[j].0 == KeyToAsVal(es[j].0) {
      if j < i { assert (acc + [e])[j] == acc[j]; }
    }
  }

  /** The key of entry `i` of an array with distinct native keys is not yet in a
      map that holds the keys of the entries before it. */
  lemma FreshMapKey(es: Entries, i: nat, acc: seq<(AsVal, AsVal)>)
    requires i < |es| && DistinctKeys(es)
    requires forall j :: 0 <= j < |es| ==> NativeKey(es[j].0)
    requires |acc| == i && forall j :: 0 <= j < i ==> acc[j].0 == KeyToAsVal(es[j].0)
    ensures KeyToAsVal(es[i].0) !in MapKeys(acc)
  {
    forall j | 0 <= j < i ensures MapKeys(acc)[j] != KeyToAsVal(es[i].0) {
      KeyToAsValInjective(es[j].0, es[i].0);
    }
  }

  /** One step of the walk of `z_hashtable_to_as_map` over a convertible entry. */
  lemma ToAsEntriesStep(v: PVal, i: nat, acc: seq<(AsVal, AsVal)>, serializer: int, rt: Runtime)
    requires v.PArr? && i < |v.entries| && ToAsVal(v.entries[i].1, serializer, rt).Success?
    ensures ToAsEntries(v, i, acc, serializer, rt)
            == ToAsEntries(v, i + 1, MapSet(acc, KeyToAsVal(v.entries[i].0), ToAsVal(v.entries[i].1, serializer, rt).value),
                           serializer, rt)
  {
  }

  /** Reading back the map written for a native array rebuilds the array entry by
      entry. */
  lemma {:induction false} ToZvalEntriesRestores(v: PVal, a: AsVal, i: nat, serializer: int, rt: Runtime)
    requires Native(v) && v.PArr? && a.AMap? && |a.entries| == |v.entries| && i <= |v.entries|
    requires rt.userDeserializer.None?
    requires forall j :: 0 <= j < |v.entries| ==>
      a.entries[j].0 == KeyToAsVal(v.entries[j].0) && ToAsVal(v.entries[j].1, serializer, rt) == Success(a.entries[j].1)
    ensures ToZvalEntries(a, i, v.entries[..i], rt) == Success(v.entries)
    decreases v, 0, |v.entries| - i
  {
    var es := v.entries;
    if i == |es| {
      assert es[..i] == es;
    } else {
      KeyRoundTrip(es[i].0, rt);
      RoundTrip(es[i].1, serializer, rt);
      assert !HasKey(es[..i], es[i].0) by {
        forall j | 0 <= j < i ensures Firsts(es[..i])[j] != es[i].0 {
          assert Firsts(es[..i])[j] == es[j].0;
        }
      }
      assert Update(es[..i], es[i].0, es[i].1) == es[..i + 1];
      ToZvalEntriesRestores(v, a, i + 1, serializer, rt);
    }
  }

  /** Writing a native value and reading it back gives the same PHP value, whatever
      serializer is configured, as long as no user deserializer is registered. */
  lemma {:induction false} RoundTrip(v: PVal, serializer: int, rt: Runtime)
    requires Native(v) && rt.userDeserializer.None?
    ensures ToAsVal(v, serializer, rt).Success?
    ensures ToZval(ToAsVal(v, serializer, rt).value, rt) == Success(v)
    decreases v, 1
  {
    match v
    case PInt(_) =>
    case PDouble(_) =>
    case PStr(s) => CStrOfNulFree(s);
    case PObj(cls, props) =>
      assert Property(props, BYTES_PROPERTY) == Some(props[0].1);
      assert v == BytesObject(props[0].1.s);
    case PArr(es) =>
      forall j | 0 <= j < |es|
        ensures ToAsVal(es[j].1, serializer, rt).Success?
        ensures ToZval(ToAsVal(es[j].1, serializer, rt).value, rt) == Success(es[j].1)
      {
        RoundTrip(es[j].1, serializer, rt);
      }
      if IsList(es) {
        RoundTripList(v, serializer, rt);
      } else {
        RoundTripMap(v, serializer, rt);
      }
  }

  /** The list case of the round trip, given that every element round-trips. */
  lemma RoundTripList(v: PVal, serializer: int, rt: Runtime)
    requires v.PArr? && IsList(v.entries)
    requires forall j :: 0 <= j < |v.entries| ==>
      ToAsVal(v.entries[j].1, serializer, rt).Success?
      && ToZval(ToAsVal(v.entries[j].1, serializer, rt).value, rt) == Success(v.entries[j].1)
    ensures ToAsVal(v, serializer, rt).Success?
    ensures ToZval(ToAsVal(v, serializer, rt).value, rt) == Success(v)
  {
    var es := v.entries;
    var items := ToAsItems(v, 0, serializer, rt).value;
    var a := AList(items);
    assert forall j :: 0 <= j < |items| ==> ToZval(items[j], rt) == Success(es[j].1);
    var vs := ToZvalItems(a, 0, rt).value;
    assert vs == Values(es);
    ListOfValues(es);
  }

  /** The map case of the round trip, given that every value round-trips. */
  lemma RoundTripMap(v: PVal, serializer: int, rt: Runtime)
    requires Native(v) && v.PArr? && !IsList(v.entries) && rt.userDeserializer.None?
    requires forall j :: 0 <= j < |v.entries| ==>
      ToAsVal(v.entries[j].1, serializer, rt).Success?
      && ToZval(ToAsVal(v.entries[j].1, serializer, rt).value, rt) == Success(v.entries[j].1)
    ensures ToAsVal(v, serializer, rt).Success?
    ensures ToZval(ToAsVal(v, serializer, rt).value, rt) == Success(v)
    decreases v, 0, |v.entries| + 2
  {
    var a := AMap(ConvertedEntries(v, 0, serializer, rt));
    MapConversion(v, serializer, rt);
    RestoreMap(v, a, serializer, rt);
  }

  /** Reading back the converted entries of a native array gives the array. */
  lemma RestoreMap(v: PVal, a: AsVal, serializer: int, rt: Runtime)
    requires Native(v) && v.PArr? && a.AMap? && |a.entries| == |v.entries| && rt.userDeserializer.None?
    requires forall j :: 0 <= j < |v.entries| ==>
      a.entries[j].0 == KeyToAsVal(v.entries[j].0) && ToAsVal(v.entries[j].1, serializer, rt) == Success(a.entries[j].1)
    ensures ToZval(a, rt) == Success(v)
    decreases v, 0, |v.entries| + 1
  {
    ToZvalEntriesRestores(v, a, 0, serializer, rt);
    assert v.entries[..0] == [];
  }

  /** An array that is not a list, has distinct native keys and convertible values
      becomes the map of its converted entries, in order. */
  lemma MapConversion(v: PVal, serializer: int, rt: Runtime)
    requires v.PArr? && !IsList(v.entries) && DistinctKeys(v.entries)
    requires forall j :: 0 <= j < |v.entries| ==> NativeKey(v.entries[j].0)
    requires forall j :: 0 <= j < |v.entries| ==> ToAsVal(v.entries[j].1, serializer, rt).Success?
    ensures var m := ConvertedEntries(v, 0, serializer, rt);
      && ToAsVal(v, serializer, rt) == Success(AMap(m))
      && forall j :: 0 <= j < |v.entries| ==>
           m[j].0 == KeyToAsVal(v.entries[j].0) && ToAsVal(v.entries[j].1, serializer, rt) == Success(m[j].1)
  {
    var m := ConvertedEntries(v, 0, serializer, rt);
    assert ToAsEntries(v, 0, [], serializer, rt) == Success(m) by {
      ToAsEntriesAppends(v, 0, [], serializer, rt);
      assert [] + m == m;
    }
    forall j | 0 <= j < |v.entries|
      ensures m[j].0 == KeyToAsVal(v.entries[j].0) && ToAsVal(v.entries[j].1, serializer, rt) == Success(m[j].1)
    {
      assert m[j] == ConvertedEntry(v.entries[j], serializer, rt);
    }
  }
}
